=== FILE: README.md ===
# StockSwap dealer marketplace: a Dafny model of its client-side logic

StockSwap is a marketplace where approved car dealers list vehicles for sale and post wanted ("in search of") vehicles. An administrator approves dealers, assigns them brands and invites new ones. The client is a React application on a hosted Postgres backend with realtime change feeds. This project models the client's logic below the rendering layer, as immutable datatypes and pure transition functions:

- **Error handling and retries.** There are two copies of the error helpers (`src/lib/errors.ts` and `src/utils/errors.ts`). Each has its own retry-with-backoff executor, classification of failures and user-facing messages. They are modelled side by side, including where they differ.
- **Connectivity and channels.**
  - The network-status listener set and the realtime channel registry.
  - The reconnect logic.
  - The heartbeat's failure counter.
  - The realtime keep-alive manager, with its bounded reconnect counter and re-subscription rules.
- **Session.**
  - The auth store, with its 60-second refetch throttle.
  - The auth provider's initialisation and auth-event handling.
  - The inactivity timer.
  - The credential checks and profile cache of the auth service.
- **Entity stores.**
  - Listings: sale, own and wanted collections, upserted by id and routed by status.
  - Notifications and chat notifications: an unread counter kept equal to the number of unread items.
  - Administration: accounts and invitations.
  - Chat.
- **Hooks.** Optimistic updates with reload on failure for listings, administration and notifications.
- **Realtime subscriptions.** How each change feed maps events to callbacks and registers its channel.
- **Pure helpers and page logic.**
  - Validation, image checks, status labels and the route guard.
  - The offline analytics queue.
  - The filters, counts, date formats, form cascades and submit checks of the marketplace, wanted-vehicle, administration, listing-form, chat, notification and profile pages.
  - The application shell's activity watchdog and subscriptions.

Remote replies, the clock, the browser's online flag and the retry jitter are parameters. A remote reply is `Reply<T>`: either a thrown value, or a reply carrying an optional database error and optional data. A thrown value is `Failures.Thrown`, which separates `Error` instances, plain objects and primitives, because the source's messages depend on that distinction. The realtime client's channel list and the network module's channel registry live together in one `Network.Conn` record, since the keep-alive manager reads the one and removes channels through the other.

Two modules imported by the hooks are not part of the repository's sources: `src/stores/listingStore.ts` and `src/stores/useAuthStore.ts`. The listing store and auth store modelled here follow `src/lib/listingStore.ts` and `src/lib/store.ts` in their place.

## Model

| member | source | states |
|---|---|---|
| LibErrors.GetErrorMessage | src/lib/errors.ts:8-43 | An `Error` gives its own message. A plain object with both a code and a message gives the fixed text of a known code (PGRST116, 23505, 23503, 42P01), whatever its message says; with an unknown code it gives the message, or "An unexpected database error occurred" when that is empty. An object with a message and no code gives the message; one with neither gives its string `error` field. A primitive, or an object with none of these, gives the generic text. |
| LibErrors.KnownCodeOverridesMessage | src/lib/errors.ts:15-32 | Two plain objects with the same known code and different messages are explained the same way. |
| LibErrors.FormatSupabaseError | src/lib/errors.ts:45-84 | A missing error gives "An unknown error occurred", and offline gives the no-connection text before anything else. Then, in order: 23505, 23503 and 42P01 give their fixed texts; a message naming a JWT gives the session text, then one naming a timeout the timed-out text; an HTTP status gives its text; otherwise a non-empty message is returned and an empty or missing one gives "An error occurred". The result is never empty. |
| LibErrors.SessionMessageBeatsStatus | src/lib/errors.ts:62-73 | A message naming an expired token asks for a page refresh whatever the status, so a 401 carrying it never gets the sign-in text. |
| LibErrors.HandleCommonErrors | src/lib/errors.ts:159-183 | Offline is reported first. Online, in order: a message naming a JWT or a token gives the session text; one naming a timeout, or a `TimeoutError`, the timeout text; "Failed to fetch" or "NetworkError" the network text; PGRST116 the invalid-query text; anything else passes the message through. |
| UtilsErrors.GetErrorMessage | src/utils/errors.ts:8-29 | An `Error` gives its message. A plain object gives its message, else its `error` field, else its JSON rendering. A primitive gives the generic text. |
| UtilsErrors.CodeNeverShown | src/utils/errors.ts:13-26 | For an object with a message or a string `error` field, the `Error <code>: <message>` branch is never taken: two such objects that differ only in their code get the same text. |
| UtilsErrors.FormatSupabaseError | src/utils/errors.ts:31-48 | The codes 23505, 23503 and 42P01 give their fixed texts, in that order, whatever else the error holds. Otherwise a message naming a JWT gives the session text, then one naming a timeout the timeout text; any other non-empty message is returned, and a missing or empty one gives "An error occurred". |
| UtilsErrors.HandleCommonErrors | src/utils/errors.ts:114-134 | In order, and offline too: a message naming a JWT or a token gives the session text; one naming a timeout, or a `TimeoutError`, the timeout text. Then offline gives the no-connection text. Online, "Failed to fetch" or "NetworkError" gives the network text and anything else passes the message through. |
| UtilsErrors.OfflineOrderDiffers | src/utils/errors.ts:117-127 | For "JWT expired" while offline, the `lib` copy reports the lost connection and this copy reports the expired session. |
| UtilsErrors.GetErrorMessageCopiesAgree | src/utils/errors.ts:8-29 | The two copies of `getErrorMessage` can differ only on a plain object with both a code and a message, or on one with neither a message nor an `error` field; on an object with an unknown code and a non-empty message they agree. |
| UtilsErrors.FormatCopiesAgreeWithoutStatus | src/utils/errors.ts:31-48 | Without a status text, the two copies of `formatSupabaseError` give the same text whenever the error is present and the browser online. |
| UtilsErrors.HandleCopiesAgreeOnline | src/utils/errors.ts:114-134 | Online, when both copies read the same message and it does not name PGRST116, the two `handleCommonErrors` give the same text. |
| Failures.NewTimeoutError | src/lib/errors.ts:1-6 | A `TimeoutError` carries the given message. |
| Failures.AsError | src/lib/errors.ts:119 | Wrapping a caught value in an `Error` keeps an `Error` as it is and always yields an `Error`. |
| Retry.Delay | src/lib/errors.ts:143-148 | The wait after a failed attempt never exceeds the cap. It is either the cap or the exponential backoff plus the jitter. |
| Retry.DelayAtLeastBackoff | src/lib/errors.ts:143-148 | With a non-negative jitter, each wait is at least the smaller of the backoff and the cap. |
| Retry.Verdict | src/lib/errors.ts:118-141 | A failure is retried exactly when it is transient and attempts remain. Offline rejects with the no-connection error. A JWT message rejects with that error. |
| Retry.RetryWithBackoff | src/lib/errors.ts:106-156 | It makes at most `maxAttempts` calls and none when that is not positive. A success is the value of the last call made, and every earlier call failed. Every delay is within the cap. |
| Retry.MentionsJwtIsIncludes | src/lib/errors.ts:119-128 | The JWT test on the wrapped error holds exactly for an `Error` or primitive whose text contains "JWT". A plain object, wrapped as `[object Object]`, never passes it. |
| Retry.DelaysCapped | src/lib/errors.ts:145-148 | Every wait of a run, from any attempt on, is at most the cap. |
| Retry.EarlierCallsFailed | src/lib/errors.ts:115-141 | Every call of a run before its last one failed: the loop goes on only after a failure. |
| Retry.LoopReaches | src/lib/errors.ts:115-152 | After transient failures up to attempt `j`, the loop behaves as if started at `j`. |
| Retry.LoopReachesDelays | src/lib/errors.ts:143-151 | The delays waited on the way to attempt `j` are the capped backoffs of the attempts before it. |
| Retry.FirstSuccessWins | src/lib/errors.ts:115-152 | After transient failures, the first success resolves the call after exactly `j + 1` calls and `j` delays, each the capped backoff of its attempt. |
| Retry.StopsAt | src/lib/errors.ts:118-141 | A failure that is not retried ends the loop at once with the error the catch block throws. |
| Retry.Exhaustion | src/lib/errors.ts:139-141 | When every attempt fails transiently, exactly `maxAttempts` calls and `maxAttempts - 1` delays happen, and the loop rejects with the last failure. |
| Retry.OfflineStopsImmediately | src/lib/errors.ts:122-125 | A failure while offline is never retried: one call, no delay, the no-connection error. |
| Retry.JwtStopsImmediately | src/lib/errors.ts:127-130 | A failure whose message mentions a JWT is rethrown after one call. |
| Retry.LibFinalStatusStops | src/lib/errors.ts:132-137 | In the `lib` copy an HTTP 401, 403 or 404 failure is rethrown after one call. |
| Retry.UtilsRetriesStatus | src/utils/errors.ts:70-111 | The `utils` copy retries an HTTP 401 failure until the attempts run out. |
| Retry.NoAttempts | src/lib/errors.ts:155 | With no attempts allowed, the function is never called and the loop rejects with "Max retry attempts reached". |
| Retry.WithTimeout | src/lib/errors.ts:86-104 | An operation that settles before the timer keeps its own outcome. Otherwise the result is a `TimeoutError` with the given message, and one that never settles always times out. |
| Network.Initial | src/lib/network.ts:21-24 | At start-up the flag is the platform's, and there are no listeners and no open or registered channels. |
| Network.Subscribe | src/lib/network.ts:26-40 | The listener is present afterwards and every earlier one is kept. Channels and the flag are untouched. |
| Network.Unsubscribe | src/lib/network.ts:29-35 | The listener is gone, every other one is kept, and nothing else changes. |
| Network.SubscribeUnsubscribe | src/lib/network.ts:26-35 | The function `subscribe` returns undoes the subscription of a new listener. |
| Network.Notify | src/lib/network.ts:42-56 | The flag becomes the platform's report. Every listener is called in order. Exactly the throwing ones are dropped. |
| Network.RegisterChannel | src/lib/network.ts:100-103 | The handle joins the registry, and the open channels are untouched. |
| Network.RemoveChannel | src/lib/network.ts:105-111 | A registered handle leaves both the registry and the client's list. An unregistered handle changes nothing. Every other channel stays open. |
| Network.RemoveChannelIdempotent | src/lib/network.ts:105-111 | Removing a channel twice is removing it once. |
| Network.CleanupAllChannels | src/lib/network.ts:113-123 | The registry is emptied. Exactly the registered channels are closed; unregistered ones stay open. |
| Network.CheckConnection | src/lib/network.ts:125-156 | The verdict is the probe response's `ok`. When the probe agrees with the flag (a response whose `ok` is the flag, or a failed fetch while offline) nothing changes; when it disagrees, the flag is set to the probe's answer and the listeners are notified. Channels are untouched. |
| Network.Reconnect | src/lib/network.ts:158-223 | It succeeds exactly when the flag is set and both the session refresh and the probe query succeed. Success tears down every registered channel and recreates none. Failure changes nothing. |
| Network.OnOnline | src/lib/network.ts:62-66 | Offline per the platform, the flag ends false and nothing reconnects. Online with both requests succeeding, it reconnects and empties the registry. |
| Network.OnOffline | src/lib/network.ts:68-71 | The flag ends as the platform reports, and the channels are untouched. |
| Network.OnVisible | src/lib/network.ts:81-89 | Without a successful probe, only the connection check happens. After a successful one, the check is followed by a reconnect. |
| Network.OfflineEventTrustsPlatform | src/lib/network.ts:44 | After an `offline` event the flag is the platform's report, even `true`. |
| Network.ProbeAndFlagDisagree | src/lib/network.ts:141-147 | A successful probe while the platform reports offline answers `true`, yet leaves the flag `false`. |
| Network.OperationsKeepConsistent | src/lib/network.ts:26-223 | Every operation keeps listeners distinct, handles distinct and fresh, and every registered handle open. |
| Heartbeat.Start | src/lib/supabase.ts:53-112 | It is a no-op while active. Otherwise it resets the count, schedules the interval and attaches the handlers. |
| Heartbeat.Stop | src/lib/supabase.ts:114-124 | Afterwards it is inactive, with no interval and no handlers, and the count is kept. |
| Heartbeat.Tick | src/lib/supabase.ts:65-107 | Nothing happens without an interval or while offline. A clean reply resets the count. A failure counts. Only a JWT error asks for a session refresh. |
| Heartbeat.Failed | src/lib/supabase.ts:75-105 | A failure increments the count. Reaching the maximum of 5 stops the heartbeat with exactly one toast. |
| Heartbeat.HandleOnline | src/lib/supabase.ts:127-146 | The count is reset while the handlers are attached, and nothing happens otherwise. |
| Heartbeat.HandleOffline | src/lib/supabase.ts:149-156 | One toast exactly while the handlers are attached. |
| Heartbeat.TransitionsKeepValid | src/lib/supabase.ts:53-146 | Every transition keeps it either running below the maximum or fully stopped. |
| Heartbeat.FiveFailuresStop | src/lib/supabase.ts:83-90 | From a fresh start, four failed ticks leave it running and the fifth stops it. |
| RealtimeManager.NewManager | src/lib/realtimeManager.ts:9-18 | A new manager wants no listings, has a zero counter and holds no intervals. |
| RealtimeManager.GetInstance | src/lib/realtimeManager.ts:20-25 | It returns the existing instance, or a new one that becomes the instance. |
| RealtimeManager.SingleInstance | src/lib/realtimeManager.ts:20-25 | Later calls return the instance the first call created. |
| RealtimeManager.Ping | src/lib/realtimeManager.ts:86-107 | The ping time is recorded. It answers `true` exactly on a clean reply, which resets the counter. |
| RealtimeManager.CheckAndRestore | src/lib/realtimeManager.ts:110-160 | With a channel open, only the counter resets. With none and the counter at the maximum, one "please refresh" toast and nothing else. Otherwise the counter increments; if the session refresh throws, nothing else happens; if it replies, a listings channel opens exactly when listings are wanted, a reply error adds the "attempting to reconnect" toast, and the "restored" toast follows. The listings flag and the intervals are kept. |
| RealtimeManager.StartMonitoring | src/lib/realtimeManager.ts:163-190 | The held intervals are cleared and exactly two new ones are started and held. |
| RealtimeManager.StopMonitoring | src/lib/realtimeManager.ts:193-203 | Both held intervals are cleared and forgotten. |
| RealtimeManager.MonitoringKeepsOneOfEach | src/lib/realtimeManager.ts:163-203 | Starting, even repeatedly, leaves exactly one ping and one check interval running. Stopping leaves none. |
| RealtimeManager.PingTick | src/lib/realtimeManager.ts:173-177 | It pings only while the platform reports online, and never touches channels. |
| RealtimeManager.CheckTick | src/lib/realtimeManager.ts:182-187 | It checks only while online and with listings wanted. |
| RealtimeManager.CounterBounded | src/lib/realtimeManager.ts:115-131 | No operation pushes the reconnect counter past 5. |
| RealtimeManager.CounterSaturates | src/lib/realtimeManager.ts:115-131 | With nothing open, repeated checks raise the counter to 5 and it stays there. |
| RealtimeManager.RemoveListingChannels | src/lib/realtimeManager.ts:295-302 | The clean-up loop only shrinks the registry and never touches the flag or listeners. |
| RealtimeManager.RemoveListingChannelsClears | src/lib/realtimeManager.ts:295-302 | After the loop, no registered snapshot channel whose topic mentions `listings` is registered or open, and nothing new is open. |
| RealtimeManager.OnAuthChange | src/lib/realtimeManager.ts:317-356 | Only `TOKEN_REFRESHED` or `SIGNED_IN`, with listings wanted, changes anything. |
| RealtimeManager.AuthChangeLeavesOneListingsChannel | src/lib/realtimeManager.ts:323-344 | After a token refresh, the only open listings channel is the new one, provided every open one was registered. |
| RealtimeManager.OnVisible | src/lib/realtimeManager.ts:233-261 | Each return to the tab with listings wanted adds one more listings channel without removing the old ones. |
| RealtimeManager.OnMount | src/lib/realtimeManager.ts:266-285 | One run of the effect's set-up: with listings wanted and not yet started, one channel opens and the hook is marked started. Otherwise nothing opens. The re-run that follows is RealtimeManager.MountSettled. |
| RealtimeManager.OnUnmount | src/lib/realtimeManager.ts:287-310 | Only with listings wanted does anything change, and the registry only shrinks. |
| RealtimeManager.MountSettled | src/lib/realtimeManager.ts:265-314 | Mounting settles after the effect's re-run, which `hasStarted` in its dependencies triggers. The clean-up removes the registered listings channels, the one just opened included, and the second run opens nothing. So when every open listings channel was registered, none is open after mounting. Without listings wanted, nothing changes. |
| RealtimeManager.TrackOption | src/lib/realtimeManager.ts:220-221 | The manager's flag follows the option. |
| RealtimeManager.UntrackOption | src/lib/realtimeManager.ts:223-228 | The clean-up clears the flag exactly when the option was set. |
| RealtimeManager.OnOnline | src/lib/realtimeManager.ts:359-370 | The `online` handler runs the check unconditionally: with no channel open and attempts left it spends one attempt, and with a channel open it only resets the counter, with no toast. |
| RealtimeManager.RestoreReopensExactlyWhenWanted | src/lib/realtimeManager.ts:115-151 | A check with no channel open and attempts left opens a channel exactly when listings are wanted and the session refresh replied; that channel is the one registered `listings` channel. |
| RealtimeManager.OnlineSpendsAttemptWithoutListings | src/lib/realtimeManager.ts:182-187 | With listings not wanted, the interval's tick leaves everything alone, while the `online` handler still spends an attempt and announces a restored connection. |
| ListingSubscription.Subscribe | src/subscriptions/listingSubscription.ts:13-88 | A new `listings-changes` channel is opened and registered. Earlier channels are left open. |
| ListingSubscription.Deliver | src/subscriptions/listingSubscription.ts:25-74 | A delete passes the old row on. An insert or update passes on the re-read row, and only if one came back. |
| ListingSubscription.Unsubscribe | src/subscriptions/listingSubscription.ts:94-103 | A missing handle changes nothing. A present one is removed through the registry. |
| ListingSubscription.TopicMentionsListings | src/subscriptions/listingSubscription.ts:17 | The topic contains `listings`, which the keep-alive clean-up looks for. |
| ListingSubscription.SubscriptionsAccumulate | src/subscriptions/listingSubscription.ts:13-88 | Subscribing twice leaves two distinct registered channels open. |
| AdminSubscription.SubscribeUsers | src/subscriptions/adminSubscription.ts:11-50 | A new registered `admin-users` channel. |
| AdminSubscription.SubscribeInvitations | src/subscriptions/adminSubscription.ts:57-96 | A new registered `admin-invitations` channel. |
| AdminSubscription.Deliver | src/subscriptions/adminSubscription.ts:24-36 | The kind is kept. Inserts and updates pass the new row on, deletes the old one. |
| AdminSubscription.Unsubscribe | src/subscriptions/adminSubscription.ts:102-110 | A missing handle changes nothing. A present one is removed through the registry. |
| NotificationSubscription.Subscribe | src/subscriptions/notificationSubscription.ts:12-49 | A new registered channel named after the user. |
| NotificationSubscription.Topic | src/subscriptions/notificationSubscription.ts:19 | The channel name is `notifications-` followed by the user id, which reads back from it. |
| NotificationSubscription.RowFilter | src/subscriptions/notificationSubscription.ts:26 | The row filter is `user_id=eq.` followed by the user id, which reads back from it. |
| NotificationSubscription.Deliver | src/subscriptions/notificationSubscription.ts:20-35 | Exactly the user's own new notifications are passed on, unchanged. |
| NotificationSubscription.TopicsDiffer | src/subscriptions/notificationSubscription.ts:19 | Different users get different channel names. |
| NotificationSubscription.Unsubscribe | src/subscriptions/notificationSubscription.ts:55-64 | A missing handle changes nothing. A present one is removed through the registry. |
| AuthStore.SetUser | src/lib/store.ts:40-44 | The user is recorded and loading ends. The profile, the admin flag and the refresh clock are kept. |
| AuthStore.SetProfile | src/lib/store.ts:45-50 | The profile is recorded and loading ends. The admin flag holds exactly when the role is `admin`. |
| AuthStore.SetLoading | src/lib/store.ts:51 | Only the loading flag changes. |
| AuthStore.Reset | src/lib/store.ts:52-55 | Back to the initial state, except that it is not loading. |
| AuthStore.Refetch | src/lib/store.ts:56-138 | It is throttled exactly when the last refresh is under a minute old, and then nothing changes and nothing is asked. Otherwise no session signs out after 1 read, and a session without a user after 2. With both, 3 reads: a thrown profile read signs out, a profile reply with an error keeps the old profile and records the user, and a clean reply stores the read profile. A kept session always records the user read. |
| AuthStore.RefetchThrottles | src/lib/store.ts:58-66 | A second refetch within a minute of a successful one asks nothing and changes nothing. |
| AuthStore.ProfileErrorKeepsUser | src/lib/store.ts:122-127 | A failed profile read does not sign the user out. |
| AuthStore.ActionsKeepAdminAgreement | src/lib/store.ts:40-138 | Every action keeps the admin flag in agreement with the profile held. |
| Auth.EmailValid | src/lib/auth.ts:75-78 | An accepted address has an `@` and no whitespace. |
| Auth.EmailValidMatchesPattern | src/lib/auth.ts:75 | The check accepts exactly the strings `^[^\s@]+@[^\s@]+\.[^\s@]+$` matches. |
| Auth.GetProfile | src/lib/auth.ts:13-44 | A cached profile is returned without a read. Otherwise one read is made, a failure gives no profile and one toast, and only a found profile is cached. |
| Auth.CachedProfileIsReused | src/lib/auth.ts:15-16 | Once read, a profile is returned again without a read, whatever the backend would now say. |
| Auth.SignOut | src/lib/auth.ts:46-71 | The store is reset and the cache emptied. Reset, cache, storage and remote sign-out happen in that order. The redirect to `/login` comes last. The error toast appears exactly when sign-out failed. |
| Auth.SignUpFailure | src/lib/auth.ts:113-124 | The result is always an `Error`. An `Error` whose message mentions "User already registered" becomes the "An account with this email already exists. Please sign in instead." error. Any other `Error` is rethrown as it is. Anything that is not an `Error` becomes "An unexpected error occurred". |
| Auth.SignUpFailureIsStable | src/lib/auth.ts:117-123 | Applying the catch clause to its own result changes nothing: neither friendly text mentions an existing user. |
| Auth.SignUp | src/lib/auth.ts:73-125 | An invalid address, then a password under 8, fail before any request. A rejected or failed sign-up request fails with the catch clause applied to its error after one request, leaving store and cache as they were. A reply without a user gives no profile. With a user, the profile is read through the cache. Without a profile, sign-up fails with "Failed to create user profile" and the store is kept. With a profile, the user and profile are stored and the profile is returned. |
| Auth.Rethrown | src/lib/auth.ts:190-198 | The rethrown failure is a new plain `Error` without code or status: the caught `Error`'s message, or the operation's fallback text for anything else. |
| Auth.SignIn | src/lib/auth.ts:127-199 | An invalid address fails before any request. "Invalid login credentials" becomes the friendlier credentials text. Any other request failure is rethrown with its message only, or with the sign-in fallback text. A reply without a user gives no profile. With a user and no profile, a `pending` profile is created: a failed insert is rethrown, otherwise it is stored and returned. A `pending` profile signs the user out (store reset, cache emptied) and fails with the pending text. Any other profile is stored with the user and returned. |
| Auth.SignUpMatchesSignIn | src/lib/auth.ts:96-186 | Once the backend has signed the user up or in and an approved profile is found, both operations end in the same store, cache, result and request count. |
| Auth.SignUpKeepsErrorSignInCopiesMessage | src/lib/auth.ts:96-198 | A backend error reaches a sign-up caller unchanged, code and status included, but reaches a sign-in caller as a new plain `Error` with only its message. The two agree exactly when the error was plain without code or status. |
| Auth.PendingUserIsSignedOut | src/lib/auth.ts:177-180 | A pending user is signed out, with the store reset and the cache emptied, and sign-in fails with the pending message. |
| Auth.ResetPassword | src/lib/auth.ts:201-226 | An invalid address fails before any request. Otherwise one request is made, and the result is success exactly when it succeeded; a failure is rethrown with the "Failed to send reset email. Please try again." fallback. |
| Auth.UpdatePassword | src/lib/auth.ts:228-252 | A password under 6 characters, the empty one included, fails before any request. Otherwise one request is made, and the result is success exactly when it succeeded; a failure is rethrown with the "Failed to update password. Please try again." fallback. |
| Auth.PasswordFailuresKeepMessage | src/lib/auth.ts:217-250 | A failed reset and a failed update both keep an `Error`'s message; for anything else each uses its own fallback, so the two results agree exactly when the failure was an `Error`. |
| AuthProvider.InitializeAuth | src/lib/AuthProvider.tsx:88-138 | Loading always ends. A failed session read clears the user and profile with one toast. No session clears them silently. A session's user is stored, and a failed profile read keeps that user. |
| AuthProvider.AdoptUser | src/lib/AuthProvider.tsx:150-183 | The user is stored. The profile is replaced only by a successful read while still mounted. |
| AuthProvider.OnAuthEvent | src/lib/AuthProvider.tsx:144-187 | Nothing happens after unmount. Sign-out clears the user and profile. A token refresh without a user changes nothing. Other events without a user clear them. |
| AuthProvider.Mount | src/lib/AuthProvider.tsx:190-210 | The auth-change subscription is attached exactly when the component is still mounted after initialisation. |
| AuthProvider.Unmount | src/lib/AuthProvider.tsx:212-217 | Unmounted, the subscription is dropped and the store is untouched. |
| AuthProvider.EventsAfterUnmountIgnored | src/lib/AuthProvider.tsx:145 | After unmount, no auth event changes anything. |
| AuthProvider.InitProfileFailureKeepsUser | src/lib/AuthProvider.tsx:119-128 | A failed profile read during initialisation keeps the session's user. |
| AuthProvider.InactivityWarning | src/lib/AuthProvider.tsx:57-62 | At most one toast, shown exactly when more than 25 minutes have passed since the last activity. |
| AuthProvider.WarningNeedsLateTimer | src/lib/AuthProvider.tsx:57-62 | The comparison is strict, so a timer firing exactly on time warns nothing. Only a late timer warns. |
| ActivityTimer.Touch | src/lib/AuthProvider.tsx:50-63 | An activity records its time and arms a timer due exactly one period later. |
| ActivityTimer.Cancel | src/lib/AuthProvider.tsx:78-80 | Cleanup leaves no pending timer. |
| ActivityTimer.ElapsedAtFiring | src/lib/AuthProvider.tsx:57-59 | When an armed timer fires, at least the period has passed since the last activity, and exactly the period when it fires on time. |
| ActivityTimer.FiringWindow | src/lib/AuthProvider.tsx:50-80 | `CanFire`: after an activity the timer can fire exactly once a full period has passed, and after a cleanup it never fires. |
| Records.MergeListing | src/lib/listingStore.ts:83-85 | The spread `{...listing, ...updates}`: a field present in the patch replaces the listing's, an absent one keeps it (shown for the status and the id). |
| Records.MergeListingLaws | src/lib/listingStore.ts:83-85 | An empty patch changes nothing, a patch carrying every field of another listing yields that listing, and applying the same patch twice equals applying it once. |
| Records.MergeProfile | src/stores/adminStore.ts:74 | The spread of a profile patch: the id never changes, a present role replaces the old one, an absent one keeps it. |
| Records.MergeProfileLaws | src/stores/adminStore.ts:74 | A full patch of a profile with the same id yields that profile, and a patch applied twice equals the patch applied once. |
| ListingStore.Without | src/lib/listingStore.ts:114-123 | The filter by id: nothing with the id remains, every survivor was held, and every listing with another id survives, in their original order. |
| ListingStore.Upsert | src/lib/listingStore.ts:52-62 | The new listing comes first, followed by the held listings with other ids, all of which are kept. |
| ListingStore.AddListing | src/lib/listingStore.ts:49-73 | The listing is upserted into the user's listings, into the marketplace only when its status is `available`, and into the in-search-of list only when it is `searching`; a selected listing with its id is replaced; loading and error are untouched. |
| ListingStore.First | src/lib/listingStore.ts:78-80 | `find` by id: a result is the first held listing with that id, and there is none exactly when no listing has the id. |
| ListingStore.UpdateIn | src/lib/listingStore.ts:83-98 | The length is kept and listings with other ids are untouched; every listing with the id becomes the FIRST one found with that id merged with the patch. |
| ListingStore.UpdateListing | src/lib/listingStore.ts:75-112 | All three lists are updated by id, and the selected listing is merged with the patch exactly when it has the id. |
| ListingStore.RemoveListing | src/lib/listingStore.ts:114-123 | The id is filtered out of all three lists, and a selected listing with the id is cleared. |
| ListingStore.Held | src/lib/listingStore.ts:130-139 | The local lookup returns the selected listing when it has the id, else the first match in the marketplace list, else in the user's list, else in the in-search-of list; it finds nothing exactly when none of them holds the id. |
| ListingStore.FetchListing | src/lib/listingStore.ts:126-175 | A listing held locally is returned and selected with no request. Otherwise one read is sent and loading ends; success selects and returns the row, and failure returns nothing, records an error and keeps the selection. |
| ListingStore.UpdateInDistinct | src/lib/listingStore.ts:83-98 | With unique ids and a patch that does not change the id, ids stay unique and each listing with the id is merged with itself. |
| ListingStore.AddKeepsDistinct | src/lib/listingStore.ts:49-73 | Adding keeps ids unique in every list. |
| ListingStore.UpdateKeepsDistinct | src/lib/listingStore.ts:75-112 | Updating with a patch that does not change the id keeps ids unique in every list. |
| ListingStore.RemoveKeepsDistinct | src/lib/listingStore.ts:114-123 | Removing keeps ids unique in every list. |
| ListingStore.UpdateAbsentIsNoop | src/lib/listingStore.ts:78-98 | Updating an id no listing has leaves the list as it was. |
| ListingStore.RemoveIdempotent | src/lib/listingStore.ts:114-123 | Removing the same id twice is the same as removing it once. |
| ListingStore.FetchAfterAddIsLocal | src/lib/listingStore.ts:49-73 | After adding a listing, fetching its id sends no request and finds a listing with that id; it is the added one when the listing is available or was selected. |
| ListingStore.StaleCopyIsFetched | src/lib/listingStore.ts:130-139 | A listing added with a non-available status leaves an older marketplace copy in place, and fetching the id returns that stale copy rather than the added one. |
| AdminStore.AddUser | src/stores/adminStore.ts:66-69 | The user is appended after the existing users, which are kept in order; the other lists are untouched. |
| AdminStore.UpdateUserInStore | src/stores/adminStore.ts:71-76 | Every user with the id is merged with the patch, every other user is kept in place, and the other lists are untouched. |
| AdminStore.UsersWithout | src/stores/adminStore.ts:78-81 | The filter by id: nothing with the id remains, every other user survives, in the original order. |
| AdminStore.RemoveUser | src/stores/adminStore.ts:78-81 | The users lose the id; the pending and active lists and the invitations are untouched. |
| AdminStore.AddInvite | src/stores/adminStore.ts:83-86 | The invitation is appended; the users are untouched. |
| AdminStore.InvitesWithout | src/stores/adminStore.ts:88-91 | The filter by id: nothing with the id remains and every other invitation survives, in their original order. |
| AdminStore.RemoveInvite | src/stores/adminStore.ts:88-91 | The invitations lose the id; the users are untouched. |
| AdminStore.RemoveUserIdempotent | src/stores/adminStore.ts:78-81 | Removing the same user twice is the same as removing it once. |
| AdminStore.AddUserDuplicates | src/stores/adminStore.ts:66-69 | Adding a user already held leaves two entries with that id: the store does not deduplicate. |
| AdminStore.ReplaceInviteLeavesOne | src/stores/adminStore.ts:83-91 | Removing an invitation's id and adding it again leaves exactly one invitation with the id, at the end. |
| NotificationStore.SetNotifications | src/stores/notificationStore.ts:33-36 | The list is stored with its number of unread items, which is zero exactly when every item is read. |
| NotificationStore.AddNotification | src/stores/notificationStore.ts:42-55 | An item whose id is already held changes nothing; otherwise it is prepended and the counter goes up by one exactly when it is unread. |
| NotificationStore.Decrement | src/stores/notificationStore.ts:69 | `Math.max(0, count - 1)`: never negative, one less when positive. |
| NotificationStore.MarkIn | src/stores/notificationStore.ts:60-62 | Items with the id are marked read and every other item is unchanged. |
| NotificationStore.FirstUnread | src/stores/notificationStore.ts:65 | `find(...)` unread implies some item with the id is unread. |
| NotificationStore.MarkAsRead | src/stores/notificationStore.ts:57-71 | The item is marked read, and the counter goes down (not below zero) exactly when the first item with the id was unread. |
| NotificationStore.AllRead | src/stores/notificationStore.ts:73-79 | Every item marked read, nothing else changed. |
| NotificationStore.MarkAllAsRead | src/stores/notificationStore.ts:73-79 | Every item read and the counter zero. |
| NotificationStore.WithoutId | src/stores/notificationStore.ts:81-89 | The filter by id: nothing with the id remains and every other item survives, in their original order. |
| NotificationStore.RemoveNotification | src/stores/notificationStore.ts:81-89 | The items with the id are dropped, and the counter goes down (not below zero) exactly when the first of them was unread. |
| NotificationStore.FirstUnreadUnique | src/stores/notificationStore.ts:65 | With unique ids, `find` sees the only item with the id, so it reports that item's unread flag. |
| NotificationStore.UnreadWithId | src/stores/notificationStore.ts:57-89 | The count of unread items with the id is zero exactly when every item with the id is read. |
| NotificationStore.UnreadAfterMarkCount | src/stores/notificationStore.ts:57-71 | Marking an id read lowers the number of unread items by exactly the unread items with that id. |
| NotificationStore.UnreadAfterRemoveCount | src/stores/notificationStore.ts:81-89 | Removing an id lowers the number of unread items by exactly the unread items with that id. |
| NotificationStore.UnreadWithIdUnique | src/stores/notificationStore.ts:57-89 | With unique ids there is at most one unread item with an id, and it is the one `find` sees. |
| NotificationStore.AllReadHasNoUnread | src/stores/notificationStore.ts:73-79 | After marking all read no item is unread. |
| NotificationStore.AddKeepsConsistent | src/stores/notificationStore.ts:42-55 | Adding keeps ids unique and the counter equal to the number of unread items. |
| NotificationStore.MarkKeepsConsistent | src/stores/notificationStore.ts:57-79 | Marking one or all read keeps ids unique and the counter exact. |
| NotificationStore.RemoveKeepsConsistent | src/stores/notificationStore.ts:81-89 | Removing keeps ids unique and the counter exact. |
| NotificationStore.OperationsKeepConsistent | src/stores/notificationStore.ts:33-89 | Every store action, and setting a list with unique ids, keeps the counter equal to the number of unread items. |
| ChatNotificationStore.SetNotifications | src/stores/useChatNotificationStore.ts:45-48 | The list is stored and the counter becomes its number of unread items; loading, error and subscription are kept. |
| ChatNotificationStore.AddNotification | src/stores/useChatNotificationStore.ts:49-60 | An item whose id is held changes nothing; otherwise it is prepended and the counter goes up by one exactly when it is unread. |
| ChatNotificationStore.MarkWhere | src/stores/useChatNotificationStore.ts:136-140 | The selected items are marked read and every other item is unchanged, in place. |
| ChatNotificationStore.AfterWrite | src/stores/useChatNotificationStore.ts:142-149 | The tail every write shares: success stores the updated list with a recounted counter and no error; failure keeps the list and the counter, records the error and shows it only where the source shows it; loading always ends. |
| ChatNotificationStore.MarkAsRead | src/stores/useChatNotificationStore.ts:121-150 | Success marks every item with the id read and nothing else; failure keeps the list, records the error and shows one toast. |
| ChatNotificationStore.MarkAllAsRead | src/stores/useChatNotificationStore.ts:153-181 | Success marks every item read and the counter becomes zero; failure keeps the list, records the error and shows one toast. |
| ChatNotificationStore.ClearChannelNotifications | src/stores/useChatNotificationStore.ts:184-214 | Success marks read exactly the items of the channel; failure keeps the list and records the error without a toast. |
| ChatNotificationStore.DeleteNotification | src/stores/useChatNotificationStore.ts:217-244 | Success drops the items with the id and keeps the rest; failure keeps the list, records the error and shows one toast. |
| ChatNotificationStore.FetchNotifications | src/stores/useChatNotificationStore.ts:67-91 | Success returns and stores the rows (none for a null reply) with a recounted counter; failure returns nothing, keeps the list, records the error and shows one toast; loading always ends. |
| ChatNotificationStore.FetchUnreadCount | src/stores/useChatNotificationStore.ts:94-118 | Success returns and stores the server's count (zero for a null reply); failure returns zero and keeps the counter with an error recorded; the list is untouched. |
| ChatNotificationStore.Unsubscribe | src/stores/useChatNotificationStore.ts:288-300 | Without a subscription nothing happens; with one, its channel is removed through the connection monitor and the subscription is forgotten. |
| ChatNotificationStore.Subscribe | src/stores/useChatNotificationStore.ts:247-285 | The held channel is dropped first; then a channel on the user's `chat-notifications:` topic is opened, registered and held, and the old one is no longer registered. |
| ChatNotificationStore.Deliver | src/stores/useChatNotificationStore.ts:264-266 | A realtime insert is added through the same deduplicating action as a local add. |
| ChatNotificationStore.OperationsKeepCounter | src/stores/useChatNotificationStore.ts:45-244 | Starting from a counter that agrees with the list, adding, marking, clearing a channel, deleting and fetching all keep it agreeing, whatever the server replies. |
| ChatNotificationStore.ResubscribeDropsOld | src/stores/useChatNotificationStore.ts:247-285 | Subscribing again leaves the earlier channel unregistered and the new one registered. |
| ChatStore.AddMessage | src/stores/useChatStore.ts:81-83 | The message is prepended and the earlier messages follow unchanged. |
| ChatStore.FailureText | src/stores/useChatStore.ts:105 | A failure shows the caught `Error`'s message, or the operation's fallback for anything else. |
| ChatStore.FetchChannels | src/stores/useChatStore.ts:90-112 | Success returns and stores the channels (none for a null reply); failure returns nothing, keeps the channels, records the error and shows one toast; loading ends. |
| ChatStore.GetOrCreateResourceChannel | src/stores/useChatStore.ts:115-157 | The channel row is returned exactly when both the create call and the read succeed; a failure of either is recorded, shown and passed to the caller; the messages are untouched. |
| ChatStore.Unsubscribe | src/stores/useChatStore.ts:253-266 | Without a subscription nothing happens; with one, its channel is removed and both the subscription and the open channel are forgotten. |
| ChatStore.FetchHistory | src/stores/useChatStore.ts:269-319 | Without an open channel: an error and no request. Otherwise one request; a page without `before` replaces the messages and with it is appended after them; more pages are expected exactly when the page holds twenty; a failure keeps the messages and the paging flag and shows one toast. |
| ChatStore.MarkChannelAsRead | src/stores/useChatStore.ts:391-406 | Success changes nothing; failure records the error without a toast. |
| ChatStore.Subscribe | src/stores/useChatStore.ts:160-250 | The held subscription is dropped first. A failed channel read ends with no subscription, an error and one toast. Otherwise the channel becomes the open one, and a new registered channel on its `messages:` topic is opened and held. Loading ends either way. |
| ChatStore.Deliver | src/stores/useChatStore.ts:216-232 | A realtime insert whose sender lookup replies is prepended with the sender's dealer name, if any; a rejected lookup adds nothing. |
| ChatStore.SendMessage | src/stores/useChatStore.ts:322-388 | No open channel, or blank content, gives an error and no request. With a user and a profile reply, exactly one optimistic message with the fresh id, the content, the user and the channel is prepended, and a toast appears exactly when the insert fails. A missing user or a rejected read adds no message. |
| ChatStore.LoadMoreAppends | src/stores/useChatStore.ts:300-305 | Loading an older page keeps the messages shown and appends the page after them. |
| ChatStore.FailedSendKeepsOptimisticMessage | src/stores/useChatStore.ts:365-386 | When the insert throws, the optimistic message stays in the list while the error is recorded. |
| ChatStore.ResubscribeDropsOld | src/stores/useChatStore.ts:160-242 | Subscribing to a channel leaves the previously held channel unregistered, whatever the replies. |
| UseListings.SetCollection | src/hooks/useListings.ts:81 | Replacing one collection leaves the other two and the rest of the store as they were. |
| UseListings.Fail | src/hooks/useListings.ts:85-91 | While mounted, the failure's message (or the fallback for a non-`Error`) is recorded in the hook and the store and shown once; after unmount nothing changes. |
| UseListings.Load | src/hooks/useListings.ts:71-158 | Loading the dealer's own listings without a user id sends nothing. Otherwise one request: success returns the rows and, while mounted, replaces that collection; failure returns nothing, keeps all three collections, and toasts exactly when mounted. |
| UseListings.ReloadAll | src/hooks/useListings.ts:219-222 | When all three reloads succeed, the collections are exactly the server's and no error remains. |
| UseListings.CreateListing | src/hooks/useListings.ts:160-189 | The service's outcome is returned. The store gains the listing (through the store's add) only after success while mounted, with one success toast; a failure leaves every collection untouched. |
| UseListings.UpdateListing | src/hooks/useListings.ts:191-230 | The outcome is returned. The patch is merged before the call; a returned row is merged again; after a failure while mounted, successful reloads replace all three collections, and after unmount the optimistic change stays. |
| UseListings.DeleteListing | src/hooks/useListings.ts:232-265 | The outcome is returned. The listing is removed from the store first; after a failure while mounted, successful reloads replace all three collections. |
| UseListings.RenewListing | src/hooks/useListings.ts:267-296 | The outcome is returned. A failure leaves the collections alone; a success followed by successful reloads replaces the marketplace and the own listings and keeps the in-search-of list. |
| UseListings.FailedUpdateRollsBack | src/hooks/useListings.ts:198-224 | A failed update whose reloads succeed ends with exactly the server's collections, whatever the patch was; only the failure's toast remains, and the error is rethrown. |
| UseListings.FailedUpdateWithoutUserKeepsOptimisticMine | src/hooks/useListings.ts:100-101 | Without a user id the reload of the own listings is skipped, so a failed update leaves its optimistic change there. |
| UseListings.MountLoads | src/hooks/useListings.ts:57-69 | Without a user id nothing is loaded, not even the public marketplace; with one, each collection is loaded exactly when its option is set, each at most once, the marketplace first. |
| UseListings.MountLoadsAreSent | src/hooks/useListings.ts:57-69 | Every load the mount effect starts sends its request: the own-listings guard never refuses it. |
| UseAdmin.PendingOf | src/hooks/useAdmin.ts:78-80 | Exactly the accounts with role `pending` that were never updated, each taken from the list, in their original order. |
| UseAdmin.ActiveOf | src/hooks/useAdmin.ts:82-84 | Exactly the accounts whose role is not `pending`, each taken from the list, in their original order. |
| UseAdmin.Fail | src/hooks/useAdmin.ts:89-93 | While mounted, the failure's message is recorded in the hook and shown once; the store is untouched; after unmount nothing changes. |
| UseAdmin.LoadUsers | src/hooks/useAdmin.ts:64-100 | Success returns the accounts and, while mounted, stores them with the pending and active partitions; failure returns nothing, changes no list, and toasts exactly when mounted; invitations are untouched. |
| UseAdmin.LoadInvitations | src/hooks/useAdmin.ts:102-128 | Success returns the invitations and, while mounted, stores them; failure returns nothing, changes no list, and toasts exactly when mounted; users are untouched. |
| UseAdmin.PatchOf | src/hooks/useAdmin.ts:202 | Approval writes role `dealer`, rejection role `pending` (the latter at line 239). |
| UseAdmin.ChangeUser | src/hooks/useAdmin.ts:158-267 | Reports success exactly when the service succeeds. The change is applied to the store first; success shows its text while mounted; a failure while mounted with a successful reload stores the reloaded accounts and their partitions. Invitations are untouched. |
| UseAdmin.CreateInvitation | src/hooks/useAdmin.ts:269-299 | Without the administrator's id it fails with the fixed error before any request or state change. Otherwise one request; the invitation is appended only after success while mounted, with a success toast; a failure leaves the store alone. |
| UseAdmin.DeleteInvitation | src/hooks/useAdmin.ts:301-336 | Reports success exactly when the service succeeds. The invitation is removed first; after a failure while mounted a successful reload restores the server's list, and a failed one leaves the optimistic removal. Users are untouched. |
| UseAdmin.PartitionsDisjoint | src/hooks/useAdmin.ts:78-84 | No account is in both partitions, and an account is in neither exactly when its role is `pending` and it has been updated. |
| UseAdmin.ApprovalLeavesPendingListStale | src/hooks/useAdmin.ts:195-212 | An accepted approval gives every account with the id the `dealer` role, while the pending partition still lists it until the next load. |
| UseNotifications.Fail | src/hooks/useNotifications.ts:108-112 | While mounted, the failure's message is recorded in the hook and shown once; store and channel are untouched; after unmount nothing changes. |
| UseNotifications.LoadNotifications | src/hooks/useNotifications.ts:85-119 | Without a user id nothing is sent. Otherwise one request: success while mounted stores the list with its unread count; failure keeps the list and the counter, and toasts exactly when mounted. |
| UseNotifications.LoadUnreadCount | src/hooks/useNotifications.ts:121-143 | Without a user id, or on failure, the result is 0 and nothing changes (no error is recorded); success returns the count and, while mounted, stores it. |
| UseNotifications.Optimistic | src/hooks/useNotifications.ts:153-224 | The local change of each write is the notification store's matching action. |
| UseNotifications.FailureText | src/hooks/useNotifications.ts:164-236 | Each write names itself in its fallback text, and the three texts differ. |
| UseNotifications.GuardOfEachWrite | src/hooks/useNotifications.ts:146-218 | `Guarded`: marking or deleting one notification needs a user and a non-empty id; marking all needs only a user. |
| UseNotifications.Perform | src/hooks/useNotifications.ts:145-251 | A write without a user id, or naming an empty notification id, does nothing. Otherwise one request after the local change: success keeps that change, and a failure while mounted with a successful reload replaces the list with the server's and recounts. |
| UseNotifications.Subscribe | src/hooks/useNotifications.ts:45-61 | Without a user id or with subscriptions off nothing happens; otherwise the user's notification channel is opened and its handle kept. |
| UseNotifications.Cleanup | src/hooks/useNotifications.ts:64-70 | The held channel is removed through the registry and the handle forgotten. |
| UseNotifications.Deliver | src/hooks/useNotifications.ts:49-51 | A realtime insert for the user reaches the store, through the deduplicating add, only while mounted. |
| UseNotifications.FailedWriteRestoresServerState | src/hooks/useNotifications.ts:160-173 | A failed write whose reload succeeds leaves exactly the server's list with a counter that agrees with it, and no error. |
| UseNotifications.SubscribeThenCleanupRestoresRegistry | src/hooks/useNotifications.ts:45-70 | Subscribing and then cleaning up leaves no handle and the registry as it was before. |
| Analytics.Restore | src/lib/analytics.ts:23-34 | A saved array becomes the queue as it was; anything else (nothing saved, unparsable text, a non-array) starts an empty queue. |
| Analytics.StampText | src/lib/analytics.ts:77-79 | A timestamp is added only when missing or empty; a present one is kept. |
| Analytics.StampEvent | src/lib/analytics.ts:77-79 | Only the timestamp may change: a present one is kept, and a missing or empty one becomes the current time. |
| Analytics.StampReport | src/lib/analytics.ts:119-121 | The same stamping for error reports. |
| Analytics.StampingIsFinal | src/lib/analytics.ts:77-79 | Stamping an already stamped event or report again keeps the first time. |
| Analytics.Item | src/lib/analytics.ts:53-57 | A well-formed event or error entry replays as exactly one delivered item. |
| Analytics.SendEvent | src/lib/analytics.ts:75-113 | Online with a working log, the stamped event is delivered and the queue is untouched. Offline, or when logging throws, it is appended to the queue exactly when queueing is allowed; otherwise it is dropped and nothing changes. |
| Analytics.SendError | src/lib/analytics.ts:116-157 | The same rule for error reports: delivered online, appended to the queue offline or on a failing log only when queueing is allowed, dropped otherwise. |
| Analytics.TrackPageView | src/lib/analytics.ts:160-166 | A page view is the event with category `navigation`, action `page_view` and the path as label: delivered online, queued otherwise. |
| Analytics.Replayed | src/lib/analytics.ts:53-57 | Replaying one well-formed entry delivers at most one item, with queueing off: nothing for a falsy or unknown entry or when the log fails. |
| Analytics.Drain | src/lib/analytics.ts:48-64 | The reference replay: what remains is a suffix of the queue, and it is empty or starts with the entry whose replay threw. |
| Analytics.ProcessOfflineQueue | src/lib/analytics.ts:44-72 | Offline or with an empty queue nothing happens. Online, the loop leaves exactly what the reference replay leaves and delivers exactly what it delivers, in order. |
| Analytics.ReplayOnlyShrinks | src/lib/analytics.ts:54-56 | Replaying never adds to the queue: what remains is no longer than before and ends with the same entry. |
| Analytics.PoisonedHeadBlocks | src/lib/analytics.ts:58-63 | An entry whose replay throws is put back at the front and stops the replay, so nothing is delivered and the queue is unchanged. |
| Analytics.ReplayIsFifo | src/lib/analytics.ts:48-57 | A queue with no entry that throws is emptied. Every well-formed event or error entry is delivered, stamped, at its own position less the entries dropped before it, so the delivery keeps the queued order; the number delivered is the queue's length less the dropped entries. |
| Analytics.CountDropped | src/lib/analytics.ts:50 | The number of dropped entries is at most the queue's length. |
| Analytics.OfflineEventIsReplayed | src/lib/analytics.ts:104-112 | An event sent offline with queueing allowed is delivered by the next online replay, carrying the timestamp of its first send. |
| Validation.ListingIssues | src/lib/validation.ts:11-22 | A listing has no issues exactly when make and model are non-empty, the year lies between 1900 and next year, a given PDI fee is not negative, and a given, non-null photo address is a URL. An empty make is reported first. |
| Validation.ParseListing | src/lib/validation.ts:11-22 | Parsing succeeds exactly when there is no issue and returns the form unchanged; a failure carries at least one issue. |
| Validation.IssuesAreCollected | src/lib/validation.ts:12-18 | Every failing field is reported, in the order of the schema, not only the first. |
| Validation.AcceptedYears | src/lib/validation.ts:14-16 | With the other fields valid, a year is accepted exactly when it lies between 1900 and the year after the current one, both ends included. |
| Validation.ParseProfile | src/lib/validation.ts:3-9 | A profile parses exactly when the dealer name is non-empty and the email valid; the brands default to the empty list; a failure names exactly the failing fields with their messages. |
| Validation.ParseMessage | src/lib/validation.ts:24-26 | A message parses exactly when its content is non-empty, and otherwise fails with the single "Message cannot be empty" issue. |
| ImageLoader.LastDot | src/lib/imageLoader.ts:26 | The position of the last dot, after which no dot follows; none when the name has no dot. |
| ImageLoader.WithWebpExtension | src/lib/imageLoader.ts:26 | A name whose last dot is followed by one or more characters other than dots and slashes has that extension replaced by `.webp`; any other name is unchanged. |
| ImageLoader.WebpExtensionIdempotent | src/lib/imageLoader.ts:26 | Rewriting twice is rewriting once, and the rewritten name keeps everything before the old extension. |
| ImageLoader.LastDotIs | src/lib/imageLoader.ts:26 | A dot followed by no other dot is the last dot. |
| ImageLoader.OptimizeImage | src/lib/imageLoader.ts:1-33 | Without the browser's image APIs, or when encoding fails, the original file comes back unchanged; otherwise a WebP file with the rewritten name and the encoded size. |
| ImageLoader.ValidateImage | src/lib/imageLoader.ts:57-74 | The type is checked before the size: an unlisted type is rejected first, then a size above the maximum; a file is accepted exactly when its type is listed, its size is at most the maximum, and its loaded dimensions meet both minimums. |
| ImageLoader.ErrorText | src/lib/imageLoader.ts:60-70 | The size message starts with "File size must be less than " and ends in "MB". An unlisted type gives "Please upload a JPG, PNG, or WebP file", small dimensions "Image dimensions must be at least <width>x<height> pixels", and a load failure "Failed to load image". |
| ImageLoader.SizeLimitReadsBack | src/lib/imageLoader.ts:64-66 | The digits of the size message read back as the limit in whole mebibytes. |
| ImageLoader.DimensionsReadBack | src/lib/imageLoader.ts:68-70 | The digits before the `x` of the dimensions message read back as the minimum width and those after it as the minimum height. |
| ImageLoader.DefaultBoundaries | src/lib/imageLoader.ts:57-66 | With the default options a file of exactly 5 MiB and 200x200 pixels is accepted, one byte more is rejected, and the message says "5MB". |
| ListingUtils.StatusText | src/utils/listingUtils.ts:3-20 | The label is "Unknown" exactly for a status outside the six known ones. |
| ListingUtils.StatusColorClass | src/utils/listingUtils.ts:22-40 | Every class ends in ` text-white`; `archived` and every unknown status share `bg-gray-700 text-white`. |
| ListingUtils.Background | src/utils/listingUtils.ts:22-40 | Every background is a `bg-` class, and it is `bg-gray-700` exactly for an archived listing or an unknown status. |
| ListingUtils.LabelsNameTheirStatus | src/utils/listingUtils.ts:3-20 | Distinct known statuses get distinct labels, none of them "Unknown". |
| ListingUtils.ColoursDistinguishLiveStatuses | src/utils/listingUtils.ts:22-40 | Every known status other than `archived` has a class no other status shares. |
| ListingUtils.ClassStartsWithBackground | src/utils/listingUtils.ts:22-40 | Every class is the status's background followed by ` text-white`. |
| ListingUtils.BackgroundsDiffer | src/utils/listingUtils.ts:24-38 | The background of a known status other than `archived` differs from that of every other status. |
| ProtectedRoute.Guard | src/components/ProtectedRoute.tsx:10-31 | The spinner shows exactly while loading. A missing user redirects to `/login` carrying the location, exactly when not loading. The outlet renders exactly for a signed-in user who is not pending and, on administrator routes, is an administrator. Every redirect goes to `/login`, `/pending-approval` or `/`. |
| ProtectedRoute.AdminRoutesNeedAdminProfile | src/components/ProtectedRoute.tsx:22-27 | With the store's administrator flag derived from the profile, an administrator route opens exactly for a profile with role `admin`; a pending profile goes to the approval notice on every route. |
| AdminDashboard.FilteredUsers | src/pages/AdminDashboard.tsx:273-290 | With no search on the "all" tab every account is kept, in order. Otherwise exactly the accounts the tab admits whose lower-cased e-mail, dealer name, phone and address contain the lower-cased search, in their original order. |
| AdminDashboard.PendingAndInactiveTabsAgree | src/pages/AdminDashboard.tsx:278-280 | The pending and inactive tabs list the same accounts whatever the search, because both test the role only. |
| AdminDashboard.ActiveTabIsActiveOf | src/pages/AdminDashboard.tsx:276-279 | Without a search, the active tab lists exactly the accounts whose role is not `pending`, the same list as the hook's active partition. |
| AdminDashboard.UserCounts | src/pages/AdminDashboard.tsx:301-308 | The "all" count is the number of accounts. The pending count is the size of the hook's pending partition, and the active count the size of its active partition, which is also the length of the active tab without a search. The inactive count is the number of pending-role accounts that have been updated. |
| AdminDashboard.CountsPartition | src/pages/AdminDashboard.tsx:304-306 | Pending, active and inactive counts add up to the number of accounts. |
| AdminDashboard.PendingTabListsInactiveToo | src/pages/AdminDashboard.tsx:278-306 | With no search, the pending tab lists as many accounts as the pending and inactive counts together, so its badge undercounts its list. |
| AdminDashboard.CountPendingRole | src/pages/AdminDashboard.tsx:304-306 | The accounts with role `pending` are exactly the pending ones plus the inactive ones. |
| AdminDashboard.FilteredListings | src/pages/AdminDashboard.tsx:292-299 | Without a search every listing is kept. Otherwise exactly the listings whose lower-cased make, model, year, VIN and dealer name contain the search, in their original order. |
| AdminDashboard.ListingFoundByMake | src/pages/AdminDashboard.tsx:296-297 | Searching for a listing's make, in any case, finds it. |
| AdminDashboard.OnUserChange | src/pages/AdminDashboard.tsx:93-101 | An insert adds the account. An update merges the whole row into the account with its id. A delete removes it. Invitations are untouched. |
| AdminDashboard.OnInviteChange | src/pages/AdminDashboard.tsx:104-114 | An insert adds the invitation. An update removes then re-adds it. A delete removes it. Accounts are untouched. |
| AdminDashboard.InviteUpdateLeavesOne | src/pages/AdminDashboard.tsx:107-110 | After an update event exactly one invitation has the id, and it is last. |
| AdminDashboard.UserUpdateReplacesRow | src/pages/AdminDashboard.tsx:96-97 | After an update event every held account with the row's id equals the row. |
| AdminDashboard.OrNull | src/pages/AdminDashboard.tsx:260-261 | A blank field becomes null. Anything else becomes its trimmed text. |
| AdminDashboard.EditRequest | src/pages/AdminDashboard.tsx:246-271 | The edit is refused exactly when the dealer name is blank. Otherwise it sends, for the edited id, the trimmed name, the phone and address cleared or trimmed, and the brands and role. It never sends the e-mail. |
| AdminDashboard.EditRequestIsTrimmed | src/pages/AdminDashboard.tsx:254-259 | An edit whose dealer name is not all whitespace is accepted, and the name it sends is non-empty and neither starts nor ends with whitespace. |
| AdminDashboard.TrimEnds | src/pages/AdminDashboard.tsx:259 | A non-empty trimmed text starts and ends with a non-space character. |
| AdminDashboard.EditPhoneIsTrimmed | src/pages/AdminDashboard.tsx:260 | A phone that is not all whitespace is sent non-empty and already trimmed. |
| AdminDashboard.InviteRequest | src/pages/AdminDashboard.tsx:154-168 | A blank address sends nothing. Any other address is sent trimmed. |
| Sorting.LexLessIrreflexive | src/pages/Inventory.tsx:99-101 | No string sorts before itself under the default string comparison. |
| Sorting.LexLessTransitive | src/pages/Inventory.tsx:99-101 | The default string comparison is transitive. |
| Sorting.LexLessTotal | src/pages/Inventory.tsx:99-101 | Of two different strings, one sorts before the other. |
| Sorting.LexLessIsStrictTotal | src/pages/Inventory.tsx:99-101 | The default string comparison is a strict total order. |
| Sorting.Insert | src/pages/Inventory.tsx:99-104 | Inserting into a strictly sorted sequence keeps it strictly sorted, with exactly the old elements and the new one. |
| Sorting.SortDistinct | src/pages/Inventory.tsx:99-104 | The result is strictly sorted, so no value repeats, and holds exactly the input's values. |
| Sorting.GreaterIsStrictTotal | src/pages/Inventory.tsx:103-104 | The comparison `(a, b) => b - a` orders years newest first as a strict total order. |
| ListingFilters.FilteredListings | src/pages/Inventory.tsx:73-96 | Exactly the listings whose make the dealer is assigned (every make for an administrator) and which pass the search, make and year filters, in their original order. |
| ListingFilters.BrandsBoundWhatDealersSee | src/pages/Inventory.tsx:73-82 | A non-administrator sees only listings of their own brands, whatever the filters. An administrator with empty filters sees every listing. |
| ListingFilters.YearFilterIsExact | src/pages/Inventory.tsx:93 | The year filter admits a listing exactly when its year is the chosen one. |
| ListingFilters.Makes | src/pages/Inventory.tsx:100 | The makes of the listings, one per listing, in order. |
| ListingFilters.Years | src/pages/Inventory.tsx:104 | The years of the listings, one per listing, in order. |
| ListingFilters.UniqueMakes | src/pages/Inventory.tsx:99-101 | Strictly sorted, so each make appears once. It holds exactly the listings' makes the profile may choose. |
| ListingFilters.UniqueYears | src/pages/Inventory.tsx:103-104 | Strictly descending, so each year appears once. It holds exactly the listings' years. |
| ListingFilters.SortedFilter | src/pages/Inventory.tsx:99-101 | Filtering a strictly sorted sequence keeps it strictly sorted. |
| ListingFilters.OnMarketplaceChange | src/pages/Inventory.tsx:48-56 | Only an insert of an available listing is added. An update goes through the hook's update with the whole row. A delete removes the listing. |
| ListingFilters.OnSearchingChange | src/pages/InSearchOf.tsx:42-47 | The wanted-vehicle page reloads on every kind of change. |
| ListingFilters.PageBody | src/pages/Inventory.tsx:106-119 | The no-brands notice shows exactly for a non-administrator without brands. Once loading ends the filtered listings show. |
| NewListing.Change | src/pages/NewListing.tsx:114-148 | A make change clears segment, model and model code. A segment or year change clears model and model code, and only a segment change asks for that segment's models. Any other edit sets its own field (a chosen model or model code, the VIN, the fee, the notes or the location) and keeps every other field. |
| NewListing.CascadeClearsStaleChoices | src/pages/NewListing.tsx:119-141 | After a make, segment or year edit no model or model code survives, and after a make edit no segment either. |
| NewListing.OtherEditsKeepChoices | src/pages/NewListing.tsx:142-147 | Editing any other field keeps the chosen model and model code. |
| NewListing.Submission | src/pages/NewListing.tsx:77-102 | The checks run in order: signed in, then model, then model code, then a known model. An accepted form yields a record with the chosen model's name, the form's make, year, segment, model and model code, and the status of its kind. A vehicle for sale also carries its details: an empty VIN and a zero fee as null, the notes, location and photo as they are. |
| NewListing.Submit | src/pages/NewListing.tsx:77-112 | A refused form raises its check's message, which is only logged, and creates nothing. An accepted one creates the record and navigates only when the creation returns a listing. |
| NewListing.SignInIsCheckedFirst | src/pages/NewListing.tsx:82 | A signed-out submit is refused for signing in, whatever the form. |
| NewListing.MakeChangeBlocksSubmit | src/pages/NewISOListing.tsx:71-73 | A form fresh from a make change asks for a model. |
| NewListing.OfferedBrands | src/pages/NewListing.tsx:66-71 | A failed read offers nothing. An administrator gets every brand read. Anyone else gets exactly the brands read whose names their profile lists, in the order read. |
| NewListing.OfferedBrandsGrowWithRole | src/pages/NewListing.tsx:66-71 | Without a profile nothing is offered. Making a profile an administrator offers every brand read, a superset of what the dealer was offered. |
| ChatPages.AgeOf | src/pages/ChatsListPage.tsx:36-51 | Under a minute is "Just now", and so is a negative age. Then whole minutes below an hour, hours below a day, days below a week, each within its bucket's bounds. From a week on, the locale date. |
| ChatPages.ListTimestamp | src/pages/ChatsListPage.tsx:31-52 | A missing or empty timestamp shows nothing. Any other shows its age's text. |
| ChatPages.AgeTextReadsBack | src/pages/ChatsListPage.tsx:36-51 | `AgeText` names its age: "Just now" under a minute, the locale date from a week on, and in between the count, read back from its digits, followed by `m`, `h` or `d` as the bucket says and " ago". |
| ChatPages.AgeBoundaries | src/pages/ChatPage.tsx:98-108 | The unit switches exactly at one minute, one hour, one day and one week. |
| ChatPages.Truncate | src/pages/ChatsListPage.tsx:55-61 | A missing message shows nothing. One within the limit shows unchanged. A longer one shows its first `max` characters followed by "...". |
| ChatPages.TruncateIdempotent | src/pages/ChatsListPage.tsx:55-61 | Truncating a preview again changes nothing. |
| ChatPages.Outgoing | src/pages/ChatPage.tsx:68-79 | A blank draft sends nothing. Any other draft is sent as typed, untrimmed. |
| ChatPages.LoadMoreCursor | src/pages/ChatPage.tsx:82-87 | History is asked for exactly when more exists, nothing loads and some message is held. The cursor is the last held message's time. |
| ChatPages.NextCursorIsOldestOfPage | src/pages/ChatPage.tsx:82-87 | After a non-empty page is loaded, the next cursor is the time of that page's last message. |
| ChatPages.BackLink | src/pages/ChatPage.tsx:116-124 | A listing chat leads back to the listing. A wanted-vehicle chat leads back to the wanted vehicle. Any other leads to the chat list. |
| NotificationsPage.Counted | src/pages/Notifications.tsx:43-47 | A count of one reads in the singular. Every other count takes a plural "s". |
| NotificationsPage.FormatDate | src/pages/Notifications.tsx:32-55 | Under a minute is "Just now" and from a week on the locale date. In between, the whole number of minutes below an hour, of hours below a day and of days below a week, counted in words with a plural "s" for every count but one. |
| NotificationsPage.PluralOnlyForOthers | src/pages/Notifications.tsx:43 | In the minutes bucket the text is "1 minute ago" exactly during the second minute. |
| NotificationsPage.IconColour | src/pages/Notifications.tsx:57-66 | Blue exactly for messages and green exactly for listings. Anything else, a missing type included, is gray. |
| NotificationsPage.OnClick | src/pages/Notifications.tsx:69-82 | A notification without an id does nothing. Otherwise it is marked read exactly when it was unread, and its action link is followed exactly when it is non-empty. |
| NotificationsPage.ClickWritesAreGuarded | src/pages/Notifications.tsx:76-78 | A click's write always passes the hook's guard for a signed-in user. |
| NotificationsPage.MarkAllEnabled | src/pages/Notifications.tsx:97-99 | The button is enabled exactly when nothing loads and some notification is unread. |
| ProfilePage.OrEmpty | src/pages/Profile.tsx:45-54 | A present column shows its value. A missing one shows empty. |
| ProfilePage.FormOf | src/pages/Profile.tsx:45-54 | The form shows the profile's e-mail, and its dealer name, phone and address where present. Each missing column shows empty text. |
| ProfilePage.OnUserChange | src/pages/Profile.tsx:57-79 | Only an update of the user's own row refills the form, discarding unsaved edits. Any other event leaves the form alone. |
| ProfilePage.Updates | src/pages/Profile.tsx:96-100 | The submit writes the trimmed dealer name, phone and address, an empty one as the empty string. It writes no other column. |
| ProfilePage.Submit | src/pages/Profile.tsx:81-113 | The user is checked first, then the dealer name. A write is sent exactly when both pass, for the user's id and with the trimmed fields. The submit succeeds exactly when the write does. |
| ProfilePage.SavedFormEchoesTrimmed | src/pages/Profile.tsx:57-100 | When a signed-in user with a non-blank dealer name saves successfully and the write comes back as the user's own update, the form shows the trimmed values and the unchanged e-mail. |
| ProfilePage.BlankPhoneDiffersFromAdminEdit | src/pages/Profile.tsx:98 | A blank phone is stored as the empty string from this page, but as null from the administrator's edit. |
| ProfilePage.ChangePassword | src/pages/Profile.tsx:115-145 | A mismatch is reported before a short password, and neither sends anything. A matching password of six or more characters sends one request. The fields are cleared exactly on success. |
| ProfilePage.PasswordFailureText | src/pages/Profile.tsx:124-144 | A failed update shows the caught message, or "Failed to update password. Please try again." for a failure that is not an `Error`, and keeps the fields. |
| AppShell.Installed | src/App.tsx:87-99 | One listener per activity event, the visibility listener, and nothing else. |
| AppShell.Mount | src/App.tsx:64-101 | The listeners are installed and the watchdog is armed 20 minutes after the mount. |
| AppShell.Activity | src/App.tsx:71-85 | An activity records its time and replaces the pending watchdog. Listeners are untouched. |
| AppShell.Fire | src/App.tsx:78-84 | Before its due time the watchdog does nothing. When due it is spent, and it asks for a refresh exactly when the last activity is under a minute old. |
| AppShell.WatchdogNeverRefreshes | src/App.tsx:78-84 | An armed watchdog never asks for a refresh: when it fires, the last activity is at least 20 minutes old. |
| AppShell.StepsKeepArmed | src/App.tsx:64-101 | Mounting, activity and firing all leave the watchdog armed relative to the last activity. |
| AppShell.VisibilityChange | src/App.tsx:92-97 | A hidden tab does nothing. A visible one leaves the auth state and the number of reads exactly as the store's throttled refetch does. |
| AppShell.Cleanup | src/App.tsx:103-116 | No timer is left pending and no listener is left installed. |
| AppShell.CleanupUndoesMount | src/App.tsx:64-116 | After cleanup, none of the mounted listeners remains and no timer can fire. |
| AppShell.ChatEffect | src/App.tsx:120-124 | Without a user id nothing happens. With one, the chat notifications are subscribed for it. |
| AppShell.UserChanged | src/App.tsx:120-128 | On sign-out the previous subscription is dropped and none is made. |
| AppShell.SubscriptionFollowsUser | src/App.tsx:120-128 | After sign-out no channel is held. After a switch of user, the held channel is registered and named for the new user. |
| ActivityTimer.TouchKeepsArmed | src/lib/AuthProvider.tsx:50-63 | `Armed`: an activity, and a cancel after one, leave any pending timer due exactly one period after the last activity. |

## Left out

- Remote calls, storage and the realtime socket are not executed. Every reply is an input of type `Reply<T>`, and a channel is a numbered entry in `Network.Conn`. The hosted client is assumed to create a fresh channel handle on every `channel(name)` call.
- Timers, intervals, event listeners and React effect scheduling appear only as explicit transitions: tick, fire, mount, cleanup and the like. Time is an integer count of milliseconds passed in by the caller. Concurrency between pending promises is not modelled. Each operation runs to completion with the replies it is given.
- `Math.random` jitter is a parameter in [0, 1000). The waits are reals, and the delays are not rounded to timer precision.
- Floating-point formatting (`toFixed`, upload percentages) and canvas/WebP image re-encoding are left out. The image optimiser is modelled only as its file-name rewrite and its fall-back to the original file.
- `toLocaleDateString` is an opaque text parameter. `toLowerCase` is modelled on ASCII letters only. Strings are sequences of characters rather than UTF-16 code units, and string sorting compares characters.
- The Zod schemas and the e-mail and URL checks are plain predicates. The URL check is an opaque input.
- localStorage and sessionStorage writes are left out: the auth store's persisted slice and its rehydration, the analytics queue's saved copy, and the storage clearing on sign-out. The analytics queue is the in-memory sequence, and the saved copy is read back only in `Analytics.Restore`.
- The browser Notification API, `console` logging and the toast wrappers are left out. A toast is recorded as a value only where it marks a branch.
- The vehicle-data hook (`fetchSegments` and `fetchModels`) and `useAdmin`'s `loadBrands` only read a table into state; the models they return are inputs.
- The mount effects of `useAdmin`, `useNotifications` and `ChatPage`, and the plain setters and `clearError` of every store, only assign fields or call the modelled operations. Each is left out.
- `createListing` of the listing store used by the two listing forms is not part of this model. Its result is the `created` parameter of `NewListing.Submit`.
- The administration page's listing change handler passes the whole changed row to `updateListing`. It is not modelled separately; `ListingFilters.OnMarketplaceChange` states the same rule for the marketplace page.
- The presentational pages and components (JSX, styling, the navigation bar's badges, the spinner, SEO, the error boundary, the network-status banner) and the pages without logic are left out. So are the thin service wrappers that only compose retry, timeout and a query, the type-only files and the test files.
- ListingFilters.OnSearchingChange: states only that the wanted-vehicle page reloads on every change; the reload itself is `UseListings.Load`.
- ImageLoader.ErrorText: shows the size limit in whole mebibytes, truncated; the source divides as a float, so a limit of 2.5 MiB reads "2.5MB" there and "2MB" here.
- UtilsErrors.CodeNeverShown: covers only objects with a message or a string `error` field. The JSON rendering of any other object is a free text field here, while in the source it shows the code.
- AppShell.Mount: leaves out the `startHeartbeat` and `startRealtimeMonitoring` calls of the mount effect, and AppShell.Cleanup their stop calls (src/App.tsx:65-66, 105-106). Those transitions are `Heartbeat.Start`/`Heartbeat.Stop` and `RealtimeManager.StartMonitoring`/`RealtimeManager.StopMonitoring`, and the shell's contract keeps to its timer and listeners.
- AdminDashboard.EditRequest: does not model the `!editingUser.id` guard. An edit of an account whose id is empty is sent here, where the source returns without sending or reporting anything.
- ChatStore.FetchHistory: the `before` cursor is an opaque text. The `RangeError` that `new Date(before).toISOString()` throws for a text that is not a date is not modelled.
- ChatStore.GetOrCreateResourceChannel: passes the failure's message on to the caller, where the source rethrows the caught value itself.
- NewListing.Change, NewListing.Submission: the year and PDI fee fields are integers. The source converts them with `Number(value)` (src/pages/NewListing.tsx:138, 145), which can give a fraction such as 12.5 or `NaN`. A `NaN` fee is falsy, so `pdi_fee || null` sends null; neither case is representable here.
- ChatPages.AgeOf, NotificationsPage.FormatDate: the age is an integer count of milliseconds. A timestamp that does not parse makes it `NaN` in the source, every bucket comparison fails, and the text falls through to the locale date (of an invalid date). That case is not representable here.
- UseNotifications: the `isMounted` ref is cleared by the clean-up of either effect (src/hooks/useNotifications.ts:65, 81) and nothing sets it back. After a `userId` change, every later guarded update of the same hook instance is therefore skipped. The model does not track the ref: `mounted` is a parameter of each operation, and a caller following the source passes `false` from then on.
- The shell's route effect (src/App.tsx:60-62) calls `trackPageView(location.pathname)` on every route change. Only the call itself is modelled, as `Analytics.TrackPageView`; the effect that makes it is not.

=== FILE: activity_timer.dfy ===
/** A one-shot timer re-armed by user activity, as both the session provider
    (inactivity warning) and the application shell (session watchdog) keep
    one: every activity event records the time and replaces the pending timer
    by a new one due a fixed period later. */
module ActivityTimer {
  import opened Wrappers

  /** The time of the last activity and the due time of the pending timer. */
  datatype Timer = Timer(lastActivity: int, due: Option<int>)

  /** An activity event at `now`: record it, clear the pending timer, arm a
      new one `period` later. */
  function Touch(t: Timer, now: int, period: nat): (r: Timer)
    ensures r.lastActivity == now && r.due == Some(now + period)
  {
    Timer(now, Some(now + period))
  }

  /** Cleanup: the pending timer is cleared. */
  function Cancel(t: Timer): (r: Timer)
    ensures r.due.None? && r.lastActivity == t.lastActivity
  {
    t.(due := None)
  }

  /** A timer can fire at `now` when one is pending and its time has come. */
  predicate CanFire(t: Timer, now: int) {
    t.due.Some? && now >= t.due.value
  }

  /** The state every sequence of activity events leaves: the pending timer,
      if any, is due exactly `period` after the last activity. */
  ghost predicate Armed(t: Timer, period: nat) {
    t.due.Some? ==> t.due.value == t.lastActivity + period
  }

  /** The activity events keep the timer armed relative to the last activity. */
  lemma TouchKeepsArmed(t: Timer, now: int, period: nat)
    ensures Armed(Touch(t, now, period), period) && Armed(Cancel(Touch(t, now, period)), period)
  {
  }

  /** After an activity at `now` the timer fires at `later` exactly when a
      full period has passed; after a cleanup it never fires. */
  lemma FiringWindow(t: Timer, now: int, period: nat, later: int)
    ensures CanFire(Touch(t, now, period), later) <==> later - now >= period
    ensures !CanFire(Cancel(t), later)
  {
  }

  /** When an armed timer fires, at least `period` has passed since the last
      activity, and exactly `period` when it fires on time. */
  lemma ElapsedAtFiring(t: Timer, now: int, period: nat)
    requires Armed(t, period) && CanFire(t, now)
    ensures now - t.lastActivity >= period
    ensures now == t.due.value <==> now - t.lastActivity == period
  {
  }
}

=== FILE: admin_dashboard.dfy ===
/** The administrator dashboard's own logic: the account list filtered by
    status tab and search text, the tab counts, the listing search, the
    handling of realtime account and invitation changes, and the checks
    before an account edit or an invitation is sent. */
module AdminDashboard {
  import opened Wrappers
  import opened Seqs
  import opened Text
  import opened Records
  import opened ChangeEvents
  import AS = AdminStore
  import UseAdmin

  datatype UserStatus = AllUsers | PendingTab | ActiveTab | InactiveTab

  /** An account updated since it was created while still `pending`: a
      rejected dealer. */
  predicate IsInactive(u: Profile) {
    u.role == "pending" && u.updatedAt != u.createdAt
  }

  /** The text an account search looks in: e-mail, dealer name, phone and
      address, space-separated, lower-cased; missing parts are empty. */
  function UserSearchText(u: Profile): string {
    Lower(u.email + " " + u.dealerName.GetOr("") + " " + u.phone.GetOr("") + " " + u.address.GetOr(""))
  }

  /** Whether the status tab admits the account. The pending and inactive
      tabs test the role only. */
  predicate TabAdmits(u: Profile, status: UserStatus) {
    match status
    case AllUsers => true
    case PendingTab => u.role == "pending"
    case ActiveTab => u.role != "pending"
    case InactiveTab => u.role == "pending"
  }

  predicate KeepsUser(u: Profile, status: UserStatus, term: string) {
    TabAdmits(u, status) && (term == "" || Contains(UserSearchText(u), Lower(term)))
  }

  /** `getFilteredUsers()`. */
  function FilteredUsers(users: seq<Profile>, status: UserStatus, term: string): (r: seq<Profile>)
    ensures term == "" && status == AllUsers ==> r == users
    ensures forall k :: 0 <= k < |r| ==> r[k] in users && KeepsUser(r[k], status, term)
    ensures forall k :: 0 <= k < |users| && KeepsUser(users[k], status, term) ==> users[k] in r
    ensures IsSubsequence(r, users)
  {
    if term == "" && status == AllUsers then
      SubsequenceOfSelf(users);
      users
    else
      Filter(users, (u: Profile) => KeepsUser(u, status, term))
  }

  /** The pending and inactive tabs list the same accounts, whatever the
      search: every account whose role is `pending`. */
  lemma PendingAndInactiveTabsAgree(users: seq<Profile>, term: string)
    ensures FilteredUsers(users, PendingTab, term) == FilteredUsers(users, InactiveTab, term)
  {
    FilterExtensional(users, (u: Profile) => KeepsUser(u, PendingTab, term), (u: Profile) => KeepsUser(u, InactiveTab, term));
  }

  datatype Counts = Counts(all: nat, pending: nat, active: nat, inactive: nat)

  /** `getUserCounts()`: each count is the length of its filter; the active
      count is also the length of the active tab without a search. */
  function UserCounts(users: seq<Profile>): (r: Counts)
    ensures r.all == |users|
    ensures r.pending == |UseAdmin.PendingOf(users)|
    ensures r.active == |UseAdmin.ActiveOf(users)| == |FilteredUsers(users, ActiveTab, "")|
    ensures r.inactive == |Filter(users, IsInactive)|
  {
    FilterLength(users, UseAdmin.IsPending);
    FilterLength(users, UseAdmin.IsActive);
    FilterLength(users, IsInactive);
    ActiveTabIsActiveOf(users);
    Counts(|users|, Count(users, UseAdmin.IsPending), Count(users, UseAdmin.IsActive), Count(users, IsInactive))
  }

  /** With no search, the active tab lists exactly the store's active accounts. */
  lemma ActiveTabIsActiveOf(users: seq<Profile>)
    ensures FilteredUsers(users, ActiveTab, "") == UseAdmin.ActiveOf(users)
  {
    FilterExtensional(users, UseAdmin.IsActive, (u: Profile) => KeepsUser(u, ActiveTab, ""));
  }

  /** Every account is counted under exactly one of pending, active and inactive. */
  lemma {:induction false} CountsPartition(users: seq<Profile>)
    ensures var c := UserCounts(users); c.pending + c.active + c.inactive == c.all
    decreases |users|
  {
    if |users| > 0 {
      CountsPartition(users[1..]);
    }
  }

  /** The pending tab's count leaves out the inactive accounts its list
      shows: with no search, the list has pending plus inactive entries. */
  lemma {:induction false} PendingTabListsInactiveToo(users: seq<Profile>)
    ensures |FilteredUsers(users, PendingTab, "")| == UserCounts(users).pending + UserCounts(users).inactive
  {
    var p := (u: Profile) => KeepsUser(u, PendingTab, "");
    FilterLength(users, p);
    CountPendingRole(users, p);
  }

  lemma {:induction false} CountPendingRole(users: seq<Profile>, p: Profile -> bool)
    requires forall u :: p(u) == (u.role == "pending")
    ensures Count(users, p) == Count(users, UseAdmin.IsPending) + Count(users, IsInactive)
    decreases |users|
  {
    if |users| > 0 {
      CountPendingRole(users[1..], p);
    }
  }

  /** The text a listing search looks in: make, model, year, VIN and
      dealer name, space-separated, lower-cased. */
  function ListingSearchText(l: Listing): string {
    Lower(l.make + " " + l.model + " " + IntToString(l.year) + " " + l.vin.GetOr("") + " " + l.dealerName.GetOr(""))
  }

  predicate ListingMatches(l: Listing, term: string) {
    Contains(ListingSearchText(l), Lower(term))
  }

  /** `getFilteredListings()`: all listings without a search, otherwise those
      whose search text contains it, in their order. */
  function FilteredListings(ls: seq<Listing>, term: string): (r: seq<Listing>)
    ensures term == "" ==> r == ls
    ensures forall k :: 0 <= k < |r| ==> r[k] in ls && ListingMatches(r[k], term)
    ensures forall k :: 0 <= k < |ls| && ListingMatches(ls[k], term) ==> ls[k] in r
    ensures IsSubsequence(r, ls)
  {
    if term == "" then
      SubsequenceOfSelf(ls);
      ls
    else
      Filter(ls, (l: Listing) => ListingMatches(l, term))
  }

  /** A listing is found by its make, whatever the case of the search. */
  lemma ListingFoundByMake(l: Listing)
    ensures ListingMatches(l, l.make)
  {
    var t := ListingSearchText(l);
    assert t[..|l.make|] == Lower(l.make);
    assert StartsWith(t, Lower(l.make));
  }

  /** The realtime account handler: an insert appends, an update merges the
      whole row into the account with its id, a delete removes it. */
  function OnUserChange(st: AS.Store, kind: ChangeKind, u: Profile): (r: AS.Store)
    ensures kind == Insert ==> r == AS.AddUser(st, u)
    ensures kind == Update ==> r == AS.UpdateUserInStore(st, u.id, FullProfile(u))
    ensures kind == Delete ==> r == AS.RemoveUser(st, u.id)
    ensures r.pendingInvites == st.pendingInvites
  {
    match kind
    case Insert => AS.AddUser(st, u)
    case Update => AS.UpdateUserInStore(st, u.id, FullProfile(u))
    case Delete => AS.RemoveUser(st, u.id)
  }

  /** The realtime invitation handler: an update removes the invitation and
      appends the new row. */
  function OnInviteChange(st: AS.Store, kind: ChangeKind, inv: Invitation): (r: AS.Store)
    ensures kind == Insert ==> r == AS.AddInvite(st, inv)
    ensures kind == Update ==> r == AS.AddInvite(AS.RemoveInvite(st, inv.id), inv)
    ensures kind == Delete ==> r == AS.RemoveInvite(st, inv.id)
    ensures r.users == st.users
  {
    match kind
    case Insert => AS.AddInvite(st, inv)
    case Update => AS.AddInvite(AS.RemoveInvite(st, inv.id), inv)
    case Delete => AS.RemoveInvite(st, inv.id)
  }

  /** An update event for any invitation leaves exactly one invitation with
      its id, at the end of the list. */
  lemma InviteUpdateLeavesOne(st: AS.Store, inv: Invitation)
    ensures var s := OnInviteChange(st, Update, inv).pendingInvites;
      |s| > 0 && s[|s| - 1] == inv && Count(s, (i: Invitation) => i.id == inv.id) == 1
  {
    AS.ReplaceInviteLeavesOne(st, inv);
  }

  /** An updated account row replaces the held one entirely. */
  lemma UserUpdateReplacesRow(st: AS.Store, u: Profile)
    ensures forall k :: 0 <= k < |st.users| && st.users[k].id == u.id ==> OnUserChange(st, Update, u).users[k] == u
  {
    forall k | 0 <= k < |st.users| && st.users[k].id == u.id ensures OnUserChange(st, Update, u).users[k] == u {
      MergeProfileLaws(st.users[k], u, FullProfile(u));
    }
  }

  /** The account being edited, as the form holds it. */
  datatype EditingUser = EditingUser(id: string, dealerName: string, phone: string, address: string,
                                     brands: seq<string>, role: string)

  /** A trimmed optional field: empty text becomes `null`. */
  function OrNull(s: string): (r: Option<string>)
    ensures r.None? <==> Trim(s) == []
    ensures r.Some? ==> r.value == Trim(s)
  {
    if Trim(s) == [] then None else Some(Trim(s))
  }

  /** `handleUpdateUserDetails`: a blank dealer name is refused before
      anything is sent; otherwise the account is updated with the trimmed
      name, phone and address (empty ones cleared), brands and role. */
  function EditRequest(e: EditingUser): (r: Result<(string, ProfilePatch), string>)
    ensures r.Err? <==> IsBlank(e.dealerName)
    ensures r.Err? ==> r.error == "Dealer name is required"
    ensures r.Ok? ==> (
      r.value.0 == e.id && r.value.1.dealerName == Some(Some(Trim(e.dealerName)))
      && r.value.1.phone == Some(OrNull(e.phone)) && r.value.1.address == Some(OrNull(e.address))
      && r.value.1.brands == Some(e.brands) && r.value.1.role == Some(e.role) && r.value.1.email.None?)
  {
    if IsBlank(e.dealerName) then Err("Dealer name is required")
    else Ok((e.id, ProfilePatch(None, Some(e.role), None, None, Some(Some(Trim(e.dealerName))),
                                Some(OrNull(e.phone)), Some(OrNull(e.address)), Some(e.brands))))
  }

  /** An edit whose dealer name is not all whitespace is accepted, and names
      a dealer with no surrounding whitespace. */
  lemma EditRequestIsTrimmed(e: EditingUser)
    requires !AllSpace(e.dealerName)
    ensures var n := EditRequest(e).value.1.dealerName.value.value;
      |n| > 0 && !IsSpace(n[0]) && !IsSpace(n[|n| - 1])
  {
    var n := Trim(e.dealerName);
    assert !IsBlank(e.dealerName);
    assert |n| > 0;
    TrimEnds(e.dealerName);
    assert EditRequest(e).value.1.dealerName == Some(Some(n));
  }

  lemma TrimEnds(s: string)
    ensures var n := Trim(s); |n| > 0 ==> !IsSpace(n[0]) && !IsSpace(n[|n| - 1])
  {
  }

  /** A phone number that is not all whitespace is sent, non-empty and with
      no surrounding whitespace left to trim. */
  lemma EditPhoneIsTrimmed(e: EditingUser)
    requires !AllSpace(e.dealerName) && !AllSpace(e.phone)
    ensures var ph := EditRequest(e).value.1.phone.value.value;
      Trim(ph) == ph && ph != []
  {
    TrimIdempotent(e.phone);
  }

  /** `handleCreateInvitation`: a blank address sends nothing; otherwise the
      trimmed address is sent. */
  function InviteRequest(email: string): (r: Option<string>)
    ensures r.None? <==> IsBlank(email)
    ensures r.Some? ==> r.value == Trim(email)
  {
    if IsBlank(email) then None else Some(Trim(email))
  }
}

=== FILE: admin_store.dfy ===
/** The administrator's store: all accounts, the pending and active
    partitions the admin hook derives, and the open invitations. Its updates
    are plain list operations: appends without de-duplication, merge by id,
    removal by id. */
module AdminStore {
  import opened Wrappers
  import opened Seqs
  import opened Records

  datatype Store = Store(users: seq<Profile>, pendingUsers: seq<Profile>, activeUsers: seq<Profile>,
                         pendingInvites: seq<Invitation>, loading: bool, error: Option<string>)

  const Empty := Store([], [], [], [], false, None)

  /** `addUser(user)`: appended, even if an account with its id is held. */
  function AddUser(st: Store, u: Profile): (r: Store)
    ensures |r.users| == |st.users| + 1 && r.users[..|st.users|] == st.users && r.users[|st.users|] == u
    ensures r.pendingUsers == st.pendingUsers && r.activeUsers == st.activeUsers && r.pendingInvites == st.pendingInvites
  {
    st.(users := st.users + [u])
  }

  /** `updateUserInStore(id, updates)`: merged into every account with the
      id, in place; the pending and active partitions are not touched. */
  function UpdateUserInStore(st: Store, id: string, p: ProfilePatch): (r: Store)
    ensures |r.users| == |st.users|
    ensures forall k :: 0 <= k < |st.users| ==> r.users[k] == (if st.users[k].id == id then MergeProfile(st.users[k], p) else st.users[k])
    ensures r.pendingUsers == st.pendingUsers && r.activeUsers == st.activeUsers && r.pendingInvites == st.pendingInvites
  {
    st.(users := seq(|st.users|, k requires 0 <= k < |st.users| =>
      if st.users[k].id == id then MergeProfile(st.users[k], p) else st.users[k]))
  }

  /** `users.filter(u => u.id !== id)`. */
  function UsersWithout(s: seq<Profile>, id: string): (r: seq<Profile>)
    ensures forall k :: 0 <= k < |r| ==> r[k].id != id && r[k] in s
    ensures forall k :: 0 <= k < |s| && s[k].id != id ==> s[k] in r
    ensures IsSubsequence(r, s)
  {
    Filter(s, (u: Profile) => u.id != id)
  }

  /** `removeUser(id)`: every account with the id dropped, the others kept in order. */
  function RemoveUser(st: Store, id: string): (r: Store)
    ensures r.users == UsersWithout(st.users, id)
    ensures r.pendingUsers == st.pendingUsers && r.activeUsers == st.activeUsers && r.pendingInvites == st.pendingInvites
  {
    st.(users := UsersWithout(st.users, id))
  }

  /** `addInvite(invite)`: appended without de-duplication. */
  function AddInvite(st: Store, inv: Invitation): (r: Store)
    ensures r.pendingInvites == st.pendingInvites + [inv]
    ensures r.users == st.users
  {
    st.(pendingInvites := st.pendingInvites + [inv])
  }

  /** `pendingInvites.filter(i => i.id !== id)`. */
  function InvitesWithout(s: seq<Invitation>, id: string): (r: seq<Invitation>)
    ensures forall k :: 0 <= k < |r| ==> r[k].id != id && r[k] in s
    ensures forall k :: 0 <= k < |s| && s[k].id != id ==> s[k] in r
    ensures IsSubsequence(r, s)
  {
    Filter(s, (i: Invitation) => i.id != id)
  }

  /** `removeInvite(id)`. */
  function RemoveInvite(st: Store, id: string): (r: Store)
    ensures r.pendingInvites == InvitesWithout(st.pendingInvites, id)
    ensures r.users == st.users
  {
    st.(pendingInvites := InvitesWithout(st.pendingInvites, id))
  }

  /** Removing a user twice is removing once. */
  lemma RemoveUserIdempotent(st: Store, id: string)
    ensures RemoveUser(RemoveUser(st, id), id) == RemoveUser(st, id)
  {
    var once := UsersWithout(st.users, id);
    FilterAll(once, (u: Profile) => u.id != id);
  }

  /** Adding a user already held leaves two entries with its id. */
  lemma AddUserDuplicates(st: Store, u: Profile)
    requires u in st.users
    ensures Count(AddUser(st, u).users, (x: Profile) => x.id == u.id) >= 2
  {
    var s := AddUser(st, u).users;
    var k :| 0 <= k < |st.users| && st.users[k] == u;
    assert s == st.users + [u];
    CountAppend(st.users, [u], (x: Profile) => x.id == u.id);
    assert Count(st.users, (x: Profile) => x.id == u.id) >= 1;
  }

  /** Replacing an invitation (remove, then add the new row) leaves exactly
      one invitation with its id, the last one. */
  lemma ReplaceInviteLeavesOne(st: Store, inv: Invitation)
    ensures var s := AddInvite(RemoveInvite(st, inv.id), inv).pendingInvites;
      |s| > 0 && s[|s| - 1] == inv && Count(s, (i: Invitation) => i.id == inv.id) == 1
  {
    var rest := InvitesWithout(st.pendingInvites, inv.id);
    var s := rest + [inv];
    CountAppend(rest, [inv], (i: Invitation) => i.id == inv.id);
    assert Count(rest, (i: Invitation) => i.id == inv.id) == 0;
    assert Count([inv], (i: Invitation) => i.id == inv.id) == 1;
  }
}

=== FILE: analytics.dfy ===
/** Analytics with an offline queue. Events and error reports are delivered
    (logged) at once when the browser is online; offline, they are queued
    when the caller allows it, and the queue is replayed in order when the
    browser comes back online. The queue is restored from local storage at
    start-up, so its entries are whatever JSON was saved there: an entry may
    be falsy, may carry an unknown type, or may carry data that is not an
    object, on which setting the timestamp throws. */
module Analytics {
  import opened Wrappers

  datatype Event = Event(category: string, action: string, eventLabel: Option<string>, value: Option<int>,
                         nonInteraction: Option<bool>, timestamp: Option<string>)

  datatype ErrorReport = ErrorReport(name: string, message: string, componentStack: Option<string>,
                                     boundary: Option<string>, timestamp: Option<string>)

  /** The `data` of a queued entry: an object, or something else (`null`, a number, ...). */
  datatype Data<T> = Obj(value: T) | NotObject

  /** A queued entry: a falsy value, `{type: 'event'|'error', data}`, or an
      object of some other type. */
  datatype Entry = Falsy | EventEntry(event: Data<Event>) | ErrorEntry(report: Data<ErrorReport>) | OtherEntry

  /** What reached the log. */
  datatype Delivered = DeliveredEvent(e: Event) | DeliveredError(x: ErrorReport)

  datatype State = State(queue: seq<Entry>, delivered: seq<Delivered>)

  /** What `JSON.parse` made of the saved queue. */
  datatype Saved = NothingSaved | Unparsable | NotAnArray | SavedArray(entries: seq<Entry>)

  /** The module's start-up: an array saved in local storage becomes the
      queue; anything else leaves it empty. */
  function Restore(saved: Saved): (r: State)
    ensures r.delivered == []
    ensures saved.SavedArray? ==> r.queue == saved.entries
    ensures !saved.SavedArray? ==> r.queue == []
  {
    State(if saved.SavedArray? then saved.entries else [], [])
  }

  /** A missing or empty timestamp is replaced by the current time; a
      present one is kept. */
  function StampText(t: Option<string>, now: string): (r: Option<string>)
    ensures t.Some? && t.value != "" ==> r == t
    ensures t.None? || t.value == "" ==> r == Some(now)
  {
    if t.None? || t.value == "" then Some(now) else t
  }

  /** An event as it is logged or queued: only its timestamp may change,
      and only when it had none. */
  function StampEvent(e: Event, now: string): (r: Event)
    ensures r == e.(timestamp := r.timestamp)
    ensures e.timestamp.Some? && e.timestamp.value != "" ==> r == e
    ensures e.timestamp.None? || e.timestamp.value == "" ==> r.timestamp == Some(now)
  {
    e.(timestamp := StampText(e.timestamp, now))
  }

  /** An error report as it is logged or queued, stamped the same way. */
  function StampReport(x: ErrorReport, now: string): (r: ErrorReport)
    ensures r == x.(timestamp := r.timestamp)
    ensures x.timestamp.Some? && x.timestamp.value != "" ==> r == x
    ensures x.timestamp.None? || x.timestamp.value == "" ==> r.timestamp == Some(now)
  {
    x.(timestamp := StampText(x.timestamp, now))
  }

  /** Stamping at a non-empty time is final: a later stamp keeps the first
      one, which is why a replayed entry carries the time it was queued. */
  lemma StampingIsFinal(e: Event, x: ErrorReport, now: string, later: string)
    requires now != ""
    ensures StampEvent(StampEvent(e, now), later) == StampEvent(e, now)
    ensures StampReport(StampReport(x, now), later) == StampReport(x, now)
  {
  }

  /** `sendEvent(event, queueIfOffline)`. Online, the stamped event is
      delivered, unless logging it throws, in which case it is queued when
      `queueIfOffline`. Offline, it is queued exactly when `queueIfOffline`. */
  function SendEvent(st: State, e: Event, queueIfOffline: bool, online: bool, logFails: bool, now: string): (r: State)
    ensures online && !logFails ==> r == st.(delivered := st.delivered + [DeliveredEvent(StampEvent(e, now))])
    ensures (!online || logFails) && queueIfOffline ==> r == st.(queue := st.queue + [EventEntry(Obj(StampEvent(e, now)))])
    ensures (!online || logFails) && !queueIfOffline ==> r == st
  {
    var stamped := StampEvent(e, now);
    if online && !logFails then st.(delivered := st.delivered + [DeliveredEvent(stamped)])
    else if queueIfOffline then st.(queue := st.queue + [EventEntry(Obj(stamped))])
    else st
  }

  /** `sendError(report, queueIfOffline)`, with the same policy. */
  function SendError(st: State, x: ErrorReport, queueIfOffline: bool, online: bool, logFails: bool, now: string): (r: State)
    ensures online && !logFails ==> r == st.(delivered := st.delivered + [DeliveredError(StampReport(x, now))])
    ensures (!online || logFails) && queueIfOffline ==> r == st.(queue := st.queue + [ErrorEntry(Obj(StampReport(x, now)))])
    ensures (!online || logFails) && !queueIfOffline ==> r == st
  {
    var stamped := StampReport(x, now);
    if online && !logFails then st.(delivered := st.delivered + [DeliveredError(stamped)])
    else if queueIfOffline then st.(queue := st.queue + [ErrorEntry(Obj(stamped))])
    else st
  }

  /** `trackPageView(path)`. */
  function TrackPageView(st: State, path: string, online: bool, logFails: bool, now: string): (r: State)
    ensures online && !logFails ==> (
      |r.delivered| == |st.delivered| + 1 && r.queue == st.queue
      && r.delivered[|st.delivered|] == DeliveredEvent(Event("navigation", "page_view", Some(path), None, None, Some(now))))
    ensures !online || logFails ==> (
      r.delivered == st.delivered
      && r.queue == st.queue + [EventEntry(Obj(Event("navigation", "page_view", Some(path), None, None, Some(now))))])
  {
    SendEvent(st, Event("navigation", "page_view", Some(path), None, None, None), true, online, logFails, now)
  }

  /** An entry on which replaying throws: an event or error whose data is
      not an object. */
  predicate Poisoned(x: Entry) {
    (x.EventEntry? && x.event.NotObject?) || (x.ErrorEntry? && x.report.NotObject?)
  }

  /** What replaying one well-formed entry delivers, with `queueIfOffline`
      false: a failing log drops it. */
  function Replayed(x: Entry, logFails: bool, now: string): (r: seq<Delivered>)
    requires !Poisoned(x)
    ensures |r| <= 1
    ensures logFails || x.Falsy? || x.OtherEntry? ==> r == []
  {
    if logFails then []
    else match x
      case EventEntry(d) => [DeliveredEvent(StampEvent(d.value, now))]
      case ErrorEntry(d) => [DeliveredError(StampReport(d.value, now))]
      case _ => []
  }

  /** The reference meaning of a replay of `q`: entries are taken from the
      front in order; falsy and unknown entries are dropped; the first
      poisoned entry stops the replay and stays at the front with everything
      after it. Returns what remains and what was delivered. */
  function Drain(q: seq<Entry>, logFails: bool, now: string): (r: (seq<Entry>, seq<Delivered>))
    ensures |r.0| <= |q| && r.0 == q[|q| - |r.0|..]
    ensures r.0 == [] || Poisoned(r.0[0])
    decreases |q|
  {
    if |q| == 0 then ([], [])
    else if Poisoned(q[0]) then (q, [])
    else
      var rest := Drain(q[1..], logFails, now);
      (rest.0, Replayed(q[0], logFails, now) + rest.1)
  }

  /** `processOfflineQueue()`: nothing happens offline or with an empty
      queue; otherwise the queue is replayed from the front, each entry
      shifted off before it is replayed and put back when replaying it throws. */
  method ProcessOfflineQueue(st: State, online: bool, logFails: bool, now: string) returns (r: State)
    ensures !online || |st.queue| == 0 ==> r == st
    ensures online ==> (
      r.queue == Drain(st.queue, logFails, now).0
      && r.delivered == st.delivered + Drain(st.queue, logFails, now).1)
  {
    if !online || |st.queue| == 0 {
      return st;
    }
    var queue := st.queue;
    var delivered := st.delivered;
    // A poisoned entry is shifted off and put straight back, which leaves
    // the queue as it was before the shift.
    while |queue| > 0 && !Poisoned(queue[0])
      invariant Drain(queue, logFails, now).0 == Drain(st.queue, logFails, now).0
      invariant delivered + Drain(queue, logFails, now).1 == st.delivered + Drain(st.queue, logFails, now).1
      decreases |queue|
    {
      var item := queue[0];
      var rest := Drain(queue[1..], logFails, now);
      assert Drain(queue, logFails, now) == (rest.0, Replayed(item, logFails, now) + rest.1);
      assert delivered + (Replayed(item, logFails, now) + rest.1) == (delivered + Replayed(item, logFails, now)) + rest.1;
      delivered := delivered + Replayed(item, logFails, now);
      queue := queue[1..];
    }
    assert Drain(queue, logFails, now) == (queue, []);
    r := State(queue, delivered);
  }

  /** Replaying never queues anything: what remains is a suffix of the queue. */
  lemma ReplayOnlyShrinks(q: seq<Entry>, logFails: bool, now: string)
    ensures var rest := Drain(q, logFails, now).0;
      |rest| <= |q| && (|rest| > 0 ==> rest[|rest| - 1] == q[|q| - 1])
  {
  }

  /** A poisoned entry at the front blocks the queue for good: every replay
      stops at it at once, delivers nothing, and leaves the queue as it was. */
  lemma PoisonedHeadBlocks(q: seq<Entry>, logFails: bool, now: string)
    requires |q| > 0 && Poisoned(q[0])
    ensures Drain(q, logFails, now) == (q, [])
  {
  }

  /** What a well-formed event or error entry delivers when replayed. */
  function Item(x: Entry, now: string): (r: Delivered)
    requires x.EventEntry? || x.ErrorEntry?
    requires !Poisoned(x)
    ensures Replayed(x, false, now) == [r]
  {
    if x.EventEntry? then DeliveredEvent(StampEvent(x.event.value, now))
    else DeliveredError(StampReport(x.report.value, now))
  }

  /** Without poisoned entries and failing logs, a replay empties the queue
      and delivers the stamped events and reports in their queued order,
      dropping only falsy and unknown entries: the entry at position `k` is
      delivered at position `k` less the entries dropped before it. */
  lemma {:induction false} ReplayIsFifo(q: seq<Entry>, now: string)
    requires forall k :: 0 <= k < |q| ==> !Poisoned(q[k])
    ensures Drain(q, false, now).0 == []
    ensures |Drain(q, false, now).1| == |q| - CountDropped(q)
    ensures forall k :: 0 <= k < |q| && (q[k].EventEntry? || q[k].ErrorEntry?) ==> (
      CountDropped(q[..k]) <= k && k - CountDropped(q[..k]) < |Drain(q, false, now).1|
      && Drain(q, false, now).1[k - CountDropped(q[..k])] == Item(q[k], now))
    decreases |q|
  {
    if |q| > 0 {
      ReplayIsFifo(q[1..], now);
      assert Drain(q, false, now).1 == Replayed(q[0], false, now) + Drain(q[1..], false, now).1;
      forall k | 0 <= k < |q| && (q[k].EventEntry? || q[k].ErrorEntry?)
        ensures CountDropped(q[..k]) <= k && k - CountDropped(q[..k]) < |Drain(q, false, now).1|
        ensures Drain(q, false, now).1[k - CountDropped(q[..k])] == Item(q[k], now)
      {
        DeliveredAt(q, now, k);
      }
    }
  }

  /** One position of `ReplayIsFifo`: the well-formed entry at position `k`
      is delivered at position `k` less the entries dropped before it. */
  lemma {:induction false} DeliveredAt(q: seq<Entry>, now: string, k: nat)
    requires forall i :: 0 <= i < |q| ==> !Poisoned(q[i])
    requires k < |q| && (q[k].EventEntry? || q[k].ErrorEntry?)
    ensures CountDropped(q[..k]) <= k && k - CountDropped(q[..k]) < |Drain(q, false, now).1|
    ensures Drain(q, false, now).1[k - CountDropped(q[..k])] == Item(q[k], now)
    decreases k
  {
    var d := Drain(q, false, now).1;
    var head := Replayed(q[0], false, now);
    var rest := Drain(q[1..], false, now).1;
    assert d == head + rest;
    if k == 0 {
      assert q[..0] == [];
      assert head == [Item(q[0], now)];
    } else {
      var c := if q[0].Falsy? || q[0].OtherEntry? then 1 else 0;
      assert |head| == 1 - c;
      assert q[k] == q[1..][k - 1];
      DeliveredAt(q[1..], now, k - 1);
      var j := k - 1 - CountDropped(q[1..][..k - 1]);
      assert 0 <= j < |rest| && rest[j] == Item(q[k], now);
      CountDroppedAfterHead(q, k);
      assert k - CountDropped(q[..k]) == |head| + j;
    }
  }

  /** Counting the drops before position `k` counts the head and then the
      drops before position `k - 1` of the tail. */
  lemma CountDroppedAfterHead(q: seq<Entry>, k: nat)
    requires 0 < k <= |q|
    ensures CountDropped(q[..k]) == (if q[0].Falsy? || q[0].OtherEntry? then 1 else 0) + CountDropped(q[1..][..k - 1])
  {
    assert q[..k][1..] == q[1..][..k - 1];
  }

  /** The entries a replay drops without delivering. */
  function CountDropped(q: seq<Entry>): (n: nat)
    ensures n <= |q|
  {
    if |q| == 0 then 0 else (if q[0].Falsy? || q[0].OtherEntry? then 1 else 0) + CountDropped(q[1..])
  }

  /** An event sent offline with queueing allowed is delivered, stamped
      with the time it was first sent (an ISO date, never empty), by the
      next replay online. */
  lemma OfflineEventIsReplayed(st: State, e: Event, now: string, later: string)
    requires now != ""
    requires forall k :: 0 <= k < |st.queue| ==> !Poisoned(st.queue[k])
    ensures var queued := SendEvent(st, e, true, false, false, now);
      Drain(queued.queue, false, later).0 == []
      && DeliveredEvent(StampEvent(e, now)) in Drain(queued.queue, false, later).1
  {
    var q := SendEvent(st, e, true, false, false, now).queue;
    assert q == st.queue + [EventEntry(Obj(StampEvent(e, now)))];
    assert q[|q| - 1].EventEntry?;
    ReplayIsFifo(q, later);
    assert StampEvent(StampEvent(e, now), later) == StampEvent(e, now);
  }
}

=== FILE: app_shell.dfy ===
/** The application shell's effects: the session watchdog re-armed by user
    activity, the auth refresh when the tab becomes visible, the cleanup of
    both, and the chat-notification subscription that follows the signed-in
    user. */
module AppShell {
  import opened Wrappers
  import opened Text
  import opened Records
  import opened Remote
  import opened Network
  import opened ActivityTimer
  import AuthStore
  import ChatNotificationStore

  /** The window events counted as activity. */
  const ActivityEvents: seq<string> := ["mousedown", "mousemove", "keypress", "scroll", "touchstart", "click"]

  /** The watchdog period, 20 minutes. */
  const WatchdogMs: nat := 20 * 60 * 1000

  /** The watchdog refreshes only after activity in the last minute. */
  const RecentMs := 60000

  /** A listener the shell installs: one per activity event, and one for
      visibility changes. */
  datatype Listener = OnWindow(event: string) | OnVisibility

  /** The shell's state: the watchdog timer and the installed listeners. */
  datatype Shell = Shell(timer: Timer, listeners: set<Listener>)

  /** Every listener the mount effect installs. */
  function Installed(): (r: set<Listener>)
    ensures OnVisibility in r
    ensures forall i :: 0 <= i < |ActivityEvents| ==> OnWindow(ActivityEvents[i]) in r
    ensures forall l :: l in r ==> l.OnVisibility? || l.event in ActivityEvents
  {
    (set e | e in ActivityEvents :: OnWindow(e)) + {OnVisibility}
  }

  /** The mount effect at `now`: the listeners are installed and the timer
      is armed at once, as if an activity had just happened. */
  function Mount(now: int): (r: Shell)
    ensures r.listeners == Installed()
    ensures r.timer.lastActivity == now && r.timer.due == Some(now + WatchdogMs)
  {
    Shell(Touch(Timer(now, None), now, WatchdogMs), Installed())
  }

  /** An activity event at `now` records it and replaces the pending timer. */
  function Activity(s: Shell, now: int): (r: Shell)
    ensures r.timer == Touch(s.timer, now, WatchdogMs) && r.listeners == s.listeners
  {
    s.(timer := Touch(s.timer, now, WatchdogMs))
  }

  /** The watchdog's callback at `now`, when its timer is due: the timer is
      spent, and a refresh is asked for only if the last activity is less
      than a minute old. Before the due time nothing happens. */
  function Fire(s: Shell, now: int): (r: (Shell, bool))
    ensures !CanFire(s.timer, now) ==> r == (s, false)
    ensures CanFire(s.timer, now) ==> r.0.timer.due.None? && r.0.listeners == s.listeners
    ensures r.1 <==> CanFire(s.timer, now) && now - s.timer.lastActivity < RecentMs
  {
    if !CanFire(s.timer, now) then (s, false)
    else (s.(timer := Cancel(s.timer)), now - s.timer.lastActivity < RecentMs)
  }

  /** The watchdog never refreshes: every activity moves its due time to 20
      minutes after that activity, so when it fires the last activity is at
      least 20 minutes old, never less than one. */
  lemma WatchdogNeverRefreshes(s: Shell, now: int)
    requires Armed(s.timer, WatchdogMs)
    ensures !Fire(s, now).1
  {
    if CanFire(s.timer, now) {
      ElapsedAtFiring(s.timer, now, WatchdogMs);
    }
  }

  /** Any run of mounts, activities and firings keeps the timer armed, so
      the lemma above covers every reachable state. */
  lemma StepsKeepArmed(s: Shell, now: int)
    requires Armed(s.timer, WatchdogMs)
    ensures Armed(Mount(now).timer, WatchdogMs)
    ensures Armed(Activity(s, now).timer, WatchdogMs)
    ensures Armed(Fire(s, now).0.timer, WatchdogMs)
  {
  }

  /** The visibility handler: a tab that became visible refreshes the auth
      state, which the store itself throttles; a hidden tab does nothing.
      Refresh failures are only logged. */
  function VisibilityChange(st: AuthStore.State, visible: bool, now: int, session: Reply<Option<AuthStore.Session>>,
                            user: Reply<Option<User>>, profile: Reply<Option<Profile>>): (r: (AuthStore.State, nat))
    ensures !visible ==> r == (st, 0)
    ensures visible && now - st.lastRefresh < AuthStore.ThrottleMs ==> r == (st, 0)
    ensures visible ==> r.0 == AuthStore.Refetch(st, now, session, user, profile).0
    ensures visible ==> r.1 == AuthStore.Refetch(st, now, session, user, profile).2
  {
    if !visible then (st, 0)
    else
      var (s2, _, n) := AuthStore.Refetch(st, now, session, user, profile);
      (s2, n)
  }

  /** The mount effect's cleanup: the timer is cleared and every listener is
      removed. */
  function Cleanup(s: Shell): (r: Shell)
    ensures r.timer.due.None? && r.listeners == {}
  {
    Shell(Cancel(s.timer), {})
  }

  /** Whatever happened in between, cleanup leaves no timer that can fire
      and none of the mounted listeners. */
  lemma CleanupUndoesMount(s: Shell, now: int)
    ensures forall l :: l in Mount(now).listeners ==> l !in Cleanup(s).listeners
    ensures !CanFire(Cleanup(s).timer, now)
  {
  }

  /** The chat-notification effect for the signed-in user's id: subscribe
      when there is a (non-empty) id, nothing otherwise. */
  function ChatEffect(st: ChatNotificationStore.Store, c: Conn, userId: Option<string>): (r: (ChatNotificationStore.Store, Conn))
    ensures !Truthy(userId) ==> r == (st, c)
    ensures Truthy(userId) ==> r == ChatNotificationStore.Subscribe(st, c, userId.value)
  {
    if Truthy(userId) then ChatNotificationStore.Subscribe(st, c, userId.value) else (st, c)
  }

  /** The user id changing to `after`: the previous effect's
      cleanup unsubscribes, then the effect runs for the new id. */
  function UserChanged(st: ChatNotificationStore.Store, c: Conn, after: Option<string>): (r: (ChatNotificationStore.Store, Conn))
    ensures after.None? ==> r == ChatNotificationStore.Unsubscribe(st, c)
  {
    var (s1, c1) := ChatNotificationStore.Unsubscribe(st, c);
    ChatEffect(s1, c1, after)
  }

  /** After signing out no chat-notification channel is held, and after a
      switch of user the one held is registered and named for the new user. */
  lemma SubscriptionFollowsUser(st: ChatNotificationStore.Store, c: Conn, after: Option<string>)
    ensures after.None? ==> UserChanged(st, c, after).0.subscription.None?
    ensures Truthy(after) ==> (
      var (s2, c2) := UserChanged(st, c, after);
      s2.subscription.Some? && s2.subscription.value in c2.registry
      && Chan(s2.subscription.value, ChatNotificationStore.Topic(after.value)) in c2.open)
  {
    if Truthy(after) {
      var (s1, c1) := ChatNotificationStore.Unsubscribe(st, c);
      var (s2, c2) := ChatNotificationStore.Subscribe(s1, c1, after.value);
      assert c2.open[|c2.open| - 1] == Chan(s2.subscription.value, ChatNotificationStore.Topic(after.value));
    }
  }
}

=== FILE: auth.dfy ===
/** The sign-in, sign-up, sign-out and password operations, with the profile
    cache they share. Each backend request comes in as its settled outcome;
    the profile read (retried three times) comes in as its final outcome. */
module Auth {
  import opened Wrappers
  import opened Seqs
  import opened Text
  import opened Failures
  import opened Records
  import opened Remote
  import opened AuthStore

  const InvalidEmailText := "Invalid email format"
  const ShortSignUpPasswordText := "Password must be at least 8 characters long"
  const ShortNewPasswordText := "Password must be at least 6 characters long"
  const ProfileFetchFailedText := "Failed to fetch profile. Please try refreshing the page."
  const NoProfileText := "Failed to create user profile"
  // Written in pieces, each short enough for the verifier to see it holds no `U`.
  const AlreadyRegisteredText := "An account " + "with this email " + "already exists. " + "Please sign in instead."
  const BadCredentialsText := "Invalid email or password. Please check your credentials and try again."
  const UnexpectedText := "An unexpected error occurred"
  const PendingText := "Your account is pending approval. Please wait for an administrator to approve your account."

  predicate IsAt(c: char) { c == '@' }

  // ---------------------------------------------------------------- email

  /** The shape the pattern `^[^\s@]+@[^\s@]+\.[^\s@]+$` accepts, with the
      `@` at `i` and the separating `.` at `j`: three non-empty runs of
      characters that are neither whitespace nor `@`. */
  ghost predicate EmailSplit(s: string, i: int, j: int) {
    0 < i && i + 1 < j && j + 1 < |s| && s[i] == '@' && s[j] == '.'
    && forall k :: 0 <= k < |s| && k != i ==> !IsSpace(s[k]) && s[k] != '@'
  }

  ghost predicate MatchesEmailPattern(s: string) {
    exists i, j :: EmailSplit(s, i, j)
  }

  /** The e-mail check of sign-up, sign-in and password reset: no whitespace,
      exactly one `@` with something before it, and a `.` in the part after
      it that is neither its first nor its last character. */
  function EmailValid(s: string): (ok: bool)
    ensures ok ==> Count(s, IsAt) > 0 && Count(s, IsSpace) == 0
  {
    match FirstIndex(s, IsAt)
    case None => false
    case Some(i) =>
      0 < i && i + 2 < |s| && Count(s, IsSpace) == 0 && Count(s[i + 1..], IsAt) == 0
      && Contains(s[i + 2..|s| - 1], ".")
  }

  /** The check accepts exactly the strings the pattern matches. */
  lemma EmailValidMatchesPattern(s: string)
    ensures EmailValid(s) <==> MatchesEmailPattern(s)
  {
    if EmailValid(s) {
      AcceptedMatchesPattern(s);
    }
    if MatchesEmailPattern(s) {
      PatternIsAccepted(s);
    }
  }

  lemma AcceptedMatchesPattern(s: string)
    requires EmailValid(s)
    ensures MatchesEmailPattern(s)
  {
    var i := FirstIndex(s, IsAt).value;
    var d := s[i + 2..|s| - 1];
    ContainsAt(d, ".");
    var m :| OccursAt(d, ".", m);
    var j := i + 2 + m;
    assert s[j] == d[m];
    forall k | 0 <= k < |s| && k != i
      ensures !IsSpace(s[k]) && s[k] != '@'
    {
      if k > i { assert s[k] == s[i + 1..][k - i - 1]; }
    }
    assert EmailSplit(s, i, j);
  }

  lemma PatternIsAccepted(s: string)
    requires MatchesEmailPattern(s)
    ensures EmailValid(s)
  {
    var i, j :| EmailSplit(s, i, j);
    assert IsAt(s[i]);
    var f := FirstIndex(s, IsAt);
    assert f == Some(i);
    var d := s[i + 2..|s| - 1];
    assert d[j - i - 2] == s[j];
    assert d[j - i - 2..j - i - 1] == ".";
    assert OccursAt(d, ".", j - i - 2);
    ContainsAt(d, ".");
    var t := s[i + 1..];
    forall k | 0 <= k < |t|
      ensures !IsAt(t[k])
    {
      assert t[k] == s[i + 1 + k];
    }
  }

  // ---------------------------------------------------------- profile cache

  type Cache = map<string, Profile>

  /** `getProfile(userId)`: a cached profile is returned without asking the
      backend; otherwise the (retried) read is made, a non-null result is
      cached, and a failure yields no profile and a toast. Returns the new
      cache, the profile, the number of reads made and the toasts. */
  function GetProfile(cache: Cache, userId: string, read: Result<Option<Profile>, Thrown>)
    : (r: (Cache, Option<Profile>, nat, seq<Toast>))
    ensures userId in cache ==> r == (cache, Some(cache[userId]), 0, [])
    ensures userId !in cache ==> r.2 == 1
    ensures userId !in cache && read.Ok? ==> r.1 == read.value && r.3 == []
    ensures userId !in cache && read.Err? ==> r.1.None? && r.3 == [Alert(ProfileFetchFailedText)]
    ensures r.0 == (if userId !in cache && r.1.Some? then cache[userId := r.1.value] else cache)
  {
    if userId in cache then (cache, Some(cache[userId]), 0, [])
    else match read
      case Err(_) => (cache, None, 1, [Alert(ProfileFetchFailedText)])
      case Ok(None) => (cache, None, 1, [])
      case Ok(Some(p)) => (cache[userId := p], Some(p), 1, [])
  }

  /** Once a profile has been read, asking again makes no read and returns
      the same profile, whatever the backend would say. */
  lemma CachedProfileIsReused(cache: Cache, userId: string, read1: Result<Option<Profile>, Thrown>, read2: Result<Option<Profile>, Thrown>)
    requires GetProfile(cache, userId, read1).1.Some?
    ensures var (c1, p1, _, _) := GetProfile(cache, userId, read1);
      GetProfile(c1, userId, read2) == (c1, p1, 0, [])
  {
  }

  // ----------------------------------------------------------------- signOut

  /** The observable steps of `signOut`, in order. */
  datatype Step = ResetStore | ClearCache | ClearStorage | RemoteSignOut | ShowError | Redirect(path: string)

  /** `signOut()`: the store is reset and the profile cache and browser
      storage cleared before the backend is asked; the browser is sent to
      `/login` whether or not the backend call succeeds, a failure also
      telling the user. */
  function SignOut(s: State, cache: Cache, reply: Reply<()>): (r: (State, Cache, seq<Step>))
    ensures r.0 == Reset(s) && r.1 == map[]
    ensures |r.2| >= 5 && r.2[..4] == [ResetStore, ClearCache, ClearStorage, RemoteSignOut]
    ensures r.2[|r.2| - 1] == Redirect("/login")
    ensures ShowError in r.2 <==> !Succeeded(reply)
  {
    var tail := if Succeeded(reply) then [Redirect("/login")] else [ShowError, Redirect("/login")];
    (Reset(s), map[], [ResetStore, ClearCache, ClearStorage, RemoteSignOut] + tail)
  }

  // ---------------------------------------------------------- sign up / in

  /** The result of a sign-up or sign-in: the store and cache afterwards, the
      profile returned (`None` when the backend returned no user) or the error
      thrown, and the number of backend requests made. */
  datatype AuthOutcome = AuthOutcome(store: State, cache: Cache, result: Result<Option<Profile>, Thrown>, calls: nat)

  /** The catch clause of `signUp`: an `Error` saying the user is already
      registered is replaced by a friendlier one, other `Error`s are rethrown,
      anything else becomes a generic error. */
  function SignUpFailure(e: Thrown): (r: Thrown)
    ensures r.ErrorValue?
    ensures e.ErrorValue? && !Contains(e.message, "User already registered") ==> r == e
    ensures e.ErrorValue? && Contains(e.message, "User already registered") ==> r == NewError(AlreadyRegisteredText)
    ensures !e.ErrorValue? ==> r == NewError(UnexpectedText)
  {
    if e.ErrorValue? then
      if Contains(e.message, "User already registered") then NewError(AlreadyRegisteredText) else e
    else NewError(UnexpectedText)
  }

  /** The friendly texts are not rewritten again: applying the catch clause
      to its own result changes nothing. */
  lemma SignUpFailureIsStable(e: Thrown)
    ensures SignUpFailure(SignUpFailure(e)) == SignUpFailure(e)
  {
    FriendlyTextsNameNoUser();
  }

  lemma FriendlyTextsNameNoUser()
    ensures !Contains(AlreadyRegisteredText, "User already registered")
    ensures !Contains(UnexpectedText, "User already registered")
  {
    assert 'U' !in "An account " && 'U' !in "with this email " && 'U' !in "already exists. " && 'U' !in "Please sign in instead.";
    NotContainedWithoutFirstChar(AlreadyRegisteredText, "User already registered");
    NotContainedWithoutFirstChar(UnexpectedText, "User already registered");
  }

  /** `signUp(email, password)`. The e-mail and then the password length
      (at least 8) are checked before any request. The sign-up request's
      error is thrown; with a user, its profile is read (through the cache)
      and must exist, and then user and profile are stored. */
  function SignUp(s: State, cache: Cache, email: string, password: string,
                  auth: Reply<Option<User>>, read: Result<Option<Profile>, Thrown>): (r: AuthOutcome)
    ensures !EmailValid(email) ==> r == AuthOutcome(s, cache, Err(NewError(InvalidEmailText)), 0)
    ensures EmailValid(email) && |password| < 8 ==> r == AuthOutcome(s, cache, Err(NewError(ShortSignUpPasswordText)), 0)
    ensures EmailValid(email) && |password| >= 8 ==> r.calls >= 1
    ensures r.result.Ok? && r.result.value.Some? ==> r.store.profile == r.result.value && r.store.user.Some?
    ensures r.result.Err? ==> r.result.error.ErrorValue?
    ensures EmailValid(email) && |password| >= 8 && !Succeeded(auth) ==>
      r == AuthOutcome(s, cache, Err(SignUpFailure(Failure(auth).value)), 1)
    ensures EmailValid(email) && |password| >= 8 && auth == Replied(None, None) ==> r == AuthOutcome(s, cache, Ok(None), 1)
    ensures EmailValid(email) && |password| >= 8 && Succeeded(auth) && auth.data.Some? ==> (
      var (c1, p, n, _) := GetProfile(cache, auth.data.value.id, read);
      r.cache == c1 && r.calls == 1 + n
      && (p.None? ==> r.result == Err(NewError(NoProfileText)) && r.store == s)
      && (p.Some? ==> r.result == Ok(p) && r.store.user == auth.data && r.store.profile == p))
  {
    if !EmailValid(email) then AuthOutcome(s, cache, Err(NewError(InvalidEmailText)), 0)
    else if |password| < 8 then AuthOutcome(s, cache, Err(NewError(ShortSignUpPasswordText)), 0)
    else match auth
      case Threw(e) => AuthOutcome(s, cache, Err(SignUpFailure(e)), 1)
      case Replied(Some(e), _) => AuthOutcome(s, cache, Err(SignUpFailure(e)), 1)
      case Replied(None, None) => AuthOutcome(s, cache, Ok(None), 1)
      case Replied(None, Some(u)) =>
        var (c1, p, n, _) := GetProfile(cache, u.id, read);
        if p.None? then AuthOutcome(s, c1, Err(NewError(NoProfileText)), 1 + n)
        else AuthOutcome(SetProfile(SetUser(s, Some(u)), p), c1, Ok(p), 1 + n)
  }

  const SignInFallbackText := "An unexpected error occurred. Please try again."
  const ResetFallbackText := "Failed to send reset email. Please try again."
  const UpdateFallbackText := "Failed to update password. Please try again."

  /** The catch clause shared by `signIn`, `resetPassword` and
      `updatePassword`: an `Error` is rethrown as a new `Error` with the same
      message (its code and status are lost); anything else becomes an
      `Error` carrying the function's own fallback text. */
  function Rethrown(e: Thrown, fallback: string): (r: Thrown)
    ensures r.ErrorValue? && r.cls == PlainError && r.code.None? && r.status.None?
    ensures e.ErrorValue? ==> r.message == e.message
    ensures !e.ErrorValue? ==> r.message == fallback
  {
    if e.ErrorValue? then NewError(e.message) else NewError(fallback)
  }

  /** `signIn(email, password)`. The e-mail is checked before any request.
      Wrong credentials get a friendlier message. With a user, the profile is
      read through the cache: none means a `pending` profile is created and
      stored; a `pending` profile signs the user out and fails; otherwise
      user and profile are stored. */
  function SignIn(s: State, cache: Cache, email: string, auth: Reply<Option<User>>,
                  read: Result<Option<Profile>, Thrown>, create: Reply<Option<Profile>>, signOut: Reply<()>): (r: AuthOutcome)
    ensures !EmailValid(email) ==> r == AuthOutcome(s, cache, Err(NewError(InvalidEmailText)), 0)
    ensures EmailValid(email) ==> r.calls >= 1
    ensures r.result.Ok? && r.result.value.Some? ==> r.store.profile == r.result.value && r.store.user.Some?
    ensures r.result.Ok? && r.result.value.Some? && create.Replied? && r.result.value != create.data ==>
      r.result.value.value.role != "pending"
    ensures r.result.Err? ==> r.result.error.ErrorValue?
    ensures EmailValid(email) && auth.Threw? ==> r == AuthOutcome(s, cache, Err(Rethrown(auth.thrown, SignInFallbackText)), 1)
    ensures EmailValid(email) && auth.Replied? && auth.error.Some? ==> (
      r.store == s && r.cache == cache && r.calls == 1
      && (MessageProp(auth.error.value) == Some("Invalid login credentials") ==> r.result == Err(NewError(BadCredentialsText)))
      && (MessageProp(auth.error.value) != Some("Invalid login credentials") ==>
            r.result == Err(Rethrown(auth.error.value, SignInFallbackText))))
    ensures EmailValid(email) && auth == Replied(None, None) ==> r == AuthOutcome(s, cache, Ok(None), 1)
    ensures EmailValid(email) && Succeeded(auth) && auth.data.Some? ==> (
      var (c1, p, n, _) := GetProfile(cache, auth.data.value.id, read);
      (p.None? && !Succeeded(create) ==> r == AuthOutcome(s, c1, Err(Rethrown(Failure(create).value, SignInFallbackText)), 2 + n))
      && (p.None? && Succeeded(create) ==> r.result == Ok(create.data) && r.store.user == auth.data && r.store.profile == create.data)
      && (p.Some? && p.value.role == "pending" ==> r.result == Err(NewError(PendingText)) && r.store == Reset(s) && r.cache == map[])
      && (p.Some? && p.value.role != "pending" ==> r == AuthOutcome(SetProfile(SetUser(s, auth.data), p), c1, Ok(p), 1 + n)))
  {
    if !EmailValid(email) then AuthOutcome(s, cache, Err(NewError(InvalidEmailText)), 0)
    else match auth
      case Threw(e) => AuthOutcome(s, cache, Err(Rethrown(e, SignInFallbackText)), 1)
      case Replied(Some(e), _) =>
        var thrown := if MessageProp(e) == Some("Invalid login credentials") then NewError(BadCredentialsText) else e;
        AuthOutcome(s, cache, Err(Rethrown(thrown, SignInFallbackText)), 1)
      case Replied(None, None) => AuthOutcome(s, cache, Ok(None), 1)
      case Replied(None, Some(u)) =>
        var (c1, p, n, _) := GetProfile(cache, u.id, read);
        if p.None? then
          match create
          case Threw(e) => AuthOutcome(s, c1, Err(Rethrown(e, SignInFallbackText)), 2 + n)
          case Replied(Some(e), _) => AuthOutcome(s, c1, Err(Rethrown(e, SignInFallbackText)), 2 + n)
          case Replied(None, np) => AuthOutcome(SetProfile(SetUser(s, Some(u)), np), c1, Ok(np), 2 + n)
        else if p.value.role == "pending" then
          var (s2, c2, _) := SignOut(s, c1, signOut);
          AuthOutcome(s2, c2, Err(NewError(PendingText)), 2 + n)
        else AuthOutcome(SetProfile(SetUser(s, Some(u)), p), c1, Ok(p), 1 + n)
  }

  /** Once the backend has signed a user up or in and an approved profile
      is found, both operations end in the same store, cache, result and
      number of requests. */
  lemma SignUpMatchesSignIn(s: State, cache: Cache, email: string, password: string, u: User,
                            read: Result<Option<Profile>, Thrown>, create: Reply<Option<Profile>>, signOut: Reply<()>)
    requires EmailValid(email) && |password| >= 8
    requires GetProfile(cache, u.id, read).1.Some? && GetProfile(cache, u.id, read).1.value.role != "pending"
    ensures SignUp(s, cache, email, password, Replied(None, Some(u)), read)
         == SignIn(s, cache, email, Replied(None, Some(u)), read, create, signOut)
  {
  }

  /** The two catch clauses treat a backend error differently: sign-up
      rethrows it as it came, code and status included, while sign-in
      throws a new plain `Error` with only its message. */
  lemma SignUpKeepsErrorSignInCopiesMessage(s: State, cache: Cache, email: string, password: string, e: Thrown,
                                            read: Result<Option<Profile>, Thrown>, create: Reply<Option<Profile>>, signOut: Reply<()>)
    requires EmailValid(email) && |password| >= 8 && e.ErrorValue?
    requires !Contains(e.message, "User already registered") && e.message != "Invalid login credentials"
    ensures SignUp(s, cache, email, password, Replied(Some(e), None), read).result == Err(e)
    ensures SignIn(s, cache, email, Replied(Some(e), None), read, create, signOut).result == Err(NewError(e.message))
    ensures NewError(e.message) == e <==> e.cls == PlainError && e.code.None? && e.status.None?
  {
  }

  /** A user whose profile is still `pending` is signed out: the store is
      reset, the cache emptied, and sign-in fails with the pending message. */
  lemma PendingUserIsSignedOut(s: State, cache: Cache, email: string, u: User, pending: Profile,
                               create: Reply<Option<Profile>>, signOut: Reply<()>)
    requires EmailValid(email) && pending.role == "pending"
    ensures var r := SignIn(s, cache, email, Replied(None, Some(u)), Ok(Some(pending)), create, signOut);
      (u.id !in cache ==> r.result == Err(NewError(PendingText)) && r.store == Reset(s) && r.cache == map[])
  {
  }

  // -------------------------------------------------------------- passwords

  /** `resetPassword(email)`: the e-mail is checked before the request; a
      failure is rethrown through the catch clause with the reset fallback. */
  function ResetPassword(email: string, reply: Reply<()>): (r: (Result<(), Thrown>, nat))
    ensures !EmailValid(email) ==> r == (Err(NewError(InvalidEmailText)), 0)
    ensures EmailValid(email) ==> r.1 == 1 && (r.0.Ok? <==> Succeeded(reply))
    ensures EmailValid(email) && !Succeeded(reply) ==> r.0 == Err(Rethrown(Failure(reply).value, ResetFallbackText))
  {
    if !EmailValid(email) then (Err(NewError(InvalidEmailText)), 0)
    else match reply
      case Threw(e) => (Err(Rethrown(e, ResetFallbackText)), 1)
      case Replied(Some(e), _) => (Err(Rethrown(e, ResetFallbackText)), 1)
      case Replied(None, _) => (Ok(()), 1)
  }

  /** `updatePassword(newPassword)`: a password shorter than 6 (the empty one
      included) is refused before the request; a failure is rethrown through
      the catch clause with the update fallback. */
  function UpdatePassword(password: string, reply: Reply<()>): (r: (Result<(), Thrown>, nat))
    ensures |password| < 6 ==> r == (Err(NewError(ShortNewPasswordText)), 0)
    ensures |password| >= 6 ==> r.1 == 1 && (r.0.Ok? <==> Succeeded(reply))
    ensures |password| >= 6 && !Succeeded(reply) ==> r.0 == Err(Rethrown(Failure(reply).value, UpdateFallbackText))
  {
    if |password| < 6 then (Err(NewError(ShortNewPasswordText)), 0)
    else match reply
      case Threw(e) => (Err(Rethrown(e, UpdateFallbackText)), 1)
      case Replied(Some(e), _) => (Err(Rethrown(e, UpdateFallbackText)), 1)
      case Replied(None, _) => (Ok(()), 1)
  }

  /** Every failure of a password request surfaces as an `Error`: the
      failing `Error`'s own message, or the request's fallback text. The two
      requests therefore report a failing `Error` identically and differ only
      for any other thrown value. */
  lemma PasswordFailuresKeepMessage(email: string, password: string, reply: Reply<()>)
    requires EmailValid(email) && |password| >= 6 && !Succeeded(reply)
    ensures var f := Failure(reply).value;
      ResetPassword(email, reply).0.error.message == MessageOr(f, ResetFallbackText)
      && UpdatePassword(password, reply).0.error.message == MessageOr(f, UpdateFallbackText)
    ensures ResetPassword(email, reply).0 == UpdatePassword(password, reply).0 <==> Failure(reply).value.ErrorValue?
  {
    if !Failure(reply).value.ErrorValue? {
      assert ResetFallbackText[10] != UpdateFallbackText[10];
    }
  }
}

=== FILE: auth_provider.dfy ===
/** The session provider: loads the session once on mount, then follows the
    client's auth-change events into the session store, and warns about long
    inactivity. Remote reads (the session read and the retried profile read)
    come in as their settled outcomes; `mountedAfter` says whether the
    component was still mounted when an awaited read settled. */
module AuthProvider {
  import opened Wrappers
  import opened Failures
  import opened Records
  import opened Remote
  import opened AuthStore
  import opened ActivityTimer

  const InitFailedText := "Failed to initialize authentication. Please refresh the page."
  const InactivityMs := 25 * 60 * 1000
  const InactivityText := "You have been inactive for a while. Consider refreshing the page to maintain your session."

  /** The events the listener tells apart. */
  datatype AuthEvent = TokenRefreshedEvent | SignedOutEvent | OtherEvent(name: string)

  /** The store plus the effect's `mounted` flag and whether the auth-change
      subscription has been attached. */
  datatype Provider = Provider(store: State, mounted: bool, subscribed: bool)

  /** `initializeAuth()`: loading on, the (retried) session read, then: a read
      error or rejection clears user and profile and tells the user; no session
      clears them; a session with a user stores the user and then the profile,
      keeping the user when the profile read fails. Loading ends in all cases. */
  function InitializeAuth(s: State, session: Reply<Option<Session>>, profile: Result<Option<Profile>, Thrown>)
    : (r: (State, seq<Toast>))
    ensures !r.0.loading
    ensures !Succeeded(session) ==> r.0.user.None? && r.0.profile.None? && r.1 == [Alert(InitFailedText)]
    ensures Succeeded(session) && session.data.None? ==> r.0.user.None? && r.0.profile.None? && r.1 == []
    ensures Succeeded(session) && session.data.Some? && session.data.value.user.Some? ==>
      r.0.user == session.data.value.user && r.1 == [] &&
      r.0.profile == (if profile.Ok? then profile.value else s.profile)
  {
    var s0 := SetLoading(s, true);
    match session
    case Threw(_) => (SetLoading(SetProfile(SetUser(s0, None), None), false), [Alert(InitFailedText)])
    case Replied(Some(_), _) => (SetLoading(SetProfile(SetUser(s0, None), None), false), [Alert(InitFailedText)])
    case Replied(None, None) => (SetLoading(SetProfile(SetUser(s0, None), None), false), [])
    case Replied(None, Some(sess)) =>
      if sess.user.None? then (SetLoading(s0, false), [])
      else
        var s1 := SetUser(s0, sess.user);
        var s2 := if profile.Ok? then SetProfile(s1, profile.value) else s1;
        (SetLoading(s2, false), [])
  }

  /** The profile step shared by the token-refresh and session-change paths:
      store the user, then the profile only if the read succeeded and the
      component is still mounted. */
  function AdoptUser(s: State, u: User, profile: Result<Option<Profile>, Thrown>, mountedAfter: bool): (r: State)
    ensures r.user == Some(u) && !r.loading
    ensures r.profile == (if profile.Ok? && mountedAfter then profile.value else s.profile)
  {
    var s1 := SetUser(s, Some(u));
    if profile.Ok? && mountedAfter then SetProfile(s1, profile.value) else s1
  }

  /** `authStateListener(event, session)`. Ignored after unmount. A token
      refresh adopts the session's user, if any, and otherwise changes
      nothing; a sign-out clears user and profile; any other event adopts the
      session's user or, without one, clears user and profile. */
  function OnAuthEvent(p: Provider, event: AuthEvent, session: Option<Session>,
                       profile: Result<Option<Profile>, Thrown>, mountedAfter: bool): (r: Provider)
    ensures r.mounted == p.mounted && r.subscribed == p.subscribed
    ensures !p.mounted ==> r == p
    ensures p.mounted && event == SignedOutEvent ==> r.store.user.None? && r.store.profile.None?
    ensures p.mounted && event != SignedOutEvent ==>
      (session.Some? && session.value.user.Some? ==> r.store.user == session.value.user)
    ensures p.mounted && event == TokenRefreshedEvent && (session.None? || session.value.user.None?) ==> r == p
    ensures p.mounted && event.OtherEvent? && (session.None? || session.value.user.None?) ==>
      r.store.user.None? && r.store.profile.None?
  {
    if !p.mounted then p
    else
      var user := if session.Some? then session.value.user else None;
      match event
      case TokenRefreshedEvent =>
        if user.Some? then p.(store := AdoptUser(p.store, user.value, profile, mountedAfter)) else p
      case SignedOutEvent => p.(store := SetProfile(SetUser(p.store, None), None))
      case OtherEvent(_) =>
        if user.Some? then p.(store := AdoptUser(p.store, user.value, profile, mountedAfter))
        else p.(store := SetProfile(SetUser(p.store, None), None))
  }

  /** The effect body: initialise, then attach the auth-change subscription
      only if the component is still mounted once initialisation has finished. */
  function Mount(s: State, session: Reply<Option<Session>>, profile: Result<Option<Profile>, Thrown>, mountedAfterInit: bool)
    : (r: (Provider, seq<Toast>))
    ensures r.0.subscribed <==> mountedAfterInit
    ensures r.0.mounted == mountedAfterInit && !r.0.store.loading
  {
    var (s1, toasts) := InitializeAuth(s, session, profile);
    (Provider(s1, mountedAfterInit, mountedAfterInit), toasts)
  }

  /** The effect cleanup: unmounted, and the subscription (if attached) dropped. */
  function Unmount(p: Provider): (r: Provider)
    ensures !r.mounted && !r.subscribed && r.store == p.store
  {
    Provider(p.store, false, false)
  }

  /** After unmount, no auth event changes anything. */
  lemma EventsAfterUnmountIgnored(p: Provider, event: AuthEvent, session: Option<Session>,
                                  profile: Result<Option<Profile>, Thrown>, mountedAfter: bool)
    ensures OnAuthEvent(Unmount(p), event, session, profile, mountedAfter) == Unmount(p)
  {
  }

  /** A failed profile read during initialisation keeps the session's user. */
  lemma InitProfileFailureKeepsUser(s: State, sess: Session, e: Thrown)
    requires sess.user.Some?
    ensures var r := InitializeAuth(s, Replied(None, Some(sess)), Err(e));
      r.0.user == sess.user && r.0.profile == s.profile && !r.0.loading && r.1 == []
  {
  }

  /** The inactivity check run when the 25-minute timer fires. */
  function InactivityWarning(t: Timer, now: int): (r: seq<Toast>)
    ensures |r| <= 1
    ensures |r| == 1 <==> now - t.lastActivity > InactivityMs
  {
    if now - t.lastActivity > InactivityMs then [Info(InactivityText)] else []
  }

  /** The check is strict: a timer firing exactly on time shows nothing; the
      warning needs the timer to fire late. */
  lemma WarningNeedsLateTimer(t: Timer, now: int)
    requires Armed(t, InactivityMs) && CanFire(t, now)
    ensures InactivityWarning(t, now) != [] <==> now > t.due.value
  {
    ElapsedAtFiring(t, now, InactivityMs);
  }
}

=== FILE: auth_store.dfy ===
/** The session store: the signed-in user, their profile, a loading flag, the
    admin flag derived from the profile's role, and the time of the last
    successful refresh, which throttles `refetch` to once a minute. */
module AuthStore {
  import opened Wrappers
  import opened Failures
  import opened Records
  import opened Remote

  const ThrottleMs := 60000

  datatype Session = Session(user: Option<User>)

  datatype State = State(user: Option<User>, profile: Option<Profile>, loading: bool, isAdmin: bool, lastRefresh: int)

  /** The state before anything is known: loading. */
  const Initial := State(None, None, true, false, 0)

  /** `setUser`: records the user and ends loading. */
  function SetUser(s: State, u: Option<User>): (r: State)
    ensures r.user == u && !r.loading
    ensures r.profile == s.profile && r.isAdmin == s.isAdmin && r.lastRefresh == s.lastRefresh
  {
    s.(user := u, loading := false)
  }

  /** `setProfile`: records the profile; the admin flag holds exactly when
      its role is `admin`; ends loading. */
  function SetProfile(s: State, p: Option<Profile>): (r: State)
    ensures r.profile == p && !r.loading
    ensures r.isAdmin <==> p.Some? && p.value.role == "admin"
    ensures r.user == s.user && r.lastRefresh == s.lastRefresh
  {
    s.(profile := p, isAdmin := p.Some? && p.value.role == "admin", loading := false)
  }

  function SetLoading(s: State, loading: bool): (r: State)
    ensures r.loading == loading && r.user == s.user && r.profile == s.profile
  {
    s.(loading := loading)
  }

  /** `reset`: the initial state, but not loading (the refresh clock is cleared too). */
  function Reset(s: State): (r: State)
    ensures r.user.None? && r.profile.None? && !r.loading && !r.isAdmin && r.lastRefresh == 0
  {
    Initial.(loading := false)
  }

  /** The admin flag agrees with the profile held. */
  ghost predicate AdminAgrees(s: State) {
    s.isAdmin <==> s.profile.Some? && s.profile.value.role == "admin"
  }

  /** How `refetch` ended. */
  datatype RefetchEnd = Throttled | SignedOut | UserOnly | Refreshed

  /** The read resolved without an error and with a value. */
  predicate Present<T>(reply: Reply<Option<T>>) {
    Succeeded(reply) && reply.data.Some?
  }

  /** `refetch(now)`, given the replies of the session read, the (retried)
      user read and the (retried) profile read. Within a minute of the last
      refresh nothing is asked. Otherwise: an error or no session resets the
      store; else the refresh time is recorded and the user is read; an error
      or no user resets; else the profile is read, and on error only the user
      is stored while the profile already held is kept; else both are stored.
      Any rejection resets. Returns the state, how it ended and the number of
      backend reads issued. */
  function Refetch(s: State, now: int, session: Reply<Option<Session>>, user: Reply<Option<User>>, profile: Reply<Option<Profile>>)
    : (r: (State, RefetchEnd, nat))
    ensures now - s.lastRefresh < ThrottleMs <==> r.1 == Throttled
    ensures r.1 == Throttled ==> r.0 == s && r.2 == 0
    ensures r.1 == SignedOut ==> r.0 == Reset(s)
    ensures r.1 == Refreshed ==> r.0.lastRefresh == now && profile.Replied? && r.0.profile == profile.data && r.2 == 3
    ensures r.1 == UserOnly ==> r.0.lastRefresh == now && r.0.profile == s.profile && r.0.user.Some?
    ensures r.2 <= 3
    ensures now - s.lastRefresh >= ThrottleMs && !Present(session) ==> r == (Reset(s), SignedOut, 1)
    ensures now - s.lastRefresh >= ThrottleMs && Present(session) && !Present(user) ==> r == (Reset(s), SignedOut, 2)
    ensures now - s.lastRefresh >= ThrottleMs && Present(session) && Present(user) ==> (
      r.2 == 3
      && (r.1 == SignedOut <==> profile.Threw?)
      && (r.1 == UserOnly <==> profile.Replied? && profile.error.Some?)
      && (r.1 == Refreshed <==> Succeeded(profile)))
    ensures r.1 in {UserOnly, Refreshed} ==> r.0.user == user.data
  {
    if now - s.lastRefresh < ThrottleMs then (s, Throttled, 0)
    else match session
      case Threw(_) => (Reset(s), SignedOut, 1)
      case Replied(Some(_), _) => (Reset(s), SignedOut, 1)
      case Replied(None, None) => (Reset(s), SignedOut, 1)
      case Replied(None, Some(_)) =>
        var s1 := s.(lastRefresh := now);
        match user
        case Threw(_) => (Reset(s1), SignedOut, 2)
        case Replied(Some(_), _) => (Reset(s1), SignedOut, 2)
        case Replied(None, None) => (Reset(s1), SignedOut, 2)
        case Replied(None, Some(u)) =>
          match profile
          case Threw(_) => (Reset(s1), SignedOut, 3)
          case Replied(Some(_), _) => (SetUser(s1, Some(u)), UserOnly, 3)
          case Replied(None, p) => (SetProfile(SetUser(s1, Some(u)), p), Refreshed, 3)
  }

  /** Two refetches within a minute of a successful one: the second asks
      the backend nothing and changes nothing. */
  lemma RefetchThrottles(s: State, t1: int, t2: int, session: Reply<Option<Session>>, user: Reply<Option<User>>, profile: Reply<Option<Profile>>,
                         session2: Reply<Option<Session>>, user2: Reply<Option<User>>, profile2: Reply<Option<Profile>>)
    requires t1 <= t2 < t1 + ThrottleMs
    requires Refetch(s, t1, session, user, profile).1 in {Refreshed, UserOnly}
    ensures var s1 := Refetch(s, t1, session, user, profile).0;
      Refetch(s1, t2, session2, user2, profile2) == (s1, Throttled, 0)
  {
  }

  /** A failure to read the profile keeps the signed-in user (no reset). */
  lemma ProfileErrorKeepsUser(s: State, now: int, u: User, e: Thrown, d: Option<Profile>, sess: Session)
    requires now - s.lastRefresh >= ThrottleMs
    ensures var r := Refetch(s, now, Replied(None, Some(sess)), Replied(None, Some(u)), Replied(Some(e), d));
      r.1 == UserOnly && r.0.user == Some(u) && r.0.profile == s.profile && r.0.isAdmin == s.isAdmin
  {
  }

  /** Every store action keeps the admin flag in agreement with the profile. */
  lemma ActionsKeepAdminAgreement(s: State, u: Option<User>, p: Option<Profile>, loading: bool, now: int,
                                  session: Reply<Option<Session>>, user: Reply<Option<User>>, profile: Reply<Option<Profile>>)
    requires AdminAgrees(s)
    ensures AdminAgrees(SetUser(s, u)) && AdminAgrees(SetProfile(s, p)) && AdminAgrees(SetLoading(s, loading))
    ensures AdminAgrees(Reset(s)) && AdminAgrees(Refetch(s, now, session, user, profile).0)
  {
  }
}

=== FILE: chat_notification_store.dfy ===
/** The chat-notification store. Unlike the plain notification store, its
    read/delete operations ask the backend first and change local state only
    after the backend agrees; every list change goes through
    `setNotifications`, which recounts the unread items. It also holds the
    realtime channel delivering new chat notifications. */
module ChatNotificationStore {
  import opened Wrappers
  import opened Seqs
  import opened Failures
  import opened Records
  import opened Remote
  import opened Network

  datatype Store = Store(notifications: seq<ChatNotification>, unreadCount: int, loading: bool,
                         error: Option<string>, subscription: Option<nat>)

  const Empty := Store([], 0, false, None, None)

  predicate IsUnread(n: ChatNotification) { !n.read }

  function Unread(s: seq<ChatNotification>): nat { Count(s, IsUnread) }

  /** The counter agrees with the items. */
  ghost predicate CounterAgrees(st: Store) {
    st.unreadCount == Unread(st.notifications)
  }

  /** `setNotifications(list)`. */
  function SetNotifications(st: Store, ns: seq<ChatNotification>): (r: Store)
    ensures r.notifications == ns && CounterAgrees(r)
    ensures r.loading == st.loading && r.error == st.error && r.subscription == st.subscription
  {
    st.(notifications := ns, unreadCount := Unread(ns))
  }

  /** `addNotification(n)`: ignored for a held id, else prepended and counted when unread. */
  function AddNotification(st: Store, n: ChatNotification): (r: Store)
    ensures (exists k :: 0 <= k < |st.notifications| && st.notifications[k].id == n.id) ==> r == st
    ensures (forall k :: 0 <= k < |st.notifications| ==> st.notifications[k].id != n.id) ==>
      r.notifications == [n] + st.notifications && r.unreadCount == st.unreadCount + (if n.read then 0 else 1)
  {
    if exists k :: 0 <= k < |st.notifications| && st.notifications[k].id == n.id then st
    else st.(notifications := [n] + st.notifications, unreadCount := st.unreadCount + if n.read then 0 else 1)
  }

  /** The items `sel` picks marked read, the others untouched. */
  function MarkWhere(s: seq<ChatNotification>, sel: ChatNotification -> bool): (r: seq<ChatNotification>)
    ensures |r| == |s|
    ensures forall k :: 0 <= k < |s| ==> r[k] == (if sel(s[k]) then s[k].(read := true) else s[k])
  {
    seq(|s|, k requires 0 <= k < |s| => if sel(s[k]) then s[k].(read := true) else s[k])
  }

  /** The message a failed operation records: the `Error`'s message or the
      operation's fallback text. */
  function Failure(reply: Reply<()>, fallback: string): (m: string)
    requires !Succeeded(reply)
  {
    match reply
    case Threw(e) => MessageOr(e, fallback)
    case Replied(e, _) => MessageOr(e.value, fallback)
  }

  /** The common shape of the four write operations: on the backend's
      success the list becomes `updated`, recounted; on failure the list is
      kept and the error recorded (and shown when `toast`). Loading ends. */
  function AfterWrite(st: Store, reply: Reply<()>, updated: seq<ChatNotification>, fallback: string, toast: bool)
    : (r: (Store, seq<Toast>))
    ensures !r.0.loading && r.0.subscription == st.subscription
    ensures Succeeded(reply) ==> r.0.notifications == updated && CounterAgrees(r.0) && r.0.error.None? && r.1 == []
    ensures !Succeeded(reply) ==> r.0.notifications == st.notifications && r.0.unreadCount == st.unreadCount && r.0.error.Some?
    ensures !Succeeded(reply) ==> r.1 == (if toast then [Alert(r.0.error.value)] else [])
  {
    if Succeeded(reply) then (SetNotifications(st.(error := None, loading := false), updated), [])
    else
      var m := Failure(reply, fallback);
      (st.(error := Some(m), loading := false), if toast then [Alert(m)] else [])
  }

  /** `markAsRead(id)`: the item with the id is marked read once the backend agrees. */
  function MarkAsRead(st: Store, id: string, reply: Reply<()>): (r: (Store, seq<Toast>))
    ensures Succeeded(reply) ==> |r.0.notifications| == |st.notifications| && forall k :: 0 <= k < |st.notifications| ==>
      r.0.notifications[k] == (if st.notifications[k].id == id then st.notifications[k].(read := true) else st.notifications[k])
    ensures !Succeeded(reply) ==> r.0.notifications == st.notifications && r.0.error.Some? && |r.1| == 1
  {
    AfterWrite(st, reply, MarkWhere(st.notifications, (n: ChatNotification) => n.id == id), "Failed to mark notification as read", true)
  }

  /** `markAllAsRead()`: every item read and the counter zero once the backend agrees. */
  function MarkAllAsRead(st: Store, reply: Reply<()>): (r: (Store, seq<Toast>))
    ensures Succeeded(reply) ==> (r.0.unreadCount == 0 && |r.0.notifications| == |st.notifications|
      && forall k :: 0 <= k < |r.0.notifications| ==> r.0.notifications[k].read)
    ensures !Succeeded(reply) ==> r.0.notifications == st.notifications && r.0.error.Some? && |r.1| == 1
  {
    var all := MarkWhere(st.notifications, (n: ChatNotification) => true);
    assert Count(all, IsUnread) == 0;
    AfterWrite(st, reply, all, "Failed to mark all notifications as read", true)
  }

  /** `clearChannelNotifications(channelId)`: the channel's items read once
      the backend agrees; a failure is recorded but not shown. */
  function ClearChannelNotifications(st: Store, channelId: string, reply: Reply<()>): (r: (Store, seq<Toast>))
    ensures Succeeded(reply) ==> |r.0.notifications| == |st.notifications| && forall k :: 0 <= k < |st.notifications| ==>
      r.0.notifications[k] == (if st.notifications[k].channelId == channelId then st.notifications[k].(read := true) else st.notifications[k])
    ensures !Succeeded(reply) ==> r.0.notifications == st.notifications && r.0.error.Some? && r.1 == []
  {
    AfterWrite(st, reply, MarkWhere(st.notifications, (n: ChatNotification) => n.channelId == channelId), "Failed to clear channel notifications", false)
  }

  /** `deleteNotification(id)`: the items with the id dropped once the backend agrees. */
  function DeleteNotification(st: Store, id: string, reply: Reply<()>): (r: (Store, seq<Toast>))
    ensures Succeeded(reply) ==> ((forall k :: 0 <= k < |r.0.notifications| ==> r.0.notifications[k].id != id && r.0.notifications[k] in st.notifications)
      && (forall k :: 0 <= k < |st.notifications| && st.notifications[k].id != id ==> st.notifications[k] in r.0.notifications))
    ensures !Succeeded(reply) ==> r.0.notifications == st.notifications && r.0.error.Some? && |r.1| == 1
  {
    AfterWrite(st, reply, Filter(st.notifications, (n: ChatNotification) => n.id != id), "Failed to delete notification", true)
  }

  /** `fetchNotifications()`: the list read (newest first), or empty when the
      backend returns no data; a failure records and shows its message and
      returns nothing. */
  function FetchNotifications(st: Store, read: Reply<Option<seq<ChatNotification>>>): (r: (Store, seq<ChatNotification>, seq<Toast>))
    ensures !r.0.loading
    ensures Succeeded(read) ==> r.1 == read.data.GetOr([]) && r.0.notifications == r.1 && CounterAgrees(r.0) && r.0.error.None?
    ensures !Succeeded(read) ==> r.1 == [] && r.0.notifications == st.notifications && r.0.error.Some? && |r.2| == 1
  {
    match read
    case Threw(e) =>
      var m := MessageOr(e, "Failed to fetch notifications");
      (st.(error := Some(m), loading := false), [], [Alert(m)])
    case Replied(Some(e), _) =>
      var m := MessageOr(e, "Failed to fetch notifications");
      (st.(error := Some(m), loading := false), [], [Alert(m)])
    case Replied(None, data) =>
      (SetNotifications(st.(error := None, loading := false), data.GetOr([])), data.GetOr([]), [])
  }

  /** `fetchUnreadCount()`: the backend's count (0 when missing), or 0 on failure. */
  function FetchUnreadCount(st: Store, read: Reply<Option<int>>): (r: (Store, int))
    ensures Succeeded(read) ==> r.1 == read.data.GetOr(0) && r.0.unreadCount == r.1
    ensures !Succeeded(read) ==> r.1 == 0 && r.0.unreadCount == st.unreadCount && r.0.error.Some?
    ensures r.0.notifications == st.notifications && !r.0.loading
  {
    match read
    case Threw(e) => (st.(error := Some(MessageOr(e, "Failed to fetch unread count")), loading := false), 0)
    case Replied(Some(e), _) => (st.(error := Some(MessageOr(e, "Failed to fetch unread count")), loading := false), 0)
    case Replied(None, n) => (st.(unreadCount := n.GetOr(0), error := None, loading := false), n.GetOr(0))
  }

  /** `unsubscribeFromNotifications()`: with a channel, removed through the
      monitor's registry and forgotten; without one, nothing happens. */
  function Unsubscribe(st: Store, c: Conn): (r: (Store, Conn))
    ensures st.subscription.None? ==> r == (st, c)
    ensures st.subscription.Some? ==> r.0 == st.(subscription := None) && r.1 == RemoveChannel(c, st.subscription.value)
  {
    match st.subscription
    case None => (st, c)
    case Some(h) => (st.(subscription := None), RemoveChannel(c, h))
  }

  function Topic(userId: string): string { "chat-notifications:" + userId }

  /** `subscribeToNotifications(userId)`: the held channel is removed first,
      then a new one is opened for the user, registered and held. */
  function Subscribe(st: Store, c: Conn, userId: string): (r: (Store, Conn))
    ensures r.0.subscription == Some(Unsubscribe(st, c).1.nextId)
    ensures r.1.open == Unsubscribe(st, c).1.open + [Chan(r.0.subscription.value, Topic(userId))]
    ensures st.subscription.Some? ==> st.subscription.value !in r.1.registry || st.subscription.value == r.0.subscription.value
    ensures r.0.subscription.value in r.1.registry
  {
    var (s1, c1) := Unsubscribe(st, c);
    var (c2, h) := OpenChannel(c1, Topic(userId));
    (s1.(subscription := Some(h)), RegisterChannel(c2, h))
  }

  /** A delivered INSERT adds the new row. */
  function Deliver(st: Store, inserted: ChatNotification): (r: Store)
    ensures r == AddNotification(st, inserted)
  {
    AddNotification(st, inserted)
  }

  /** Every operation keeps the counter in agreement with the items. */
  lemma OperationsKeepCounter(st: Store, n: ChatNotification, id: string, reply: Reply<()>,
                              read: Reply<Option<seq<ChatNotification>>>)
    requires CounterAgrees(st)
    ensures CounterAgrees(AddNotification(st, n))
    ensures CounterAgrees(MarkAsRead(st, id, reply).0) && CounterAgrees(MarkAllAsRead(st, reply).0)
    ensures CounterAgrees(ClearChannelNotifications(st, id, reply).0) && CounterAgrees(DeleteNotification(st, id, reply).0)
    ensures CounterAgrees(FetchNotifications(st, read).0)
  {
    AddKeepsCounter(st, n);
    WritesKeepCounter(st, id, reply);
  }

  /** Adding a notification keeps the counter in step. */
  lemma AddKeepsCounter(st: Store, n: ChatNotification)
    requires CounterAgrees(st)
    ensures CounterAgrees(AddNotification(st, n))
  {
    var a := [n] + st.notifications;
    assert a[1..] == st.notifications;
  }

  /** The read, clear and delete writes keep the counter in step. */
  lemma WritesKeepCounter(st: Store, id: string, reply: Reply<()>)
    requires CounterAgrees(st)
    ensures CounterAgrees(MarkAsRead(st, id, reply).0) && CounterAgrees(MarkAllAsRead(st, reply).0)
    ensures CounterAgrees(ClearChannelNotifications(st, id, reply).0) && CounterAgrees(DeleteNotification(st, id, reply).0)
  {
  }

  /** Subscribing again leaves the channel held before (one the client
      issued) out of the registry: of the channels this store opened, at most
      one stays registered. */
  lemma ResubscribeDropsOld(st: Store, c: Conn, userId: string)
    requires st.subscription.Some? && st.subscription.value < c.nextId
    ensures var (s2, c2) := Subscribe(st, c, userId);
      st.subscription.value !in c2.registry && s2.subscription.value in c2.registry
  {
  }
}

=== FILE: chat_pages.dfy ===
/** The chat pages' own logic: relative timestamps, message previews,
    the send and load-more guards, and the back link of a conversation. */
module ChatPages {
  import opened Wrappers
  import opened Text
  import opened Records
  import ChatStore
  import Remote

  const MinuteMs := 60000
  const HourMs := 3600000
  const DayMs := 86400000

  /** A relative age. `OlderDate` is rendered by the browser's locale date
      format. */
  datatype Age = JustNow | MinutesAgo(m: int) | HoursAgo(h: int) | DaysAgo(d: int) | OlderDate

  /** `formatTimestamp` on the age `diffMs = now - date` in milliseconds.
      `Math.floor` of a division by a positive number is Dafny's `/`. A date
      in the future reads "Just now". */
  function AgeOf(diffMs: int): (r: Age)
    ensures r.JustNow? <==> diffMs < MinuteMs
    ensures r.MinutesAgo? ==> 1 <= r.m < 60 && r.m * MinuteMs <= diffMs < (r.m + 1) * MinuteMs
    ensures r.HoursAgo? ==> 1 <= r.h < 24 && r.h * HourMs <= diffMs < (r.h + 1) * HourMs
    ensures r.DaysAgo? ==> 1 <= r.d < 7 && r.d * DayMs <= diffMs < (r.d + 1) * DayMs
    ensures r.OlderDate? <==> diffMs >= 7 * DayMs
  {
    var mins := diffMs / MinuteMs;
    var hours := diffMs / HourMs;
    var days := diffMs / DayMs;
    if mins < 1 then JustNow
    else if mins < 60 then MinutesAgo(mins)
    else if hours < 24 then HoursAgo(hours)
    else if days < 7 then DaysAgo(days)
    else OlderDate
  }

  /** The text of an age; `localeDate` is the browser's rendering of the date. */
  function AgeText(a: Age, localeDate: string): string {
    match a
    case JustNow => "Just now"
    case MinutesAgo(m) => IntToString(m) + "m ago"
    case HoursAgo(h) => IntToString(h) + "h ago"
    case DaysAgo(d) => IntToString(d) + "d ago"
    case OlderDate => localeDate
  }

  /** The text names its age: "Just now" under a minute, the locale date
      from a week on, and in between the whole count, read back from the
      digits, followed by its unit's letter and " ago". */
  lemma AgeTextReadsBack(diffMs: int, localeDate: string)
    ensures diffMs < MinuteMs ==> AgeText(AgeOf(diffMs), localeDate) == "Just now"
    ensures diffMs >= 7 * DayMs ==> AgeText(AgeOf(diffMs), localeDate) == localeDate
    ensures MinuteMs <= diffMs < 7 * DayMs ==> (
      var t := AgeText(AgeOf(diffMs), localeDate);
      |t| > 5 && t[|t| - 4..] == " ago"
      && (t[|t| - 5] == 'm' <==> diffMs < HourMs)
      && (t[|t| - 5] == 'd' <==> diffMs >= DayMs)
      && ParseDigits(t[..|t| - 5])
         == Some(diffMs / (if diffMs < HourMs then MinuteMs else if diffMs < DayMs then HourMs else DayMs)))
  {
    if MinuteMs <= diffMs < 7 * DayMs {
      var a := AgeOf(diffMs);
      match a
      case MinutesAgo(m) =>
        assert m == diffMs / MinuteMs && diffMs < HourMs;
        assert AgeText(a, localeDate) == IntToString(m) + ['m'] + " ago";
        CountReadsBack(m, 'm');
      case HoursAgo(h) =>
        assert h == diffMs / HourMs && HourMs <= diffMs < DayMs;
        assert AgeText(a, localeDate) == IntToString(h) + ['h'] + " ago";
        CountReadsBack(h, 'h');
      case DaysAgo(d) =>
        assert d == diffMs / DayMs && DayMs <= diffMs;
        assert AgeText(a, localeDate) == IntToString(d) + ['d'] + " ago";
        CountReadsBack(d, 'd');
    }
  }

  /** A positive count followed by a unit letter and " ago" reads back. */
  lemma CountReadsBack(n: int, unit: char)
    requires n >= 1
    ensures var t := IntToString(n) + [unit] + " ago";
      |t| > 5 && t[|t| - 4..] == " ago" && t[|t| - 5] == unit
      && ParseDigits(t[..|t| - 5]) == Some(n)
  {
    var t := IntToString(n) + [unit] + " ago";
    assert t[..|t| - 5] == NatToString(n);
    ParseNatToString(n);
  }

  /** The conversation list's variant: a missing or empty timestamp shows nothing. */
  function ListTimestamp(timestamp: Option<string>, diffMs: int, localeDate: string): (r: string)
    ensures !Truthy(timestamp) ==> r == ""
    ensures Truthy(timestamp) ==> r == AgeText(AgeOf(diffMs), localeDate)
  {
    if !Truthy(timestamp) then "" else AgeText(AgeOf(diffMs), localeDate)
  }

  /** The unit switches exactly at one minute, one hour, one day and one week. */
  lemma AgeBoundaries()
    ensures AgeOf(MinuteMs - 1) == JustNow && AgeOf(MinuteMs) == MinutesAgo(1)
    ensures AgeOf(HourMs - 1) == MinutesAgo(59) && AgeOf(HourMs) == HoursAgo(1)
    ensures AgeOf(DayMs - 1) == HoursAgo(23) && AgeOf(DayMs) == DaysAgo(1)
    ensures AgeOf(7 * DayMs - 1) == DaysAgo(6) && AgeOf(7 * DayMs) == OlderDate
    ensures AgeOf(-1) == JustNow
  {
  }

  const PreviewLength := 50

  /** `truncateMessage(message, max)`: nothing for a missing or empty
      message; a message of at most `max` characters as it is; a longer one
      cut to `max` characters followed by "...". */
  function Truncate(message: Option<string>, max: nat): (r: string)
    ensures message.None? ==> r == ""
    ensures message.Some? && |message.value| <= max ==> r == message.value
    ensures message.Some? && |message.value| > max ==> (
      |r| == max + 3 && r[..max] == message.value[..max] && r[max..] == "...")
  {
    if !Truthy(message) then ""
    else if |message.value| <= max then message.value
    else message.value[..max] + "..."
  }

  /** Previewing a preview changes nothing. */
  lemma TruncateIdempotent(message: Option<string>, max: nat)
    ensures Truncate(Some(Truncate(message, max)), max) == Truncate(message, max)
  {
    var t := Truncate(message, max);
    if message.Some? && |message.value| > max {
      assert t[..max] == message.value[..max];
    }
  }

  /** `handleSendMessage`: a blank draft sends nothing; otherwise the draft
      is sent as typed, untrimmed. */
  function Outgoing(draft: string): (r: Option<string>)
    ensures r.None? <==> IsBlank(draft)
    ensures r.Some? ==> r.value == draft
  {
    if IsBlank(draft) then None else Some(draft)
  }

  /** `handleLoadMore`: with more to load, nothing loading and some
      messages held, the page asks for the messages before the creation time
      of the last (oldest) held message. */
  function LoadMoreCursor(st: ChatStore.Store): (r: Option<string>)
    ensures r.Some? <==> st.hasMore && !st.loading && |st.messages| > 0
    ensures r.Some? ==> r.value == st.messages[|st.messages| - 1].createdAt
  {
    if !st.hasMore || st.loading || |st.messages| == 0 then None
    else Some(st.messages[|st.messages| - 1].createdAt)
  }

  /** A page of older messages lands after the held ones, so the next
      cursor is the oldest message of that page. */
  lemma NextCursorIsOldestOfPage(st: ChatStore.Store, page: seq<Message>)
    requires LoadMoreCursor(st).Some? && st.active.Some? && |page| > 0 && LoadMoreCursor(st).value != ""
    ensures var r := ChatStore.FetchHistory(st, LoadMoreCursor(st), Remote.Replied(None, Some(page)));
      |r.0.messages| > 0 && r.0.messages[|r.0.messages| - 1] == page[|page| - 1]
  {
    ChatStore.LoadMoreAppends(st, LoadMoreCursor(st).value, page);
  }

  /** `getBackLink()`: back to the listing or wanted vehicle the chat is
      about, or to the conversation list. */
  function BackLink(resourceType: Option<string>, resourceId: string): (r: string)
    ensures resourceType == Some("listing") ==> r == "/inventory/" + resourceId
    ensures resourceType == Some("iso") ==> r == "/iso/" + resourceId
    ensures resourceType != Some("listing") && resourceType != Some("iso") ==> r == "/chat"
  {
    if resourceType == Some("listing") then "/inventory/" + resourceId
    else if resourceType == Some("iso") then "/iso/" + resourceId
    else "/chat"
  }
}

=== FILE: chat_store.dfy ===
/** The chat store: the user's channels, the open channel with its messages
    (newest first) and its realtime subscription, and the paging flag. The
    backend's replies, the generated message id and the current time come in
    as parameters. */
module ChatStore {
  import opened Wrappers
  import opened Text
  import opened Failures
  import opened Records
  import opened Remote
  import opened Network

  const PageSize := 20
  const NoActiveChannelText := "No active channel"
  const EmptyMessageText := "Message cannot be empty"

  datatype Store = Store(channels: seq<ChatChannel>, active: Option<ChatChannel>, messages: seq<Message>,
                         loading: bool, error: Option<string>, subscription: Option<nat>, hasMore: bool)

  const Initial := Store([], None, [], false, None, None, true)

  /** The message a failed reply leaves: the `Error`'s message or the fallback. */
  function FailureText<T>(reply: Reply<T>, fallback: string): (r: string)
    requires !Succeeded(reply)
    ensures Failure(reply).value.ErrorValue? ==> r == Failure(reply).value.message
    ensures !Failure(reply).value.ErrorValue? ==> r == fallback
  {
    match reply
    case Threw(e) => MessageOr(e, fallback)
    case Replied(e, _) => MessageOr(e.value, fallback)
  }

  /** `addMessage(m)`: prepended. */
  function AddMessage(st: Store, m: Message): (r: Store)
    ensures |r.messages| == |st.messages| + 1 && r.messages[0] == m && r.messages[1..] == st.messages
  {
    st.(messages := [m] + st.messages)
  }

  /** `fetchChannels()`: the user's channels, or none on failure (recorded and shown). */
  function FetchChannels(st: Store, read: Reply<Option<seq<ChatChannel>>>): (r: (Store, seq<ChatChannel>, seq<Toast>))
    ensures Succeeded(read) ==> r.1 == read.data.GetOr([]) && r.0.channels == r.1 && r.0.error.None? && r.2 == []
    ensures !Succeeded(read) ==> r.1 == [] && r.0.channels == st.channels && r.0.error.Some? && |r.2| == 1
    ensures !r.0.loading
  {
    if Succeeded(read) then (st.(channels := read.data.GetOr([]), error := None, loading := false), read.data.GetOr([]), [])
    else
      var m := FailureText(read, "Failed to fetch channels");
      (st.(error := Some(m), loading := false), [], [Alert(m)])
  }

  /** `getOrCreateResourceChannel({type, id, ownerId})`: the procedure returns
      the channel's id, whose row is then read; either failure is recorded,
      shown and rethrown. */
  function GetOrCreateResourceChannel(st: Store, create: Reply<string>, read: Reply<Option<ChatChannel>>)
    : (r: (Store, Result<Option<ChatChannel>, string>, seq<Toast>))
    ensures r.1.Ok? <==> Succeeded(create) && Succeeded(read)
    ensures r.1.Ok? ==> r.1.value == read.data && r.0.error.None?
    ensures r.1.Err? ==> r.0.error == Some(r.1.error) && r.2 == [Alert(r.1.error)]
    ensures !r.0.loading && r.0.messages == st.messages
  {
    if !Succeeded(create) then
      var m := FailureText(create, "Failed to create channel");
      (st.(error := Some(m), loading := false), Err(m), [Alert(m)])
    else if !Succeeded(read) then
      var m := FailureText(read, "Failed to create channel");
      (st.(error := Some(m), loading := false), Err(m), [Alert(m)])
    else (st.(error := None, loading := false), Ok(read.data), [])
  }

  /** `unsubscribe()`: with a subscription, removed through the monitor and
      forgotten together with the open channel; without one, nothing happens. */
  function Unsubscribe(st: Store, c: Conn): (r: (Store, Conn))
    ensures st.subscription.None? ==> r == (st, c)
    ensures st.subscription.Some? ==> (r.0 == st.(subscription := None, active := None)
      && r.1 == RemoveChannel(c, st.subscription.value))
  {
    match st.subscription
    case None => (st, c)
    case Some(h) => (st.(subscription := None, active := None), RemoveChannel(c, h))
  }

  /** `fetchHistory(before?)`: without an open channel, an error and no
      request. Otherwise a page of at most twenty messages is read: without
      `before` it replaces the messages, with it it is appended after them;
      more pages are assumed exactly when the page is full. A failure is
      recorded and shown. Returns the store, the page, the number of requests
      and the toasts. */
  function FetchHistory(st: Store, before: Option<string>, read: Reply<Option<seq<Message>>>)
    : (r: (Store, seq<Message>, nat, seq<Toast>))
    ensures st.active.None? ==> r == (st.(error := Some(NoActiveChannelText)), [], 0, [])
    ensures st.active.Some? ==> r.2 == 1 && !r.0.loading
    ensures st.active.Some? && Succeeded(read) ==> (r.1 == read.data.GetOr([]) && r.0.error.None?
      && r.0.messages == (if Truthy(before) then st.messages + r.1 else r.1)
      && (r.0.hasMore <==> |r.1| == PageSize))
    ensures st.active.Some? && !Succeeded(read) ==> (r.1 == [] && r.0.messages == st.messages
      && r.0.hasMore == st.hasMore && r.0.error.Some? && |r.3| == 1)
  {
    if st.active.None? then (st.(error := Some(NoActiveChannelText)), [], 0, [])
    else if !Succeeded(read) then
      var m := FailureText(read, "Failed to fetch messages");
      (st.(error := Some(m), loading := false), [], 1, [Alert(m)])
    else
      var page := read.data.GetOr([]);
      var msgs := if Truthy(before) then st.messages + page else page;
      (st.(messages := msgs, hasMore := |page| == PageSize, error := None, loading := false), page, 1, [])
  }

  /** `markChannelAsRead(channelId)`: a failure is recorded, not shown. */
  function MarkChannelAsRead(st: Store, reply: Reply<()>): (r: Store)
    ensures Succeeded(reply) ==> r == st
    ensures !Succeeded(reply) ==> r == st.(error := Some(FailureText(reply, "Failed to mark channel as read")))
  {
    if Succeeded(reply) then st else st.(error := Some(FailureText(reply, "Failed to mark channel as read")))
  }

  function Topic(channelId: string): string { "messages:" + channelId }

  /** `subscribe(channelId)`: the held subscription is dropped first; then
      the channel row is read and opened, its first page of history read,
      the channel marked read, and a new realtime channel opened, registered
      and held. A failed channel read stops after recording and showing the
      error, with no subscription held. */
  function Subscribe(st: Store, c: Conn, channelId: string, channel: Reply<Option<ChatChannel>>,
                     history: Reply<Option<seq<Message>>>, markRead: Reply<()>): (r: (Store, Conn, seq<Toast>))
    ensures !Succeeded(channel) ==> r.0.subscription.None? && r.1 == Unsubscribe(st, c).1 && r.0.error.Some? && |r.2| == 1
    ensures Succeeded(channel) ==> (r.0.active == channel.data && r.0.subscription == Some(Unsubscribe(st, c).1.nextId)
      && r.0.subscription.value in r.1.registry
      && r.1.open == Unsubscribe(st, c).1.open + [Chan(r.0.subscription.value, Topic(channelId))])
    ensures !r.0.loading
  {
    var (s1, c1) := Unsubscribe(st.(loading := true, error := None), c);
    if !Succeeded(channel) then
      var m := FailureText(channel, "Failed to subscribe to channel");
      (s1.(error := Some(m), loading := false), c1, [Alert(m)])
    else
      var s2 := s1.(active := channel.data);
      var (s3, _, _, toasts) := FetchHistory(s2, None, history);
      var s4 := MarkChannelAsRead(s3, markRead);
      var (c2, h) := OpenChannel(c1, Topic(channelId));
      (s4.(subscription := Some(h), loading := false), RegisterChannel(c2, h), toasts)
  }

  /** A realtime INSERT: the sender's profile is looked up and the message
      added with the sender's dealer name (none when the lookup returns no
      row); a rejected lookup adds nothing. */
  function Deliver(st: Store, inserted: Message, sender: Reply<Option<Profile>>): (r: Store)
    ensures sender.Threw? ==> r == st
    ensures sender.Replied? ==> r.messages == [inserted.(senderName := if sender.data.Some? then sender.data.value.dealerName else None)] + st.messages
  {
    match sender
    case Threw(_) => st
    case Replied(_, p) => AddMessage(st, inserted.(senderName := if p.Some? then p.value.dealerName else None))
  }

  /** `sendMessage(content)`. Without an open channel, or with blank content,
      an error and no request. Otherwise the user and their profile are read,
      an optimistic message (with the fresh id and the current time) is
      prepended, and the insert is sent; a failing insert is recorded and
      shown, but the optimistic message stays. A missing user or a rejected
      read fails before anything is added. Returns the store, the number of
      requests and the toasts. */
  function SendMessage(st: Store, content: string, user: Reply<Option<User>>, profile: Reply<Option<Profile>>,
                       insert: Reply<()>, freshId: string, now: string): (r: (Store, nat, seq<Toast>))
    ensures st.active.None? ==> r == (st.(error := Some(NoActiveChannelText)), 0, [])
    ensures st.active.Some? && IsBlank(content) ==> r == (st.(error := Some(EmptyMessageText)), 0, [])
    ensures st.active.Some? && !IsBlank(content) && user.Replied? && user.data.Some? && profile.Replied? ==> (
      r.1 == 3 && |r.0.messages| == |st.messages| + 1 && r.0.messages[1..] == st.messages
      && r.0.messages[0].id == freshId && r.0.messages[0].content == content
      && r.0.messages[0].senderId == user.data.value.id && r.0.messages[0].channelId == st.active.value.id
      && (Succeeded(insert) <==> r.2 == []))
    ensures !(user.Replied? && user.data.Some? && profile.Replied?) ==> r.0.messages == st.messages
  {
    if st.active.None? then (st.(error := Some(NoActiveChannelText)), 0, [])
    else if IsBlank(content) then (st.(error := Some(EmptyMessageText)), 0, [])
    else match user
      case Threw(e) =>
        var m := MessageOr(e, "Failed to send message");
        (st.(error := Some(m)), 1, [Alert(m)])
      case Replied(_, None) => (st.(error := Some("Not authenticated")), 1, [Alert("Not authenticated")])
      case Replied(_, Some(u)) =>
        match profile
        case Threw(e) =>
          var m := MessageOr(e, "Failed to send message");
          (st.(error := Some(m)), 2, [Alert(m)])
        case Replied(_, p) =>
          var optimistic := Message(freshId, st.active.value.id, u.id, content, now, if p.Some? then p.value.dealerName else None);
          var s1 := AddMessage(st, optimistic);
          if Succeeded(insert) then (s1, 3, [])
          else
            var m := FailureText(insert, "Failed to send message");
            (s1.(error := Some(m)), 3, [Alert(m)])
  }

  /** Loading an older page keeps what is shown and appends the page after it. */
  lemma LoadMoreAppends(st: Store, before: string, page: seq<Message>)
    requires st.active.Some? && before != ""
    ensures var r := FetchHistory(st, Some(before), Replied(None, Some(page)));
      r.0.messages == st.messages + page && r.0.messages[..|st.messages|] == st.messages
  {
  }

  /** A failed send leaves the optimistic message in place, with the error recorded. */
  lemma FailedSendKeepsOptimisticMessage(st: Store, content: string, u: User, p: Option<Profile>, e: Thrown, freshId: string, now: string)
    requires st.active.Some? && !IsBlank(content)
    ensures var r := SendMessage(st, content, Replied(None, Some(u)), Replied(None, p), Threw(e), freshId, now);
      |r.0.messages| == |st.messages| + 1 && r.0.messages[0].id == freshId && r.0.error.Some?
  {
  }

  /** Subscribing again, while holding a subscription the client issued,
      leaves that old channel out of the registry. */
  lemma ResubscribeDropsOld(st: Store, c: Conn, channelId: string, channel: Reply<Option<ChatChannel>>,
                            history: Reply<Option<seq<Message>>>, markRead: Reply<()>)
    requires st.subscription.Some? && st.subscription.value < c.nextId
    ensures st.subscription.value !in Subscribe(st, c, channelId, channel, history, markRead).1.registry
  {
  }
}

=== FILE: failures.dfy ===
/** The values a JavaScript `catch` clause can receive in this application, and
    the few ways the code inspects them. */
module Failures {
  import opened Wrappers

  /** The class of an `Error` instance, as far as the code distinguishes it. */
  datatype ErrorClass = PlainError | TimeoutError

  /** A thrown value.
      - `ErrorValue`: an instance of `Error` (or a subclass such as the
        Supabase client's auth and database errors), with its message and,
        when present, its `code` and numeric `status` properties.
      - `ObjectValue`: a plain object that is not an `Error`; each property is
        `None` when absent. `json` is its `JSON.stringify` rendering.
      - `PrimitiveValue`: a thrown string, number, `null`, ...; `text` is `String(value)`. */
  datatype Thrown =
    | ErrorValue(cls: ErrorClass, message: string, code: Option<string>, status: Option<int>)
    | ObjectValue(msg: Option<string>, objCode: Option<string>, errorText: Option<string>, objStatus: Option<int>, json: string)
    | PrimitiveValue(text: string)

  /** `new Error(message)`. */
  function NewError(message: string): (e: Thrown)
    ensures e.ErrorValue? && e.message == message
  {
    ErrorValue(PlainError, message, None, None)
  }

  /** `new TimeoutError(message)`, whose constructor defaults the message. */
  function NewTimeoutError(message: Option<string>): (e: Thrown)
    ensures e.ErrorValue? && e.cls == TimeoutError
    ensures message.Some? ==> e.message == message.value
  {
    ErrorValue(TimeoutError, message.GetOr("The operation timed out"), None, None)
  }

  /** The value of the `message` property, if there is one. */
  function MessageProp(e: Thrown): Option<string> {
    match e
    case ErrorValue(_, m, _, _) => Some(m)
    case ObjectValue(m, _, _, _, _) => m
    case PrimitiveValue(_) => None
  }

  /** The value of the `code` property, if it is present and a string. */
  function CodeProp(e: Thrown): Option<string> {
    match e
    case ErrorValue(_, _, c, _) => c
    case ObjectValue(_, c, _, _, _) => c
    case PrimitiveValue(_) => None
  }

  /** The value of the `status` property, if it is present and a number. */
  function StatusProp(e: Thrown): Option<int> {
    match e
    case ErrorValue(_, _, _, s) => s
    case ObjectValue(_, _, _, s, _) => s
    case PrimitiveValue(_) => None
  }

  /** `error instanceof Error ? error : new Error(String(error))`: an `Error`
      is kept as it is; anything else is wrapped, a plain object rendering as
      `[object Object]`. */
  function AsError(e: Thrown): (r: Thrown)
    ensures r.ErrorValue?
    ensures e.ErrorValue? ==> r == e
  {
    match e
    case ErrorValue(_, _, _, _) => e
    case ObjectValue(_, _, _, _, _) => NewError("[object Object]")
    case PrimitiveValue(t) => NewError(t)
  }

  /** `err instanceof Error ? err.message : fallback`, the way the stores turn
      a caught value into the text they keep in their `error` field. */
  function MessageOr(e: Thrown, fallback: string): (m: string)
    ensures e.ErrorValue? ==> m == e.message
    ensures !e.ErrorValue? ==> m == fallback
  {
    if e.ErrorValue? then e.message else fallback
  }
}

=== FILE: heartbeat.dfy ===
/** The client heartbeat: every three minutes, while online, a small query
    keeps the connection warm. Failures are counted; the fifth consecutive one
    stops the heartbeat. The browser's `online` event resets the count. */
module Heartbeat {
  import opened Wrappers
  import opened Text
  import opened Remote

  const MaxReconnectAttempts := 5
  const TickEveryMs := 180000

  /** `isHeartbeatActive`, the interval handle, the failure count, and whether
      the `online`/`offline` handlers are attached. */
  datatype Beat = Beat(active: bool, interval: Option<nat>, attempts: nat, listening: bool)

  /** The outcome of one heartbeat query. */
  datatype PingResult = PingOk | PingError(message: string) | PingThrew

  const Initial := Beat(false, None, 0, false)

  /** The states the module can be in: running with fewer than the maximum
      failures, or stopped with nothing scheduled or attached. */
  ghost predicate Valid(b: Beat) {
    if b.active then b.interval.Some? && b.listening && b.attempts < MaxReconnectAttempts
    else b.interval.None? && !b.listening
  }

  /** `startHeartbeat()`: a no-op while active; otherwise resets the count,
      schedules the interval (`intervalId`) and attaches the handlers. */
  function Start(b: Beat, intervalId: nat): (r: Beat)
    ensures b.active ==> r == b
    ensures !b.active ==> r == Beat(true, Some(intervalId), 0, true)
    ensures r.active
  {
    if b.active then b else Beat(true, Some(intervalId), 0, true)
  }

  /** `stopHeartbeat()`: inactive, interval cleared, handlers detached; the
      count is kept. */
  function Stop(b: Beat): (r: Beat)
    ensures !r.active && r.interval.None? && !r.listening && r.attempts == b.attempts
  {
    Beat(false, None, b.attempts, false)
  }

  /** One interval tick. Nothing happens without a running interval or while
      offline. A clean query resets the count. A failed one counts, and the
      failure that brings the count to the maximum stops the heartbeat and
      tells the user; a query error mentioning a JWT first asks for a session
      refresh. Returns the new state, whether a refresh was requested and the
      toasts shown. */
  function Tick(b: Beat, platformOnline: bool, ping: PingResult): (r: (Beat, bool, seq<Toast>))
    ensures b.interval.None? || !platformOnline ==> r == (b, false, [])
    ensures r.1 <==> b.interval.Some? && platformOnline && ping.PingError? && Contains(ping.message, "JWT")
    ensures b.interval.Some? && platformOnline && ping.PingOk? ==> r.0 == b.(attempts := 0)
    ensures b.interval.Some? && platformOnline && !ping.PingOk? ==> r.0.attempts == b.attempts + 1
    ensures b.interval.Some? && platformOnline && !ping.PingOk? ==>
      (r.0.active <==> b.active && b.attempts + 1 < MaxReconnectAttempts)
  {
    if b.interval.None? || !platformOnline then (b, false, [])
    else match ping
      case PingOk => (b.(attempts := 0), false, [])
      case PingError(message) => Failed(b, Contains(message, "JWT"))
      case PingThrew => Failed(b, false)
  }

  /** A failed heartbeat query: counted, and the one reaching the maximum stops
      the heartbeat with a toast. */
  function Failed(b: Beat, refresh: bool): (r: (Beat, bool, seq<Toast>))
    ensures r.0.attempts == b.attempts + 1 && r.1 == refresh
    ensures r.0.active <==> b.active && b.attempts + 1 < MaxReconnectAttempts
    ensures |r.2| == 1 <==> b.attempts + 1 >= MaxReconnectAttempts
  {
    var n := b.attempts + 1;
    if n >= MaxReconnectAttempts then (Stop(b.(attempts := n)), refresh, [Alert("Connection lost. Please refresh the page.")])
    else (b.(attempts := n), refresh, [])
  }

  /** The `online` handler (while attached): resets the count and refreshes
      the session, telling the user if the refresh reports an error. */
  function HandleOnline(b: Beat, refresh: Reply<()>): (r: (Beat, seq<Toast>))
    ensures b.listening ==> r.0 == b.(attempts := 0)
    ensures !b.listening ==> r == (b, [])
  {
    if !b.listening then (b, [])
    else
      var toasts := if refresh.Replied? && refresh.error.Some?
        then [Alert("Connection restored, but session refresh failed. Please reload the page.")] else [];
      (b.(attempts := 0), toasts)
  }

  /** The `offline` handler (while attached) only tells the user. */
  function HandleOffline(b: Beat): (r: seq<Toast>)
    ensures b.listening <==> |r| == 1
  {
    if b.listening then [Alert("Network connection lost. Waiting for connection to restore...")] else []
  }

  /** Every transition keeps the state valid. */
  lemma TransitionsKeepValid(b: Beat, intervalId: nat, platformOnline: bool, ping: PingResult, refresh: Reply<()>)
    requires Valid(b)
    ensures Valid(Start(b, intervalId)) && Valid(Stop(b))
    ensures Valid(Tick(b, platformOnline, ping).0)
    ensures Valid(HandleOnline(b, refresh).0)
  {
  }

  /** `n` consecutive ticks whose query fails. */
  function FailTicks(b: Beat, n: nat): Beat
    decreases n
  {
    if n == 0 then b else Tick(FailTicks(b, n - 1), true, PingThrew).0
  }

  /** From a fresh start, four failed ticks leave the heartbeat running with
      four failures and the fifth stops it. */
  lemma {:induction false} FiveFailuresStop(b: Beat, intervalId: nat, n: nat)
    requires !b.active && n <= MaxReconnectAttempts
    ensures var s := FailTicks(Start(b, intervalId), n);
      s.attempts == n && (s.active <==> n < MaxReconnectAttempts)
      && (n < MaxReconnectAttempts ==> s.interval == Some(intervalId))
    decreases n
  {
    if n > 0 {
      FiveFailuresStop(b, intervalId, n - 1);
    }
  }
}

=== FILE: image_loader.dfy ===
/** Photo preparation: the WebP re-encoding, which falls back to the
    original file whenever it cannot be done, and the upload checks (type,
    then size, then the decoded dimensions). The browser's image decoding and
    encoding come in as their outcomes. */
module ImageLoader {
  import opened Wrappers
  import opened Text

  datatype File = File(name: string, mimeType: string, size: nat)

  const WebpType := "image/webp"

  /** The index of the last `.` in `s`, if any. */
  function LastDot(s: string): (r: Option<nat>)
    ensures r.Some? ==> r.value < |s| && s[r.value] == '.' && forall k :: r.value < k < |s| ==> s[k] != '.'
    ensures r.None? ==> forall k :: 0 <= k < |s| ==> s[k] != '.'
    decreases |s|
  {
    if |s| == 0 then None
    else if s[|s| - 1] == '.' then Some(|s| - 1)
    else LastDot(s[..|s| - 1])
  }

  /** `name` ends in an extension the pattern `\.[^/.]+$` matches: a dot
      followed by at least one character, none of them a slash or a dot. */
  predicate HasExtension(name: string) {
    var d := LastDot(name);
    d.Some? && d.value < |name| - 1 && forall k :: d.value < k < |name| ==> name[k] != '/'
  }

  /** `name.replace(/\.[^/.]+$/, '.webp')`. */
  function WithWebpExtension(name: string): (r: string)
    ensures HasExtension(name) ==> r == name[..LastDot(name).value] + ".webp"
    ensures !HasExtension(name) ==> r == name
  {
    if HasExtension(name) then name[..LastDot(name).value] + ".webp" else name
  }

  /** Renaming twice is renaming once, and a renamed file keeps everything
      before its extension. */
  lemma WebpExtensionIdempotent(name: string)
    ensures WithWebpExtension(WithWebpExtension(name)) == WithWebpExtension(name)
    ensures HasExtension(name) ==> StartsWith(WithWebpExtension(name), name[..LastDot(name).value])
  {
    if HasExtension(name) {
      var i := LastDot(name).value;
      var r := name[..i] + ".webp";
      assert r[i] == '.';
      forall k | i < k < |r| ensures r[k] != '.' && r[k] != '/' {
        assert r[k] == "webp"[k - i - 1];
      }
      assert LastDot(r) == Some(i) by {
        LastDotIs(r, i);
      }
      assert r[..i] == name[..i];
    }
  }

  /** The last dot is the one after which no dot follows. */
  lemma {:induction false} LastDotIs(s: string, i: nat)
    requires i < |s| && s[i] == '.' && forall k :: i < k < |s| ==> s[k] != '.'
    ensures LastDot(s) == Some(i)
    decreases |s|
  {
    if i < |s| - 1 {
      LastDotIs(s[..|s| - 1], i);
    }
  }

  /** How re-encoding went, when the browser can do it. */
  datatype Encoding = Encoded(size: nat) | EncodingFailed

  /** `optimizeImage(file)`: without the browser APIs, or when decoding or
      encoding fails, the original file; otherwise a WebP file renamed to the
      `.webp` extension. */
  function OptimizeImage(f: File, supported: bool, enc: Encoding): (r: File)
    ensures !supported || enc.EncodingFailed? ==> r == f
    ensures supported && enc.Encoded? ==> (
      r.mimeType == WebpType && r.name == WithWebpExtension(f.name) && r.size == enc.size)
  {
    if !supported then f
    else match enc
      case EncodingFailed => f
      case Encoded(n) => File(WithWebpExtension(f.name), WebpType, n)
  }

  datatype Options = Options(maxSize: nat, minWidth: nat, minHeight: nat)

  const Mebibyte := 1024 * 1024
  const DefaultOptions := Options(5 * Mebibyte, 200, 200)

  const AllowedTypes := ["image/jpeg", "image/png", "image/webp"]

  datatype ImageError = UnsupportedType | TooLarge(maxSize: nat) | TooSmall(minWidth: nat, minHeight: nat) | LoadFailed

  const TooLargePrefix := "File size must be less than "
  const TooSmallPrefix := "Image dimensions must be at least "

  /** The message of each failure. The size limit is shown in whole mebibytes
      (a fractional limit is truncated). */
  function ErrorText(e: ImageError): (r: string)
    ensures e.TooLarge? ==> (
      |r| > |TooLargePrefix| + 2 && r[..|TooLargePrefix|] == TooLargePrefix
      && r[|r| - 2..] == "MB")
    ensures e.UnsupportedType? ==> r == "Please upload a JPG, PNG, or WebP file"
    ensures e.TooSmall? ==> (
      r == TooSmallPrefix + NatToString(e.minWidth) + "x" + NatToString(e.minHeight) + " pixels")
    ensures e.LoadFailed? ==> r == "Failed to load image"
  {
    match e
    case UnsupportedType => "Please upload a JPG, PNG, or WebP file"
    case TooLarge(m) => TooLargePrefix + NatToString(m / Mebibyte) + "MB"
    case TooSmall(w, h) => TooSmallPrefix + NatToString(w) + "x" + NatToString(h) + " pixels"
    case LoadFailed => "Failed to load image"
  }

  /** The size message names the limit: the digits between the fixed prefix
      and "MB" read back as the limit in whole mebibytes. */
  lemma SizeLimitReadsBack(m: nat)
    ensures var r := ErrorText(TooLarge(m));
      ParseDigits(r[|TooLargePrefix|..|r| - 2]) == Some(m / Mebibyte)
  {
    var r := ErrorText(TooLarge(m));
    assert r[|TooLargePrefix|..|r| - 2] == NatToString(m / Mebibyte);
    ParseNatToString(m / Mebibyte);
  }

  /** The dimensions message names both minimums: the digits before the
      `x` read back as the width and those after it as the height. */
  lemma DimensionsReadBack(w: nat, h: nat)
    ensures var r := ErrorText(TooSmall(w, h));
      exists k :: |TooSmallPrefix| < k < |r| - 7 && r[k] == 'x'
        && ParseDigits(r[|TooSmallPrefix|..k]) == Some(w) && ParseDigits(r[k + 1..|r| - 7]) == Some(h)
  {
    var r := ErrorText(TooSmall(w, h));
    var a, b := NatToString(w), NatToString(h);
    var k := |TooSmallPrefix| + |a|;
    assert r == (TooSmallPrefix + a) + ("x" + b + " pixels");
    assert r[..k] == TooSmallPrefix + a;
    assert r[|TooSmallPrefix|..k] == a;
    assert r[k] == 'x';
    assert r[k + 1..] == b + " pixels";
    assert r[k + 1..|r| - 7] == b;
    ParseNatToString(w);
    ParseNatToString(h);
  }

  /** `validateImage(file, options)`: the type is checked first, then the
      size (a file of exactly the limit passes), then the dimensions, which
      are read only when the first two checks pass (`dims` is what loading
      the image gave). */
  function ValidateImage(f: File, o: Options, dims: Option<(nat, nat)>): (r: Result<bool, ImageError>)
    ensures f.mimeType !in AllowedTypes ==> r == Err(UnsupportedType)
    ensures f.mimeType in AllowedTypes && f.size > o.maxSize ==> r == Err(TooLarge(o.maxSize))
    ensures r.Ok? <==> (
      f.mimeType in AllowedTypes && f.size <= o.maxSize && dims.Some?
      && dims.value.0 >= o.minWidth && dims.value.1 >= o.minHeight)
    ensures r.Ok? ==> r.value
  {
    if f.mimeType !in AllowedTypes then Err(UnsupportedType)
    else if f.size > o.maxSize then Err(TooLarge(o.maxSize))
    else match dims
      case None => Err(LoadFailed)
      case Some((w, h)) => if w < o.minWidth || h < o.minHeight then Err(TooSmall(o.minWidth, o.minHeight)) else Ok(true)
  }

  /** With the default options, an allowed file of exactly 5 MiB and
      200x200 pixels passes, one byte more is refused for its size, and the
      refusal reads "File size must be less than 5MB". */
  lemma DefaultBoundaries(name: string, t: string)
    requires t in AllowedTypes
    ensures ValidateImage(File(name, t, 5 * Mebibyte), DefaultOptions, Some((200, 200))) == Ok(true)
    ensures ValidateImage(File(name, t, 5 * Mebibyte + 1), DefaultOptions, Some((200, 200))) == Err(TooLarge(5 * Mebibyte))
    ensures ErrorText(TooLarge(DefaultOptions.maxSize)) == "File size must be less than 5MB"
  {
    assert NatToString(5) == "5";
  }
}

=== FILE: lib_errors.dfy ===
/** The error-to-text helpers of the `lib` error module: what the user is told
    for a caught value. */
module LibErrors {
  import opened Wrappers
  import opened Text
  import opened Failures

  const OfflineText := "No internet connection. Please check your network and try again."
  const DuplicateText := "A record with this information already exists"
  const ReferenceText := "This operation would violate referential integrity"
  const MissingTableText := "The requested resource does not exist"
  const SessionRefreshText := "Your session has expired. Please refresh the page to continue."
  const TimedOutText := "The request timed out. Please check your internet connection and try again."
  const NetworkText := "Network error. Please check your internet connection and try again."

  /** The database error codes given a fixed explanation, with that explanation. */
  function KnownCodeText(code: string): Option<string> {
    if code == "PGRST116" then Some("Invalid query parameter format")
    else if code == "23505" then Some(DuplicateText)
    else if code == "23503" then Some(ReferenceText)
    else if code == "42P01" then Some(MissingTableText)
    else None
  }

  /** `getErrorMessage`: an `Error`'s own message; for a plain object carrying
      both a code and a message, the explanation of a known code or else the
      message (an empty one replaced by a generic text); then a plain
      object's message, then its string `error` field; otherwise a generic text. */
  function GetErrorMessage(e: Thrown): (r: string)
    ensures e.ErrorValue? ==> r == e.message
    ensures e.ObjectValue? && e.objCode.Some? && e.msg.Some? && KnownCodeText(e.objCode.value).Some?
      ==> r == KnownCodeText(e.objCode.value).value
    ensures (e.ObjectValue? && e.objCode.Some? && e.msg.Some? && KnownCodeText(e.objCode.value).None?)
      ==> r == (if e.msg.value == "" then "An unexpected database error occurred" else e.msg.value)
    ensures e.ObjectValue? && e.objCode.None? && e.msg.Some? ==> r == e.msg.value
    ensures e.ObjectValue? && e.msg.None? && e.errorText.Some? ==> r == e.errorText.value
    ensures e.PrimitiveValue? ==> r == "An unexpected error occurred"
    ensures e.ObjectValue? && e.msg.None? && e.errorText.None? ==> r == "An unexpected error occurred"
  {
    match e
    case ErrorValue(_, m, _, _) => m
    case PrimitiveValue(_) => "An unexpected error occurred"
    case ObjectValue(msg, code, errorText, _, _) =>
      if code.Some? && msg.Some? then
        match KnownCodeText(code.value)
        case Some(t) => t
        case None => if msg.value == "" then "An unexpected database error occurred" else msg.value
      else if msg.Some? then msg.value
      else if errorText.Some? then errorText.value
      else "An unexpected error occurred"
  }

  /** The status-code branch of `formatSupabaseError`. */
  function StatusText(status: Option<int>): Option<string> {
    if status == Some(400) then Some("Invalid request. Please check your input and try again.")
    else if status == Some(401) then Some("Your session has expired. Please sign in again.")
    else if status == Some(403) then Some("You do not have permission to perform this action.")
    else if status == Some(404) then Some("The requested resource was not found.")
    else if status.Some? && status.value >= 500 then Some("A server error occurred. Please try again later.")
    else None
  }

  /** The three database codes `formatSupabaseError` explains. */
  predicate KnownDbCode(code: Option<string>) {
    code == Some("23505") || code == Some("23503") || code == Some("42P01")
  }

  /** Whether a message names a session or timeout problem. */
  predicate MentionsAny(msg: Option<string>) {
    msg.Some? && (Contains(msg.value, "JWT") || Contains(msg.value, "timeout"))
  }

  /** `formatSupabaseError`. `error` is `None` for a falsy value and `online` is
      `navigator.onLine`. The checks run in a fixed order: missing error,
      offline, the three database codes, a JWT message, a timeout message, the
      HTTP status, and finally the error's own message or a generic text. */
  function FormatSupabaseError(error: Option<Thrown>, online: bool): (r: string)
    ensures |r| > 0
    ensures error.None? ==> r == "An unknown error occurred"
    ensures error.Some? && !online ==> r == OfflineText
    ensures error.Some? && online && CodeProp(error.value) == Some("23505") ==> r == DuplicateText
    ensures error.Some? && online && CodeProp(error.value) == Some("23503") ==> r == ReferenceText
    ensures error.Some? && online && CodeProp(error.value) == Some("42P01") ==> r == MissingTableText
    ensures (error.Some? && online && !KnownDbCode(CodeProp(error.value))
             && MessageProp(error.value).Some? && Contains(MessageProp(error.value).value, "JWT")) ==> r == SessionRefreshText
    ensures (error.Some? && online && !KnownDbCode(CodeProp(error.value))
             && MessageProp(error.value).Some? && !Contains(MessageProp(error.value).value, "JWT")
             && Contains(MessageProp(error.value).value, "timeout")) ==> r == TimedOutText
    ensures (error.Some? && online && !KnownDbCode(CodeProp(error.value)) && !MentionsAny(MessageProp(error.value))
             && StatusText(StatusProp(error.value)).None?) ==> (
      r == if MessageProp(error.value).Some? && MessageProp(error.value).value != "" then MessageProp(error.value).value
           else "An error occurred")
    ensures (error.Some? && online && !KnownDbCode(CodeProp(error.value)) && !MentionsAny(MessageProp(error.value))
             && StatusText(StatusProp(error.value)).Some?) ==> r == StatusText(StatusProp(error.value)).value
    ensures error.Some? && online ==> (
      r in {DuplicateText, ReferenceText, MissingTableText, SessionRefreshText, TimedOutText, "An error occurred"}
      || Some(r) == StatusText(StatusProp(error.value)) || Some(r) == MessageProp(error.value))
  {
    match error
    case None => "An unknown error occurred"
    case Some(e) =>
      var code := CodeProp(e);
      var msg := MessageProp(e);
      if !online then OfflineText
      else if code == Some("23505") then DuplicateText
      else if code == Some("23503") then ReferenceText
      else if code == Some("42P01") then MissingTableText
      else if msg.Some? && Contains(msg.value, "JWT") then SessionRefreshText
      else if msg.Some? && Contains(msg.value, "timeout") then TimedOutText
      else if StatusText(StatusProp(e)).Some? then StatusText(StatusProp(e)).value
      else if msg.Some? && msg.value != "" then msg.value
      else "An error occurred"
  }

  const BadQueryText := "Invalid query parameter format. Please try again."

  /** A message naming an expired session token. */
  predicate SessionWords(m: string) {
    Contains(m, "JWT") || Contains(m, "token")
  }

  /** A timeout: named in the message, or a thrown `TimeoutError`. */
  predicate TimeoutSign(e: Thrown, m: string) {
    Contains(m, "timeout") || (e.ErrorValue? && e.cls == TimeoutError)
  }

  /** A message of a failed fetch. */
  predicate NetworkWords(m: string) {
    Contains(m, "Failed to fetch") || Contains(m, "NetworkError")
  }

  /** `handleCommonErrors`: being offline is reported before anything else;
      then session, timeout, network and malformed-query messages are replaced
      by fixed explanations, in that order; any other message is passed through. */
  function HandleCommonErrors(e: Thrown, online: bool): (r: string)
    ensures !online ==> r == OfflineText
    ensures online && SessionWords(GetErrorMessage(e)) ==> r == SessionRefreshText
    ensures online && !SessionWords(GetErrorMessage(e)) && TimeoutSign(e, GetErrorMessage(e)) ==> r == TimedOutText
    ensures (online && !SessionWords(GetErrorMessage(e)) && !TimeoutSign(e, GetErrorMessage(e))
             && NetworkWords(GetErrorMessage(e))) ==> r == NetworkText
    ensures (online && !SessionWords(GetErrorMessage(e)) && !TimeoutSign(e, GetErrorMessage(e))
             && !NetworkWords(GetErrorMessage(e))) ==> (
      r == if Contains(GetErrorMessage(e), "PGRST116") then BadQueryText else GetErrorMessage(e))
    ensures online && e.ErrorValue? && e.cls == TimeoutError && !Contains(e.message, "JWT") && !Contains(e.message, "token")
      ==> r == TimedOutText
    ensures online && r != GetErrorMessage(e) ==>
      r in {SessionRefreshText, TimedOutText, NetworkText, BadQueryText}
  {
    var m := GetErrorMessage(e);
    if !online then OfflineText
    else if SessionWords(m) then SessionRefreshText
    else if TimeoutSign(e, m) then TimedOutText
    else if NetworkWords(m) then NetworkText
    else if Contains(m, "PGRST116") then BadQueryText
    else m
  }

  /** A failure whose message names an expired token asks for a page
      refresh, whatever HTTP status it carries: the message is checked before
      the status, so a 401 never reaches the sign-in text. */
  lemma SessionMessageBeatsStatus(m: string, status: Option<int>, j: string)
    requires Contains(m, "JWT")
    ensures FormatSupabaseError(Some(ObjectValue(Some(m), None, None, status, j)), true) == SessionRefreshText
  {
  }

  /** A plain object's known database code decides its text, whatever its message says. */
  lemma KnownCodeOverridesMessage(m1: string, m2: string, code: string, t: Option<string>, s: Option<int>, j1: string, j2: string)
    requires KnownCodeText(code).Some?
    ensures GetErrorMessage(ObjectValue(Some(m1), Some(code), t, s, j1))
         == GetErrorMessage(ObjectValue(Some(m2), Some(code), t, s, j2))
  {
  }
}

=== FILE: listing_filters.dfy ===
/** The marketplace and wanted-vehicle pages' filtering, which the two
    pages share: dealers see only listings of their assigned brands (an
    administrator sees every brand), narrowed by a free-text search, an
    exact make and an exact year; the make and year menus list each value of
    the held listings once. Also the two pages' realtime handlers. */
module ListingFilters {
  import opened Wrappers
  import opened Seqs
  import opened Text
  import opened Records
  import opened ChangeEvents
  import opened Sorting
  import LS = ListingStore

  datatype Filters = Filters(search: string, make: string, year: string)

  /** `profile?.role === 'admin'`. */
  predicate IsAdmin(profile: Option<Profile>) {
    profile.Some? && profile.value.role == "admin"
  }

  /** `profile?.brands?.includes(make) || false`. */
  predicate HasBrand(profile: Option<Profile>, make: string) {
    profile.Some? && make in profile.value.brands
  }

  /** The text the search looks in: make, model, year and model code. */
  function SearchText(l: Listing): string {
    Lower(l.make + " " + l.model + " " + IntToString(l.year) + " " + l.modelCode.GetOr(""))
  }

  /** `applySearchFilters(listing)`: an empty filter admits everything. */
  predicate PassesFilters(l: Listing, f: Filters) {
    (f.search == "" || Contains(SearchText(l), Lower(f.search)))
    && (f.make == "" || l.make == f.make)
    && (f.year == "" || IntToString(l.year) == f.year)
  }

  predicate Visible(l: Listing, profile: Option<Profile>, f: Filters) {
    (IsAdmin(profile) || HasBrand(profile, l.make)) && PassesFilters(l, f)
  }

  /** `filteredListings`: the visible listings, in their order. */
  function FilteredListings(ls: seq<Listing>, profile: Option<Profile>, f: Filters): (r: seq<Listing>)
    ensures forall k :: 0 <= k < |r| ==> r[k] in ls && Visible(r[k], profile, f)
    ensures forall k :: 0 <= k < |ls| && Visible(ls[k], profile, f) ==> ls[k] in r
    ensures IsSubsequence(r, ls)
  {
    Filter(ls, (l: Listing) => Visible(l, profile, f))
  }

  /** A dealer never sees another brand's listing, whatever the filters;
      with empty filters, an administrator sees every listing. */
  lemma BrandsBoundWhatDealersSee(ls: seq<Listing>, profile: Option<Profile>, f: Filters)
    ensures !IsAdmin(profile) ==> forall k :: 0 <= k < |FilteredListings(ls, profile, f)| ==>
      profile.Some? && FilteredListings(ls, profile, f)[k].make in profile.value.brands
    ensures IsAdmin(profile) && f == Filters("", "", "") ==> FilteredListings(ls, profile, f) == ls
  {
    if IsAdmin(profile) && f == Filters("", "", "") {
      FilterAll(ls, (l: Listing) => Visible(l, profile, f));
    }
  }

  /** The year filter keeps exactly the listings of the chosen year. */
  lemma YearFilterIsExact(l: Listing, y: int)
    ensures PassesFilters(l, Filters("", "", IntToString(y))) <==> l.year == y
  {
    if IntToString(l.year) == IntToString(y) {
      IntToStringInjective(l.year, y);
    }
  }

  function Makes(ls: seq<Listing>): (r: seq<string>)
    ensures |r| == |ls| && forall k :: 0 <= k < |ls| ==> r[k] == ls[k].make
  {
    seq(|ls|, k requires 0 <= k < |ls| => ls[k].make)
  }

  function Years(ls: seq<Listing>): (r: seq<int>)
    ensures |r| == |ls| && forall k :: 0 <= k < |ls| ==> r[k] == ls[k].year
  {
    seq(|ls|, k requires 0 <= k < |ls| => ls[k].year)
  }

  /** A make offered in the menu: administrators, and profiles without a
      brand list, get every make. */
  predicate MenuMake(profile: Option<Profile>, make: string) {
    IsAdmin(profile) || profile.None? || make in profile.value.brands
  }

  /** `uniqueMakes`: each offered make of the listings once, in string order. */
  function UniqueMakes(ls: seq<Listing>, profile: Option<Profile>): (r: seq<string>)
    ensures StrictlySorted(r, (a: string, b: string) => LexLess(a, b))
    ensures forall m :: m in r <==> (exists k :: 0 <= k < |ls| && ls[k].make == m) && MenuMake(profile, m)
  {
    LexLessIsStrictTotal();
    var all := SortDistinct(Makes(ls), (a: string, b: string) => LexLess(a, b));
    assert forall m :: m in all <==> exists k :: 0 <= k < |ls| && ls[k].make == m by {
      forall m ensures m in all <==> exists k :: 0 <= k < |ls| && ls[k].make == m {
        if m in all {
          var k :| 0 <= k < |Makes(ls)| && Makes(ls)[k] == m;
          assert ls[k].make == m;
        }
        if exists k :: 0 <= k < |ls| && ls[k].make == m {
          var k :| 0 <= k < |ls| && ls[k].make == m;
          assert Makes(ls)[k] == m;
        }
      }
    }
    SortedFilter(all, (m: string) => MenuMake(profile, m), (a: string, b: string) => LexLess(a, b));
    var r := Filter(all, (m: string) => MenuMake(profile, m));
    assert forall m :: m in r <==> m in all && MenuMake(profile, m) by {
      forall m ensures m in r <==> m in all && MenuMake(profile, m) {
        if m in r {
          var i :| 0 <= i < |r| && r[i] == m;
        }
        if m in all && MenuMake(profile, m) {
          var i :| 0 <= i < |all| && all[i] == m;
        }
      }
    }
    r
  }

  /** `uniqueYears`: each year of the listings once, newest first. */
  function UniqueYears(ls: seq<Listing>): (r: seq<int>)
    ensures forall i, j :: 0 <= i < j < |r| ==> r[i] > r[j]
    ensures forall y :: y in r <==> exists k :: 0 <= k < |ls| && ls[k].year == y
  {
    GreaterIsStrictTotal();
    var r := SortDistinct(Years(ls), (a: int, b: int) => a > b);
    assert forall y :: y in r <==> exists k :: 0 <= k < |ls| && ls[k].year == y by {
      forall y ensures y in r <==> exists k :: 0 <= k < |ls| && ls[k].year == y {
        if y in r {
          var k :| 0 <= k < |Years(ls)| && Years(ls)[k] == y;
          assert ls[k].year == y;
        }
        if exists k :: 0 <= k < |ls| && ls[k].year == y {
          var k :| 0 <= k < |ls| && ls[k].year == y;
          assert Years(ls)[k] == y;
        }
      }
    }
    r
  }

  /** Filtering a sorted sequence keeps it sorted. */
  lemma {:induction false} SortedFilter<T>(s: seq<T>, p: T -> bool, less: (T, T) -> bool)
    requires StrictlySorted(s, less)
    ensures StrictlySorted(Filter(s, p), less)
    decreases |s|
  {
    if |s| > 0 {
      assert StrictlySorted(s[1..], less) by {
        forall i, j | 0 <= i < j < |s[1..]| ensures less(s[1..][i], s[1..][j]) {
          assert s[1..][i] == s[i + 1] && s[1..][j] == s[j + 1];
        }
      }
      SortedFilter(s[1..], p, less);
      var rest := Filter(s[1..], p);
      if p(s[0]) {
        var r := [s[0]] + rest;
        assert Filter(s, p) == r;
        forall i, j | 0 <= i < j < |r| ensures less(r[i], r[j]) {
          if i == 0 {
            assert r[j] == rest[j - 1] && rest[j - 1] in s[1..];
            var k :| 0 <= k < |s[1..]| && s[1..][k] == rest[j - 1];
            assert s[k + 1] == r[j];
          } else {
            assert r[i] == rest[i - 1] && r[j] == rest[j - 1];
          }
        }
      }
    }
  }

  /** What a marketplace page does on a realtime change: an available
      insert is added to the store, an update is sent to the hook's update
      (which writes it back to the server as well as merging it), a delete
      removes the listing; anything else is ignored. */
  datatype Reaction = AddToStore(l: Listing) | UpdateThroughService(id: string, patch: ListingPatch) | RemoveFromStore(id: string) | Ignore

  function OnMarketplaceChange(kind: ChangeKind, l: Listing): (r: Reaction)
    ensures r.AddToStore? <==> kind == Insert && l.status == "available"
    ensures kind == Update ==> r == UpdateThroughService(l.id, FullListing(l))
    ensures kind == Delete ==> r == RemoveFromStore(l.id)
  {
    match kind
    case Insert => if l.status == "available" then AddToStore(l) else Ignore
    case Update => UpdateThroughService(l.id, FullListing(l))
    case Delete => RemoveFromStore(l.id)
  }

  /** The wanted-vehicle page reloads its list on every change, whatever it was. */
  function OnSearchingChange(kind: ChangeKind): (reload: bool)
    ensures reload
  {
    match kind
    case Insert => true
    case Update => true
    case Delete => true
  }

  /** The page body: the notice for a dealer without brands comes before
      the spinner. `spinnerNeedsEmpty` is the wanted-vehicle page's rule that
      the spinner shows only while nothing is held yet. */
  datatype Body = NoBrandsNotice | Spinner | Results(listings: seq<Listing>)

  function PageBody(ls: seq<Listing>, profile: Option<Profile>, f: Filters, loading: bool, spinnerNeedsEmpty: bool): (r: Body)
    ensures r.NoBrandsNotice? <==> !IsAdmin(profile) && (profile.None? || |profile.value.brands| == 0)
    ensures r.Results? ==> r.listings == FilteredListings(ls, profile, f)
    ensures !r.NoBrandsNotice? && !loading ==> r.Results?
  {
    if !IsAdmin(profile) && (profile.None? || |profile.value.brands| == 0) then NoBrandsNotice
    else if loading && (!spinnerNeedsEmpty || |ls| == 0) then Spinner
    else Results(FilteredListings(ls, profile, f))
  }
}

=== FILE: listing_store.dfy ===
/** The in-memory listing store: the marketplace listings (status
    `available`), the signed-in dealer's own listings, the "in search of"
    listings (status `searching`), and the listing being viewed. */
module ListingStore {
  import opened Wrappers
  import opened Seqs
  import opened Failures
  import opened Records
  import opened Remote

  datatype Store = Store(listings: seq<Listing>, myListings: seq<Listing>, isoListings: seq<Listing>,
                         selected: Option<Listing>, loading: bool, error: Option<string>)

  const Empty := Store([], [], [], None, false, None)

  function Id(l: Listing): string { l.id }

  /** No collection holds two entries with the same id. */
  ghost predicate Distinct(st: Store) {
    DistinctBy(st.listings, Id) && DistinctBy(st.myListings, Id) && DistinctBy(st.isoListings, Id)
  }

  /** `s.filter(l => l.id !== id)`. */
  function Without(s: seq<Listing>, id: string): (r: seq<Listing>)
    ensures forall k :: 0 <= k < |r| ==> r[k].id != id && r[k] in s
    ensures forall k :: 0 <= k < |s| && s[k].id != id ==> s[k] in r
    ensures IsSubsequence(r, s)
  {
    Filter(s, (l: Listing) => l.id != id)
  }

  /** `[l, ...s.filter(x => x.id !== l.id)]`. */
  function Upsert(s: seq<Listing>, l: Listing): (r: seq<Listing>)
    ensures |r| >= 1 && r[0] == l
    ensures forall k :: 1 <= k < |r| ==> r[k].id != l.id && r[k] in s
    ensures forall k :: 0 <= k < |s| && s[k].id != l.id ==> s[k] in r
  {
    [l] + Without(s, l.id)
  }

  /** `addListing(l)`: placed at the head of the dealer's own listings, and of
      the marketplace or "in search of" listings when its status is
      `available` or `searching`; any older entry with its id is dropped from
      the collections it enters, the others are left as they are. The viewed
      listing is replaced when it has the same id. */
  function AddListing(st: Store, l: Listing): (r: Store)
    ensures r.myListings == Upsert(st.myListings, l)
    ensures r.listings == (if l.status == "available" then Upsert(st.listings, l) else st.listings)
    ensures r.isoListings == (if l.status == "searching" then Upsert(st.isoListings, l) else st.isoListings)
    ensures r.selected == (if st.selected.Some? && st.selected.value.id == l.id then Some(l) else st.selected)
    ensures r.loading == st.loading && r.error == st.error
  {
    st.(listings := if l.status == "available" then Upsert(st.listings, l) else st.listings,
        isoListings := if l.status == "searching" then Upsert(st.isoListings, l) else st.isoListings,
        myListings := Upsert(st.myListings, l),
        selected := if st.selected.Some? && st.selected.value.id == l.id then Some(l) else st.selected)
  }

  /** The first entry with the id (`find`). */
  function First(s: seq<Listing>, id: string): (r: Option<Listing>)
    ensures r.Some? ==> r.value in s && r.value.id == id
    ensures r.Some? ==> exists k :: 0 <= k < |s| && s[k] == r.value && forall j :: 0 <= j < k ==> s[j].id != id
    ensures r.None? <==> forall k :: 0 <= k < |s| ==> s[k].id != id
  {
    Find(s, (l: Listing) => l.id == id)
  }

  /** `updateListing` on one collection: every entry with the id becomes the
      first such entry merged with the update; the others stay in place. */
  function UpdateIn(s: seq<Listing>, id: string, p: ListingPatch): (r: seq<Listing>)
    ensures |r| == |s|
    ensures forall k :: 0 <= k < |s| && s[k].id != id ==> r[k] == s[k]
    ensures forall k :: 0 <= k < |s| && s[k].id == id ==> First(s, id).Some? && r[k] == MergeListing(First(s, id).value, p)
  {
    match First(s, id)
    case None => s
    case Some(first) => seq(|s|, k requires 0 <= k < |s| => if s[k].id == id then MergeListing(first, p) else s[k])
  }

  /** `updateListing(id, updates)`: merged into the entries with that id in
      each collection and into the viewed listing when it has that id. */
  function UpdateListing(st: Store, id: string, p: ListingPatch): (r: Store)
    ensures r.listings == UpdateIn(st.listings, id, p) && r.myListings == UpdateIn(st.myListings, id, p)
    ensures r.isoListings == UpdateIn(st.isoListings, id, p)
    ensures st.selected.Some? && st.selected.value.id == id ==> r.selected == Some(MergeListing(st.selected.value, p))
    ensures !(st.selected.Some? && st.selected.value.id == id) ==> r.selected == st.selected
  {
    st.(listings := UpdateIn(st.listings, id, p), isoListings := UpdateIn(st.isoListings, id, p),
        myListings := UpdateIn(st.myListings, id, p),
        selected := if st.selected.Some? && st.selected.value.id == id then Some(MergeListing(st.selected.value, p)) else st.selected)
  }

  /** `removeListing(id)`: dropped from every collection, the viewed listing
      cleared when it has that id. */
  function RemoveListing(st: Store, id: string): (r: Store)
    ensures r.listings == Without(st.listings, id) && r.myListings == Without(st.myListings, id)
    ensures r.isoListings == Without(st.isoListings, id)
    ensures r.selected == (if st.selected.Some? && st.selected.value.id == id then None else st.selected)
  {
    st.(listings := Without(st.listings, id), isoListings := Without(st.isoListings, id),
        myListings := Without(st.myListings, id),
        selected := if st.selected.Some? && st.selected.value.id == id then None else st.selected)
  }

  /** The copy of a listing the store already holds, looked up in the viewed
      listing, then the marketplace, own and "in search of" listings. */
  function Held(st: Store, id: string): (r: Option<Listing>)
    ensures r.Some? ==> r.value.id == id
    ensures st.selected.Some? && st.selected.value.id == id ==> r == st.selected
    ensures !(st.selected.Some? && st.selected.value.id == id) && First(st.listings, id).Some?
      ==> r == First(st.listings, id)
    ensures (!(st.selected.Some? && st.selected.value.id == id) && First(st.listings, id).None?
             && First(st.myListings, id).Some?) ==> r == First(st.myListings, id)
    ensures (!(st.selected.Some? && st.selected.value.id == id) && First(st.listings, id).None?
             && First(st.myListings, id).None?) ==> r == First(st.isoListings, id)
    ensures r.None? <==> (!(st.selected.Some? && st.selected.value.id == id)
      && (forall k :: 0 <= k < |st.listings| ==> st.listings[k].id != id)
      && (forall k :: 0 <= k < |st.myListings| ==> st.myListings[k].id != id)
      && (forall k :: 0 <= k < |st.isoListings| ==> st.isoListings[k].id != id))
  {
    if st.selected.Some? && st.selected.value.id == id then st.selected
    else match First(st.listings, id)
      case Some(l) => Some(l)
      case None => match First(st.myListings, id)
        case Some(l) => Some(l)
        case None => First(st.isoListings, id)
  }

  /** `fetchListing(id)`: a held copy is made the viewed listing and returned
      without a request; otherwise the row is read and becomes the viewed
      listing, a failure recording its message and returning nothing. Returns
      the store, the listing and the number of requests. */
  function FetchListing(st: Store, id: string, read: Reply<Option<Listing>>): (r: (Store, Option<Listing>, nat))
    ensures Held(st, id).Some? ==> r.1 == Held(st, id) && r.2 == 0 && r.0 == st.(selected := r.1)
    ensures Held(st, id).None? ==> r.2 == 1 && !r.0.loading
    ensures Held(st, id).None? && Succeeded(read) ==> r.1 == read.data && r.0.selected == read.data && r.0.error.None?
    ensures Held(st, id).None? && !Succeeded(read) ==> r.1.None? && r.0.error.Some? && r.0.selected == st.selected
  {
    match Held(st, id)
    case Some(l) => (st.(selected := Some(l)), Some(l), 0)
    case None =>
      match read
      case Threw(e) => (st.(loading := false, error := Some(MessageOr(e, "Failed to fetch listing"))), None, 1)
      case Replied(Some(e), _) => (st.(loading := false, error := Some(MessageOr(e, "Failed to fetch listing"))), None, 1)
      case Replied(None, data) => (st.(selected := data, loading := false, error := None), data, 1)
  }

  // ------------------------------------------------------------------ lemmas

  lemma WithoutDistinct(s: seq<Listing>, id: string)
    requires DistinctBy(s, Id)
    ensures DistinctBy(Without(s, id), Id)
  {
    FilterDistinctBy(s, (l: Listing) => l.id != id, Id);
  }

  lemma UpsertDistinct(s: seq<Listing>, l: Listing)
    requires DistinctBy(s, Id)
    ensures DistinctBy(Upsert(s, l), Id)
  {
    WithoutDistinct(s, l.id);
    var r := Upsert(s, l);
    assert r[1..] == Without(s, l.id);
  }

  /** Entries with distinct ids, updated without changing the id, keep
      distinct ids, and each entry with the id is that entry merged. */
  lemma UpdateInDistinct(s: seq<Listing>, id: string, p: ListingPatch)
    requires DistinctBy(s, Id) && p.id.None?
    ensures DistinctBy(UpdateIn(s, id, p), Id)
    ensures forall k :: 0 <= k < |s| && s[k].id == id ==> UpdateIn(s, id, p)[k] == MergeListing(s[k], p)
  {
    var r := UpdateIn(s, id, p);
    match First(s, id)
    case None =>
      assert r == s;
    case Some(f) =>
      var j :| 0 <= j < |s| && s[j] == f;
      forall k | 0 <= k < |s| && s[k].id == id
        ensures r[k] == MergeListing(s[k], p)
      {
        assert Id(s[k]) == Id(s[j]);
      }
      forall k | 0 <= k < |s|
        ensures Id(r[k]) == Id(s[k])
      {
      }
  }

  /** Adding keeps ids distinct in every collection. */
  lemma AddKeepsDistinct(st: Store, l: Listing)
    requires Distinct(st)
    ensures Distinct(AddListing(st, l))
  {
    UpsertDistinct(st.listings, l);
    UpsertDistinct(st.myListings, l);
    UpsertDistinct(st.isoListings, l);
  }

  /** Updating without changing an id keeps ids distinct. */
  lemma UpdateKeepsDistinct(st: Store, id: string, p: ListingPatch)
    requires Distinct(st) && p.id.None?
    ensures Distinct(UpdateListing(st, id, p))
  {
    UpdateInDistinct(st.listings, id, p);
    UpdateInDistinct(st.myListings, id, p);
    UpdateInDistinct(st.isoListings, id, p);
  }

  /** Removing keeps ids distinct. */
  lemma RemoveKeepsDistinct(st: Store, id: string)
    requires Distinct(st)
    ensures Distinct(RemoveListing(st, id))
  {
    WithoutDistinct(st.listings, id);
    WithoutDistinct(st.myListings, id);
    WithoutDistinct(st.isoListings, id);
  }

  /** Updating an id no collection holds leaves the collections as they are. */
  lemma UpdateAbsentIsNoop(s: seq<Listing>, id: string, p: ListingPatch)
    requires forall k :: 0 <= k < |s| ==> s[k].id != id
    ensures UpdateIn(s, id, p) == s
  {
  }

  lemma WithoutTwice(s: seq<Listing>, id: string)
    ensures Without(Without(s, id), id) == Without(s, id)
  {
    var once := Without(s, id);
    FilterAll(once, (l: Listing) => l.id != id);
  }

  /** Removing twice is removing once. */
  lemma RemoveIdempotent(st: Store, id: string)
    ensures RemoveListing(RemoveListing(st, id), id) == RemoveListing(st, id)
  {
    WithoutTwice(st.listings, id);
    WithoutTwice(st.myListings, id);
    WithoutTwice(st.isoListings, id);
  }

  /** After a listing is added, fetching its id makes no request and returns
      a listing with that id, namely the added one when its status is
      `available` or the viewed listing had its id. */
  lemma FetchAfterAddIsLocal(st: Store, l: Listing, read: Reply<Option<Listing>>)
    ensures var r := FetchListing(AddListing(st, l), l.id, read);
      r.2 == 0 && r.1.Some? && r.1.value.id == l.id
    ensures var r := FetchListing(AddListing(st, l), l.id, read);
      (l.status == "available" || (st.selected.Some? && st.selected.value.id == l.id)) ==> r.1 == Some(l)
  {
    var a := AddListing(st, l);
    assert a.myListings[0].id == l.id;
    if l.status == "available" {
      assert a.listings[0] == l;
      assert Find(a.listings, (x: Listing) => x.id == l.id) == Some(l);
    }
  }

  /** A listing whose status is neither `available` nor `searching` does not
      displace an older copy in the marketplace listings, and fetching its id
      then returns that older copy. */
  lemma StaleCopyIsFetched(st: Store, stale: Listing, l: Listing, read: Reply<Option<Listing>>)
    requires st.listings == [stale] && st.selected.None? && stale.id == l.id
    requires l.status != "available" && stale != l
    ensures FetchListing(AddListing(st, l), l.id, read).1 == Some(stale)
  {
    var a := AddListing(st, l);
    assert a.listings == [stale];
    assert Find(a.listings, (x: Listing) => x.id == l.id) == Some(stale);
  }
}

=== FILE: listing_utils.dfy ===
/** The listing status badge: its label and its colour classes. Six
    statuses are known; any other status reads "Unknown" and is drawn like an
    archived listing. */
module ListingUtils {
  import opened Text

  const KnownStatuses := ["available", "pending", "sold", "cancelled", "searching", "archived"]

  /** `getStatusText(listing)`. */
  function StatusText(status: string): (r: string)
    ensures r == "Unknown" <==> status !in KnownStatuses
  {
    match status
    case "available" => "Available"
    case "pending" => "Pending"
    case "sold" => "Sold"
    case "cancelled" => "Cancelled"
    case "searching" => "Searching"
    case "archived" => "Archived"
    case _ => "Unknown"
  }

  const TextClass := " text-white"

  /** The background class of each status: a `bg-` class, gray exactly for
      an archived listing or an unknown status. */
  function Background(status: string): (r: string)
    ensures |r| > 3 && r[..3] == "bg-"
    ensures r == "bg-gray-700" <==> status == "archived" || status !in KnownStatuses
  {
    match status
    case "available" => "bg-emerald-700"
    case "pending" => "bg-amber-600"
    case "sold" => "bg-blue-700"
    case "cancelled" => "bg-red-700"
    case "searching" => "bg-purple-700"
    case _ => "bg-gray-700"
  }

  /** `getStatusColorClass(listing)`: every badge is white text on a
      background; archived and unknown statuses share the gray one. */
  function StatusColorClass(status: string): (r: string)
    ensures |r| >= |TextClass| && r[|r| - |TextClass|..] == TextClass
    ensures status == "archived" || status !in KnownStatuses ==> r == "bg-gray-700 text-white"
  {
    Background(status) + TextClass
  }

  /** The six known statuses have six different labels, none of them
      "Unknown", so a label names its status. */
  lemma LabelsNameTheirStatus(a: string, b: string)
    requires a in KnownStatuses && b in KnownStatuses && a != b
    ensures StatusText(a) != StatusText(b) && StatusText(a) != "Unknown"
  {
  }

  /** Only archived listings and unknown statuses share a colour: the five
      other known statuses have their own. */
  lemma ColoursDistinguishLiveStatuses(a: string, b: string)
    requires a in KnownStatuses && a != "archived" && a != b
    ensures StatusColorClass(a) != StatusColorClass(b)
  {
    BackgroundsDiffer(a, b);
    ClassStartsWithBackground(a);
    ClassStartsWithBackground(b);
  }

  lemma ClassStartsWithBackground(status: string)
    ensures |StatusColorClass(status)| >= |TextClass|
    ensures StatusColorClass(status)[..|StatusColorClass(status)| - |TextClass|] == Background(status)
  {
    var r := StatusColorClass(status);
    assert r[..|r| - |TextClass|] == Background(status);
  }

  lemma BackgroundsDiffer(a: string, b: string)
    requires a in KnownStatuses && a != "archived" && a != b
    ensures Background(a) != Background(b)
  {
    // The fourth character of the class tells the colours apart.
    var ba := Background(a);
    if b in KnownStatuses && b != "archived" {
      assert ba[3] != Background(b)[3];
    } else {
      assert ba[3] != 'g' && Background(b) == "bg-gray-700";
    }
  }
}

=== FILE: network.dfy ===
/** The connectivity monitor (`NetworkStatus`) together with the list of
    realtime channels the Supabase client holds open. The monitor keeps an
    online flag, a set of status listeners and a registry of active channels;
    a channel leaves the client's list only through the registry. */
module Network {
  import opened Wrappers
  import opened Seqs
  import opened Remote

  /** A status listener, identified by the function object registered. */
  type ListenerId = nat

  /** An open realtime channel: its handle and its topic name. */
  datatype Chan = Chan(id: nat, topic: string)

  /** `online`, `listeners` (in insertion order, as a `Set` iterates) and
      `registry` (`activeChannels`) are the monitor's state; `open` is the
      client's channel list (`supabase.getChannels()`), and `nextId` the handle
      the next channel will get. */
  datatype Conn = Conn(online: bool, listeners: seq<ListenerId>, registry: set<nat>, open: seq<Chan>, nextId: nat)

  /** The handles of the open channels. */
  function OpenIds(open: seq<Chan>): set<nat> {
    set i | 0 <= i < |open| :: open[i].id
  }

  /** The bookkeeping the model keeps: listeners are distinct, open channels
      have distinct handles below `nextId`, and every registered handle is open. */
  ghost predicate Consistent(c: Conn) {
    DistinctBy(c.listeners, (x: ListenerId) => x)
    && DistinctBy(c.open, (ch: Chan) => ch.id)
    && (forall i :: 0 <= i < |c.open| ==> c.open[i].id < c.nextId)
    && c.registry <= OpenIds(c.open)
  }

  /** The state at start-up: `navigator.onLine`, nothing registered or open. */
  function Initial(platformOnline: bool): (c: Conn)
    ensures Consistent(c) && c.online == platformOnline
  {
    Conn(platformOnline, [], {}, [], 0)
  }

  /** `subscribe(listener)`: adds the listener unless it is already there. */
  function Subscribe(c: Conn, l: ListenerId): (r: Conn)
    ensures l in r.listeners
    ensures forall x :: x in c.listeners ==> x in r.listeners
    ensures r.online == c.online && r.registry == c.registry && r.open == c.open
  {
    if l in c.listeners then c else c.(listeners := c.listeners + [l])
  }

  /** The function `subscribe` returns: deletes that listener. */
  function Unsubscribe(c: Conn, l: ListenerId): (r: Conn)
    ensures l !in r.listeners
    ensures forall x :: x in c.listeners && x != l ==> x in r.listeners
    ensures r.online == c.online && r.registry == c.registry && r.open == c.open
  {
    c.(listeners := Filter(c.listeners, x => x != l))
  }

  /** Unsubscribing a listener that subscription added restores the listeners. */
  lemma SubscribeUnsubscribe(c: Conn, l: ListenerId)
    requires l !in c.listeners
    ensures Unsubscribe(Subscribe(c, l), l) == c
  {
    FilterAll(c.listeners, x => x != l);
    assert (c.listeners + [l]) == c.listeners + [l];
    FilterAppendLast(c.listeners, l);
  }

  /** Filtering out an element appended last removes exactly that element. */
  lemma {:induction false} FilterAppendLast(s: seq<ListenerId>, l: ListenerId)
    requires l !in s
    ensures Filter(s + [l], x => x != l) == s
    decreases |s|
  {
    if |s| == 0 {
      assert s + [l] == [l];
    } else {
      assert (s + [l])[1..] == s[1..] + [l];
      FilterAppendLast(s[1..], l);
      assert s == [s[0]] + s[1..];
    }
  }

  /** `notify()`: the flag is first overwritten with `navigator.onLine`
      (`platformOnline`); every listener is then called, in order, with that
      flag, and the ones that throw (`throwing`) are dropped. Returns the new
      state and the listeners called. */
  function Notify(c: Conn, platformOnline: bool, throwing: set<ListenerId>): (r: (Conn, seq<ListenerId>))
    ensures r.0.online == platformOnline
    ensures r.1 == c.listeners
    ensures forall i :: 0 <= i < |r.0.listeners| ==> r.0.listeners[i] in c.listeners && r.0.listeners[i] !in throwing
    ensures forall x :: x in c.listeners && x !in throwing ==> x in r.0.listeners
    ensures r.0.registry == c.registry && r.0.open == c.open
  {
    (c.(online := platformOnline, listeners := Filter(c.listeners, x => x !in throwing)), c.listeners)
  }

  /** `registerChannel(channel)`. */
  function RegisterChannel(c: Conn, id: nat): (r: Conn)
    ensures r.registry == c.registry + {id} && r.open == c.open
  {
    c.(registry := c.registry + {id})
  }

  /** Opening a channel on the client (`supabase.channel(topic)...subscribe()`):
      a new handle, not yet registered. */
  function OpenChannel(c: Conn, topic: string): (r: (Conn, nat))
    ensures r.0.open == c.open + [Chan(c.nextId, topic)] && r.1 == c.nextId
    ensures r.0.registry == c.registry && r.0.nextId > r.1
  {
    (c.(open := c.open + [Chan(c.nextId, topic)], nextId := c.nextId + 1), c.nextId)
  }

  /** `removeChannel(channel)`: only a registered handle is torn down on the
      client and unregistered; any other handle is left alone. */
  function RemoveChannel(c: Conn, id: nat): (r: Conn)
    ensures id !in r.registry
    ensures id in c.registry ==> r.registry == c.registry - {id} && id !in OpenIds(r.open)
    ensures id !in c.registry ==> r == c
    ensures forall i :: 0 <= i < |c.open| && c.open[i].id != id ==> c.open[i] in r.open
    ensures r.nextId == c.nextId && r.online == c.online && r.listeners == c.listeners
  {
    if id in c.registry then
      c.(open := Filter(c.open, (ch: Chan) => ch.id != id), registry := c.registry - {id})
    else c
  }

  /** `cleanupAllChannels()`: every registered channel is torn down and the
      registry cleared; unregistered channels stay open. */
  function CleanupAllChannels(c: Conn): (r: Conn)
    ensures r.registry == {}
    ensures forall i :: 0 <= i < |r.open| ==> r.open[i] in c.open && r.open[i].id !in c.registry
    ensures forall i :: 0 <= i < |c.open| && c.open[i].id !in c.registry ==> c.open[i] in r.open
    ensures r.online == c.online && r.listeners == c.listeners
  {
    c.(open := Filter(c.open, (ch: Chan) => ch.id !in c.registry), registry := {})
  }

  /** Removing the same channel twice is removing it once. */
  lemma RemoveChannelIdempotent(c: Conn, id: nat)
    ensures RemoveChannel(RemoveChannel(c, id), id) == RemoveChannel(c, id)
  {
  }

  /** The outcome of the connection probe (`HEAD /favicon.ico`, aborted
      after 10 s): a response with its `ok` flag, or a failed fetch. */
  datatype Probe = Responded(ok: bool) | FetchFailed

  /** `checkConnection()`: a response whose `ok` differs from the flag sets
      the flag and notifies; a failed fetch while the flag is set clears it and
      notifies. Since `notify` overwrites the flag with `navigator.onLine`,
      the flag ends as the platform reports whenever a notification happens.
      Returns the new state and the probe's verdict. */
  function CheckConnection(c: Conn, probe: Probe, platformOnline: bool, throwing: set<ListenerId>): (r: (Conn, bool))
    ensures r.1 == (probe.Responded? && probe.ok)
    ensures r.0.online == c.online || r.0.online == platformOnline
    ensures r.0.registry == c.registry && r.0.open == c.open
    ensures probe.Responded? && probe.ok == c.online ==> r.0 == c
    ensures probe.FetchFailed? && !c.online ==> r.0 == c
    ensures probe.Responded? && probe.ok != c.online ==> r.0 == Notify(c.(online := probe.ok), platformOnline, throwing).0
    ensures probe.FetchFailed? && c.online ==> r.0 == Notify(c.(online := false), platformOnline, throwing).0
  {
    match probe
    case Responded(ok) =>
      if ok != c.online then (Notify(c.(online := ok), platformOnline, throwing).0, ok) else (c, ok)
    case FetchFailed =>
      if c.online then (Notify(c.(online := false), platformOnline, throwing).0, false) else (c, false)
  }

  /** `reconnect()`: gives up at once when the flag is clear; otherwise
      refreshes the session and runs a probe query (each already wrapped in
      its retry and timeout), failing on an error or rejection of either; on
      success every registered channel is torn down, and none is recreated.
      Returns the new state, the verdict and the toasts shown. */
  function Reconnect(c: Conn, refresh: Reply<()>, query: Reply<()>): (r: (Conn, bool, seq<Toast>))
    ensures r.1 <==> c.online && Succeeded(refresh) && Succeeded(query)
    ensures r.1 ==> r.0 == CleanupAllChannels(c)
    ensures !r.1 ==> r.0 == c
    ensures |r.0.open| <= |c.open|
  {
    if !c.online then (c, false, [])
    else match refresh
      case Threw(_) => (c, false, [Info("Reconnecting to server..."), Alert("Failed to reconnect. Please reload the page.")])
      case Replied(Some(_), _) =>
        (c, false, [Info("Reconnecting to server..."), Alert("Failed to refresh authentication. Please reload the page.")])
      case Replied(None, _) =>
        match query
        case Threw(_) => (c, false, [Info("Reconnecting to server..."), Alert("Failed to reconnect. Please reload the page.")])
        case Replied(Some(_), _) =>
          (c, false, [Info("Reconnecting to server..."), Alert("Connection restored but database access failed. Please reload the page.")])
        case Replied(None, _) =>
          var rejoin := if |c.registry| > 0 then [Info("Reconnecting to real-time updates...")] else [];
          (CleanupAllChannels(c), true, [Info("Reconnecting to server...")] + rejoin + [Info("Connection restored successfully")])
  }

  /** The browser's `online` event: set the flag, notify (which re-reads
      `navigator.onLine`), then reconnect. */
  function OnOnline(c: Conn, platformOnline: bool, throwing: set<ListenerId>, refresh: Reply<()>, query: Reply<()>): (r: (Conn, bool))
    ensures !platformOnline ==> !r.1 && !r.0.online
    ensures platformOnline && Succeeded(refresh) && Succeeded(query) ==> r.1 && r.0.registry == {}
  {
    var n := Notify(c.(online := true), platformOnline, throwing).0;
    var (c2, ok, _) := Reconnect(n, refresh, query);
    (c2, ok)
  }

  /** The browser's `offline` event: clear the flag and notify. */
  function OnOffline(c: Conn, platformOnline: bool, throwing: set<ListenerId>): (r: Conn)
    ensures r.online == platformOnline
    ensures r.registry == c.registry && r.open == c.open
  {
    Notify(c.(online := false), platformOnline, throwing).0
  }

  /** The page becoming visible: check the connection and, if the probe
      succeeded, reconnect. */
  function OnVisible(c: Conn, probe: Probe, platformOnline: bool, throwing: set<ListenerId>, refresh: Reply<()>, query: Reply<()>): (r: Conn)
    ensures !(probe.Responded? && probe.ok) ==> r == CheckConnection(c, probe, platformOnline, throwing).0
    ensures probe == Responded(true) ==> r == Reconnect(CheckConnection(c, probe, platformOnline, throwing).0, refresh, query).0
  {
    var (c1, up) := CheckConnection(c, probe, platformOnline, throwing);
    if up then Reconnect(c1, refresh, query).0 else c1
  }

  /** A listener-notifying event never invents the flag: after an `offline`
      event the flag is whatever the platform reports, even `true`. */
  lemma OfflineEventTrustsPlatform(c: Conn, throwing: set<ListenerId>)
    ensures OnOffline(c, true, throwing).online
  {
  }

  /** A successful probe while the platform reports being offline: the
      check answers `true`, yet the flag it leaves is `false`. */
  lemma ProbeAndFlagDisagree(c: Conn, throwing: set<ListenerId>)
    requires !c.online
    ensures CheckConnection(c, Responded(true), false, throwing).1
    ensures !CheckConnection(c, Responded(true), false, throwing).0.online
  {
  }

  /** Every operation keeps the bookkeeping consistent. */
  lemma OperationsKeepConsistent(c: Conn, l: ListenerId, id: nat, topic: string, platformOnline: bool, throwing: set<ListenerId>,
                                 probe: Probe, refresh: Reply<()>, query: Reply<()>)
    requires Consistent(c)
    ensures Consistent(Subscribe(c, l)) && Consistent(Unsubscribe(c, l))
    ensures Consistent(Notify(c, platformOnline, throwing).0)
    ensures Consistent(RemoveChannel(c, id)) && Consistent(CleanupAllChannels(c))
    ensures Consistent(RegisterChannel(OpenChannel(c, topic).0, OpenChannel(c, topic).1))
    ensures Consistent(CheckConnection(c, probe, platformOnline, throwing).0)
    ensures Consistent(Reconnect(c, refresh, query).0)
  {
    ListenersKeepConsistent(c, l, platformOnline, throwing);
    RemoveKeepsConsistent(c, id);
    CleanupKeepsConsistent(c);
    OpenKeepsConsistent(c, topic);
    ProbesKeepConsistent(c, probe, platformOnline, throwing, refresh, query);
  }

  /** Removing a channel keeps the state consistent. */
  lemma RemoveKeepsConsistent(c: Conn, id: nat)
    requires Consistent(c)
    ensures Consistent(RemoveChannel(c, id))
  {
    ChannelFilterConsistent(c, (ch: Chan) => ch.id != id);
  }

  /** The connection check and the reconnect keep the state consistent. */
  lemma ProbesKeepConsistent(c: Conn, probe: Probe, platformOnline: bool, throwing: set<ListenerId>,
                             refresh: Reply<()>, query: Reply<()>)
    requires Consistent(c)
    ensures Consistent(CheckConnection(c, probe, platformOnline, throwing).0)
    ensures Consistent(Reconnect(c, refresh, query).0)
  {
    NotifyKeepsConsistent(c.(online := !c.online), platformOnline, throwing);
    CleanupKeepsConsistent(c);
  }

  /** Listener changes keep listeners distinct. */
  lemma ListenersKeepConsistent(c: Conn, l: ListenerId, platformOnline: bool, throwing: set<ListenerId>)
    requires Consistent(c)
    ensures Consistent(Subscribe(c, l)) && Consistent(Unsubscribe(c, l))
    ensures Consistent(Notify(c, platformOnline, throwing).0)
  {
    FilterDistinctBy(c.listeners, x => x != l, (x: ListenerId) => x);
    NotifyKeepsConsistent(c, platformOnline, throwing);
    if l !in c.listeners {
      var s := c.listeners + [l];
      forall i, j | 0 <= i < j < |s| ensures s[i] != s[j] {
        if j == |s| - 1 {
          assert s[i] == c.listeners[i];
        } else {
          assert s[i] == c.listeners[i] && s[j] == c.listeners[j];
        }
      }
    }
  }

  /** Notifying keeps the state consistent, whatever the flag. */
  lemma NotifyKeepsConsistent(c: Conn, platformOnline: bool, throwing: set<ListenerId>)
    requires DistinctBy(c.listeners, (x: ListenerId) => x)
    ensures DistinctBy(Notify(c, platformOnline, throwing).0.listeners, (x: ListenerId) => x)
  {
    FilterDistinctBy(c.listeners, x => x !in throwing, (x: ListenerId) => x);
  }

  /** Tearing down every registered channel keeps the state consistent. */
  lemma CleanupKeepsConsistent(c: Conn)
    requires Consistent(c)
    ensures Consistent(CleanupAllChannels(c))
  {
    ChannelFilterConsistent(c, (ch: Chan) => ch.id !in c.registry);
  }

  /** Opening and registering a channel keeps the state consistent. */
  lemma OpenKeepsConsistent(c: Conn, topic: string)
    requires Consistent(c)
    ensures Consistent(RegisterChannel(OpenChannel(c, topic).0, OpenChannel(c, topic).1))
  {
    var (o, h) := OpenChannel(c, topic);
    forall x | x in OpenIds(c.open) ensures x in OpenIds(o.open) {
      var i :| 0 <= i < |c.open| && c.open[i].id == x;
      assert o.open[i] == c.open[i];
    }
    assert o.open[|c.open|].id == h;
    var s := o.open;
    forall i, j | 0 <= i < j < |s| ensures s[i].id != s[j].id {
      if j == |s| - 1 {
        assert s[i] == c.open[i];
      } else {
        assert s[i] == c.open[i] && s[j] == c.open[j];
      }
    }
  }

  /** Dropping channels keeps handles distinct, fresh, and the registry,
      less the dropped handles, open. */
  lemma ChannelFilterConsistent(c: Conn, p: Chan -> bool)
    requires Consistent(c)
    ensures var o := Filter(c.open, p);
      DistinctBy(o, (ch: Chan) => ch.id)
      && (forall i :: 0 <= i < |o| ==> o[i].id < c.nextId)
      && (forall id :: id in c.registry && (forall i :: 0 <= i < |c.open| && c.open[i].id == id ==> p(c.open[i])) ==> id in OpenIds(o))
  {
    FilterDistinctBy(c.open, p, (ch: Chan) => ch.id);
    var o := Filter(c.open, p);
    forall id | id in c.registry && (forall i :: 0 <= i < |c.open| && c.open[i].id == id ==> p(c.open[i]))
      ensures id in OpenIds(o)
    {
      var i :| 0 <= i < |c.open| && c.open[i].id == id;
      assert c.open[i] in o;
      var k :| 0 <= k < |o| && o[k] == c.open[i];
    }
  }
}

=== FILE: new_listing.dfy ===
/** The two listing forms: a vehicle for sale and a wanted ("in search of")
    vehicle. They share the make / segment / year cascade, in which changing
    a field clears the choices that depend on it, and the checks made before
    the listing is created, in a fixed order. */
module NewListing {
  import opened Wrappers
  import opened Seqs
  import opened Records

  /** The form. `None` is `null`; a selected id may also be the empty text. */
  datatype Form = Form(
    make: string, year: Option<int>, vin: string, pdiFee: int, conditionNotes: string,
    location: string, photoUrl: Option<string>, segmentId: Option<string>, modelId: Option<string>,
    modelCodeId: Option<string>)

  const InitialForm := Form("", None, "", 0, "", "", None, None, None, None)

  /** One change event. `YearEdit(None)` is an emptied year input. */
  datatype Edit =
    | MakeEdit(make: string) | SegmentEdit(segment: string) | YearEdit(year: Option<int>)
    | ModelEdit(model: string) | ModelCodeEdit(code: string) | VinEdit(vin: string)
    | PdiFeeEdit(fee: int) | NotesEdit(notes: string) | LocationEdit(location: string)

  /** `handleChange`: the form after the edit, and the segment whose models
      are fetched, if the edit asks for that. */
  function Change(f: Form, e: Edit): (r: (Form, Option<string>))
    ensures e.MakeEdit? ==> r.0 == f.(make := e.make, segmentId := None, modelId := None, modelCodeId := None)
    ensures e.SegmentEdit? ==> r.0 == f.(segmentId := Some(e.segment), modelId := None, modelCodeId := None)
    ensures e.YearEdit? ==> r.0 == f.(year := e.year, modelId := None, modelCodeId := None)
    ensures r.1.Some? <==> e.SegmentEdit?
    ensures r.1.Some? ==> r.1.value == e.segment
    ensures e.ModelEdit? || e.ModelCodeEdit? || e.VinEdit? || e.PdiFeeEdit? || e.NotesEdit? || e.LocationEdit? ==> (
      r.0.make == f.make && r.0.year == f.year && r.0.segmentId == f.segmentId)
    ensures e.ModelEdit? ==> r.0 == f.(modelId := Some(e.model))
    ensures e.ModelCodeEdit? ==> r.0 == f.(modelCodeId := Some(e.code))
    ensures e.VinEdit? ==> r.0 == f.(vin := e.vin)
    ensures e.PdiFeeEdit? ==> r.0 == f.(pdiFee := e.fee)
    ensures e.NotesEdit? ==> r.0 == f.(conditionNotes := e.notes)
    ensures e.LocationEdit? ==> r.0 == f.(location := e.location)
  {
    match e
    case MakeEdit(v) => (f.(make := v, segmentId := None, modelId := None, modelCodeId := None), None)
    case SegmentEdit(v) => (f.(segmentId := Some(v), modelId := None, modelCodeId := None), Some(v))
    case YearEdit(v) => (f.(year := v, modelId := None, modelCodeId := None), None)
    case ModelEdit(v) => (f.(modelId := Some(v)), None)
    case ModelCodeEdit(v) => (f.(modelCodeId := Some(v)), None)
    case VinEdit(v) => (f.(vin := v), None)
    case PdiFeeEdit(v) => (f.(pdiFee := v), None)
    case NotesEdit(v) => (f.(conditionNotes := v), None)
    case LocationEdit(v) => (f.(location := v), None)
  }

  /** The choices that depend on the make, segment and year. */
  predicate DependsOn(f: Form, make: string, year: Option<int>, segment: Option<string>) {
    f.make == make && f.year == year && f.segmentId == segment
  }

  /** A model or model code chosen under one make, segment and year never
      survives an edit of any of them: after such an edit, both are unset
      until chosen again. */
  lemma CascadeClearsStaleChoices(f: Form, e: Edit)
    requires e.MakeEdit? || e.SegmentEdit? || e.YearEdit?
    ensures Change(f, e).0.modelId.None? && Change(f, e).0.modelCodeId.None?
    ensures e.MakeEdit? ==> Change(f, e).0.segmentId.None?
  {
  }

  /** Only the cascade fields clear choices: editing any other field
      keeps the chosen model and model code (unless it is that choice). */
  lemma OtherEditsKeepChoices(f: Form, e: Edit)
    requires e.VinEdit? || e.PdiFeeEdit? || e.NotesEdit? || e.LocationEdit?
    ensures Change(f, e).0.modelId == f.modelId && Change(f, e).0.modelCodeId == f.modelCodeId
  {
  }

  datatype Kind = ForSale | Wanted

  datatype VehicleModel = VehicleModel(id: string, name: string)

  /** The details only a vehicle for sale carries. */
  datatype Details = Details(vin: Option<string>, pdiFee: Option<int>, conditionNotes: string,
                             location: string, photoUrl: Option<string>)

  datatype NewRecord = NewRecord(make: string, model: string, year: Option<int>, status: string,
                                 segmentId: Option<string>, modelId: string, modelCodeId: string,
                                 details: Option<Details>)

  /** `!x` for an optional text. */
  predicate Missing(x: Option<string>) {
    x.None? || x.value == ""
  }

  function StatusOf(k: Kind): string {
    match k
    case ForSale => "available"
    case Wanted => "searching"
  }

  /** `handleSubmit`'s checks and record: signed in, a model chosen, a
      model code chosen, and the model among the loaded ones, in that order;
      the record takes the model's name and the status of its kind; an empty
      VIN and a zero fee are sent as `null`. */
  function Submission(k: Kind, f: Form, signedIn: bool, models: seq<VehicleModel>): (r: Result<NewRecord, string>)
    ensures !signedIn ==> r == Err("You must be logged in to create a listing")
    ensures signedIn && Missing(f.modelId) ==> r == Err("Please select a model")
    ensures signedIn && !Missing(f.modelId) && Missing(f.modelCodeId) ==> r == Err("Please select a model code")
    ensures r.Ok? <==> (
      signedIn && !Missing(f.modelId) && !Missing(f.modelCodeId)
      && exists i :: 0 <= i < |models| && models[i].id == f.modelId.value)
    ensures r.Ok? ==> (
      r.value.status == StatusOf(k) && r.value.make == f.make && r.value.year == f.year
      && r.value.modelId == f.modelId.value && r.value.modelCodeId == f.modelCodeId.value
      && (exists i :: 0 <= i < |models| && models[i].id == f.modelId.value && models[i].name == r.value.model)
      && (r.value.details.Some? <==> k == ForSale))
    ensures r.Ok? ==> r.value.segmentId == f.segmentId
    ensures r.Ok? && k == ForSale ==> (
      var d := r.value.details.value;
      (d.vin.None? <==> f.vin == "") && (d.vin.Some? ==> d.vin.value == f.vin)
      && (d.pdiFee.None? <==> f.pdiFee == 0) && (d.pdiFee.Some? ==> d.pdiFee.value == f.pdiFee)
      && d.conditionNotes == f.conditionNotes && d.location == f.location && d.photoUrl == f.photoUrl)
  {
    if !signedIn then Err("You must be logged in to create a listing")
    else if Missing(f.modelId) then Err("Please select a model")
    else if Missing(f.modelCodeId) then Err("Please select a model code")
    else match Find(models, (m: VehicleModel) => m.id == f.modelId.value)
      case None => Err("Invalid model selection")
      case Some(m) =>
        var details := if k == ForSale then
          Some(Details(if f.vin == "" then None else Some(f.vin), if f.pdiFee == 0 then None else Some(f.pdiFee),
                       f.conditionNotes, f.location, f.photoUrl))
          else None;
        Ok(NewRecord(f.make, m.name, f.year, StatusOf(k), f.segmentId, f.modelId.value, f.modelCodeId.value, details))
  }

  /** Where a successful creation leads. */
  function Destination(k: Kind): string {
    match k
    case ForSale => "/inventory"
    case Wanted => "/iso"
  }

  /** The whole submit: the checks, then the creation, whose result (if
      any) sends the dealer to the list of its kind. Returns the error the
      checks raise (if any; the page only logs it, having cleared the store's
      error first), the record sent (if any), and where the page navigates. */
  function Submit(k: Kind, f: Form, signedIn: bool, models: seq<VehicleModel>, created: Option<Listing>)
    : (r: (Option<string>, Option<NewRecord>, Option<string>))
    ensures Submission(k, f, signedIn, models).Err? ==> r == (Some(Submission(k, f, signedIn, models).error), None, None)
    ensures Submission(k, f, signedIn, models).Ok? ==> (
      r.0.None? && r.1 == Some(Submission(k, f, signedIn, models).value)
      && (r.2.Some? <==> created.Some?) && (r.2.Some? ==> r.2.value == Destination(k)))
  {
    match Submission(k, f, signedIn, models)
    case Err(msg) => (Some(msg), None, None)
    case Ok(rec) => (None, Some(rec), if created.Some? then Some(Destination(k)) else None)
  }

  /** The check order: signing in is asked for first, whatever the form. */
  lemma SignInIsCheckedFirst(k: Kind, f: Form, models: seq<VehicleModel>)
    ensures Submission(k, f, false, models) == Err("You must be logged in to create a listing")
  {
  }

  /** A form fresh from a make change cannot be submitted: it asks for a model. */
  lemma MakeChangeBlocksSubmit(k: Kind, f: Form, make: string, models: seq<VehicleModel>)
    ensures Submission(k, Change(f, MakeEdit(make)).0, true, models) == Err("Please select a model")
  {
  }

  datatype Brand = Brand(id: string, name: string)

  /** `fetchBrands`: an administrator gets every brand; anyone else the
      brands named in their profile (none without a profile); a failed read
      leaves the list empty. */
  function OfferedBrands(read: Option<seq<Brand>>, profile: Option<Profile>): (r: seq<Brand>)
    ensures read.None? ==> r == []
    ensures read.Some? && profile.Some? && profile.value.role == "admin" ==> r == read.value
    ensures !(profile.Some? && profile.value.role == "admin") ==> (
      forall i :: 0 <= i < |r| ==> profile.Some? && r[i].name in profile.value.brands && r[i] in read.value)
    ensures read.Some? && profile.Some? && profile.value.role != "admin" ==> (
      forall i :: 0 <= i < |read.value| && read.value[i].name in profile.value.brands ==> read.value[i] in r)
    ensures read.Some? ==> IsSubsequence(r, read.value)
  {
    if read.None? then []
    else if profile.Some? && profile.value.role == "admin" then
      FilterAll(read.value, (b: Brand) => true);
      read.value
    else
      Filter(read.value, (b: Brand) => profile.Some? && b.name in profile.value.brands)
  }

  /** A dealer is offered exactly the loaded brands their profile names, in
      the loaded order; promoting the profile to administrator offers a
      superset, every loaded brand, and without a profile nothing is offered. */
  lemma OfferedBrandsGrowWithRole(read: seq<Brand>, p: Profile)
    ensures OfferedBrands(Some(read), None) == []
    ensures forall b :: b in OfferedBrands(Some(read), Some(p)) ==> b in OfferedBrands(Some(read), Some(p.(role := "admin")))
    ensures OfferedBrands(Some(read), Some(p.(role := "admin"))) == read
  {
    FilterLength(read, (b: Brand) => false);
  }
}

=== FILE: notification_store.dfy ===
/** The notification store: the user's notifications, newest first, and the
    number of unread ones, which every operation keeps equal to the number of
    unread items as long as ids are unique. */
module NotificationStore {
  import opened Wrappers
  import opened Seqs
  import opened Records

  datatype Store = Store(notifications: seq<Notification>, unreadCount: int, loading: bool, error: Option<string>)

  predicate IsUnread(n: Notification) { !n.read }

  function NotificationId(n: Notification): string { n.id }

  /** The number of unread items held. */
  function Unread(s: seq<Notification>): nat { Count(s, IsUnread) }

  /** The store's invariant: unique ids, and the counter agrees with the items. */
  ghost predicate Consistent(st: Store) {
    DistinctBy(st.notifications, NotificationId) && st.unreadCount == Unread(st.notifications)
  }

  /** `setNotifications(list)`: the list, and its number of unread items. */
  function SetNotifications(st: Store, ns: seq<Notification>): (r: Store)
    ensures r.notifications == ns && r.unreadCount == Unread(ns)
    ensures r.unreadCount == 0 <==> forall k :: 0 <= k < |ns| ==> ns[k].read
  {
    st.(notifications := ns, unreadCount := Unread(ns))
  }

  /** Whether an item with the id is held (`some`). */
  predicate Holds(s: seq<Notification>, id: string) {
    exists k :: 0 <= k < |s| && s[k].id == id
  }

  /** `addNotification(n)`: ignored when an item with its id is held;
      otherwise prepended, the counter going up exactly when it is unread. */
  function AddNotification(st: Store, n: Notification): (r: Store)
    ensures Holds(st.notifications, n.id) ==> r == st
    ensures !Holds(st.notifications, n.id) ==>
      r.notifications == [n] + st.notifications && r.unreadCount == st.unreadCount + (if n.read then 0 else 1)
  {
    if Holds(st.notifications, n.id) then st
    else st.(notifications := [n] + st.notifications, unreadCount := if n.read then st.unreadCount else st.unreadCount + 1)
  }

  /** `max(0, c - 1)`. */
  function Decrement(c: int): (r: int)
    ensures r >= 0 && (c >= 1 ==> r == c - 1)
  {
    if c - 1 > 0 then c - 1 else 0
  }

  /** Every item with the id marked read; the rest as they are. */
  function MarkIn(s: seq<Notification>, id: string): (r: seq<Notification>)
    ensures |r| == |s|
    ensures forall k :: 0 <= k < |s| ==> r[k] == (if s[k].id == id then s[k].(read := true) else s[k])
    decreases |s|
  {
    if |s| == 0 then [] else [if s[0].id == id then s[0].(read := true) else s[0]] + MarkIn(s[1..], id)
  }

  /** The first item with the id (`find`) is unread. */
  function FirstUnread(s: seq<Notification>, id: string): (b: bool)
    ensures b ==> exists k :: 0 <= k < |s| && s[k].id == id && !s[k].read
  {
    match Find(s, (n: Notification) => n.id == id)
    case None => false
    case Some(n) => !n.read
  }

  /** `markAsRead(id)`: the item is marked read; the counter goes down (not
      below zero) only if the first item with that id was unread. */
  function MarkAsRead(st: Store, id: string): (r: Store)
    ensures r.notifications == MarkIn(st.notifications, id)
    ensures FirstUnread(st.notifications, id) ==> r.unreadCount == Decrement(st.unreadCount)
    ensures !FirstUnread(st.notifications, id) ==> r.unreadCount == st.unreadCount
  {
    st.(notifications := MarkIn(st.notifications, id),
        unreadCount := if FirstUnread(st.notifications, id) then Decrement(st.unreadCount) else st.unreadCount)
  }

  /** Every item marked read. */
  function AllRead(s: seq<Notification>): (r: seq<Notification>)
    ensures |r| == |s|
    ensures forall k :: 0 <= k < |s| ==> r[k] == s[k].(read := true)
    decreases |s|
  {
    if |s| == 0 then [] else [s[0].(read := true)] + AllRead(s[1..])
  }

  /** `markAllAsRead()`: every item read, counter zero. */
  function MarkAllAsRead(st: Store): (r: Store)
    ensures r.notifications == AllRead(st.notifications) && r.unreadCount == 0
  {
    st.(notifications := AllRead(st.notifications), unreadCount := 0)
  }

  /** `s.filter(n => n.id !== id)`. */
  function WithoutId(s: seq<Notification>, id: string): (r: seq<Notification>)
    ensures forall k :: 0 <= k < |r| ==> r[k].id != id && r[k] in s
    ensures forall k :: 0 <= k < |s| && s[k].id != id ==> s[k] in r
    ensures IsSubsequence(r, s)
  {
    Filter(s, (n: Notification) => n.id != id)
  }

  /** `removeNotification(id)`: the items with the id are dropped; the
      counter goes down (not below zero) if the first of them was unread. */
  function RemoveNotification(st: Store, id: string): (r: Store)
    ensures r.notifications == WithoutId(st.notifications, id)
    ensures FirstUnread(st.notifications, id) ==> r.unreadCount == Decrement(st.unreadCount)
    ensures !FirstUnread(st.notifications, id) ==> r.unreadCount == st.unreadCount
  {
    st.(notifications := WithoutId(st.notifications, id),
        unreadCount := if FirstUnread(st.notifications, id) then Decrement(st.unreadCount) else st.unreadCount)
  }

  // ------------------------------------------------------------------ lemmas

  /** With unique ids, the item with the id is the first one. */
  lemma FirstUnreadUnique(s: seq<Notification>, id: string, k: int)
    requires DistinctBy(s, NotificationId) && 0 <= k < |s| && s[k].id == id
    ensures FirstUnread(s, id) <==> !s[k].read
  {
    var f := Find(s, (n: Notification) => n.id == id);
    assert f.Some?;
    var j :| 0 <= j < |s| && s[j] == f.value;
    assert NotificationId(s[j]) == NotificationId(s[k]);
  }

  /** The number of unread items with the id. */
  function UnreadWithId(s: seq<Notification>, id: string): (n: nat)
    ensures n == 0 <==> forall k :: 0 <= k < |s| ==> s[k].id != id || s[k].read
    decreases |s|
  {
    if |s| == 0 then 0 else (if s[0].id == id && !s[0].read then 1 else 0) + UnreadWithId(s[1..], id)
  }

  /** Marking an id read removes exactly the unread items with that id from the count. */
  lemma {:induction false} UnreadAfterMarkCount(s: seq<Notification>, id: string)
    ensures Unread(MarkIn(s, id)) + UnreadWithId(s, id) == Unread(s)
    decreases |s|
  {
    if |s| > 0 {
      UnreadAfterMarkCount(s[1..], id);
      assert MarkIn(s, id)[1..] == MarkIn(s[1..], id);
    }
  }

  /** Removing an id removes exactly the unread items with that id from the count. */
  lemma {:induction false} UnreadAfterRemoveCount(s: seq<Notification>, id: string)
    ensures Unread(WithoutId(s, id)) + UnreadWithId(s, id) == Unread(s)
    decreases |s|
  {
    if |s| > 0 {
      UnreadAfterRemoveCount(s[1..], id);
      var rest := WithoutId(s[1..], id);
      if s[0].id != id {
        assert WithoutId(s, id) == [s[0]] + rest;
        assert ([s[0]] + rest)[1..] == rest;
      } else {
        assert WithoutId(s, id) == rest;
      }
    }
  }

  /** With unique ids there is at most one unread item with the id, and it is
      the one `find` sees. */
  lemma {:induction false} UnreadWithIdUnique(s: seq<Notification>, id: string)
    requires DistinctBy(s, NotificationId)
    ensures UnreadWithId(s, id) == (if FirstUnread(s, id) then 1 else 0)
    decreases |s|
  {
    if |s| > 0 {
      var t := s[1..];
      assert DistinctBy(t, NotificationId);
      UnreadWithIdUnique(t, id);
      if s[0].id == id {
        FirstUnreadUnique(s, id, 0);
        forall k | 0 <= k < |t| ensures t[k].id != id {
          assert t[k] == s[k + 1];
          assert NotificationId(s[0]) != NotificationId(s[k + 1]);
        }
      } else if k :| 0 <= k < |s| && s[k].id == id {
        FirstUnreadUnique(s, id, k);
        FirstUnreadUnique(t, id, k - 1);
      }
    }
  }

  /** No item of an all-read list is unread. */
  lemma AllReadHasNoUnread(s: seq<Notification>)
    ensures Unread(AllRead(s)) == 0
  {
  }

  lemma AddKeepsConsistent(st: Store, n: Notification)
    requires Consistent(st)
    ensures Consistent(AddNotification(st, n))
  {
    var s := st.notifications;
    if !Holds(s, n.id) {
      var a := [n] + s;
      assert a[1..] == s;
      forall i, j | 0 <= i < j < |a| ensures NotificationId(a[i]) != NotificationId(a[j]) {
        if i > 0 { assert a[i] == s[i - 1] && a[j] == s[j - 1]; }
      }
    }
  }

  lemma MarkKeepsConsistent(st: Store, id: string)
    requires Consistent(st)
    ensures Consistent(MarkAsRead(st, id)) && Consistent(MarkAllAsRead(st))
  {
    var s := st.notifications;
    UnreadAfterMarkCount(s, id);
    UnreadWithIdUnique(s, id);
    var m := MarkIn(s, id);
    forall i, j | 0 <= i < j < |m| ensures NotificationId(m[i]) != NotificationId(m[j]) {
      assert NotificationId(m[i]) == NotificationId(s[i]) && NotificationId(m[j]) == NotificationId(s[j]);
    }
    var all := AllRead(s);
    forall i, j | 0 <= i < j < |all| ensures NotificationId(all[i]) != NotificationId(all[j]) {
      assert NotificationId(all[i]) == NotificationId(s[i]) && NotificationId(all[j]) == NotificationId(s[j]);
    }
    AllReadHasNoUnread(s);
  }

  lemma RemoveKeepsConsistent(st: Store, id: string)
    requires Consistent(st)
    ensures Consistent(RemoveNotification(st, id))
  {
    var s := st.notifications;
    UnreadAfterRemoveCount(s, id);
    UnreadWithIdUnique(s, id);
    FilterDistinctBy(s, (x: Notification) => x.id != id, NotificationId);
  }

  /** With unique ids, every operation keeps the counter equal to the number
      of unread items (and keeps ids unique). */
  lemma OperationsKeepConsistent(st: Store, n: Notification, id: string, ns: seq<Notification>)
    requires Consistent(st)
    ensures DistinctBy(ns, NotificationId) ==> Consistent(SetNotifications(st, ns))
    ensures Consistent(AddNotification(st, n))
    ensures Consistent(MarkAsRead(st, id)) && Consistent(MarkAllAsRead(st))
    ensures Consistent(RemoveNotification(st, id))
  {
    AddKeepsConsistent(st, n);
    MarkKeepsConsistent(st, id);
    RemoveKeepsConsistent(st, id);
  }
}

=== FILE: notifications_page.dfy ===
/** The notifications page: its relative dates, the icon colour of a
    notification type, what a click on a notification does, and when the
    "mark all read" button is enabled. */
module NotificationsPage {
  import opened Wrappers
  import opened Text
  import opened Records
  import ChatPages
  import UseNotifications

  /** "N unit ago", with the plural "s" for every count but one. */
  function Counted(n: int, unit: string): (r: string)
    ensures n == 1 ==> r == "1 " + unit + " ago"
    ensures n != 1 ==> r == IntToString(n) + " " + unit + "s ago"
  {
    IntToString(n) + " " + unit + (if n != 1 then "s" else "") + " ago"
  }

  /** `formatDate`: the same buckets as the chat list's timestamps, written
      out in words; `localeDate` is the browser's `en-US` rendering used from
      one week on. */
  function FormatDate(diffMs: int, localeDate: string): (r: string)
    ensures diffMs < ChatPages.MinuteMs ==> r == "Just now"
    ensures diffMs >= 7 * ChatPages.DayMs ==> r == localeDate
    ensures ChatPages.MinuteMs <= diffMs < 2 * ChatPages.MinuteMs ==> r == "1 minute ago"
    ensures ChatPages.HourMs <= diffMs < 2 * ChatPages.HourMs ==> r == "1 hour ago"
    ensures ChatPages.DayMs <= diffMs < 2 * ChatPages.DayMs ==> r == "1 day ago"
    ensures ChatPages.MinuteMs <= diffMs < ChatPages.HourMs ==> r == Counted(diffMs / ChatPages.MinuteMs, "minute")
    ensures ChatPages.HourMs <= diffMs < ChatPages.DayMs ==> r == Counted(diffMs / ChatPages.HourMs, "hour")
    ensures ChatPages.DayMs <= diffMs < 7 * ChatPages.DayMs ==> r == Counted(diffMs / ChatPages.DayMs, "day")
  {
    match ChatPages.AgeOf(diffMs)
    case JustNow => "Just now"
    case MinutesAgo(m) => Counted(m, "minute")
    case HoursAgo(h) => Counted(h, "hour")
    case DaysAgo(d) => Counted(d, "day")
    case OlderDate => localeDate
  }

  /** Within the minutes bucket the singular text appears exactly during the
      second minute. */
  lemma PluralOnlyForOthers(diffMs: int, localeDate: string)
    requires ChatPages.AgeOf(diffMs).MinutesAgo?
    ensures FormatDate(diffMs, localeDate) == "1 minute ago" <==> diffMs < 2 * ChatPages.MinuteMs
  {
    var m := ChatPages.AgeOf(diffMs).m;
    if m != 1 {
      var r := FormatDate(diffMs, localeDate);
      assert r == IntToString(m) + " minutes ago";
      var digits := IntToString(m);
      assert r[|digits| + 7] == " minutes ago"[7] == 's';
    }
  }

  /** The icon colour of a notification type. */
  datatype Colour = Blue | Green | Gray

  /** `getNotificationIcon(type)`: messages blue, listings green, anything
      else, a missing type included, gray. */
  function IconColour(kind: Option<string>): (r: Colour)
    ensures r == Blue <==> kind == Some("message")
    ensures r == Green <==> kind == Some("listing")
  {
    match kind
    case Some(k) => if k == "message" then Blue else if k == "listing" then Green else Gray
    case None => Gray
  }

  /** `handleNotificationClick`: the write the click asks the hook for, and
      where it navigates. */
  datatype Click = Click(write: Option<UseNotifications.Write>, navigateTo: Option<string>)

  /** A notification without an id is only logged. Otherwise an unread one
      is marked read, and a non-empty action link is followed; the two are
      independent. */
  function OnClick(n: Notification): (r: Click)
    ensures n.id == "" ==> r == Click(None, None)
    ensures n.id != "" ==> (r.write.Some? <==> !n.read)
    ensures r.write.Some? ==> r.write.value == UseNotifications.MarkOne(n.id)
    ensures r.navigateTo.Some? <==> n.id != "" && n.actionUrl.Some? && n.actionUrl.value != ""
    ensures r.navigateTo.Some? ==> Some(r.navigateTo.value) == n.actionUrl
  {
    if n.id == "" then Click(None, None)
    else
      var write := if !n.read then Some(UseNotifications.MarkOne(n.id)) else None;
      var target := if n.actionUrl.Some? && n.actionUrl.value != "" then n.actionUrl else None;
      Click(write, target)
  }

  /** A click never sends a write the hook would refuse: the id it names is
      the clicked one and is not empty. */
  lemma ClickWritesAreGuarded(n: Notification, userId: string)
    requires userId != ""
    ensures OnClick(n).write.Some? ==> UseNotifications.Guarded(Some(userId), OnClick(n).write.value)
  {
  }

  /** The "mark all read" button is enabled while nothing loads and some
      notification is unread. */
  function MarkAllEnabled(notifications: seq<Notification>, loading: bool): (r: bool)
    ensures r <==> !loading && exists i :: 0 <= i < |notifications| && !notifications[i].read
  {
    !loading && !(forall i :: 0 <= i < |notifications| ==> notifications[i].read)
  }
}

=== FILE: profile_page.dfy ===
/** The profile page: its form, filled from the profile and refreshed by the
    user's own realtime updates, the profile submit and the password change. */
module ProfilePage {
  import opened Wrappers
  import opened Text
  import opened Failures
  import opened Records
  import opened Remote
  import opened ChangeEvents
  import Auth
  import AdminDashboard

  /** The editable fields; `email` is shown but never sent. */
  datatype Form = Form(dealerName: string, email: string, phone: string, address: string)

  /** `x || ''` on a nullable column. */
  function OrEmpty(x: Option<string>): (r: string)
    ensures x.Some? ==> r == x.value
    ensures x.None? ==> r == ""
  {
    x.GetOr("")
  }

  /** The form a profile row fills in: missing columns become empty fields. */
  function FormOf(p: Profile): (r: Form)
    ensures r.email == p.email
    ensures p.dealerName.Some? ==> r.dealerName == p.dealerName.value
    ensures p.dealerName.None? ==> r.dealerName == ""
    ensures p.phone.Some? ==> r.phone == p.phone.value
    ensures p.phone.None? ==> r.phone == ""
    ensures p.address.Some? ==> r.address == p.address.value
    ensures p.address.None? ==> r.address == ""
  {
    Form(OrEmpty(p.dealerName), p.email, OrEmpty(p.phone), OrEmpty(p.address))
  }

  /** The user-changes handler: an update of the signed-in user's own row
      replaces the whole form, unsaved edits included; every other event
      leaves it alone. */
  function OnUserChange(form: Form, userId: string, kind: ChangeKind, row: Profile): (r: Form)
    ensures kind == Update && row.id == userId ==> r == FormOf(row)
    ensures kind != Update || row.id != userId ==> r == form
  {
    if kind == Update && row.id == userId then FormOf(row) else form
  }

  const UserNotFoundText := "User not found"
  const DealerNameRequiredText := "Dealer name is required"
  const ProfileFallbackText := "Failed to update profile"

  /** The columns a profile submit writes: the trimmed dealer name, phone and
      address, an empty one written as the empty string rather than null. */
  function Updates(form: Form): (r: ProfilePatch)
    ensures r.dealerName == Some(Some(Trim(form.dealerName)))
    ensures r.phone == Some(Some(Trim(form.phone))) && r.address == Some(Some(Trim(form.address)))
    ensures r.email.None? && r.role.None? && r.createdAt.None? && r.updatedAt.None? && r.brands.None?
  {
    ProfilePatch(None, None, None, None, Some(Some(Trim(form.dealerName))),
                 Some(Some(Trim(form.phone))), Some(Some(Trim(form.address))), None)
  }

  /** What a submit leaves on the page: the error text, or success. */
  datatype Outcome = Failed(message: string) | Saved

  /** `handleSubmit`: the user is checked before the dealer name, and both
      before anything is sent. Returns the outcome, and the update sent for
      the user's row, if any; a database error and a thrown failure both end
      as the error's message, or the fallback for a non-`Error` value. */
  function Submit(userId: Option<string>, form: Form, reply: Reply<()>): (r: (Outcome, Option<(string, ProfilePatch)>))
    ensures !Truthy(userId) ==> r == (Failed(UserNotFoundText), None)
    ensures Truthy(userId) && IsBlank(form.dealerName) ==> r == (Failed(DealerNameRequiredText), None)
    ensures r.1.Some? <==> Truthy(userId) && !IsBlank(form.dealerName)
    ensures r.1.Some? ==> r.1.value == (userId.value, Updates(form))
    ensures r.1.Some? ==> (r.0.Saved? <==> Succeeded(reply))
  {
    if !Truthy(userId) then (Failed(UserNotFoundText), None)
    else if IsBlank(form.dealerName) then (Failed(DealerNameRequiredText), None)
    else
      var sent := Some((userId.value, Updates(form)));
      match reply
      case Threw(e) => (Failed(MessageOr(e, ProfileFallbackText)), sent)
      case Replied(Some(e), _) => (Failed(MessageOr(e, ProfileFallbackText)), sent)
      case Replied(None, _) => (Saved, sent)
  }

  /** When a signed-in user with a non-blank dealer name saves successfully,
      and the update comes back as the user's own realtime update, the form
      shows the trimmed values and the unchanged email. */
  lemma SavedFormEchoesTrimmed(u: Profile, form: Form, reply: Reply<()>)
    requires u.id != "" && !AllSpace(form.dealerName) && Succeeded(reply)
    ensures var (_, sent) := Submit(Some(u.id), form, reply);
      var echoed := OnUserChange(form, u.id, Update, MergeProfile(u, sent.value.1));
      echoed == Form(Trim(form.dealerName), u.email, Trim(form.phone), Trim(form.address))
  {
    var sent := Submit(Some(u.id), form, reply).1;
    assert sent.Some?;
    var m := MergeProfile(u, sent.value.1);
    assert m.id == u.id && m.email == u.email;
    assert m.dealerName == Some(Trim(form.dealerName));
    assert m.phone == Some(Trim(form.phone)) && m.address == Some(Trim(form.address));
  }

  /** A blank phone saved from this page is stored as the empty string, while
      the same phone saved from the admin dashboard's edit form is stored as
      null: the two editors disagree on how to clear a field. */
  lemma BlankPhoneDiffersFromAdminEdit(u: Profile, form: Form, role: string, brands: seq<string>)
    requires u.id != "" && !IsBlank(form.dealerName) && IsBlank(form.phone)
    ensures Submit(Some(u.id), form, Replied(None, ())).1.value.1.phone == Some(Some(""))
    ensures AdminDashboard.EditRequest(
      AdminDashboard.EditingUser(u.id, form.dealerName, form.phone, form.address, brands, role)).value.1.phone == Some(None)
  {
    BlankTrimsAway(form.phone);
  }

  /** The password fields. */
  datatype Passwords = Passwords(current: string, newPassword: string, confirm: string)

  const MismatchText := "New passwords do not match"
  const ShortPasswordText := "Password must be at least 6 characters long"
  const PasswordFallbackText := "Failed to update password"

  /** `handlePasswordSubmit`: a mismatch is reported before a short password,
      and only a matching password of at least 6 characters reaches
      `updatePassword`, whose `reply` decides the outcome. On success all
      three fields are cleared; on failure they are kept. Returns the
      outcome, the fields, and the number of requests sent. */
  function ChangePassword(p: Passwords, reply: Reply<()>): (r: (Outcome, Passwords, nat))
    ensures p.newPassword != p.confirm ==> r == (Failed(MismatchText), p, 0)
    ensures p.newPassword == p.confirm && |p.newPassword| < 6 ==> r == (Failed(ShortPasswordText), p, 0)
    ensures p.newPassword == p.confirm && |p.newPassword| >= 6 ==> (
      r.2 == 1 && (r.0.Saved? <==> Succeeded(reply)))
    ensures r.0.Saved? <==> r.1 == Passwords("", "", "") && r.2 == 1
  {
    if p.newPassword != p.confirm then (Failed(MismatchText), p, 0)
    else if |p.newPassword| < 6 then (Failed(ShortPasswordText), p, 0)
    else
      match Auth.UpdatePassword(p.newPassword, reply)
      case (Ok(_), n) => (Saved, Passwords("", "", ""), n)
      case (Err(e), n) => (Failed(MessageOr(e, PasswordFallbackText)), p, n)
  }

  /** A failed password change shows the failure's own message, or the
      request's fallback "Failed to update password. Please try again.": the
      request always rethrows an `Error`, so the page's shorter fallback is
      never shown. */
  lemma PasswordFailureText(p: Passwords, reply: Reply<()>)
    requires p.newPassword == p.confirm && |p.newPassword| >= 6 && !Succeeded(reply)
    ensures ChangePassword(p, reply) == (Failed(MessageOr(Failure(reply).value, Auth.UpdateFallbackText)), p, 1)
    ensures ChangePassword(p, reply).0.message != PasswordFallbackText || Failure(reply).value.ErrorValue?
  {
  }
}

=== FILE: protected_route.dfy ===
/** The route guard in front of the signed-in pages: a spinner while the
    session is loading, then a redirect to the login page for visitors, to
    the approval notice for accounts still pending, and to the home page for
    non-administrators on administrator routes. */
module ProtectedRoute {
  import opened Wrappers
  import opened Records
  import AuthStore

  /** What the guard renders. `Redirect(path, remembersFrom)`: a replacing
      navigation, which for the login page carries the requested location. */
  datatype View = Spinner | Redirect(path: string, remembersFrom: bool) | Outlet

  function Guard(s: AuthStore.State, requireAdmin: bool): (r: View)
    ensures r.Spinner? <==> s.loading
    ensures r == Redirect("/login", true) <==> !s.loading && s.user.None?
    ensures r.Outlet? <==> (
      !s.loading && s.user.Some? && !(s.profile.Some? && s.profile.value.role == "pending")
      && (!requireAdmin || s.isAdmin))
    ensures r.Redirect? ==> r.path in ["/login", "/pending-approval", "/"]
  {
    if s.loading then Spinner
    else if s.user.None? then Redirect("/login", true)
    else if s.profile.Some? && s.profile.value.role == "pending" then Redirect("/pending-approval", false)
    else if requireAdmin && !s.isAdmin then Redirect("/", false)
    else Outlet
  }

  /** When the admin flag agrees with the profile, an administrator route
      opens exactly for a signed-in administrator; a pending account is sent
      to the approval notice whatever the route. */
  lemma AdminRoutesNeedAdminProfile(s: AuthStore.State)
    requires AuthStore.AdminAgrees(s) && !s.loading && s.user.Some?
    ensures Guard(s, true).Outlet? <==> s.profile.Some? && s.profile.value.role == "admin"
    ensures s.profile.Some? && s.profile.value.role == "pending" ==> (
      Guard(s, true) == Redirect("/pending-approval", false) && Guard(s, false) == Guard(s, true))
  {
  }
}

=== FILE: realtime_manager.dfy ===
/** The realtime keep-alive: a single subscription manager holding the
    "listings wanted" flag, the last ping time, the two monitoring intervals
    and a bounded reconnect counter; the functions that ping, check and
    restore the listings subscription; and the handlers of the keep-alive
    hook. The intervals live in `timers`, the set of running intervals. */
module RealtimeManager {
  import opened Wrappers
  import opened Seqs
  import opened Text
  import opened Remote
  import opened Network
  import ListingSubscription

  const MaxReconnectAttempts := 5
  const PingEveryMs := 120000
  const CheckEveryMs := 45000

  datatype Manager = Manager(listingsSubscribed: bool, lastPingTime: int,
                             pingInterval: Option<nat>, checkInterval: Option<nat>, reconnectAttempts: nat)

  /** The manager, the connectivity state and the running intervals. */
  datatype World = World(manager: Manager, conn: Conn, timers: set<nat>)

  /** A freshly constructed manager (`lastPingTime` is the construction time). */
  function NewManager(now: int): (m: Manager)
    ensures !m.listingsSubscribed && m.reconnectAttempts == 0
    ensures m.pingInterval.None? && m.checkInterval.None?
  {
    Manager(false, now, None, None, 0)
  }

  /** `getInstance()`: the existing manager, or a new one that becomes the instance. */
  function GetInstance(instance: Option<Manager>, now: int): (r: (Manager, Option<Manager>))
    ensures r.1 == Some(r.0)
    ensures instance.Some? ==> r.0 == instance.value
  {
    match instance
    case Some(m) => (m, instance)
    case None => (NewManager(now), Some(NewManager(now)))
  }

  /** Later calls return the instance the first call created. */
  lemma SingleInstance(now1: int, now2: int)
    ensures var (m1, inst) := GetInstance(None, now1); GetInstance(inst, now2).0 == m1
  {
  }

  /** `pingSupabase()`: records the ping time; a clean reply resets the
      reconnect counter and answers `true`, anything else answers `false`. */
  function Ping(m: Manager, now: int, reply: Reply<()>): (r: (Manager, bool))
    ensures r.0.lastPingTime == now
    ensures r.1 <==> Succeeded(reply)
    ensures r.1 ==> r.0.reconnectAttempts == 0
    ensures !r.1 ==> r.0.reconnectAttempts == m.reconnectAttempts
  {
    var m1 := m.(lastPingTime := now);
    if Succeeded(reply) then (m1.(reconnectAttempts := 0), true) else (m1, false)
  }

  /** `checkAndRestoreSubscriptions()`. With a channel open the counter is
      reset. With none, after the maximum number of attempts the user is told
      to refresh and nothing else happens; otherwise the counter goes up, the
      session is refreshed (a rejection abandons the rest), and if listings are
      wanted a new listings subscription is opened. */
  function CheckAndRestore(w: World, refresh: Reply<()>): (r: (World, seq<Toast>))
    ensures |w.conn.open| > 0 ==> r.0 == w.(manager := w.manager.(reconnectAttempts := 0)) && r.1 == []
    ensures |w.conn.open| == 0 && w.manager.reconnectAttempts >= MaxReconnectAttempts
      ==> r.0 == w && r.1 == [Alert("Connection lost. Please refresh the page.")]
    ensures |w.conn.open| == 0 && w.manager.reconnectAttempts < MaxReconnectAttempts
      ==> r.0.manager.reconnectAttempts == w.manager.reconnectAttempts + 1
    ensures (|w.conn.open| == 0 && w.manager.reconnectAttempts < MaxReconnectAttempts && refresh.Threw?)
      ==> r.0.conn == w.conn && r.1 == []
    ensures (|w.conn.open| == 0 && w.manager.reconnectAttempts < MaxReconnectAttempts && refresh.Replied?) ==> (
      r.0.conn == (if w.manager.listingsSubscribed then ListingSubscription.Subscribe(w.conn).0 else w.conn)
      && r.1 == (if refresh.error.Some? then [Alert("Connection lost. Attempting to reconnect...")] else [])
                + [Info("Real-time connection restored")])
    ensures r.0.timers == w.timers
    ensures r.0.manager.listingsSubscribed == w.manager.listingsSubscribed
  {
    var m := w.manager;
    if |w.conn.open| > 0 then (w.(manager := m.(reconnectAttempts := 0)), [])
    else if m.reconnectAttempts >= MaxReconnectAttempts then (w, [Alert("Connection lost. Please refresh the page.")])
    else
      var counted := w.(manager := m.(reconnectAttempts := m.reconnectAttempts + 1));
      match refresh
      case Threw(_) => (counted, [])
      case Replied(err, _) =>
        var warn := if err.Some? then [Alert("Connection lost. Attempting to reconnect...")] else [];
        var conn := if m.listingsSubscribed then ListingSubscription.Subscribe(w.conn).0 else w.conn;
        (counted.(conn := conn), warn + [Info("Real-time connection restored")])
  }

  /** The intervals the manager holds. */
  function Held(m: Manager): set<nat> {
    (if m.pingInterval.Some? then {m.pingInterval.value} else {})
    + (if m.checkInterval.Some? then {m.checkInterval.value} else {})
  }

  /** The running intervals are exactly the ones the manager holds. */
  ghost predicate TimersTracked(w: World) {
    w.timers == Held(w.manager)
  }

  /** `startRealtimeMonitoring()`: clears the intervals held, then starts a
      ping interval and a check interval (with the fresh ids the runtime hands
      out) and holds them. */
  function StartMonitoring(w: World, pingId: nat, checkId: nat): (r: World)
    requires pingId != checkId && pingId !in w.timers && checkId !in w.timers
    ensures r.manager.pingInterval == Some(pingId) && r.manager.checkInterval == Some(checkId)
    ensures r.timers == (w.timers - Held(w.manager)) + {pingId, checkId}
  {
    var cleared := w.timers - Held(w.manager);
    World(w.manager.(pingInterval := Some(pingId), checkInterval := Some(checkId)), w.conn, cleared + {pingId, checkId})
  }

  /** `stopRealtimeMonitoring()`: clears and forgets both intervals. */
  function StopMonitoring(w: World): (r: World)
    ensures r.manager.pingInterval.None? && r.manager.checkInterval.None?
    ensures r.timers == w.timers - Held(w.manager)
  {
    World(w.manager.(pingInterval := None, checkInterval := None), w.conn, w.timers - Held(w.manager))
  }

  /** Starting (even repeatedly) keeps exactly one ping and one check
      interval running; stopping leaves none. */
  lemma MonitoringKeepsOneOfEach(w: World, pingId: nat, checkId: nat)
    requires TimersTracked(w)
    requires pingId != checkId && pingId !in w.timers && checkId !in w.timers
    ensures var s := StartMonitoring(w, pingId, checkId); TimersTracked(s) && s.timers == {pingId, checkId}
    ensures StopMonitoring(w).timers == {} && TimersTracked(StopMonitoring(w))
  {
  }

  /** The ping interval's tick: pings only while the browser reports being online. */
  function PingTick(w: World, platformOnline: bool, now: int, reply: Reply<()>): (r: World)
    ensures !platformOnline ==> r == w
    ensures r.conn == w.conn && r.timers == w.timers
  {
    if platformOnline then w.(manager := Ping(w.manager, now, reply).0) else w
  }

  /** The check interval's tick: checks only when online and listings are wanted. */
  function CheckTick(w: World, platformOnline: bool, refresh: Reply<()>): (r: World)
    ensures !(platformOnline && w.manager.listingsSubscribed) ==> r == w
  {
    if platformOnline && w.manager.listingsSubscribed then CheckAndRestore(w, refresh).0 else w
  }

  /** Every operation keeps the reconnect counter at most the maximum. */
  lemma CounterBounded(w: World, now: int, reply: Reply<()>, refresh: Reply<()>, platformOnline: bool)
    requires w.manager.reconnectAttempts <= MaxReconnectAttempts
    ensures CheckAndRestore(w, refresh).0.manager.reconnectAttempts <= MaxReconnectAttempts
    ensures Ping(w.manager, now, reply).0.reconnectAttempts <= MaxReconnectAttempts
    ensures PingTick(w, platformOnline, now, reply).manager.reconnectAttempts <= MaxReconnectAttempts
    ensures CheckTick(w, platformOnline, refresh).manager.reconnectAttempts <= MaxReconnectAttempts
  {
  }

  /** With no channel open and a failing session refresh on every check, the
      counter reaches the maximum after exactly that many checks and then stays. */
  lemma {:induction false} CounterSaturates(w: World, refresh: Reply<()>, n: nat)
    requires |w.conn.open| == 0 && !w.manager.listingsSubscribed
    ensures RepeatCheck(w, refresh, n).manager.reconnectAttempts
         == (if w.manager.reconnectAttempts + n <= MaxReconnectAttempts then w.manager.reconnectAttempts + n
             else if w.manager.reconnectAttempts >= MaxReconnectAttempts then w.manager.reconnectAttempts
             else MaxReconnectAttempts)
    ensures |RepeatCheck(w, refresh, n).conn.open| == 0
    ensures !RepeatCheck(w, refresh, n).manager.listingsSubscribed
    decreases n
  {
    if n > 0 {
      CounterSaturates(w, refresh, n - 1);
    }
  }

  /** `n` consecutive checks. */
  function RepeatCheck(w: World, refresh: Reply<()>, n: nat): World
    decreases n
  {
    if n == 0 then w else CheckAndRestore(RepeatCheck(w, refresh, n - 1), refresh).0
  }

  /** The listings channels among `open`. */
  function ListingChannels(open: seq<Chan>): seq<Chan> {
    Filter(open, (ch: Chan) => Contains(ch.topic, "listings"))
  }

  /** The hook's clean-up loop: every open channel whose topic mentions
      `listings` is passed to `unsubscribeFromListings`, which removes it only
      if it is registered. `pending` is the snapshot still to visit. */
  function RemoveListingChannels(c: Conn, pending: seq<Chan>): (r: Conn)
    ensures r.registry <= c.registry && r.online == c.online && r.listeners == c.listeners && r.nextId == c.nextId
    decreases |pending|
  {
    if |pending| == 0 then c
    else
      var c1 := if Contains(pending[0].topic, "listings") then RemoveChannel(c, pending[0].id) else c;
      RemoveListingChannels(c1, pending[1..])
  }

  /** Every open `listings` channel is registered. */
  ghost predicate ListingsRegistered(c: Conn) {
    forall i :: 0 <= i < |c.open| && Contains(c.open[i].topic, "listings") ==> c.open[i].id in c.registry
  }

  /** After the clean-up loop over a snapshot of the open channels, no channel
      of the snapshot that was registered and mentions `listings` is open. */
  lemma {:induction false} RemoveListingChannelsClears(c: Conn, pending: seq<Chan>)
    ensures forall i :: 0 <= i < |pending| && Contains(pending[i].topic, "listings") ==> pending[i].id !in RemoveListingChannels(c, pending).registry
    ensures forall ch :: ch in RemoveListingChannels(c, pending).open ==> ch in c.open
    ensures forall ch :: ch in RemoveListingChannels(c, pending).open && ch.id in c.registry && ch in pending ==> !Contains(ch.topic, "listings")
    decreases |pending|
  {
    if |pending| > 0 {
      var c1 := if Contains(pending[0].topic, "listings") then RemoveChannel(c, pending[0].id) else c;
      RemoveListingChannelsClears(c1, pending[1..]);
      var r := RemoveListingChannels(c, pending);
      assert r == RemoveListingChannels(c1, pending[1..]);
    }
  }

  /** The hook's auth-change handler: on `TOKEN_REFRESHED` or `SIGNED_IN`,
      with listings wanted, remove the listings channels, then open one new one. */
  function OnAuthChange(c: Conn, wantListings: bool, event: string): (r: Conn)
    ensures !(wantListings && (event == "TOKEN_REFRESHED" || event == "SIGNED_IN")) ==> r == c
  {
    if wantListings && (event == "TOKEN_REFRESHED" || event == "SIGNED_IN") then
      ListingSubscription.Subscribe(RemoveListingChannels(c, c.open)).0
    else c
  }

  /** After a token refresh, if every open listings channel was registered,
      the only open listings channel is the new one. */
  lemma AuthChangeLeavesOneListingsChannel(c: Conn)
    requires Consistent(c) && ListingsRegistered(c)
    ensures var r := OnAuthChange(c, true, "TOKEN_REFRESHED");
      forall i :: 0 <= i < |r.open| && Contains(r.open[i].topic, "listings") ==> r.open[i] == Chan(c.nextId, ListingSubscription.Topic)
  {
    var d := RemoveListingChannels(c, c.open);
    RemoveListingChannelsClears(c, c.open);
    var r := OnAuthChange(c, true, "TOKEN_REFRESHED");
    assert r.open == d.open + [Chan(c.nextId, ListingSubscription.Topic)];
  }

  /** The hook's visibility handler: the session refresh's outcome is
      ignored, and with listings wanted a new subscription is opened while the
      old ones stay, so each return to the tab adds a listings channel. */
  function OnVisible(c: Conn, wantListings: bool): (r: Conn)
    ensures wantListings ==> |ListingChannels(r.open)| == |ListingChannels(c.open)| + 1
    ensures !wantListings ==> r == c
  {
    if wantListings then
      var r := ListingSubscription.Subscribe(c).0;
      ListingSubscription.TopicMentionsListings();
      FilterAppendOne(c.open, Chan(c.nextId, ListingSubscription.Topic), (ch: Chan) => Contains(ch.topic, "listings"));
      r
    else c
  }

  /** Filtering a sequence with one more element appended. */
  lemma {:induction false} FilterAppendOne<T>(s: seq<T>, x: T, p: T -> bool)
    ensures Filter(s + [x], p) == Filter(s, p) + (if p(x) then [x] else [])
    decreases |s|
  {
    if |s| == 0 {
      assert s + [x] == [x];
    } else {
      assert (s + [x])[1..] == s[1..] + [x];
      FilterAppendOne(s[1..], x, p);
    }
  }

  /** The hook's mount effect: with listings wanted and not yet started,
      one subscription is opened and the hook marks itself started. */
  function OnMount(c: Conn, wantListings: bool, hasStarted: bool): (r: (Conn, bool))
    ensures r.1 == (hasStarted || wantListings)
    ensures wantListings && !hasStarted ==> |r.0.open| == |c.open| + 1
    ensures !(wantListings && !hasStarted) ==> r.0 == c
  {
    if wantListings && !hasStarted then (ListingSubscription.Subscribe(c).0, true) else (c, hasStarted)
  }

  /** The hook's unmount clean-up: with listings wanted, remove the
      registered listings channels. */
  function OnUnmount(c: Conn, wantListings: bool): (r: Conn)
    ensures !wantListings ==> r == c
    ensures r.registry <= c.registry
  {
    if wantListings then RemoveListingChannels(c, c.open) else c
  }

  /** What mounting the hook settles to. The effect depends on `hasStarted`,
      so the first run's `setHasStarted(true)` runs it again at once: its
      clean-up removes the registered listings channels, the channel just
      opened included, and the second run opens nothing because the hook has
      started. With every open listings channel registered beforehand, the
      hook therefore ends its mount with no listings channel open. */
  function MountSettled(c: Conn, wantListings: bool): (r: (Conn, bool))
    ensures !wantListings ==> r == (c, false)
    ensures wantListings ==> r.1 && r.0 == OnMount(OnUnmount(OnMount(c, true, false).0, true), true, true).0
    ensures wantListings && ListingsRegistered(c) ==>
      forall i :: 0 <= i < |r.0.open| ==> !Contains(r.0.open[i].topic, "listings")
  {
    var (c1, started) := OnMount(c, wantListings, false);
    if started then
      var c2 := OnUnmount(c1, wantListings);
      RemoveListingChannelsClears(c1, c1.open);
      OnMount(c2, wantListings, started)
    else (c1, started)
  }

  /** The flag-tracking effect: the manager's flag follows the option; its
      clean-up clears the flag only when the option was set. */
  function TrackOption(m: Manager, wantListings: bool): (r: Manager)
    ensures r.listingsSubscribed == wantListings
  {
    m.(listingsSubscribed := wantListings)
  }

  function UntrackOption(m: Manager, wantListings: bool): (r: Manager)
    ensures wantListings ==> !r.listingsSubscribed
    ensures !wantListings ==> r == m
  {
    if wantListings then m.(listingsSubscribed := false) else m
  }

  /** The hook's `online` handler: a check runs at once, whatever the
      "listings wanted" flag says, so with no channel open and attempts left
      the counter goes up even when nothing is restored. */
  function OnOnline(w: World, refresh: Reply<()>): (r: (World, seq<Toast>))
    ensures r == CheckAndRestore(w, refresh)
    ensures |w.conn.open| == 0 && w.manager.reconnectAttempts < MaxReconnectAttempts
      ==> r.0.manager.reconnectAttempts == w.manager.reconnectAttempts + 1
    ensures |w.conn.open| > 0 ==> r.0.conn == w.conn && r.0.manager.reconnectAttempts == 0 && r.1 == []
  {
    CheckAndRestore(w, refresh)
  }

  /** A check from a state with no channel open and attempts left leaves a
      channel open exactly when listings are wanted and the session refresh
      settled (with or without an error); that channel is then the one
      registered `listings` channel. */
  lemma RestoreReopensExactlyWhenWanted(w: World, refresh: Reply<()>)
    requires |w.conn.open| == 0 && w.manager.reconnectAttempts < MaxReconnectAttempts
    ensures var c := CheckAndRestore(w, refresh).0.conn;
      (|c.open| > 0 <==> w.manager.listingsSubscribed && refresh.Replied?)
      && (|c.open| > 0 ==> c.open == [Chan(w.conn.nextId, ListingSubscription.Topic)] && w.conn.nextId in c.registry)
  {
  }

  /** The `online` handler and the check interval differ: with listings not
      wanted, the interval's tick leaves everything alone while the handler
      still spends a reconnect attempt and announces a restored connection. */
  lemma OnlineSpendsAttemptWithoutListings(w: World, refresh: Reply<()>)
    requires |w.conn.open| == 0 && w.manager.reconnectAttempts < MaxReconnectAttempts
    requires !w.manager.listingsSubscribed && refresh.Replied?
    ensures CheckTick(w, true, refresh) == w
    ensures OnOnline(w, refresh).0 == w.(manager := w.manager.(reconnectAttempts := w.manager.reconnectAttempts + 1))
    ensures Info("Real-time connection restored") in OnOnline(w, refresh).1
  {
  }
}

=== FILE: records.dfy ===
/** The rows the application keeps in memory: listings, user profiles,
    notifications, chat records and invitations, with the partial updates
    (`{...row, ...updates}`) applied to them. Only the columns some modelled
    operation reads are represented. */
module Records {
  import opened Wrappers

  /** A vehicle listing. `dealerName` is `dealer?.dealer_name` and `modelCode`
      is `model_codes?.code` from the joined rows. */
  datatype Listing = Listing(
    id: string, dealerId: string, make: string, model: string, year: int,
    vin: Option<string>, pdiFee: Option<int>, status: string, location: Option<string>,
    dealerName: Option<string>, modelCode: Option<string>)

  /** A partial listing: each field is `None` when the update does not mention it. */
  datatype ListingPatch = ListingPatch(
    id: Option<string>, dealerId: Option<string>, make: Option<string>, model: Option<string>, year: Option<int>,
    vin: Option<Option<string>>, pdiFee: Option<Option<int>>, status: Option<string>, location: Option<Option<string>>,
    dealerName: Option<Option<string>>, modelCode: Option<Option<string>>)

  /** The update that mentions nothing. */
  const NoListingChange := ListingPatch(None, None, None, None, None, None, None, None, None, None, None)

  /** The update that sets every field to that of `l` (a whole row returned by the server). */
  function FullListing(l: Listing): ListingPatch {
    ListingPatch(Some(l.id), Some(l.dealerId), Some(l.make), Some(l.model), Some(l.year),
      Some(l.vin), Some(l.pdiFee), Some(l.status), Some(l.location), Some(l.dealerName), Some(l.modelCode))
  }

  /** `{...l, ...p}`: the fields `p` mentions replace those of `l`. */
  function MergeListing(l: Listing, p: ListingPatch): (r: Listing)
    ensures p.id.None? ==> r.id == l.id
    ensures p.status.Some? ==> r.status == p.status.value
    ensures p.status.None? ==> r.status == l.status
  {
    Listing(p.id.GetOr(l.id), p.dealerId.GetOr(l.dealerId), p.make.GetOr(l.make), p.model.GetOr(l.model),
      p.year.GetOr(l.year), p.vin.GetOr(l.vin), p.pdiFee.GetOr(l.pdiFee), p.status.GetOr(l.status),
      p.location.GetOr(l.location), p.dealerName.GetOr(l.dealerName), p.modelCode.GetOr(l.modelCode))
  }

  /** Merging nothing changes nothing; merging a whole row yields that row;
      merging the same update twice is merging it once. */
  lemma MergeListingLaws(l: Listing, m: Listing, p: ListingPatch)
    ensures MergeListing(l, NoListingChange) == l
    ensures MergeListing(l, FullListing(m)) == m
    ensures MergeListing(MergeListing(l, p), p) == MergeListing(l, p)
  {
  }

  /** A dealer or administrator account (`profiles` row, `AppUser`). `role` is
      kept as text: the code compares it with `pending`, `dealer` and `admin`. */
  datatype Profile = Profile(
    id: string, email: string, role: string, createdAt: string, updatedAt: string,
    dealerName: Option<string>, phone: Option<string>, address: Option<string>, brands: seq<string>)

  /** A partial profile. */
  datatype ProfilePatch = ProfilePatch(
    email: Option<string>, role: Option<string>, createdAt: Option<string>, updatedAt: Option<string>,
    dealerName: Option<Option<string>>, phone: Option<Option<string>>, address: Option<Option<string>>,
    brands: Option<seq<string>>)

  /** `{...u, ...p}` on a profile. */
  function MergeProfile(u: Profile, p: ProfilePatch): (r: Profile)
    ensures r.id == u.id
    ensures p.createdAt.None? ==> r.createdAt == u.createdAt
    ensures p.role.Some? ==> r.role == p.role.value
    ensures p.role.None? ==> r.role == u.role
  {
    Profile(u.id, p.email.GetOr(u.email), p.role.GetOr(u.role), p.createdAt.GetOr(u.createdAt), p.updatedAt.GetOr(u.updatedAt),
      p.dealerName.GetOr(u.dealerName), p.phone.GetOr(u.phone), p.address.GetOr(u.address), p.brands.GetOr(u.brands))
  }

  /** The patch that sets only the role. */
  function RolePatch(role: string): ProfilePatch {
    ProfilePatch(None, Some(role), None, None, None, None, None, None)
  }

  /** The patch that replaces every field but the id by that of `u`. */
  function FullProfile(u: Profile): ProfilePatch {
    ProfilePatch(Some(u.email), Some(u.role), Some(u.createdAt), Some(u.updatedAt), Some(u.dealerName), Some(u.phone), Some(u.address), Some(u.brands))
  }

  /** Merging a whole row of the same account yields that row, and merging a
      patch twice is merging it once. */
  lemma MergeProfileLaws(u: Profile, w: Profile, p: ProfilePatch)
    requires w.id == u.id
    ensures MergeProfile(u, FullProfile(w)) == w
    ensures MergeProfile(MergeProfile(u, p), p) == MergeProfile(u, p)
  {
  }

  /** A user notification. */
  datatype Notification = Notification(id: string, userId: string, title: string, read: bool, actionUrl: Option<string>, createdAt: string)

  /** A chat notification: one per message received in a channel. */
  datatype ChatNotification = ChatNotification(id: string, userId: string, channelId: string, read: bool)

  /** A dealer invitation. */
  datatype Invitation = Invitation(id: string, email: string)

  /** A chat message; `senderName` is filled in for messages the user sends. */
  datatype Message = Message(id: string, channelId: string, senderId: string, content: string, createdAt: string, senderName: Option<string>)

  /** A chat channel, possibly about a listing (`resource_type` `listing` or `iso`). */
  datatype ChatChannel = ChatChannel(id: string, name: string, resourceType: Option<string>, resourceId: Option<string>)

  /** The signed-in account as the authentication service reports it. */
  datatype User = User(id: string, email: string)
}

=== FILE: remote.dfy ===
/** What a call to the backend can come back with. The Supabase client
    resolves with `{ data, error }`; a timeout, a dropped connection or a
    rethrowing helper rejects instead. */
module Remote {
  import opened Wrappers
  import opened Failures

  /** The settled result of one awaited backend call. */
  datatype Reply<T> = Threw(thrown: Thrown) | Replied(error: Option<Thrown>, data: T)

  /** The call resolved without an `error` field. */
  predicate Succeeded<T>(r: Reply<T>) {
    r.Replied? && r.error.None?
  }

  /** The value a failed call leaves to be thrown: the rejection, or the
      `error` field of a resolved call. */
  function Failure<T>(r: Reply<T>): (e: Option<Thrown>)
    ensures e.None? <==> Succeeded(r)
    ensures r.Threw? ==> e == Some(r.thrown)
    ensures r.Replied? ==> e == r.error
  {
    match r
    case Threw(t) => Some(t)
    case Replied(err, _) => err
  }

  /** A user-visible toast. */
  datatype Toast = Info(text: string) | Alert(text: string)
}

=== FILE: retry.dfy ===
/** `retryWithBackoff` and `withTimeout`, in both error modules. The `lib` copy
    refuses to retry HTTP 401, 403 and 404 failures and caps delays at 30 s;
    the `utils` copy retries them and caps delays at 15 s. Everything the loop
    observes from outside is a parameter: the outcome of each call, whether the
    browser reports being online when a call has failed, and the random jitter. */
module Retry {
  import opened Wrappers
  import opened Text
  import opened Failures

  /** Which copy of the helper. */
  datatype Variant = Lib | Utils

  const OfflineText := "No internet connection. Please check your network and try again."
  const ExhaustedText := "Max retry attempts reached"
  const DefaultAttempts := 5
  const DefaultBaseDelayMs := 1000

  /** The default cap on one delay. */
  function DefaultMaxDelayMs(v: Variant): int {
    match v
    case Lib => 30000
    case Utils => 15000
  }

  /** The default time limit of `withTimeout`. */
  function DefaultTimeoutMs(v: Variant): int {
    match v
    case Lib => 90000
    case Utils => 30000
  }

  /** What one retry loop observes: the outcome of its `k`-th call (from 0),
      `navigator.onLine` once that call has failed, and `Math.random() * 1000`
      drawn before the following delay. */
  datatype Env<T> = Env(call: nat -> Result<T, Thrown>, onlineAfter: nat -> bool, jitter: nat -> real)

  /** A run of the loop: what it resolves or rejects with, how many calls it
      made and the delays it waited between them. */
  datatype Run<T> = Run(outcome: Result<T, Thrown>, calls: nat, delays: seq<real>)

  function Pow2(n: nat): (p: nat)
    ensures p >= 1
  {
    if n == 0 then 1 else 2 * Pow2(n - 1)
  }

  /** The wait after failed attempt number `attempt` (from 1):
      `min(base * 2^(attempt-1) + jitter, maxDelay)`. */
  function Delay(baseMs: int, maxDelayMs: int, attempt: nat, jitter: real): (d: real)
    requires attempt >= 1
    ensures d <= maxDelayMs as real
    ensures d == maxDelayMs as real || d == (baseMs * Pow2(attempt - 1)) as real + jitter
  {
    var raw := (baseMs * Pow2(attempt - 1)) as real + jitter;
    if raw < maxDelayMs as real then raw else maxDelayMs as real
  }

  /** The `lib` copy does not retry these HTTP statuses. */
  predicate FinalStatus(e: Thrown) {
    StatusProp(e).Some? && StatusProp(e).value in {401, 403, 404}
  }

  /** Whether the caught value, as an `Error`, has "JWT" in its message. A
      plain object becomes `[object Object]`, which has none. */
  predicate MentionsJwt(e: Thrown) {
    match e
    case ErrorValue(_, m, _, _) => Contains(m, "JWT")
    case ObjectValue(_, _, _, _, _) => false
    case PrimitiveValue(t) => Contains(t, "JWT")
  }

  /** `MentionsJwt` is the `includes('JWT')` test on the wrapped error. */
  lemma MentionsJwtIsIncludes(e: Thrown)
    ensures MentionsJwt(e) <==> Contains(AsError(e).message, "JWT")
  {
    if e.ObjectValue? {
      var m := AsError(e).message;
      assert m == "[object Object]";
      assert forall k :: 0 <= k < |m| ==> m[k] != 'J';
      forall i ensures !OccursAt(m, "JWT", i) {
        if 0 <= i && i + 3 <= |m| {
          assert m[i..i + 3][0] == m[i];
        }
      }
      ContainsAt(m, "JWT");
    }
  }

  /** A failure after which the loop would try again, if attempts remain:
      online, not a JWT problem and, in the `lib` copy, neither a primitive
      (whose `'status' in` test throws) nor a final HTTP status. */
  predicate Transient(v: Variant, e: Thrown, online: bool) {
    online && !MentionsJwt(e)
    && (v == Utils || (!e.PrimitiveValue? && !FinalStatus(e)))
  }

  /** What the `catch` block does with failure `e` of attempt number `attempt`
      (from 1): `Some(err)` rethrows `err`, `None` waits and tries again. */
  function Verdict(v: Variant, e: Thrown, online: bool, attempt: nat, maxAttempts: int): (r: Option<Thrown>)
    ensures r.None? <==> Transient(v, e, online) && attempt != maxAttempts
    ensures !online ==> r == Some(NewError(OfflineText))
    ensures online && MentionsJwt(e) ==> r == Some(AsError(e))
  {
    var last := AsError(e);
    if !online then Some(NewError(OfflineText))
    else if MentionsJwt(e) then Some(last)
    // `'status' in error` on a primitive raises a TypeError inside the catch block
    else if v == Lib && e.PrimitiveValue? then
      Some(NewError("Cannot use 'in' operator to search for 'status' in " + e.text))
    else if v == Lib && FinalStatus(e) then Some(last)
    else if attempt == maxAttempts then Some(last)
    else None
  }

  /** The loop from attempt `k` on; `last` is the error of the previous attempt. */
  function Loop<T>(v: Variant, env: Env<T>, maxAttempts: int, baseMs: int, maxDelayMs: int, k: nat, last: Option<Thrown>): (r: Run<T>)
    ensures r.calls == k || k < r.calls <= maxAttempts
    ensures |r.delays| == (if r.calls > k then r.calls - k - 1 else 0)
    ensures r.outcome.Ok? ==> r.calls > k && env.call(r.calls - 1) == r.outcome
    ensures r.calls == k ==> r.outcome == Err(last.GetOr(NewError(ExhaustedText)))
    decreases maxAttempts - k
  {
    if k >= maxAttempts then Run(Err(last.GetOr(NewError(ExhaustedText))), k, [])
    else match env.call(k)
      case Ok(x) => Run(Ok(x), k + 1, [])
      case Err(e) =>
        match Verdict(v, e, env.onlineAfter(k), k + 1, maxAttempts)
        case Some(err) => Run(Err(err), k + 1, [])
        case None =>
          var rest := Loop(v, env, maxAttempts, baseMs, maxDelayMs, k + 1, Some(AsError(e)));
          Run(rest.outcome, rest.calls, [Delay(baseMs, maxDelayMs, k + 1, env.jitter(k))] + rest.delays)
  }

  /** Every wait of a run is at most the cap. */
  lemma {:induction false} DelaysCapped<T>(v: Variant, env: Env<T>, maxAttempts: int, baseMs: int, maxDelayMs: int, k: nat, last: Option<Thrown>)
    ensures forall i :: 0 <= i < |Loop(v, env, maxAttempts, baseMs, maxDelayMs, k, last).delays| ==>
      Loop(v, env, maxAttempts, baseMs, maxDelayMs, k, last).delays[i] <= maxDelayMs as real
    decreases maxAttempts - k
  {
    if k < maxAttempts && env.call(k).Err? {
      var e := env.call(k).error;
      if Verdict(v, e, env.onlineAfter(k), k + 1, maxAttempts).None? {
        var rest := Loop(v, env, maxAttempts, baseMs, maxDelayMs, k + 1, Some(AsError(e)));
        var d := Delay(baseMs, maxDelayMs, k + 1, env.jitter(k));
        DelaysCapped(v, env, maxAttempts, baseMs, maxDelayMs, k + 1, Some(AsError(e)));
        var ds := Loop(v, env, maxAttempts, baseMs, maxDelayMs, k, last).delays;
        assert ds == [d] + rest.delays;
        forall i | 0 < i < |ds| ensures ds[i] <= maxDelayMs as real {
          assert ds[i] == rest.delays[i - 1];
        }
      }
    }
  }

  /** Every call of a run but the last one failed. */
  lemma {:induction false} EarlierCallsFailed<T>(v: Variant, env: Env<T>, maxAttempts: int, baseMs: int, maxDelayMs: int, k: nat, last: Option<Thrown>)
    ensures forall j :: k <= j < Loop(v, env, maxAttempts, baseMs, maxDelayMs, k, last).calls - 1 ==> env.call(j).Err?
    decreases maxAttempts - k
  {
    if k < maxAttempts && env.call(k).Err? {
      var e := env.call(k).error;
      if Verdict(v, e, env.onlineAfter(k), k + 1, maxAttempts).None? {
        EarlierCallsFailed(v, env, maxAttempts, baseMs, maxDelayMs, k + 1, Some(AsError(e)));
      }
    }
  }

  /** `retryWithBackoff(fn, maxAttempts, baseDelayMs, maxDelayMs)`. */
  function RetryWithBackoff<T>(v: Variant, env: Env<T>, maxAttempts: int, baseMs: int, maxDelayMs: int): (r: Run<T>)
    ensures r.calls <= (if maxAttempts < 0 then 0 else maxAttempts)
    ensures r.calls == 0 <==> maxAttempts <= 0
    ensures r.outcome.Ok? ==> r.calls >= 1 && env.call(r.calls - 1) == r.outcome
    ensures forall j :: 0 <= j < r.calls - 1 ==> env.call(j).Err?
    ensures forall i :: 0 <= i < |r.delays| ==> r.delays[i] <= maxDelayMs as real
  {
    DelaysCapped(v, env, maxAttempts, baseMs, maxDelayMs, 0, None);
    EarlierCallsFailed(v, env, maxAttempts, baseMs, maxDelayMs, 0, None);
    Loop(v, env, maxAttempts, baseMs, maxDelayMs, 0, None)
  }

  /** Attempts `k` to `j - 1` all failed in a way that is retried. */
  ghost predicate TransientUntil<T>(v: Variant, env: Env<T>, k: nat, j: nat) {
    forall i :: k <= i < j ==> env.call(i).Err? && Transient(v, env.call(i).error, env.onlineAfter(i))
  }

  /** One retried attempt: a transient failure at attempt `k` is followed by
      a delay and the loop from attempt `k + 1`. */
  lemma LoopStep<T>(v: Variant, env: Env<T>, maxAttempts: int, baseMs: int, maxDelayMs: int, k: nat, last: Option<Thrown>)
    requires k + 1 < maxAttempts
    requires env.call(k).Err? && Transient(v, env.call(k).error, env.onlineAfter(k))
    ensures var rest := Loop(v, env, maxAttempts, baseMs, maxDelayMs, k + 1, Some(AsError(env.call(k).error)));
      Loop(v, env, maxAttempts, baseMs, maxDelayMs, k, last)
      == Run(rest.outcome, rest.calls, [Delay(baseMs, maxDelayMs, k + 1, env.jitter(k))] + rest.delays)
  {
    assert Verdict(v, env.call(k).error, env.onlineAfter(k), k + 1, maxAttempts).None?;
  }

  /** If every attempt before `j` failed transiently, the loop reaches attempt
      `j` and then behaves as a loop started there. */
  lemma {:induction false} LoopReaches<T>(v: Variant, env: Env<T>, maxAttempts: int, baseMs: int, maxDelayMs: int, k: nat, last: Option<Thrown>, j: nat)
    requires k < j < maxAttempts
    requires TransientUntil(v, env, k, j)
    ensures var r := Loop(v, env, maxAttempts, baseMs, maxDelayMs, k, last);
      var s := Loop(v, env, maxAttempts, baseMs, maxDelayMs, j, Some(AsError(env.call(j - 1).error)));
      r.outcome == s.outcome && r.calls == s.calls
    decreases j - k
  {
    var e := env.call(k).error;
    LoopStep(v, env, maxAttempts, baseMs, maxDelayMs, k, last);
    if k + 1 < j {
      LoopReaches(v, env, maxAttempts, baseMs, maxDelayMs, k + 1, Some(AsError(e)), j);
    }
  }

  /** The delays waited while reaching attempt `j` are the capped backoffs of
      the attempts before it. */
  lemma {:induction false} LoopReachesDelays<T>(v: Variant, env: Env<T>, maxAttempts: int, baseMs: int, maxDelayMs: int, k: nat, last: Option<Thrown>, j: nat)
    requires k < j < maxAttempts
    requires TransientUntil(v, env, k, j)
    ensures var r := Loop(v, env, maxAttempts, baseMs, maxDelayMs, k, last);
      |r.delays| >= j - k
      && (forall i :: 0 <= i < j - k ==> r.delays[i] == Delay(baseMs, maxDelayMs, k + i + 1, env.jitter(k + i)))
    decreases j - k
  {
    var e := env.call(k).error;
    LoopStep(v, env, maxAttempts, baseMs, maxDelayMs, k, last);
    var rest := Loop(v, env, maxAttempts, baseMs, maxDelayMs, k + 1, Some(AsError(e)));
    var r := Loop(v, env, maxAttempts, baseMs, maxDelayMs, k, last);
    var d := Delay(baseMs, maxDelayMs, k + 1, env.jitter(k));
    assert r.delays == [d] + rest.delays;
    if k + 1 < j {
      LoopReachesDelays(v, env, maxAttempts, baseMs, maxDelayMs, k + 1, Some(AsError(e)), j);
    }
    PrependDelays(r.delays, d, rest.delays, baseMs, maxDelayMs, env.jitter, k, j);
  }

  /** Putting the delay of attempt `k + 1` in front of the delays of the
      attempts after it gives the delays from attempt `k + 1` on. */
  lemma PrependDelays(ds: seq<real>, d: real, rest: seq<real>, baseMs: int, maxDelayMs: int, jitter: nat -> real, k: nat, j: nat)
    requires k < j && ds == [d] + rest && d == Delay(baseMs, maxDelayMs, k + 1, jitter(k))
    requires |rest| >= j - k - 1
    requires forall i :: 0 <= i < j - k - 1 ==> rest[i] == Delay(baseMs, maxDelayMs, k + i + 2, jitter(k + i + 1))
    ensures |ds| >= j - k
    ensures forall i :: 0 <= i < j - k ==> ds[i] == Delay(baseMs, maxDelayMs, k + i + 1, jitter(k + i))
  {
    forall i | 0 <= i < j - k
      ensures ds[i] == Delay(baseMs, maxDelayMs, k + i + 1, jitter(k + i))
    {
      if i > 0 {
        assert ds[i] == rest[i - 1];
        assert k + (i - 1) + 2 == k + i + 1 && k + (i - 1) + 1 == k + i;
      }
    }
  }

  /** The first success is returned: after transient failures at attempts
      before `j`, a success at attempt `j` resolves the whole loop with that
      value after exactly `j + 1` calls and `j` delays, each the capped
      exponential backoff of its attempt. */
  lemma FirstSuccessWins<T>(v: Variant, env: Env<T>, maxAttempts: int, baseMs: int, maxDelayMs: int, j: nat)
    requires j < maxAttempts
    requires TransientUntil(v, env, 0, j)
    requires env.call(j).Ok?
    ensures var r := RetryWithBackoff(v, env, maxAttempts, baseMs, maxDelayMs);
      r.outcome == env.call(j) && r.calls == j + 1 && |r.delays| == j
      && forall i :: 0 <= i < j ==> r.delays[i] == Delay(baseMs, maxDelayMs, i + 1, env.jitter(i))
  {
    if j > 0 {
      LoopReaches(v, env, maxAttempts, baseMs, maxDelayMs, 0, None, j);
      LoopReachesDelays(v, env, maxAttempts, baseMs, maxDelayMs, 0, None, j);
    }
  }

  /** An attempt that fails in a way that is not retried ends the loop at
      once, rejecting with the error `Verdict` names. */
  lemma StopsAt<T>(v: Variant, env: Env<T>, maxAttempts: int, baseMs: int, maxDelayMs: int, j: nat)
    requires j < maxAttempts
    requires TransientUntil(v, env, 0, j)
    requires env.call(j).Err? && Verdict(v, env.call(j).error, env.onlineAfter(j), j + 1, maxAttempts).Some?
    ensures var r := RetryWithBackoff(v, env, maxAttempts, baseMs, maxDelayMs);
      r.calls == j + 1
      && r.outcome == Err(Verdict(v, env.call(j).error, env.onlineAfter(j), j + 1, maxAttempts).value)
  {
    if j > 0 {
      LoopReaches(v, env, maxAttempts, baseMs, maxDelayMs, 0, None, j);
    }
  }

  /** When every attempt fails transiently, exactly `maxAttempts` calls are
      made, with a delay between each two, and the loop rejects with the last
      failure (as an `Error`). */
  lemma Exhaustion<T>(v: Variant, env: Env<T>, maxAttempts: int, baseMs: int, maxDelayMs: int)
    requires maxAttempts >= 1
    requires TransientUntil(v, env, 0, maxAttempts)
    ensures var r := RetryWithBackoff(v, env, maxAttempts, baseMs, maxDelayMs);
      r.calls == maxAttempts && |r.delays| == maxAttempts - 1
      && r.outcome == Err(AsError(env.call(maxAttempts - 1).error))
  {
    StopsAt(v, env, maxAttempts, baseMs, maxDelayMs, maxAttempts - 1);
  }

  /** A failure while the browser reports being offline is never retried:
      the loop rejects at once with the no-connection error. */
  lemma OfflineStopsImmediately<T>(v: Variant, env: Env<T>, maxAttempts: int, baseMs: int, maxDelayMs: int)
    requires maxAttempts >= 1 && env.call(0).Err? && !env.onlineAfter(0)
    ensures var r := RetryWithBackoff(v, env, maxAttempts, baseMs, maxDelayMs);
      r.calls == 1 && r.outcome == Err(NewError(OfflineText)) && r.delays == []
  {
  }

  /** A failure whose message mentions a JWT is never retried: the loop
      rejects at once with that error. */
  lemma JwtStopsImmediately<T>(v: Variant, env: Env<T>, maxAttempts: int, baseMs: int, maxDelayMs: int, msg: string)
    requires maxAttempts >= 1 && env.onlineAfter(0) && Contains(msg, "JWT")
    requires env.call(0) == Err(NewError(msg))
    ensures var r := RetryWithBackoff(v, env, maxAttempts, baseMs, maxDelayMs);
      r.calls == 1 && r.outcome == Err(NewError(msg))
  {
  }

  /** In the `lib` copy an HTTP 401, 403 or 404 failure (without a JWT message) is not retried. */
  lemma LibFinalStatusStops<T>(env: Env<T>, maxAttempts: int, baseMs: int, maxDelayMs: int, msg: string, status: int)
    requires maxAttempts >= 1 && env.onlineAfter(0) && status in {401, 403, 404} && !Contains(msg, "JWT")
    requires env.call(0) == Err(ErrorValue(PlainError, msg, None, Some(status)))
    ensures var r := RetryWithBackoff(Lib, env, maxAttempts, baseMs, maxDelayMs);
      r.calls == 1 && r.outcome == env.call(0)
  {
  }

  /** The `utils` copy retries an HTTP 401 failure until attempts run out. */
  lemma UtilsRetriesStatus<T>(env: Env<T>, maxAttempts: int, baseMs: int, maxDelayMs: int, msg: string)
    requires maxAttempts >= 1 && !Contains(msg, "JWT")
    requires forall i :: 0 <= i < maxAttempts ==>
      env.call(i) == Err(ErrorValue(PlainError, msg, None, Some(401))) && env.onlineAfter(i)
    ensures RetryWithBackoff(Utils, env, maxAttempts, baseMs, maxDelayMs).calls == maxAttempts
  {
    Exhaustion(Utils, env, maxAttempts, baseMs, maxDelayMs);
  }

  /** With no attempts allowed the function is never called and rejects with
      the "max retry attempts" error. */
  lemma NoAttempts<T>(v: Variant, env: Env<T>, maxAttempts: int, baseMs: int, maxDelayMs: int)
    requires maxAttempts <= 0
    ensures var r := RetryWithBackoff(v, env, maxAttempts, baseMs, maxDelayMs);
      r.calls == 0 && r.outcome == Err(NewError(ExhaustedText))
  {
  }

  /** With a non-negative jitter, each wait is at least the smaller of the
      exponential backoff and the cap. */
  lemma DelayAtLeastBackoff(baseMs: int, maxDelayMs: int, attempt: nat, jitter: real)
    requires attempt >= 1 && jitter >= 0.0
    ensures Delay(baseMs, maxDelayMs, attempt, jitter) >= (if (baseMs * Pow2(attempt - 1)) < maxDelayMs then (baseMs * Pow2(attempt - 1)) as real else maxDelayMs as real)
  {
  }

  /** `withTimeout(promise, timeoutMs, errorMessage)`: the operation's own
      outcome if it settles (at `settleAt` ms, `None` for never) before the
      timer, otherwise a `TimeoutError` carrying the given message. */
  function WithTimeout<T>(op: Result<T, Thrown>, settleAt: Option<nat>, timeoutMs: int, errorMessage: Option<string>): (r: Result<T, Thrown>)
    ensures settleAt.Some? && settleAt.value < timeoutMs ==> r == op
    ensures r != op ==> r == Err(NewTimeoutError(errorMessage))
    ensures settleAt.None? ==> r.Err? && r.error.ErrorValue? && r.error.cls == TimeoutError
  {
    if settleAt.Some? && settleAt.value < timeoutMs then op else Err(NewTimeoutError(errorMessage))
  }
}

=== FILE: seqs.dfy ===
/** Sequence helpers shared by the stores: order-preserving filtering, counting
    and first-match search, the operations the application performs with
    `Array.prototype.filter`, `find` and `findIndex`. */
module Seqs {
  import opened Wrappers

  /** The elements of `s` that satisfy `p`, in their original order. */
  function Filter<T>(s: seq<T>, p: T -> bool): (r: seq<T>)
    ensures |r| <= |s|
    ensures forall i :: 0 <= i < |r| ==> r[i] in s && p(r[i])
    ensures forall i :: 0 <= i < |s| && p(s[i]) ==> s[i] in r
    ensures IsSubsequence(r, s)
    decreases |s|
  {
    if |s| == 0 then []
    else
      var rest := Filter(s[1..], p);
      if p(s[0]) then
        assert ([s[0]] + rest)[1..] == rest;
        [s[0]] + rest
      else
        SubsequenceOfTail(rest, s);
        rest
  }

  /** The number of elements of `s` that satisfy `p`. */
  function Count<T>(s: seq<T>, p: T -> bool): (n: nat)
    ensures n <= |s|
    ensures n == 0 <==> forall i :: 0 <= i < |s| ==> !p(s[i])
    decreases |s|
  {
    if |s| == 0 then 0 else (if p(s[0]) then 1 else 0) + Count(s[1..], p)
  }

  /** `a` is obtained from `b` by deleting elements, keeping the order of the rest. */
  ghost predicate IsSubsequence<T>(a: seq<T>, b: seq<T>)
    decreases |b|
  {
    |a| == 0 || (|b| > 0 && ((a[0] == b[0] && IsSubsequence(a[1..], b[1..])) || IsSubsequence(a, b[1..])))
  }

  /** The index of the first element satisfying `p`, if any (`findIndex`). */
  function FirstIndex<T>(s: seq<T>, p: T -> bool): (r: Option<nat>)
    ensures r.Some? ==> r.value < |s| && p(s[r.value]) && forall j :: 0 <= j < r.value ==> !p(s[j])
    ensures r.None? <==> forall j :: 0 <= j < |s| ==> !p(s[j])
    decreases |s|
  {
    if |s| == 0 then None
    else if p(s[0]) then Some(0)
    else match FirstIndex(s[1..], p)
      case None => None
      case Some(k) => Some(k + 1)
  }

  /** The first element satisfying `p`, if any (`find`). */
  function Find<T>(s: seq<T>, p: T -> bool): (r: Option<T>)
    ensures r.Some? ==> r.value in s && p(r.value)
    ensures r.Some? ==> exists k :: 0 <= k < |s| && s[k] == r.value && forall j :: 0 <= j < k ==> !p(s[j])
    ensures r.None? <==> forall j :: 0 <= j < |s| ==> !p(s[j])
  {
    match FirstIndex(s, p)
    case None => None
    case Some(k) => Some(s[k])
  }

  /** A subsequence of the tail of `b` is a subsequence of `b`. */
  lemma {:induction false} SubsequenceOfTail<T>(a: seq<T>, b: seq<T>)
    requires |b| > 0 && IsSubsequence(a, b[1..])
    ensures IsSubsequence(a, b)
  {
  }

  /** Every sequence is a subsequence of itself. */
  lemma SubsequenceOfSelf<T>(s: seq<T>)
    ensures IsSubsequence(s, s)
  {
    FilterAll(s, (x: T) => true);
  }

  /** Filtering with a predicate every element satisfies changes nothing. */
  lemma {:induction false} FilterAll<T>(s: seq<T>, p: T -> bool)
    requires forall i :: 0 <= i < |s| ==> p(s[i])
    ensures Filter(s, p) == s
    decreases |s|
  {
    if |s| > 0 {
      FilterAll(s[1..], p);
      assert s == [s[0]] + s[1..];
    }
  }

  /** The length of a filter is the number of elements it keeps. */
  lemma {:induction false} FilterLength<T>(s: seq<T>, p: T -> bool)
    ensures |Filter(s, p)| == Count(s, p)
    decreases |s|
  {
    if |s| > 0 {
      FilterLength(s[1..], p);
    }
  }

  /** Counting distributes over concatenation. */
  lemma {:induction false} CountAppend<T>(a: seq<T>, b: seq<T>, p: T -> bool)
    ensures Count(a + b, p) == Count(a, p) + Count(b, p)
    decreases |a|
  {
    if |a| > 0 {
      assert (a + b)[1..] == a[1..] + b;
      CountAppend(a[1..], b, p);
    } else {
      assert a + b == b;
    }
  }

  /** No two elements of `s` share a key. */
  ghost predicate DistinctBy<T, K>(s: seq<T>, key: T -> K) {
    forall i, j :: 0 <= i < j < |s| ==> key(s[i]) != key(s[j])
  }

  /** Filtering keeps keys distinct. */
  lemma {:induction false} FilterDistinctBy<T, K>(s: seq<T>, p: T -> bool, key: T -> K)
    requires DistinctBy(s, key)
    ensures DistinctBy(Filter(s, p), key)
    decreases |s|
  {
    if |s| > 0 {
      FilterDistinctBy(s[1..], p, key);
      var rest := Filter(s[1..], p);
      if p(s[0]) {
        var r := [s[0]] + rest;
        assert Filter(s, p) == r;
        forall i, j | 0 <= i < j < |r| ensures key(r[i]) != key(r[j]) {
          if i == 0 {
            assert r[j] == rest[j - 1];
            assert rest[j - 1] in s[1..];
            var k :| 0 <= k < |s| - 1 && s[1..][k] == rest[j - 1];
            assert s[k + 1] == r[j];
          } else {
            assert r[i] == rest[i - 1] && r[j] == rest[j - 1];
          }
        }
      }
    }
  }

  /** Filters with predicates that agree on every element are equal. */
  lemma {:induction false} FilterExtensional<T>(s: seq<T>, p: T -> bool, q: T -> bool)
    requires forall i :: 0 <= i < |s| ==> p(s[i]) == q(s[i])
    ensures Filter(s, p) == Filter(s, q)
    decreases |s|
  {
    if |s| > 0 {
      FilterExtensional(s[1..], p, q);
    }
  }
}

=== FILE: sorting.dfy ===
/** Sorting distinct values, as `Array.from(new Set(xs)).sort(...)` does:
    each value once, in the order a comparison gives. Strings compare as
    JavaScript compares them by default, character by character with a
    proper prefix first. */
module Sorting {
  /** JavaScript's `a < b` on strings. */
  predicate LexLess(a: string, b: string)
    decreases |a|
  {
    if |a| == 0 then |b| > 0
    else if |b| == 0 then false
    else if a[0] != b[0] then a[0] < b[0]
    else LexLess(a[1..], b[1..])
  }

  /** `LexLess` is a strict total order. */
  lemma {:induction false} LexLessIrreflexive(a: string)
    ensures !LexLess(a, a)
    decreases |a|
  {
    if |a| > 0 {
      LexLessIrreflexive(a[1..]);
    }
  }

  lemma {:induction false} LexLessTransitive(a: string, b: string, c: string)
    requires LexLess(a, b) && LexLess(b, c)
    ensures LexLess(a, c)
    decreases |a|
  {
    if |a| > 0 && |b| > 0 && |c| > 0 && a[0] == b[0] && b[0] == c[0] {
      LexLessTransitive(a[1..], b[1..], c[1..]);
    }
  }

  lemma {:induction false} LexLessTotal(a: string, b: string)
    requires a != b
    ensures LexLess(a, b) || LexLess(b, a)
    decreases |a|
  {
    if |a| > 0 && |b| > 0 && a[0] == b[0] {
      assert a == [a[0]] + a[1..] && b == [b[0]] + b[1..];
      LexLessTotal(a[1..], b[1..]);
    }
  }

  /** `less` is a strict total order on `T`. */
  ghost predicate StrictTotal<T(!new)>(less: (T, T) -> bool) {
    (forall a :: !less(a, a))
    && (forall a, b, c :: less(a, b) && less(b, c) ==> less(a, c))
    && (forall a, b :: a != b ==> less(a, b) || less(b, a))
  }

  lemma LexLessIsStrictTotal()
    ensures StrictTotal((a: string, b: string) => LexLess(a, b))
  {
    forall a: string ensures !LexLess(a, a) {
      LexLessIrreflexive(a);
    }
    forall a: string, b: string, c: string | LexLess(a, b) && LexLess(b, c) ensures LexLess(a, c) {
      LexLessTransitive(a, b, c);
    }
    forall a: string, b: string | a != b ensures LexLess(a, b) || LexLess(b, a) {
      LexLessTotal(a, b);
    }
  }

  /** Each element comes strictly before the next ones; so none repeats. */
  ghost predicate StrictlySorted<T>(s: seq<T>, less: (T, T) -> bool) {
    forall i, j :: 0 <= i < j < |s| ==> less(s[i], s[j])
  }

  /** `x` put into its place in the sorted `s`, unless it is there already. */
  function Insert<T(==,!new)>(x: T, s: seq<T>, less: (T, T) -> bool): (r: seq<T>)
    requires StrictTotal(less) && StrictlySorted(s, less)
    ensures StrictlySorted(r, less)
    ensures forall y :: y in r <==> y == x || y in s
    decreases |s|
  {
    if |s| == 0 then [x]
    else if x == s[0] then s
    else if less(x, s[0]) then
      assert forall j :: 0 < j < |s| ==> less(s[0], s[j]);
      [x] + s
    else
      var t := Insert(x, s[1..], less);
      assert less(s[0], x);
      assert forall y :: y in t ==> less(s[0], y) by {
        forall y | y in t ensures less(s[0], y) {
          if y != x {
            var j :| 0 <= j < |s[1..]| && s[1..][j] == y;
            assert s[j + 1] == y;
          }
        }
      }
      assert s == [s[0]] + s[1..];
      [s[0]] + t
  }

  /** The distinct elements of `s`, sorted by `less`. */
  function SortDistinct<T(==,!new)>(s: seq<T>, less: (T, T) -> bool): (r: seq<T>)
    requires StrictTotal(less)
    ensures StrictlySorted(r, less)
    ensures forall y :: y in r <==> y in s
    decreases |s|
  {
    if |s| == 0 then []
    else
      var t := SortDistinct(s[1..], less);
      assert s == [s[0]] + s[1..];
      Insert(s[0], t, less)
  }

  /** Descending order on integers, the comparison `(a, b) => b - a`. */
  lemma GreaterIsStrictTotal()
    ensures StrictTotal((a: int, b: int) => a > b)
  {
  }
}

=== FILE: subscriptions.dfy ===
/** The realtime subscription helpers: each opens a channel on the client,
    registers it with the connectivity monitor, and turns database change
    events into callbacks; the matching unsubscribe goes through the monitor's
    registry. A callback's own exceptions are caught by the helper and never
    reach the caller, so a delivery is modelled as the value the callback
    receives, if any. */

/** The kind of a database change event. */
module ChangeEvents {
  import opened Wrappers

  datatype ChangeKind = Insert | Update | Delete

  /** A `postgres_changes` payload: its kind, and the new and old rows. */
  datatype Change<R> = Change(kind: ChangeKind, newRow: R, oldRow: R)

  /** `unsubscribeFrom...(handle)` for a handle that may be missing: only a
      present handle is removed, through the monitor. */
  datatype Handle = NoHandle | Handle(id: nat)
}

module ListingSubscription {
  import opened Wrappers
  import opened Text
  import opened Records
  import opened Remote
  import opened Network
  import opened ChangeEvents

  const Topic := "listings-changes"

  /** `subscribeToListingChanges`: opens a new `listings-changes` channel and
      registers it, without looking at channels opened before. */
  function Subscribe(c: Conn): (r: (Conn, nat))
    ensures r.0.open == c.open + [Chan(c.nextId, Topic)] && r.1 == c.nextId
    ensures r.0.registry == c.registry + {r.1}
    ensures r.0.online == c.online && r.0.listeners == c.listeners
  {
    var (o, h) := OpenChannel(c, Topic);
    (RegisterChannel(o, h), h)
  }

  /** The change handler. An insert or update re-reads the full row by the
      new row's id (`refetch`) and passes it on with the same kind, if a row
      came back; a failed re-read is swallowed. A delete passes the old row on. */
  function Deliver(ev: Change<Listing>, refetch: Reply<Option<Listing>>): (r: Option<(ChangeKind, Listing)>)
    ensures ev.kind == Delete ==> r == Some((Delete, ev.oldRow))
    ensures ev.kind != Delete ==> (r.Some? <==> refetch.Replied? && refetch.data.Some?)
    ensures r.Some? && ev.kind != Delete ==> r.value == (ev.kind, refetch.data.value)
  {
    match ev.kind
    case Delete => Some((Delete, ev.oldRow))
    case _ =>
      match refetch
      case Threw(_) => None
      case Replied(_, data) => if data.Some? then Some((ev.kind, data.value)) else None
  }

  /** `unsubscribeFromListings(handle)`. */
  function Unsubscribe(c: Conn, h: Handle): (r: Conn)
    ensures h.NoHandle? ==> r == c
    ensures h.Handle? ==> r == RemoveChannel(c, h.id)
  {
    match h
    case NoHandle => c
    case Handle(id) => RemoveChannel(c, id)
  }

  /** The topic contains `listings`, as the keep-alive code tests. */
  lemma TopicMentionsListings()
    ensures Contains(Topic, "listings")
  {
    assert Topic[..8] == "listings";
    assert StartsWith(Topic, "listings");
  }

  /** Subscribing twice leaves two distinct registered `listings` channels:
      the first is not torn down. */
  lemma SubscriptionsAccumulate(c: Conn)
    requires Consistent(c)
    ensures var (c1, h1) := Subscribe(c); var (c2, h2) := Subscribe(c1);
      h1 != h2 && {h1, h2} <= c2.registry
      && Chan(h1, Topic) in c2.open && Chan(h2, Topic) in c2.open
  {
    var (c1, h1) := Subscribe(c);
    var (c2, h2) := Subscribe(c1);
    assert c2.open[|c.open|] == Chan(h1, Topic);
  }
}

module AdminSubscription {
  import opened Wrappers
  import opened Records
  import opened Network
  import opened ChangeEvents

  /** `subscribeToUserChanges`: a new registered `admin-users` channel. */
  function SubscribeUsers(c: Conn): (r: (Conn, nat))
    ensures r.0.open == c.open + [Chan(c.nextId, "admin-users")] && r.1 == c.nextId
    ensures r.0.registry == c.registry + {r.1}
  {
    var (o, h) := OpenChannel(c, "admin-users");
    (RegisterChannel(o, h), h)
  }

  /** `subscribeToInvitationChanges`: a new registered `admin-invitations` channel. */
  function SubscribeInvitations(c: Conn): (r: (Conn, nat))
    ensures r.0.open == c.open + [Chan(c.nextId, "admin-invitations")] && r.1 == c.nextId
    ensures r.0.registry == c.registry + {r.1}
  {
    var (o, h) := OpenChannel(c, "admin-invitations");
    (RegisterChannel(o, h), h)
  }

  /** Both handlers: inserts and updates pass the new row on, deletes the old one. */
  function Deliver<R>(ev: Change<R>): (r: (ChangeKind, R))
    ensures r.0 == ev.kind
    ensures r.1 == (if ev.kind == Delete then ev.oldRow else ev.newRow)
  {
    if ev.kind == Delete then (Delete, ev.oldRow) else (ev.kind, ev.newRow)
  }

  /** `unsubscribeFromAdmin(handle)`. */
  function Unsubscribe(c: Conn, h: Handle): (r: Conn)
    ensures h.NoHandle? ==> r == c
    ensures h.Handle? ==> r == RemoveChannel(c, h.id)
  {
    match h
    case NoHandle => c
    case Handle(id) => RemoveChannel(c, id)
  }
}

module NotificationSubscription {
  import opened Wrappers
  import opened Records
  import opened Network
  import opened ChangeEvents

  /** The channel name for a user: a fixed prefix, then the user id. */
  function Topic(userId: string): (r: string)
    ensures |r| == 14 + |userId| && r[..14] == "notifications-" && r[14..] == userId
  {
    "notifications-" + userId
  }

  /** The row filter the channel asks the server for: inserts whose
      `user_id` equals the user id. */
  function RowFilter(userId: string): (r: string)
    ensures |r| == 11 + |userId| && r[..11] == "user_id=eq." && r[11..] == userId
  {
    "user_id=eq." + userId
  }

  /** `subscribeToNotifications(userId, ...)`: a new registered channel named
      after the user, listening for inserts of that user's notifications. */
  function Subscribe(c: Conn, userId: string): (r: (Conn, nat))
    ensures r.0.open == c.open + [Chan(c.nextId, Topic(userId))] && r.1 == c.nextId
    ensures r.0.registry == c.registry + {r.1}
  {
    var (o, h) := OpenChannel(c, Topic(userId));
    (RegisterChannel(o, h), h)
  }

  /** The handler, given an inserted row: with the server applying the row
      filter, exactly the new notifications of the subscribed user are passed on. */
  function Deliver(userId: string, inserted: Notification): (r: Option<Notification>)
    ensures r.Some? <==> inserted.userId == userId
    ensures r.Some? ==> r.value == inserted
  {
    if inserted.userId == userId then Some(inserted) else None
  }

  /** Different users get different channel names and different row filters. */
  lemma TopicsDiffer(a: string, b: string)
    requires a != b
    ensures Topic(a) != Topic(b)
    ensures RowFilter(a) != RowFilter(b)
  {
  }

  /** `unsubscribeFromNotifications(handle)`. */
  function Unsubscribe(c: Conn, h: Handle): (r: Conn)
    ensures h.NoHandle? ==> r == c
    ensures h.Handle? ==> r == RemoveChannel(c, h.id)
  {
    match h
    case NoHandle => c
    case Handle(id) => RemoveChannel(c, id)
  }
}

=== FILE: text.dfy ===
/** String operations the application relies on, with JavaScript's meaning:
    the whitespace set of `String.prototype.trim` and of the regular-expression
    class `\s`, `includes`, `toLowerCase` restricted to ASCII letters, and the
    decimal rendering of integers produced by `toString()` and template literals. */
module Text {
  import opened Wrappers

  /** JavaScript WhiteSpace and LineTerminator code points. */
  predicate IsSpace(c: char) {
    c == '\t' || c == '\n' || c == '\U{000B}' || c == '\U{000C}' || c == '\r' || c == ' '
    || c == '\U{00A0}' || c == '\U{1680}' || ('\U{2000}' <= c <= '\U{200A}')
    || c == '\U{2028}' || c == '\U{2029}' || c == '\U{202F}' || c == '\U{205F}'
    || c == '\U{3000}' || c == '\U{FEFF}'
  }

  /** JavaScript truthiness of an optional string: present and not empty. */
  predicate Truthy(s: Option<string>) { s.Some? && s.value != "" }

  /** Every character of `s` is whitespace. */
  predicate AllSpace(s: string) {
    forall k :: 0 <= k < |s| ==> IsSpace(s[k])
  }

  /** `s` without its leading whitespace. */
  function TrimStart(s: string): (r: string)
    ensures |r| <= |s| && r == s[|s| - |r|..]
    ensures AllSpace(s[..|s| - |r|])
    ensures |r| > 0 ==> !IsSpace(r[0])
    decreases |s|
  {
    if |s| > 0 && IsSpace(s[0]) then TrimStart(s[1..]) else s
  }

  /** `s` without its trailing whitespace. */
  function TrimEnd(s: string): (r: string)
    ensures |r| <= |s| && r == s[..|r|]
    ensures AllSpace(s[|r|..])
    ensures |r| > 0 ==> !IsSpace(r[|r| - 1])
    decreases |s|
  {
    if |s| > 0 && IsSpace(s[|s| - 1]) then TrimEnd(s[..|s| - 1]) else s
  }

  /** `sub` occurs in `s` starting at position `i`. */
  predicate OccursAt(s: string, sub: string, i: int) {
    0 <= i && i + |sub| <= |s| && s[i..i + |sub|] == sub
  }

  /** `String.prototype.trim`: a contiguous piece of `s` that neither starts
      nor ends with whitespace, and is empty exactly when `s` is all whitespace. */
  function Trim(s: string): (r: string)
    ensures |r| > 0 ==> !IsSpace(r[0]) && !IsSpace(r[|r| - 1])
    ensures exists i :: OccursAt(s, r, i)
    ensures r == [] <==> AllSpace(s)
  {
    TrimOccurs(s);
    TrimEmptyIsBlank(s);
    BlankTrimsAway(s);
    TrimEnd(TrimStart(s))
  }

  /** What `TrimEnd(TrimStart(s))` keeps is the piece of `s` after its leading whitespace. */
  lemma TrimOccurs(s: string)
    ensures OccursAt(s, TrimEnd(TrimStart(s)), |s| - |TrimStart(s)|)
  {
    var a := TrimStart(s);
    var r := TrimEnd(a);
    PrefixOfSuffix(s, |s| - |a|, |r|);
  }

  /** The first `n` elements after position `i` are the slice from `i` to `i + n`. */
  lemma PrefixOfSuffix<T>(s: seq<T>, i: nat, n: nat)
    requires i + n <= |s|
    ensures s[i..][..n] == s[i..i + n]
  {
  }

  /** Trimming leaves nothing only from an all-whitespace string. */
  lemma TrimEmptyIsBlank(s: string)
    ensures TrimEnd(TrimStart(s)) == [] ==> AllSpace(s)
  {
    var a := TrimStart(s);
    var i := |s| - |a|;
    if TrimEnd(a) == [] {
      TrimEndEmpty(a);
      assert s == s[..i] + a;
      AllSpaceConcat(s[..i], a);
    }
  }

  /** An all-whitespace string loses everything to its leading whitespace. */
  lemma BlankTrimsAway(s: string)
    ensures AllSpace(s) ==> TrimStart(s) == []
  {
  }

  /** Trimming the end leaves nothing only from an all-whitespace string. */
  lemma TrimEndEmpty(a: string)
    requires TrimEnd(a) == []
    ensures AllSpace(a)
  {
    assert a[0..] == a;
  }

  /** Whitespace-only strings concatenate to a whitespace-only string. */
  lemma AllSpaceConcat(a: string, b: string)
    requires AllSpace(a) && AllSpace(b)
    ensures AllSpace(a + b)
  {
    forall k | 0 <= k < |a + b| ensures IsSpace((a + b)[k]) {
      if k < |a| {
        assert (a + b)[k] == a[k];
      } else {
        assert (a + b)[k] == b[k - |a|];
      }
    }
  }

  /** A string is blank when trimming leaves nothing (`!s.trim()`). */
  predicate IsBlank(s: string) {
    Trim(s) == []
  }

  /** Trimming twice is trimming once. */
  lemma TrimIdempotent(s: string)
    ensures Trim(Trim(s)) == Trim(s)
  {
    var t := Trim(s);
    assert TrimStart(t) == t;
    assert TrimEnd(t) == t;
  }

  /** `s` begins with `p`. */
  predicate StartsWith(s: string, p: string) {
    |p| <= |s| && s[..|p|] == p
  }

  /** `String.prototype.includes`: `sub` occurs somewhere in `s`. */
  predicate Contains(s: string, sub: string)
    decreases |s|
  {
    StartsWith(s, sub) || (|s| > 0 && Contains(s[1..], sub))
  }

  /** A text without the first character of `sub` cannot contain `sub`. */
  lemma {:induction false} NotContainedWithoutFirstChar(s: string, sub: string)
    requires |sub| > 0 && sub[0] !in s
    ensures !Contains(s, sub)
    decreases |s|
  {
    if |s| > 0 {
      assert s[0] != sub[0];
      NotContainedWithoutFirstChar(s[1..], sub);
    }
  }

  /** `Contains` agrees with the positional definition of an occurrence. */
  lemma {:induction false} ContainsAt(s: string, sub: string)
    ensures Contains(s, sub) <==> exists i :: OccursAt(s, sub, i)
    decreases |s|
  {
    if StartsWith(s, sub) {
      assert OccursAt(s, sub, 0);
    }
    if |s| > 0 {
      ContainsAt(s[1..], sub);
      if exists i :: OccursAt(s, sub, i) {
        var i :| OccursAt(s, sub, i);
        if i > 0 {
          assert s[1..][i - 1..i - 1 + |sub|] == s[i..i + |sub|];
          assert OccursAt(s[1..], sub, i - 1);
        }
      }
      if Contains(s[1..], sub) {
        var i :| OccursAt(s[1..], sub, i);
        assert s[i + 1..i + 1 + |sub|] == s[1..][i..i + |sub|];
        assert OccursAt(s, sub, i + 1);
      }
    }
  }

  /** Every string contains the empty string. */
  lemma ContainsEmpty(s: string)
    ensures Contains(s, [])
  {
    assert StartsWith(s, []);
  }

  /** `toLowerCase` on one character, for the ASCII letters. */
  function LowerChar(c: char): (d: char)
    ensures 'A' <= c <= 'Z' ==> 'a' <= d <= 'z'
    ensures !('A' <= c <= 'Z') ==> d == c
  {
    if 'A' <= c <= 'Z' then (c as int + 32) as char else c
  }

  /** `toLowerCase` for ASCII text: every upper-case letter replaced by its lower-case form. */
  function Lower(s: string): (r: string)
    ensures |r| == |s|
    ensures forall k :: 0 <= k < |s| ==> r[k] == LowerChar(s[k])
  {
    seq(|s|, k requires 0 <= k < |s| => LowerChar(s[k]))
  }

  /** Lower-casing is idempotent. */
  lemma LowerIdempotent(s: string)
    ensures Lower(Lower(s)) == Lower(s)
  {
  }

  /** The decimal digit for `d`. */
  function DigitChar(d: nat): (c: char)
    requires d < 10
    ensures '0' <= c <= '9'
  {
    ('0' as int + d) as char
  }

  /** The decimal rendering of a natural number, without leading zeros. */
  function NatToString(n: nat): (r: string)
    ensures |r| > 0
    ensures forall k :: 0 <= k < |r| ==> '0' <= r[k] <= '9'
    ensures |r| > 1 ==> r[0] != '0'
    decreases n
  {
    if n < 10 then [DigitChar(n)] else NatToString(n / 10) + [DigitChar(n % 10)]
  }

  /** The decimal rendering of an integer (`String(n)` / `n.toString()`). */
  function IntToString(i: int): (r: string)
    ensures |r| > 0
    ensures (r[0] == '-') <==> i < 0
  {
    if i < 0 then "-" + NatToString(-i) else NatToString(i)
  }

  /** The value of a non-empty string of decimal digits; `None` for anything else. */
  function ParseDigits(s: string): (r: Option<nat>)
    ensures r.Some? <==> |s| > 0 && forall k :: 0 <= k < |s| ==> '0' <= s[k] <= '9'
    decreases |s|
  {
    if |s| == 0 then None
    else if !('0' <= s[|s| - 1] <= '9') then None
    else if |s| == 1 then Some(s[0] as int - '0' as int)
    else match ParseDigits(s[..|s| - 1])
      case None => None
      case Some(v) => Some(v * 10 + (s[|s| - 1] as int - '0' as int))
  }

  /** Rendering a natural number and reading it back gives the number. */
  lemma {:induction false} ParseNatToString(n: nat)
    ensures ParseDigits(NatToString(n)) == Some(n)
    decreases n
  {
    if n >= 10 {
      ParseNatToString(n / 10);
      var r := NatToString(n);
      assert r[..|r| - 1] == NatToString(n / 10);
    }
  }

  /** Distinct integers render to distinct strings. */
  lemma IntToStringInjective(a: int, b: int)
    requires IntToString(a) == IntToString(b)
    ensures a == b
  {
    if a < 0 {
      assert IntToString(a)[1..] == NatToString(-a);
      assert IntToString(b)[1..] == NatToString(-b);
      ParseNatToString(-a);
      ParseNatToString(-b);
    } else {
      ParseNatToString(a);
      ParseNatToString(b);
    }
  }
}

=== FILE: use_admin.dfy ===
/** The administrator hook: loads the accounts (splitting them into the
    pending and active partitions) and the invitations into the admin store,
    and changes accounts and invitations through the admin service, updating
    the store optimistically and reloading the affected list when a change
    fails. Service calls come in as their final outcomes; `mounted` says
    whether the component is still mounted when the call settles. */
module UseAdmin {
  import opened Wrappers
  import opened Text
  import opened Seqs
  import opened Failures
  import opened Records
  import opened Remote
  import AS = AdminStore

  /** The hook's own `loading` and `error`, and the shared store. The hook
      never writes the store's error; it only clears it. */
  datatype Hook = Hook(store: AS.Store, loading: bool, error: Option<string>)

  /** An account waiting for approval: role `pending` and never updated
      since it was created. */
  predicate IsPending(u: Profile) {
    u.role == "pending" && u.updatedAt == u.createdAt
  }

  /** An account that is not pending by role. */
  predicate IsActive(u: Profile) {
    u.role != "pending"
  }

  function PendingOf(us: seq<Profile>): (r: seq<Profile>)
    ensures forall k :: 0 <= k < |r| ==> IsPending(r[k]) && r[k] in us
    ensures forall k :: 0 <= k < |us| && IsPending(us[k]) ==> us[k] in r
    ensures IsSubsequence(r, us)
  {
    Filter(us, IsPending)
  }

  function ActiveOf(us: seq<Profile>): (r: seq<Profile>)
    ensures forall k :: 0 <= k < |r| ==> IsActive(r[k]) && r[k] in us
    ensures forall k :: 0 <= k < |us| && IsActive(us[k]) ==> us[k] in r
    ensures IsSubsequence(r, us)
  {
    Filter(us, IsActive)
  }

  /** The errors are cleared at the start of every operation. */
  function Begin(h: Hook): (r: Hook)
    ensures r.loading && r.error.None? && r.store == h.store.(error := None)
  {
    Hook(h.store.(error := None), true, None)
  }

  /** A failure: recorded in the hook and shown, while mounted. */
  function Fail(h: Hook, e: Thrown, fallback: string, mounted: bool): (r: (Hook, seq<Toast>))
    ensures r.0.store == h.store
    ensures mounted ==> r.0.error == Some(MessageOr(e, fallback)) && r.1 == [Alert(MessageOr(e, fallback))]
    ensures !mounted ==> r == (h, [])
  {
    if mounted then (h.(error := Some(MessageOr(e, fallback))), [Alert(MessageOr(e, fallback))]) else (h, [])
  }

  function Settle(h: Hook, mounted: bool): (r: Hook)
    ensures r.store == h.store && r.error == h.error
    ensures mounted ==> !r.loading
  {
    if mounted then h.(loading := false) else h
  }

  /** `loadUsers()`: while mounted, the fetched accounts replace the list and
      its two partitions; a failure returns nothing and keeps the lists. */
  function LoadUsers(h: Hook, fetched: Result<seq<Profile>, Thrown>, mounted: bool): (r: (Hook, seq<Profile>, seq<Toast>))
    ensures fetched.Ok? && mounted ==> (
      r.0.store.users == fetched.value && r.0.store.pendingUsers == PendingOf(fetched.value)
      && r.0.store.activeUsers == ActiveOf(fetched.value) && r.0.error.None?)
    ensures fetched.Ok? ==> r.1 == fetched.value && r.2 == []
    ensures fetched.Ok? && !mounted ==> r.0.store == h.store.(error := None)
    ensures fetched.Err? ==> r.1 == [] && r.0.store == h.store.(error := None) && (mounted <==> |r.2| == 1)
    ensures r.0.store.pendingInvites == h.store.pendingInvites
  {
    var h1 := Begin(h);
    match fetched
    case Ok(us) =>
      var h2 := if mounted then h1.(store := h1.store.(users := us, pendingUsers := PendingOf(us), activeUsers := ActiveOf(us))) else h1;
      (Settle(h2, mounted), us, [])
    case Err(e) =>
      var (h2, t) := Fail(h1, e, "Failed to fetch users", mounted);
      (Settle(h2, mounted), [], t)
  }

  /** `loadInvitations()`: while mounted, the fetched invitations replace the list. */
  function LoadInvitations(h: Hook, fetched: Result<seq<Invitation>, Thrown>, mounted: bool): (r: (Hook, seq<Invitation>, seq<Toast>))
    ensures fetched.Ok? && mounted ==> r.0.store.pendingInvites == fetched.value && r.0.error.None?
    ensures fetched.Ok? ==> r.1 == fetched.value && r.2 == []
    ensures fetched.Err? ==> r.1 == [] && r.0.store == h.store.(error := None) && (mounted <==> |r.2| == 1)
    ensures r.0.store.users == h.store.users
  {
    var h1 := Begin(h);
    match fetched
    case Ok(invs) =>
      var h2 := if mounted then h1.(store := h1.store.(pendingInvites := invs)) else h1;
      (Settle(h2, mounted), invs, [])
    case Err(e) =>
      var (h2, t) := Fail(h1, e, "Failed to fetch invitations", mounted);
      (Settle(h2, mounted), [], t)
  }

  /** The three account changes: the patch applied optimistically, and the texts shown. */
  datatype Change = Update(patch: ProfilePatch) | Approve | Reject

  function PatchOf(c: Change): (p: ProfilePatch)
    ensures c.Approve? ==> p == RolePatch("dealer")
    ensures c.Reject? ==> p == RolePatch("pending")
  {
    match c
    case Update(p) => p
    case Approve => RolePatch("dealer")
    case Reject => RolePatch("pending")
  }

  function SuccessText(c: Change): string {
    match c
    case Update(_) => "User updated successfully"
    case Approve => "User approved successfully"
    case Reject => "User rejected successfully"
  }

  function FailureText(c: Change): string {
    match c
    case Update(_) => "Failed to update user"
    case Approve => "Failed to approve user"
    case Reject => "Failed to reject user"
  }

  /** `updateUser(id, updates)`, `approveUser(id)` and `rejectUser(id)`:
      the change is merged into the account list first (the partitions are
      left as they were); on failure, while mounted, the accounts are
      reloaded. The result says whether the service accepted the change; the
      failure is not rethrown. */
  function ChangeUser(h: Hook, id: string, c: Change, result: Result<(), Thrown>,
                      reload: Result<seq<Profile>, Thrown>, mounted: bool): (r: (Hook, bool, seq<Toast>))
    ensures r.1 <==> result.Ok?
    ensures result.Ok? ==> r.0.store == AS.UpdateUserInStore(h.store.(error := None), id, PatchOf(c))
    ensures result.Ok? && mounted ==> r.2 == [Info(SuccessText(c))]
    ensures result.Err? && !mounted ==> r.0.store == AS.UpdateUserInStore(h.store.(error := None), id, PatchOf(c))
    ensures result.Err? && mounted && reload.Ok? ==> (
      r.0.store.users == reload.value && r.0.store.pendingUsers == PendingOf(reload.value)
      && r.0.store.activeUsers == ActiveOf(reload.value))
    ensures r.0.store.pendingInvites == h.store.pendingInvites
  {
    var h1 := Begin(h);
    var h2 := h1.(store := AS.UpdateUserInStore(h1.store, id, PatchOf(c)));
    match result
    case Ok(_) =>
      (Settle(h2, mounted), true, if mounted then [Info(SuccessText(c))] else [])
    case Err(e) =>
      if !mounted then (h2, false, [])
      else
        var (h3, t1) := Fail(h2, e, FailureText(c), mounted);
        var (h4, _, t2) := LoadUsers(h3, reload, mounted);
        (Settle(h4, mounted), false, t1 + t2)
  }

  const NoUserIdText := "User ID is required to create an invitation"

  /** `createInvitation(data)`: without the administrator's id it throws
      before anything happens; otherwise the created invitation is appended
      after the service succeeds, and a failure is rethrown. Also returns the
      number of service requests. */
  function CreateInvitation(h: Hook, userId: Option<string>, result: Result<Invitation, Thrown>, mounted: bool)
    : (r: (Hook, Result<Invitation, Thrown>, nat, seq<Toast>))
    ensures !Truthy(userId) ==> r == (h, Err(NewError(NoUserIdText)), 0, [])
    ensures Truthy(userId) ==> r.1 == result && r.2 == 1
    ensures Truthy(userId) && result.Ok? && mounted ==> (
      r.0.store == AS.AddInvite(h.store.(error := None), result.value)
      && r.3 == [Info("Invitation sent successfully")])
    ensures Truthy(userId) && (result.Err? || !mounted) ==> r.0.store == h.store.(error := None)
  {
    if !Truthy(userId) then (h, Err(NewError(NoUserIdText)), 0, [])
    else
      var h1 := Begin(h);
      match result
      case Ok(inv) =>
        if mounted then (Settle(h1.(store := AS.AddInvite(h1.store, inv)), mounted), result, 1, [Info("Invitation sent successfully")])
        else (h1, result, 1, [])
      case Err(e) =>
        var (h2, t) := Fail(h1, e, "Failed to create invitation", mounted);
        (Settle(h2, mounted), result, 1, t)
  }

  /** `deleteInvitation(id)`: removed from the store first; on failure, while
      mounted, the invitations are reloaded. The failure is not rethrown. */
  function DeleteInvitation(h: Hook, id: string, result: Result<(), Thrown>,
                            reload: Result<seq<Invitation>, Thrown>, mounted: bool): (r: (Hook, bool, seq<Toast>))
    ensures r.1 <==> result.Ok?
    ensures result.Ok? ==> r.0.store == AS.RemoveInvite(h.store.(error := None), id)
    ensures result.Err? && mounted && reload.Ok? ==> r.0.store.pendingInvites == reload.value
    ensures result.Err? && mounted && reload.Err? ==> r.0.store.pendingInvites == AS.InvitesWithout(h.store.pendingInvites, id)
    ensures r.0.store.users == h.store.users
  {
    var h1 := Begin(h);
    var h2 := h1.(store := AS.RemoveInvite(h1.store, id));
    match result
    case Ok(_) =>
      (Settle(h2, mounted), true, if mounted then [Info("Invitation deleted successfully")] else [])
    case Err(e) =>
      if !mounted then (h2, false, [])
      else
        var (h3, t1) := Fail(h2, e, "Failed to delete invitation", mounted);
        var (h4, _, t2) := LoadInvitations(h3, reload, mounted);
        (Settle(h4, mounted), false, t1 + t2)
  }

  /** The two partitions never share an account, and an account that is
      neither pending nor active is exactly one with role `pending` that has
      been updated since its creation, such as a rejected dealer. */
  lemma {:induction false} PartitionsDisjoint(us: seq<Profile>)
    ensures forall i, j :: 0 <= i < |PendingOf(us)| && 0 <= j < |ActiveOf(us)| ==> PendingOf(us)[i] != ActiveOf(us)[j]
    ensures forall k :: 0 <= k < |us| ==> (
      (us[k] !in PendingOf(us) && us[k] !in ActiveOf(us)) <==> (us[k].role == "pending" && us[k].updatedAt != us[k].createdAt))
  {
    var p := PendingOf(us);
    var a := ActiveOf(us);
    forall k | 0 <= k < |us| ensures (us[k] !in p && us[k] !in a) <==> (us[k].role == "pending" && us[k].updatedAt != us[k].createdAt) {
      if us[k] in p {
        var i :| 0 <= i < |p| && p[i] == us[k];
        assert IsPending(p[i]);
      }
      if us[k] in a {
        var i :| 0 <= i < |a| && a[i] == us[k];
        assert IsActive(a[i]);
      }
    }
  }

  /** An approval, once accepted, leaves every account with the id in the
      `dealer` role, while the pending partition still lists it until the
      next reload. */
  lemma ApprovalLeavesPendingListStale(h: Hook, id: string, reload: Result<seq<Profile>, Thrown>, mounted: bool)
    ensures var r := ChangeUser(h, id, Approve, Ok(()), reload, mounted);
      r.1 && r.0.store.pendingUsers == h.store.pendingUsers
      && forall k :: 0 <= k < |r.0.store.users| && r.0.store.users[k].id == id ==> r.0.store.users[k].role == "dealer"
  {
  }
}

=== FILE: use_listings.dfy ===
/** The listings hook: loads the three listing collections into the listing
    store and performs create, update, delete and renew through the listing
    service, updating the store optimistically and reloading everything when
    a write fails. Each service call comes in as its final outcome (the
    service already retries); `mounted` says whether the component is still
    mounted when the call settles. */
module UseListings {
  import opened Wrappers
  import opened Text
  import opened Failures
  import opened Records
  import opened Remote
  import LS = ListingStore

  /** The hook's own `loading` and `error`, and the shared store. */
  datatype Hook = Hook(store: LS.Store, loading: bool, error: Option<string>)

  datatype Collection = Marketplace | Mine | Searching

  function Fallback(k: Collection): string {
    match k
    case Marketplace => "Failed to fetch listings"
    case Mine => "Failed to fetch your listings"
    case Searching => "Failed to fetch ISO listings"
  }

  /** The store with one collection replaced. */
  function SetCollection(st: LS.Store, k: Collection, ls: seq<Listing>): (r: LS.Store)
    ensures k == Marketplace ==> r == st.(listings := ls)
    ensures k == Mine ==> r == st.(myListings := ls)
    ensures k == Searching ==> r == st.(isoListings := ls)
  {
    match k
    case Marketplace => st.(listings := ls)
    case Mine => st.(myListings := ls)
    case Searching => st.(isoListings := ls)
  }

  /** The errors are cleared at the start of every operation. */
  function Begin(h: Hook): (r: Hook)
    ensures r.loading && r.error.None? && r.store.error.None?
    ensures r.store == h.store.(error := None)
  {
    Hook(h.store.(error := None), true, None)
  }

  /** A failure, while mounted: recorded in the hook and the store, and shown. */
  function Fail(h: Hook, e: Thrown, fallback: string, mounted: bool): (r: (Hook, seq<Toast>))
    ensures !mounted ==> r == (h, [])
    ensures mounted ==> r.0.error == Some(MessageOr(e, fallback)) && r.0.store.error == r.0.error && |r.1| == 1
    ensures mounted ==> r.0.store == h.store.(error := r.0.error)
  {
    if !mounted then (h, [])
    else
      var m := MessageOr(e, fallback);
      (h.(error := Some(m), store := h.store.(error := Some(m))), [Alert(m)])
  }

  /** `loadListings` / `loadMyListings` / `loadISOListings`. Loading the
      dealer's own listings without a user id does nothing. Otherwise the
      fetched rows replace the collection (while mounted) and are returned;
      a failure returns nothing. Returns the hook, the rows, the number of
      requests and the toasts. */
  function Load(h: Hook, k: Collection, userId: Option<string>, fetched: Result<seq<Listing>, Thrown>, mounted: bool)
    : (r: (Hook, seq<Listing>, nat, seq<Toast>))
    ensures k == Mine && !Truthy(userId) ==> r == (h, [], 0, [])
    ensures !(k == Mine && !Truthy(userId)) ==> r.2 == 1
    ensures !(k == Mine && !Truthy(userId)) && fetched.Ok? ==> (
      r.1 == fetched.value && r.3 == []
      && r.0.store == (if mounted then SetCollection(h.store.(error := None), k, fetched.value) else h.store.(error := None))
      && r.0.error.None?)
    ensures !(k == Mine && !Truthy(userId)) && fetched.Err? ==> (
      r.1 == [] && (mounted <==> |r.3| == 1)
      && r.0.store.listings == h.store.listings && r.0.store.myListings == h.store.myListings
      && r.0.store.isoListings == h.store.isoListings)
    ensures mounted && !(k == Mine && !Truthy(userId)) ==> !r.0.loading
  {
    if k == Mine && !Truthy(userId) then (h, [], 0, [])
    else
      var h1 := Begin(h);
      match fetched
      case Ok(ls) =>
        var h2 := if mounted then h1.(store := SetCollection(h1.store, k, ls)) else h1;
        (h2.(loading := if mounted then false else h2.loading), ls, 1, [])
      case Err(e) =>
        var (h2, toasts) := Fail(h1, e, Fallback(k), mounted);
        (h2.(loading := if mounted then false else h2.loading), [], 1, toasts)
  }

  /** The three fresh copies a failed write reloads. */
  datatype Reload = Reload(all: Result<seq<Listing>, Thrown>, mine: Result<seq<Listing>, Thrown>, iso: Result<seq<Listing>, Thrown>)

  /** The reload after a failed write: all three collections, in order. */
  function ReloadAll(h: Hook, userId: Option<string>, rl: Reload, mounted: bool): (r: (Hook, seq<Toast>))
    ensures mounted && rl.all.Ok? && rl.mine.Ok? && rl.iso.Ok? && Truthy(userId) ==>
      r.0.store.listings == rl.all.value && r.0.store.myListings == rl.mine.value && r.0.store.isoListings == rl.iso.value
      && r.0.error.None? && r.1 == []
  {
    var (h1, _, _, t1) := Load(h, Marketplace, userId, rl.all, mounted);
    var (h2, _, _, t2) := Load(h1, Mine, userId, rl.mine, mounted);
    var (h3, _, _, t3) := Load(h2, Searching, userId, rl.iso, mounted);
    (h3, t1 + t2 + t3)
  }

  /** `createListing(form)`: the store gains the created row only after the
      service succeeds (and while mounted); a failure leaves the collections
      alone and is rethrown. */
  function CreateListing(h: Hook, result: Result<Listing, Thrown>, mounted: bool): (r: (Hook, Result<Listing, Thrown>, seq<Toast>))
    ensures r.1 == result
    ensures result.Ok? && mounted ==> r.0.store == LS.AddListing(h.store.(error := None), result.value) && r.2 == [Info("Listing created successfully")]
    ensures result.Err? ==> (
      r.0.store.listings == h.store.listings && r.0.store.myListings == h.store.myListings
      && r.0.store.isoListings == h.store.isoListings)
  {
    var h1 := Begin(h);
    match result
    case Ok(l) =>
      if mounted then (h1.(store := LS.AddListing(h1.store, l), loading := false), result, [Info("Listing created successfully")])
      else (h1, result, [])
    case Err(e) =>
      var (h2, toasts) := Fail(h1, e, "Failed to create listing", mounted);
      (h2.(loading := if mounted then false else h2.loading), result, toasts)
  }

  /** `updateListing(id, updates)`: the update is merged into the store
      first; the row the service returns, if any, is merged again; a failure
      (while mounted) reloads all three collections and is rethrown. */
  function UpdateListing(h: Hook, userId: Option<string>, id: string, p: ListingPatch,
                         result: Result<Option<Listing>, Thrown>, rl: Reload, mounted: bool)
    : (r: (Hook, Result<Option<Listing>, Thrown>, seq<Toast>))
    ensures r.1 == result
    ensures result.Ok? && result.value.None? && mounted ==> r.0.store == LS.UpdateListing(h.store.(error := None), id, p)
    ensures result.Ok? && result.value.Some? && mounted ==>
      r.0.store == LS.UpdateListing(LS.UpdateListing(h.store.(error := None), id, p), id, FullListing(result.value.value))
    ensures result.Err? && !mounted ==> r.0.store == LS.UpdateListing(h.store.(error := None), id, p)
    ensures result.Err? && mounted && rl.all.Ok? && rl.mine.Ok? && rl.iso.Ok? && Truthy(userId) ==>
      r.0.store.listings == rl.all.value && r.0.store.myListings == rl.mine.value && r.0.store.isoListings == rl.iso.value
  {
    var h1 := Begin(h);
    var h2 := h1.(store := LS.UpdateListing(h1.store, id, p));
    match result
    case Ok(updated) =>
      if !mounted then (h2, result, [])
      else
        var s3 := if updated.Some? then LS.UpdateListing(h2.store, id, FullListing(updated.value)) else h2.store;
        (h2.(store := s3, loading := false), result, [Info("Listing updated successfully")])
    case Err(e) =>
      if !mounted then (h2, result, [])
      else
        var (h3, t1) := Fail(h2, e, "Failed to update listing", mounted);
        var (h4, t2) := ReloadAll(h3, userId, rl, mounted);
        (h4.(loading := false), result, t1 + t2)
  }

  /** `deleteListing(id)`: removed from the store first; a failure (while
      mounted) reloads all three collections and is rethrown. */
  function DeleteListing(h: Hook, userId: Option<string>, id: string, result: Result<(), Thrown>, rl: Reload, mounted: bool)
    : (r: (Hook, Result<(), Thrown>, seq<Toast>))
    ensures r.1 == result
    ensures result.Ok? ==> r.0.store == LS.RemoveListing(h.store.(error := None), id)
    ensures result.Err? && mounted && rl.all.Ok? && rl.mine.Ok? && rl.iso.Ok? && Truthy(userId) ==>
      r.0.store.listings == rl.all.value && r.0.store.myListings == rl.mine.value && r.0.store.isoListings == rl.iso.value
  {
    var h1 := Begin(h);
    var h2 := h1.(store := LS.RemoveListing(h1.store, id));
    match result
    case Ok(_) =>
      if mounted then (h2.(loading := false), result, [Info("Listing deleted successfully")]) else (h2, result, [])
    case Err(e) =>
      if !mounted then (h2, result, [])
      else
        var (h3, t1) := Fail(h2, e, "Failed to delete listing", mounted);
        var (h4, t2) := ReloadAll(h3, userId, rl, mounted);
        (h4.(loading := false), result, t1 + t2)
  }

  /** `renewListing(id)`: after the service succeeds, the marketplace and own
      listings are reloaded; a failure is recorded and rethrown. */
  function RenewListing(h: Hook, userId: Option<string>, result: Result<(), Thrown>,
                        all: Result<seq<Listing>, Thrown>, mine: Result<seq<Listing>, Thrown>, mounted: bool)
    : (r: (Hook, Result<(), Thrown>, seq<Toast>))
    ensures r.1 == result
    ensures result.Err? ==> r.0.store.listings == h.store.listings && r.0.store.myListings == h.store.myListings
    ensures result.Ok? && mounted && all.Ok? && mine.Ok? && Truthy(userId) ==>
      r.0.store.listings == all.value && r.0.store.myListings == mine.value && r.0.store.isoListings == h.store.isoListings
  {
    var h1 := Begin(h);
    match result
    case Ok(_) =>
      var (h2, _, _, t1) := Load(h1, Marketplace, userId, all, mounted);
      var (h3, _, _, t2) := Load(h2, Mine, userId, mine, mounted);
      (h3.(loading := if mounted then false else h3.loading), result, t1 + t2 + (if mounted then [Info("Listing renewed successfully")] else []))
    case Err(e) =>
      var (h2, toasts) := Fail(h1, e, "Failed to renew listing", mounted);
      (h2.(loading := if mounted then false else h2.loading), result, toasts)
  }

  /** A failed update whose reloads all succeed erases its optimistic change:
      the collections are exactly the server's, whatever the update was, and
      the reloads clear the error the failure recorded (only the toast remains). */
  lemma FailedUpdateRollsBack(h: Hook, userId: string, id: string, p: ListingPatch, e: Thrown,
                              all: seq<Listing>, mine: seq<Listing>, iso: seq<Listing>)
    requires userId != ""
    ensures var r := UpdateListing(h, Some(userId), id, p, Err(e), Reload(Ok(all), Ok(mine), Ok(iso)), true);
      r.0.store.listings == all && r.0.store.myListings == mine && r.0.store.isoListings == iso
      && r.0.error.None? && |r.2| == 1 && r.1 == Err(e)
  {
  }

  /** Without a user id, a failed update cannot restore the dealer's own
      listings: they keep the optimistic change. */
  lemma FailedUpdateWithoutUserKeepsOptimisticMine(h: Hook, id: string, p: ListingPatch, e: Thrown,
                                                   all: seq<Listing>, mine: seq<Listing>, iso: seq<Listing>)
    ensures var r := UpdateListing(h, None, id, p, Err(e), Reload(Ok(all), Ok(mine), Ok(iso)), true);
      r.0.store.myListings == LS.UpdateIn(h.store.myListings, id, p)
  {
  }

  /** The mount effect: the collections loaded, in order, for the hook's
      options. Nothing is loaded without a user id, not even the public
      marketplace. */
  function MountLoads(userId: Option<string>, fetchOnMount: bool, fetchMineOnMount: bool, fetchSearchingOnMount: bool)
    : (r: seq<Collection>)
    ensures !Truthy(userId) ==> r == []
    ensures forall i, j :: 0 <= i < j < |r| ==> r[i] != r[j]
    ensures Truthy(userId) ==> (
      (Marketplace in r <==> fetchOnMount) && (Mine in r <==> fetchMineOnMount)
      && (Searching in r <==> fetchSearchingOnMount))
    ensures |r| > 0 && r[0] != Marketplace ==> !fetchOnMount
  {
    if !Truthy(userId) then []
    else
      var market := if fetchOnMount then [Marketplace] else [];
      var mine := if fetchMineOnMount then [Mine] else [];
      var searching := if fetchSearchingOnMount then [Searching] else [];
      market + mine + searching
  }

  /** Every load the mount effect starts is one `Load` performs: the user id
      guard of the own-listings load never refuses it. */
  lemma MountLoadsAreSent(h: Hook, userId: Option<string>, a: bool, b: bool, c: bool,
                          fetched: Result<seq<Listing>, Thrown>, mounted: bool)
    ensures forall k :: k in MountLoads(userId, a, b, c) ==> Load(h, k, userId, fetched, mounted).2 == 1
  {
  }
}

=== FILE: use_notifications.dfy ===
/** The notifications hook: loads the user's notifications and unread count
    into the notification store, marks and deletes them through the service
    with optimistic store updates and a reload on failure, and keeps a
    realtime channel that adds new notifications while the component is
    mounted. Service calls come in as their final outcomes after the retry
    and timeout wrappers; `mounted` says whether the component is still
    mounted when the call settles. */
module UseNotifications {
  import opened Wrappers
  import opened Text
  import opened Seqs
  import opened Failures
  import opened Records
  import opened Remote
  import opened Network
  import opened ChangeEvents
  import NS = NotificationStore
  import Sub = NotificationSubscription

  /** The hook's own `loading` and `error`, its channel handle, and the shared store. */
  datatype Hook = Hook(store: NS.Store, loading: bool, error: Option<string>, channel: Handle)

  /** A failure: recorded in the hook and shown, while mounted. */
  function Fail(h: Hook, e: Thrown, fallback: string, mounted: bool): (r: (Hook, seq<Toast>))
    ensures r.0.store == h.store && r.0.channel == h.channel
    ensures mounted ==> r.0.error == Some(MessageOr(e, fallback)) && r.1 == [Alert(MessageOr(e, fallback))]
    ensures !mounted ==> r == (h, [])
  {
    if mounted then (h.(error := Some(MessageOr(e, fallback))), [Alert(MessageOr(e, fallback))]) else (h, [])
  }

  function Settle(h: Hook, mounted: bool): (r: Hook)
    ensures r.store == h.store && r.error == h.error && r.channel == h.channel
    ensures mounted ==> !r.loading
  {
    if mounted then h.(loading := false) else h
  }

  /** `loadNotifications()`: nothing without a user. Otherwise the fetched
      list replaces the store's (while mounted), which recounts the unread
      ones; a failure returns nothing. Also returns the number of requests. */
  function LoadNotifications(h: Hook, userId: Option<string>, fetched: Result<seq<Notification>, Thrown>, mounted: bool)
    : (r: (Hook, seq<Notification>, nat, seq<Toast>))
    ensures !Truthy(userId) ==> r == (h, [], 0, [])
    ensures Truthy(userId) ==> r.2 == 1 && r.0.channel == h.channel
    ensures Truthy(userId) && fetched.Ok? && mounted ==> (
      r.0.store.notifications == fetched.value && r.0.store.unreadCount == NS.Unread(fetched.value)
      && r.0.error.None? && r.1 == fetched.value)
    ensures Truthy(userId) && fetched.Err? ==> (
      r.1 == [] && r.0.store.notifications == h.store.notifications
      && r.0.store.unreadCount == h.store.unreadCount && (mounted <==> |r.3| == 1))
  {
    if !Truthy(userId) then (h, [], 0, [])
    else
      var h1 := h.(loading := true, error := None, store := h.store.(error := None));
      match fetched
      case Ok(ns) =>
        var h2 := if mounted then h1.(store := NS.SetNotifications(h1.store, ns)) else h1;
        (Settle(h2, mounted), ns, 1, [])
      case Err(e) =>
        var (h2, t) := Fail(h1, e, "Failed to fetch notifications", mounted);
        (Settle(h2, mounted), [], 1, t)
  }

  /** `loadUnreadCount()`: without a user, or on failure, the count is 0
      and nothing changes; otherwise the server's count replaces the
      store's (while mounted), whatever the held notifications say. */
  function LoadUnreadCount(h: Hook, userId: Option<string>, fetched: Result<int, Thrown>, mounted: bool): (r: (Hook, int))
    ensures !Truthy(userId) || fetched.Err? ==> r == (h, 0)
    ensures Truthy(userId) && fetched.Ok? ==> r.1 == fetched.value
    ensures Truthy(userId) && fetched.Ok? && mounted ==> r.0 == h.(store := h.store.(unreadCount := fetched.value))
    ensures !mounted ==> r.0 == h
  {
    if !Truthy(userId) then (h, 0)
    else match fetched
      case Err(_) => (h, 0)
      case Ok(n) => (if mounted then h.(store := h.store.(unreadCount := n)) else h, n)
  }

  /** The three writes, each with its optimistic store update. */
  datatype Write = MarkOne(id: string) | MarkEvery | DeleteOne(id: string)

  function Optimistic(st: NS.Store, w: Write): (r: NS.Store)
    ensures w.MarkOne? ==> r == NS.MarkAsRead(st, w.id)
    ensures w.MarkEvery? ==> r == NS.MarkAllAsRead(st)
    ensures w.DeleteOne? ==> r == NS.RemoveNotification(st, w.id)
  {
    match w
    case MarkOne(id) => NS.MarkAsRead(st, id)
    case MarkEvery => NS.MarkAllAsRead(st)
    case DeleteOne(id) => NS.RemoveNotification(st, id)
  }

  /** The fallback text of a failed write, naming the write. */
  function FailureText(w: Write): (r: string)
    ensures |r| > 10 && r[..10] == "Failed to "
    ensures w.MarkEvery? <==> r == "Failed to mark all notifications as read"
    ensures w.DeleteOne? <==> r == "Failed to delete notification"
  {
    match w
    case MarkOne(_) => "Failed to mark notification as read"
    case MarkEvery => "Failed to mark all notifications as read"
    case DeleteOne(_) => "Failed to delete notification"
  }

  /** A write needs a user and, when it names one, a non-empty notification id. */
  predicate Guarded(userId: Option<string>, w: Write) {
    Truthy(userId) && (w.MarkEvery? || w.id != "")
  }

  /** Each write's own guard: marking or deleting one notification needs a
      user and a non-empty id; marking all needs only a user. */
  lemma GuardOfEachWrite(userId: Option<string>, id: string)
    ensures Guarded(userId, MarkOne(id)) <==> Truthy(userId) && id != ""
    ensures Guarded(userId, DeleteOne(id)) <==> Truthy(userId) && id != ""
    ensures Guarded(userId, MarkEvery) <==> Truthy(userId)
  {
  }

  /** `markAsRead(id)`, `markAllAsRead()` and `deleteNotification(id)`:
      without a user or with an empty id nothing happens and nothing is sent.
      Otherwise the store is updated first; on failure, while mounted, the
      notifications are reloaded. Failures are not rethrown. Returns the
      number of write requests. */
  function Perform(h: Hook, userId: Option<string>, w: Write, result: Result<(), Thrown>,
                   reload: Result<seq<Notification>, Thrown>, mounted: bool): (r: (Hook, nat, seq<Toast>))
    ensures !Guarded(userId, w) ==> r == (h, 0, [])
    ensures Guarded(userId, w) ==> r.1 == 1 && r.0.channel == h.channel
    ensures Guarded(userId, w) && result.Ok? ==> r.0.store == Optimistic(h.store, w) && r.2 == []
    ensures Guarded(userId, w) && result.Err? && !mounted ==> r.0.store == Optimistic(h.store, w)
    ensures Guarded(userId, w) && result.Err? && mounted && reload.Ok? ==> (
      r.0.store.notifications == reload.value && r.0.store.unreadCount == NS.Unread(reload.value))
  {
    if !Guarded(userId, w) then (h, 0, [])
    else
      var h1 := h.(loading := true, error := None, store := Optimistic(h.store, w));
      match result
      case Ok(_) => (Settle(h1, mounted), 1, [])
      case Err(e) =>
        if !mounted then (h1, 1, [])
        else
          var (h2, t1) := Fail(h1, e, FailureText(w), mounted);
          var (h3, _, _, t2) := LoadNotifications(h2, userId, reload, mounted);
          (Settle(h3, mounted), 1, t1 + t2)
  }

  /** The subscription effect: with a user and subscriptions enabled, a new
      channel for the user is opened and its handle kept. */
  function Subscribe(h: Hook, c: Conn, userId: Option<string>, subscribeToChanges: bool): (r: (Hook, Conn))
    ensures !Truthy(userId) || !subscribeToChanges ==> r == (h, c)
    ensures Truthy(userId) && subscribeToChanges ==> (
      r.0.channel == Handle(c.nextId) && r.1 == Sub.Subscribe(c, userId.value).0 && r.0.store == h.store)
  {
    if !Truthy(userId) || !subscribeToChanges then (h, c)
    else
      var (c1, id) := Sub.Subscribe(c, userId.value);
      (h.(channel := Handle(id)), c1)
  }

  /** The effect's cleanup: the held channel is removed and forgotten. */
  function Cleanup(h: Hook, c: Conn): (r: (Hook, Conn))
    ensures r.0 == h.(channel := NoHandle)
    ensures r.1 == Sub.Unsubscribe(c, h.channel)
  {
    (h.(channel := NoHandle), Sub.Unsubscribe(c, h.channel))
  }

  /** A realtime insert for the subscribed user reaches the store only while
      the component is mounted, through the duplicate-ignoring add. */
  function Deliver(h: Hook, userId: string, inserted: Notification, mounted: bool): (r: Hook)
    ensures !mounted || inserted.userId != userId ==> r == h
    ensures mounted && inserted.userId == userId ==> r == h.(store := NS.AddNotification(h.store, inserted))
  {
    match Sub.Deliver(userId, inserted)
    case Some(n) => if mounted then h.(store := NS.AddNotification(h.store, n)) else h
    case None => h
  }

  /** A failed write whose reload succeeds leaves the store consistent with
      the server's list, whatever the write was: the optimistic change is gone
      and the unread counter agrees with the list again. */
  lemma FailedWriteRestoresServerState(h: Hook, userId: string, w: Write, e: Thrown, ns: seq<Notification>)
    requires userId != ""
    requires w.MarkEvery? || w.id != ""
    requires DistinctBy(ns, NS.NotificationId)
    ensures var r := Perform(h, Some(userId), w, Err(e), Ok(ns), true);
      r.0.store.notifications == ns && NS.Consistent(r.0.store) && r.0.error.None? && r.1 == 1
  {
  }

  /** Subscribing and cleaning up leaves the registry as it was, and the
      cleanup drops the handle. */
  lemma SubscribeThenCleanupRestoresRegistry(h: Hook, c: Conn, userId: string)
    requires userId != ""
    requires Consistent(c)
    ensures var (h1, c1) := Subscribe(h, c, Some(userId), true);
      var (h2, c2) := Cleanup(h1, c1);
      h2.channel.NoHandle? && c2.registry == c.registry
  {
    var (h1, c1) := Subscribe(h, c, Some(userId), true);
    assert c1.registry == c.registry + {c.nextId};
  }
}

=== FILE: utils_errors.dfy ===
/** The error-to-text helpers of the `utils` error module, an older copy of the
    `lib` one with a different order of checks. */
module UtilsErrors {
  import opened Wrappers
  import opened Text
  import opened Failures
  import LibErrors

  /** `getErrorMessage`: an `Error`'s message; for a plain object its message,
      then its string `error` field, and otherwise its JSON rendering. The
      branch that would format `Error <code>: <message>` sits after the
      message branch and is never taken. */
  function GetErrorMessage(e: Thrown): (r: string)
    ensures e.ErrorValue? ==> r == e.message
    ensures e.ObjectValue? && e.msg.Some? ==> r == e.msg.value
    ensures e.ObjectValue? && e.msg.None? && e.errorText.Some? ==> r == e.errorText.value
    ensures e.ObjectValue? && e.msg.None? && e.errorText.None? ==> r == e.json
    ensures e.PrimitiveValue? ==> r == "An unexpected error occurred"
  {
    match e
    case ErrorValue(_, m, _, _) => m
    case PrimitiveValue(_) => "An unexpected error occurred"
    case ObjectValue(msg, code, errorText, _, json) =>
      if msg.Some? then msg.value
      else if errorText.Some? then errorText.value
      // the `Error <code>: <message>` branch: its guard needs a message, handled above
      else if code.Some? && msg.Some? then assert false; ""
      else json
  }

  /** `formatSupabaseError`: the three database codes, a JWT message, a
      timeout message, then the error's own message or a generic text. Unlike
      the `lib` copy it neither checks for a missing error nor for being offline
      nor looks at the HTTP status. */
  function FormatSupabaseError(e: Thrown): (r: string)
    ensures |r| > 0
    ensures CodeProp(e) == Some("23505") ==> r == LibErrors.DuplicateText
    ensures CodeProp(e) == Some("23503") ==> r == LibErrors.ReferenceText
    ensures CodeProp(e) == Some("42P01") ==> r == LibErrors.MissingTableText
    ensures (!LibErrors.KnownDbCode(CodeProp(e)) && MessageProp(e).Some? && Contains(MessageProp(e).value, "JWT"))
      ==> r == LibErrors.SessionRefreshText
    ensures (!LibErrors.KnownDbCode(CodeProp(e)) && MessageProp(e).Some? && !Contains(MessageProp(e).value, "JWT")
             && Contains(MessageProp(e).value, "timeout")) ==> r == LibErrors.TimedOutText
    ensures (!LibErrors.KnownDbCode(CodeProp(e)) && !LibErrors.MentionsAny(MessageProp(e))) ==> (
      r == if MessageProp(e).Some? && MessageProp(e).value != "" then MessageProp(e).value else "An error occurred")
  {
    var code := CodeProp(e);
    var msg := MessageProp(e);
    if code == Some("23505") then LibErrors.DuplicateText
    else if code == Some("23503") then LibErrors.ReferenceText
    else if code == Some("42P01") then LibErrors.MissingTableText
    else if msg.Some? && Contains(msg.value, "JWT") then LibErrors.SessionRefreshText
    else if msg.Some? && Contains(msg.value, "timeout") then LibErrors.TimedOutText
    else if msg.Some? && msg.value != "" then msg.value
    else "An error occurred"
  }

  /** `handleCommonErrors`: session and timeout messages are recognised before
      the offline check, so an expired session is reported as such even
      offline; there is no malformed-query case. */
  function HandleCommonErrors(e: Thrown, online: bool): (r: string)
    ensures LibErrors.SessionWords(GetErrorMessage(e)) ==> r == LibErrors.SessionRefreshText
    ensures (!LibErrors.SessionWords(GetErrorMessage(e)) && LibErrors.TimeoutSign(e, GetErrorMessage(e)))
      ==> r == LibErrors.TimedOutText
    ensures (!LibErrors.SessionWords(GetErrorMessage(e)) && !LibErrors.TimeoutSign(e, GetErrorMessage(e)) && !online)
      ==> r == LibErrors.OfflineText
    ensures (online && !LibErrors.SessionWords(GetErrorMessage(e)) && !LibErrors.TimeoutSign(e, GetErrorMessage(e))) ==> (
      r == if LibErrors.NetworkWords(GetErrorMessage(e)) then LibErrors.NetworkText else GetErrorMessage(e))
    ensures !online && r != LibErrors.OfflineText ==> r in {LibErrors.SessionRefreshText, LibErrors.TimedOutText}
  {
    var m := GetErrorMessage(e);
    if LibErrors.SessionWords(m) then LibErrors.SessionRefreshText
    else if LibErrors.TimeoutSign(e, m) then LibErrors.TimedOutText
    else if !online then LibErrors.OfflineText
    else if LibErrors.NetworkWords(m) then LibErrors.NetworkText
    else m
  }

  /** The `Error <code>: <message>` branch is never taken: a plain object
      with a message or a string `error` field gets the same text whatever
      its code. (Without either, the text is the object's JSON rendering,
      which does show the code.) */
  lemma CodeNeverShown(m: Option<string>, c1: Option<string>, c2: Option<string>, t: Option<string>, s: Option<int>, j: string)
    requires m.Some? || t.Some?
    ensures GetErrorMessage(ObjectValue(m, c1, t, s, j)) == GetErrorMessage(ObjectValue(m, c2, t, s, j))
  {
  }

  /** The two `getErrorMessage` copies agree on `Error`s, primitives and
      plain objects without a code; they can differ only on a plain object
      carrying a code and a message (which `lib` explains by its code or
      replaces when empty) or on one with neither a message nor an `error`
      field (`lib`'s generic text against `utils`' JSON rendering). */
  lemma GetErrorMessageCopiesAgree(e: Thrown)
    ensures LibErrors.GetErrorMessage(e) != GetErrorMessage(e) ==>
      e.ObjectValue? && ((e.objCode.Some? && e.msg.Some?) || (e.msg.None? && e.errorText.None?))
    ensures (e.ObjectValue? && e.objCode.Some? && e.msg.Some? && LibErrors.KnownCodeText(e.objCode.value).None?
             && e.msg.value != "") ==> LibErrors.GetErrorMessage(e) == GetErrorMessage(e)
  {
  }

  /** Online and without an HTTP status the `lib` copy would explain, the
      two `formatSupabaseError` copies give the same text. */
  lemma FormatCopiesAgreeWithoutStatus(e: Thrown)
    requires LibErrors.StatusText(StatusProp(e)).None?
    ensures LibErrors.FormatSupabaseError(Some(e), true) == FormatSupabaseError(e)
  {
    var msg := MessageProp(e);
    if !LibErrors.KnownDbCode(CodeProp(e)) && !LibErrors.MentionsAny(msg) {
      assert LibErrors.FormatSupabaseError(Some(e), true)
          == if msg.Some? && msg.value != "" then msg.value else "An error occurred";
    }
  }

  /** Online, the two `handleCommonErrors` copies give the same text for a
      message both `getErrorMessage` copies read alike, unless it names
      `PGRST116`, which only `lib` explains. */
  lemma HandleCopiesAgreeOnline(e: Thrown)
    requires LibErrors.GetErrorMessage(e) == GetErrorMessage(e)
    requires !Contains(GetErrorMessage(e), "PGRST116")
    ensures LibErrors.HandleCommonErrors(e, true) == HandleCommonErrors(e, true)
  {
    var m := GetErrorMessage(e);
    if !LibErrors.SessionWords(m) && !LibErrors.TimeoutSign(e, m) && !LibErrors.NetworkWords(m) {
      assert LibErrors.HandleCommonErrors(e, true) == m;
    }
  }

  /** The two copies disagree offline: for an expired session, `lib` reports
      the lost connection and `utils` the expired session. */
  lemma OfflineOrderDiffers()
    ensures var e := NewError("JWT expired");
      LibErrors.HandleCommonErrors(e, false) == LibErrors.OfflineText
      && HandleCommonErrors(e, false) == LibErrors.SessionRefreshText
  {
    var e := NewError("JWT expired");
    assert GetErrorMessage(e) == "JWT expired";
    assert OccursAt("JWT expired", "JWT", 0);
    ContainsAt("JWT expired", "JWT");
  }
}

=== FILE: validation.dfy ===
/** The form schemas: each field's check, the message it reports, and the
    rule that a form is accepted exactly when no check reports an issue.
    The schema library reports every failing check, in field order, rather
    than stopping at the first. Whether a string is a well-formed URL or
    e-mail address is decided by the library's own parsers, which come in
    as predicates. */
module Validation {
  import opened Wrappers

  datatype Issue = Issue(path: string, message: string)

  /** The listing form: numbers are whole numbers here. `photoUrl` is
      `None` when absent and `Some(None)` when `null`. */
  datatype ListingForm = ListingForm(
    make: string, model: string, year: int, vin: Option<string>, pdiFee: Option<int>,
    conditionNotes: Option<string>, photoUrl: Option<Option<string>>, location: Option<string>)

  const MinYear := 1900

  /** The issues of a listing form, in field order, given the current
      calendar year and the URL check. */
  function ListingIssues(f: ListingForm, currentYear: int, isUrl: string -> bool): (r: seq<Issue>)
    ensures r == [] <==> (
      |f.make| >= 1 && |f.model| >= 1 && MinYear <= f.year <= currentYear + 1
      && (f.pdiFee.None? || f.pdiFee.value >= 0)
      && (f.photoUrl.None? || f.photoUrl.value.None? || isUrl(f.photoUrl.value.value)))
    ensures |f.make| == 0 ==> |r| > 0 && r[0] == Issue("make", "Make is required")
  {
    (if |f.make| < 1 then [Issue("make", "Make is required")] else [])
    + (if |f.model| < 1 then [Issue("model", "Model is required")] else [])
    + (if f.year < MinYear then [Issue("year", "Year must be 1900 or later")] else [])
    + (if f.year > currentYear + 1 then [Issue("year", "Year cannot be in the future")] else [])
    + (if f.pdiFee.Some? && f.pdiFee.value < 0 then [Issue("pdi_fee", "PDI fee cannot be negative")] else [])
    + (if f.photoUrl.Some? && f.photoUrl.value.Some? && !isUrl(f.photoUrl.value.value) then [Issue("photo_url", "Invalid url")] else [])
  }

  /** The listing schema's parse: the form itself, or all its issues. */
  function ParseListing(f: ListingForm, currentYear: int, isUrl: string -> bool): (r: Result<ListingForm, seq<Issue>>)
    ensures r.Ok? <==> ListingIssues(f, currentYear, isUrl) == []
    ensures r.Ok? ==> r.value == f
    ensures r.Err? ==> |r.error| > 0
  {
    var issues := ListingIssues(f, currentYear, isUrl);
    if issues == [] then Ok(f) else Err(issues)
  }

  /** Every failing check is reported: a form with an empty make, an empty
      model and a negative fee gets all three issues, in that order. */
  lemma IssuesAreCollected(f: ListingForm, currentYear: int, isUrl: string -> bool)
    requires |f.make| == 0 && |f.model| == 0 && MinYear <= f.year <= currentYear + 1
    requires f.pdiFee == Some(-1) && f.photoUrl.None?
    ensures ListingIssues(f, currentYear, isUrl)
      == [Issue("make", "Make is required"), Issue("model", "Model is required"), Issue("pdi_fee", "PDI fee cannot be negative")]
  {
  }

  /** The accepted years are exactly 1900 through next year. */
  lemma AcceptedYears(f: ListingForm, currentYear: int, isUrl: string -> bool)
    requires |f.make| >= 1 && |f.model| >= 1 && f.pdiFee.None? && f.photoUrl.None?
    ensures ParseListing(f, currentYear, isUrl).Ok? <==> MinYear <= f.year <= currentYear + 1
  {
  }

  /** The profile form; `brands` is `None` when the field is absent. */
  datatype ProfileForm = ProfileForm(dealerName: string, email: string, phone: Option<string>,
                                     address: Option<string>, brands: Option<seq<string>>)

  /** What the profile schema yields: the brands default to none. */
  datatype ProfileData = ProfileData(dealerName: string, email: string, phone: Option<string>,
                                     address: Option<string>, brands: seq<string>)

  function ParseProfile(f: ProfileForm, isEmail: string -> bool): (r: Result<ProfileData, seq<Issue>>)
    ensures r.Ok? <==> |f.dealerName| >= 1 && isEmail(f.email)
    ensures r.Ok? ==> (
      r.value.brands == (if f.brands.Some? then f.brands.value else [])
      && r.value.dealerName == f.dealerName && r.value.email == f.email)
    ensures r.Err? ==> (
      (Issue("dealer_name", "Dealer name is required") in r.error <==> |f.dealerName| == 0)
      && (Issue("email", "Invalid email address") in r.error <==> !isEmail(f.email)))
  {
    var issues := (if |f.dealerName| < 1 then [Issue("dealer_name", "Dealer name is required")] else [])
      + (if !isEmail(f.email) then [Issue("email", "Invalid email address")] else []);
    if issues == [] then Ok(ProfileData(f.dealerName, f.email, f.phone, f.address, if f.brands.Some? then f.brands.value else []))
    else Err(issues)
  }

  /** The message schema: any non-empty content, whitespace included. */
  function ParseMessage(content: string): (r: Result<string, seq<Issue>>)
    ensures r.Ok? <==> |content| >= 1
    ensures r.Ok? ==> r.value == content
    ensures r.Err? ==> r.error == [Issue("content", "Message cannot be empty")]
  {
    if |content| >= 1 then Ok(content) else Err([Issue("content", "Message cannot be empty")])
  }
}

=== FILE: wrappers.dfy ===
/** Optional values and success/failure results, used wherever the application
    works with a value that may be missing (`null`/`undefined`) or with an
    operation that may fail. */
module Wrappers {

  /** A value that may be absent: `null` or `undefined` in the application. */
  datatype Option<+T> = None | Some(value: T) {

    /** The wrapped value, or `default` when absent (the `??` / `||` fallback). */
    function GetOr(default: T): T {
      match this
      case Some(v) => v
      case None => default
    }
  }

  /** The outcome of an operation that either produces a value or fails with an error. */
  datatype Result<+T, +E> = Ok(value: T) | Err(error: E)
}
